=== FILE: README.md ===
# Touch journal: a verified model

The journal is a touch-driven diary for the browser. A day is a page of notes
placed where a long press or the radial action menu put them. Swipes, pinches
and keys move through days, weeks, months and years. The repository holds
several generations of the same app, and this model follows each as written:

- **the first app**: the root `app.js`, one self-contained class that does its own
  touch handling, keeps its notes in a date-keyed `Map`, hashes note titles and
  adds the daily verse. It keeps one cursor per zoom level and Sunday-first weeks.
- **the calendar app**: `src/js/`, with the calendar navigator, the week/month/year
  cells, the day export page, the story/video export, the microphone and
  image handler, and the shake detector. Its `calendar-navigator.js` imports
  `./touch-handler.js`, `./note-manager.js` and `./ui-renderer.js`.
  `src/js/touch-handler.js` and `src/js/note-manager.js` are not part of this
  model. The root `touch-handler.js` and `note-manager.js` are class modules of
  the shape it imports, and they stand in for them. The root `ui-renderer.js` is
  an older version of `src/js/ui-renderer.js`.
- **the modular app**: `scripts/`, with the date navigator, the date helpers, the
  swipe recogniser, the long-press tracker, the drag controller, the radial menu
  and its action factory, the content manager over the IndexedDB store, the
  settings loader, the view renderer, and the app that wires them together.

Each Dafny module follows one source class or file:

| module | models |
|---|---|
| `Civil` | proleptic Gregorian dates, serial day numbers, and the JavaScript `Date` carry rules of `setDate`, `setMonth`, `setFullYear` and `new Date(y, m, d)` |
| `Helpers`, `DateNavigator` | `scripts/utils/helpers.js` and `scripts/navigation/date-navigator.js`: keys, ISO week numbers, week/month/year date sets, period steps, zoom |
| `CalendarNavigator`, `CalendarCells` | `src/js/calendar-navigator.js` and the cell models of `src/js/ui-renderer.js`; the older root `ui-renderer.js` computes the same week, month and year cells without media slots, so the same members cover it. The navigator's note operations (`FindNoteById`, `AddDailyVerse`, `DropNote`) go through `NoteManager`, that is, through the root `note-manager.js` standing in for `src/js/note-manager.js` |
| `RootApp` | the root `app.js`: the per-level cursors, touch handling, note creation and loading, the daily verse |
| `TouchHandler`, `Notes`, `NoteManager`, `TitleHash` | the root `touch-handler.js` and `note-manager.js`: the touch state machine, the date-bucketed notes and the 32-bit title hash. The root `app.js` inlines the same code: its touch handlers are those of `touch-handler.js` with "is in day view" and "open the chat input" in place of the two callbacks, and its `createNote`, `generateTitle` and `loadNotes` are those of `note-manager.js`, except that the new note takes the long-press position with no fallback. So `RootApp` is built from these modules |
| `SwipeHandler`, `GestureTracker`, `DragController`, `ShakeDetector` | the gesture recognisers, as state machines stepped by explicit events |
| `MenuController`, `ActionFactory` | the radial menu's distance-based selection and the per-type item constructors |
| `KeyStore`, `DbManager` | IndexedDB object stores as key-ordered record lists, and the DB manager's items, settings, TTL cache, search and export/import |
| `Items`, `ContentManager` | the id-keyed item map and the content manager over the store |
| `Json`, `SettingsLoader` | JavaScript values as stored and merged, and dotted-path settings |
| `JournalApp`, `ViewRenderer` | `scripts/app.js` (keys, gestures, long press, action selection, refresh) and the data the view renderer derives |
| `ExportHandler`, `TikTokExport`, `MediaHandler` | the day export page's sections, the story image and video frames, and the recording and image handling |
| `Text`, `Seqs`, `Wrappers` | string operations (`String(n)`, `padStart`, `split`, `trim`, case mapping) and small shared definitions |

Conventions of the model:

- **Dates.** A date is a civil day `Date(year, month, day)` in the local calendar. Time of day and time zones play no part.
- **Time and timers.** The current day and the current time are parameters. A timer is an id handed out when it is armed, and a `Timeout(id)` event fires it.
- **Storage outcomes.** A storage request's outcome is a parameter `Io` (`Done` or `Fault`). A failing request changes nothing and yields the source's error text.
- **Maps and stores.** A JavaScript `Map` is a sequence in insertion order. An IndexedDB object store is a sequence of records ordered by key, with no key twice. That is the order `getAll` and index lookups return.
- **Parsing.** `JSON.parse` of item content is a parameter (`parse`) or a given parsed value. `JSON.stringify` is modelled on the values the app stringifies.
- **Atomic handlers.** Each asynchronous handler runs to completion before the next event. In particular, "at most one verse per day" in `addDailyVerse` holds only for calls that do not interleave. `init` renders twice in one tick, so two interleaved calls could both find no verse and both add one.
- **Two generations disagree.** Both behaviours are modelled as written:
  - Swipe up goes forward in the first app but back in the modular one.
  - Zooming in from a week resets the day to the week's Sunday in the first app but keeps it in the calendar app.
- **Only the current day loads.** The modular app loads only the current day's items into its current content, and its week view filters that content per day. So every other day of the week shows empty (`ViewRenderer.OnlyCurrentDayShows`).

## Model

| member | source | states |
|---|---|---|
| Civil.EraLength | scripts/utils/helpers.js:57-61 | four hundred Gregorian years are exactly 146097 days, so the calendar that JavaScript dates follow repeats by eras |
| Civil.Serial | scripts/utils/helpers.js:57-61 | a date's day number lies within the span of its own year |
| Civil.FromSerial | scripts/utils/helpers.js:57-61 | every day number is the day number of a valid date |
| Civil.SerialInjective | scripts/utils/helpers.js:51-55 | two valid dates have the same day number exactly when they are the same date |
| Civil.FromSerialSerial | scripts/utils/helpers.js:57-61 | numbering days and converting back returns the date: the numbering is a bijection |
| Civil.SerialOrder | scripts/utils/helpers.js:57-61 | day numbers order dates by year, then month, then day |
| Civil.Weekday | app.js:261 | `getDay()` lies in 0..6, Sunday first, advancing by one each day |
| Civil.AddDays | scripts/utils/helpers.js:57-61 | the date k days on is valid and its day number is k more |
| Civil.AddDaysAdd | scripts/utils/helpers.js:57-65 | moving a days and then b days is moving a + b days |
| Civil.WeekdayAddDays | scripts/utils/helpers.js:57-61 | k days on, the weekday advances by k modulo 7 |
| Civil.WeekdayAddWeeks | scripts/utils/helpers.js:63-65 | whole weeks keep the weekday |
| Civil.MakeDayInRange | scripts/utils/helpers.js:99 | on in-range fields the date constructor gives that very date |
| Civil.NewDate | scripts/utils/helpers.js:99-100 | `new Date(y, m, d)` carries the month and day fields over, and reads years 0..99 as 1900..1999 |
| Civil.SetDate | scripts/utils/helpers.js:57-61 | setting the day of month to v moves the date by v minus its current day |
| Civil.SetMonth | scripts/utils/helpers.js:67-71 | setting the month keeps the day of month, carrying the month into the year and the day past a short month's end |
| Civil.SetFullYear | scripts/utils/helpers.js:73-77 | setting the year keeps month and day of month, with the same carrying |
| Civil.SetDateRelative | scripts/utils/helpers.js:57-61 | `setDate(getDate() + k)` moves the date by exactly k days, across month and year ends |
| Civil.MakeDayOverflow | scripts/utils/helpers.js:67-71 | a month index carries into the year; a day beyond the month's length lands that many days after its last day |
| Civil.SetFullYearRelative | scripts/utils/helpers.js:73-77 | moving by whole years keeps month and day except 29 February into a common year, which becomes 1 March |
| Civil.IsoWeekday | scripts/utils/helpers.js:38 | `getDay() \|\| 7` is the ISO weekday, Monday 1 to Sunday 7 |
| Civil.MondayOf | scripts/utils/helpers.js:79-92 | the Monday of a date's ISO week is on or up to six days before it |
| Civil.IsoWeekYearNear | scripts/utils/helpers.js:38 | the Thursday of a date's week falls in the date's year or a neighbouring one |
| Civil.SameWeekday | scripts/utils/helpers.js:35-42 | dates on the same weekday are a whole number of weeks apart |
| Civil.Week1Monday | scripts/utils/helpers.js:35-42 | the Monday of week 1 is the Monday of the week holding 4 January |
| Civil.WeekNumberIsIso | scripts/utils/helpers.js:35-42 | the Thursday-based count `ceil((days since 1 January + 1) / 7)` is the ISO 8601 week number whenever `new Date(year, 0, 1)` takes the year literally |
| Civil.WeekNumberRange | scripts/utils/helpers.js:35-42 | under the same condition the week number is between 1 and 53 |
| Civil.DashPad | scripts/utils/helpers.js:17-18 | a dash and a two-digit padded field is three characters for values below 100 |
| Civil.DashPadInjective | scripts/utils/helpers.js:17-18 | distinct month or day numbers give distinct padded fields |
| Civil.DayKeyInjective | scripts/utils/helpers.js:15-22 | two valid dates share a day key exactly when they are equal |
| Civil.MonthKeyInjective | scripts/utils/helpers.js:26-27 | two dates share a month key exactly when they share year and month |
| Civil.DayKeyDigits | app.js:861 | removing the dashes from a day key leaves the year's digits, then the two-digit month and day |
| Civil.DayKeyDigitsMod10 | app.js:861-862 | the number read from a dash-less day key is congruent modulo 10 to the day of month |
| Civil.DayStep | app.js:117-121 | a day step moves the date by delta days |
| Civil.WeekStep | app.js:122-126 | a week step moves the date by seven times delta days |
| Civil.MonthStep | app.js:127-131 | a month step carries the day into the month delta months on |
| Civil.YearStep | app.js:132-136 | a year step keeps month and day when they exist in the year reached, and always lands in that year |
| Helpers.DateKey | scripts/utils/helpers.js:15-33 | the week, month and year levels give the week, month and year key; every other level name, `day` included, falls back to the day key |
| Helpers.DateKeyFormats | scripts/utils/helpers.js:15-31 | for four-digit years the day, month and year keys are the zero-padded `YYYY-MM-DD`, `YYYY-MM` and `YYYY` |
| Helpers.WeekKeyFormat | scripts/utils/helpers.js:23-25 | the week key is eight characters: the calendar year, `-W`, and a two-digit week number between 01 and 53 |
| Helpers.WeekNumberMatchesIso | scripts/utils/helpers.js:35-42 | the Thursday-based week count is the ISO 8601 week number (1..53), except when the Thursday's year is one `new Date(y, 0, 1)` reinterprets as 19yy |
| Helpers.IsSameDateByKey | scripts/utils/helpers.js:44-55 | comparing day, month and full year is equality of day keys, hence reflexive and symmetric; `isToday` is that test against the current day |
| Helpers.AddDaysTo | scripts/utils/helpers.js:57-61 | the result is the valid date exactly n days later, whose weekday is shifted by n modulo 7 |
| Helpers.AddDaysInverse | scripts/utils/helpers.js:57-61 | adding n days and then -n days returns the original date |
| Helpers.AddWeeks | scripts/utils/helpers.js:63-65 | 7n days later, on the same weekday |
| Helpers.AddMonthsSetsMonth | scripts/utils/helpers.js:67-71 | `addMonths(date, n)` is `setMonth(getMonth() + n)` on a copy of the date, for every date and every n |
| Helpers.AddMonthsInverse | scripts/utils/helpers.js:67-71 | when the day exists in the month reached, stepping n months and back -n months returns the date |
| Helpers.AddMonthsExact | scripts/utils/helpers.js:67-71 | when the day exists in the month reached, the result is that day in that month, with the year carried |
| Helpers.AddMonthsOverflow | scripts/utils/helpers.js:67-71 | a day past the end of the next month (31 January, 31 March, …) overflows into the month after it, and one month back from there lands in the next month, never on the starting date |
| Helpers.AddYears | scripts/utils/helpers.js:73-77 | the same month and day n years on; 29 February into a common year becomes 1 March |
| Helpers.WeekDates | scripts/utils/helpers.js:79-92 | seven dates, the i-th being i days after the Monday of the date's week (a Sunday belongs to the week that ends on it) |
| Helpers.WeekDatesMondayToSunday | scripts/utils/helpers.js:79-92 | the week starts on a Monday, ends on a Sunday, and its days are consecutive |
| Helpers.WeekDatesHoldDate | scripts/utils/helpers.js:79-92 | the date itself sits at its ISO weekday position; a Sunday's week starts six days before it |
| Helpers.GridStart | scripts/utils/helpers.js:99-101 | the grid begins on the Monday on or up to six days before the first of the month |
| Helpers.MonthDates | scripts/utils/helpers.js:94-114 | 42 consecutive days from the grid start, each flagged when its month number equals the date's |
| Helpers.MonthDatesExact | scripts/utils/helpers.js:94-114 | the month-number flag marks exactly the days of the date's own year and month, and every day of that month is in the grid |
| Helpers.YearMonths | scripts/utils/helpers.js:116-125 | twelve first-of-month dates in month order, with years 0..99 read as 1900..1999 as `new Date(y, m, 1)` does |
| Helpers.YearMonthsOrdered | scripts/utils/helpers.js:116-125 | the twelve month starts are strictly increasing |
| Helpers.Clamp | scripts/utils/helpers.js:156-158 | inside the range the value is kept, below it the minimum is returned, above it the maximum; with min > max the maximum always wins |
| Helpers.IsEmptyCases | scripts/utils/helpers.js:263-269 | only null, undefined and the empty string are empty, so `0`, `false`, `[]` and `{}` are not; an object is neither null nor an array |
| Helpers.MergeObjectsLookup | scripts/utils/helpers.js:271-285 | a key only the target has keeps its value; a key in the source takes the source's value, or the recursive merge when both values are plain objects |
| Helpers.MergeObjectsDistinct | scripts/utils/helpers.js:271-285 | the merged object has distinct property names |
| Helpers.MergeIntoDisjoint | scripts/utils/helpers.js:271-285 | source properties the target lacks are appended in the source's order |
| Helpers.MergeObjectsIdentities | scripts/utils/helpers.js:271-285 | merging an empty source gives the target; merging into an empty target gives the source |
| DateNavigator.SetCallbacks | scripts/navigation/date-navigator.js:12-14 | only the callbacks passed in are replaced; the others, the date and the level are kept |
| DateNavigator.IndexOf | scripts/navigation/date-navigator.js:41 | the position of the level among day, week, month and year, and -1 exactly when it is none of them |
| DateNavigator.StepDate | scripts/navigation/date-navigator.js:20-33 | one period step always yields a valid calendar date |
| DateNavigator.NavigatePeriod | scripts/navigation/date-navigator.js:16-38 | the date moves one period of the current level, the level and callbacks stay, and the date-change callback receives new date, old date and direction exactly when it is set |
| DateNavigator.NavigatePeriodUnits | scripts/navigation/date-navigator.js:17-33 | `up` steps back and anything else forward, by one day, seven days, one month (with overflow) or one year; an unknown level leaves the date alone |
| DateNavigator.NavigateDayWeekReversible | scripts/navigation/date-navigator.js:20-26 | a day or week step is undone by a step `up` |
| DateNavigator.NavigateMonthNotReversible | scripts/navigation/date-navigator.js:27-29 | from 31 January a month down and a month up lands in February, not on 31 January |
| DateNavigator.NavigateYearNotReversible | scripts/navigation/date-navigator.js:30-32 | from 29 February of a leap year a year down lands on 1 March, and a year up from there on 1 March of the leap year |
| DateNavigator.ZoomLevel | scripts/navigation/date-navigator.js:40-54 | `in` moves one level finer and anything else one coarser, clamped at day and year; the view-change callback fires only when the level changes and the callback is set |
| DateNavigator.ZoomInThenOut | scripts/navigation/date-navigator.js:40-54 | from week, month or year, zooming in and then out restores the navigator |
| DateNavigator.ZoomOutThenIn | scripts/navigation/date-navigator.js:40-54 | from day, week or month, zooming out and then in restores the navigator |
| DateNavigator.ZoomAtEnds | scripts/navigation/date-navigator.js:47 | zooming in at day or out at year changes nothing and reports nothing |
| DateNavigator.ZoomUnknownLevel | scripts/navigation/date-navigator.js:41-48 | a level outside the four names becomes day in either direction |
| DateNavigator.GoToToday | scripts/navigation/date-navigator.js:56-63 | the date becomes the current day, and the callback is told `today` with the old date |
| DateNavigator.GoToDate | scripts/navigation/date-navigator.js:65-72 | the date becomes the given one with the level kept, and the callback is told `jump` |
| DateNavigator.GetDateKey | scripts/navigation/date-navigator.js:74-101 | the navigator's key is the shared date key of its date at its level |
| CalendarNavigator.Init | src/js/calendar-navigator.js:11-29 | the navigator starts in day view on the current day, with no week, month or year cursor yet |
| CalendarNavigator.GetWeekStart | src/js/calendar-navigator.js:151-156 | the week starts on the Sunday on or up to six days before the date |
| CalendarNavigator.Navigate | src/js/calendar-navigator.js:59-109 | each level moves only its own cursor: the day by days, the week start by 7-day steps, the month with day overflow, the year by whole years |
| CalendarNavigator.NavigateForward | src/js/calendar-navigator.js:59-83 | forward is one step of the level's period |
| CalendarNavigator.NavigateBackward | src/js/calendar-navigator.js:85-109 | backward is one step back |
| CalendarNavigator.ZoomOut | src/js/calendar-navigator.js:111-129 | day goes to the week starting on its Sunday, week to a month cursor at the week start, month to a year cursor at the month; year stays |
| CalendarNavigator.ZoomIn | src/js/calendar-navigator.js:131-149 | week goes back to the day (which the week level never changed), month to the week of its Sunday, year to a month cursor at the year; day stays |
| CalendarNavigator.JumpToDate | src/js/calendar-navigator.js:197-201 | jumping opens the day view on that date and keeps the other cursors |
| CalendarNavigator.OnSwipe | src/js/calendar-navigator.js:47-56 | swipe up goes forward, down backward, left zooms out and right zooms in |
| CalendarNavigator.WeekSwipesKeepDate | src/js/calendar-navigator.js:59-109 | in week view any run of forward and backward steps leaves the day view's date where it was |
| CalendarNavigator.OutWeeksInReturns | src/js/calendar-navigator.js:111-149 | zooming out to a week, paging through weeks and zooming in returns to the day that was open |
| CalendarNavigator.WeekStartSameMonth | src/js/calendar-navigator.js:151-156 | the week start is in the date's month exactly when the day of month exceeds the weekday number |
| CalendarNavigator.DayWeekMonthShowsSundaysMonth | src/js/calendar-navigator.js:111-129 | zooming out twice from a day shows the month of that week's Sunday, which differs from the day's own month early in a month |
| CalendarNavigator.FindNoteById | src/js/calendar-navigator.js:203-212 | a note is found exactly when some day holds the id, and it carries that id |
| CalendarNavigator.GetDailyVerse | src/js/calendar-navigator.js:627-647 | the verse is the entry indexed by the day of month modulo 10 |
| CalendarNavigator.AddDailyVerse | src/js/calendar-navigator.js:600-625 | a day that already has a verse note is left alone; otherwise one verse note with the day's verse text, shade 1 and its reference, marked unread, is appended to that day, saved, then updated |
| CalendarNavigator.AddDailyVerseIdempotent | src/js/calendar-navigator.js:600-605 | adding the daily verse a second time changes nothing and writes nothing |
| CalendarNavigator.AddDailyVerseAddsOne | src/js/calendar-navigator.js:600-625 | a day without a verse gains exactly one note, and then has a verse |
| CalendarNavigator.DropNote | src/js/calendar-navigator.js:476-489 | a drop on the bin deletes the note from the current day and the store; any other drop writes the moved note |
| CalendarCells.IsSameDayIsEquality | src/js/ui-renderer.js:287-293 | same day, month and full year is date equality, hence symmetric and reflexive |
| CalendarCells.HeaderTitle | ui-renderer.js:35-162 | the header is empty exactly in day view; week and month show the year and short month name, year view the year alone |
| CalendarCells.WeekCells | src/js/ui-renderer.js:77-91 | seven consecutive days from the week start, each highlighted exactly when it is today or the selected day |
| CalendarCells.WeekCellsShowCurrent | src/js/ui-renderer.js:77-91 | when the selected day is in the week, exactly its cell holds it and that cell is highlighted |
| CalendarCells.OfKindsMembers | src/js/ui-renderer.js:99 | the filter keeps exactly the day's notes of the given types |
| CalendarCells.WeekMedia | src/js/ui-renderer.js:97-130 | at most two text notes above each day and at most two images or recordings below, the first of each in order |
| CalendarCells.SundayGridStart | src/js/ui-renderer.js:180-191 | the month grid starts on the Sunday on or up to six days before the first of the month |
| CalendarCells.MonthCells | src/js/ui-renderer.js:196-236 | 42 consecutive days from the grid start, dimmed exactly when the month number differs, highlighted exactly when it is today |
| CalendarCells.MonthCellYear | src/js/ui-renderer.js:196-200 | a cell with the shown month's number is in the shown year |
| CalendarCells.MonthCellOfDay | src/js/ui-renderer.js:196-236 | every day of the shown month has a cell |
| CalendarCells.MonthCellsExact | src/js/ui-renderer.js:196-236 | the undimmed cells are exactly the days of the shown month, and all of them appear |
| CalendarCells.KindsPresent | src/js/ui-renderer.js:211-228 | an indicator kind is listed exactly when it is a tracked type some note of the day has |
| CalendarCells.Indicators | src/js/ui-renderer.js:205-231 | no dots on dimmed cells or empty days; otherwise one dot per type among text, image, audio and verse that the day has |
| CalendarCells.KindsPresentOrdered | src/js/ui-renderer.js:225-229 | the dots keep the fixed type order text, image, audio, verse |
| CalendarCells.YearDay | src/js/ui-renderer.js:267 | the i-th cell is `new Date(year, 0, 1 + i)` |
| CalendarCells.YearCells | src/js/ui-renderer.js:255-270 | one cell per day of the year by the leap rule, each highlighted exactly when it is today |
| CalendarCells.YearCellSerial | src/js/ui-renderer.js:266-268 | the cells are consecutive days from 1 January |
| CalendarCells.YearCellsCoverYear | src/js/ui-renderer.js:255-270 | for years the constructor takes literally, the cells are exactly the year's days, each once, in order |
| CalendarCells.YearCellsTwoDigitYear | src/js/ui-renderer.js:261-267 | for years 0..99 the cells run through 1900..1999 instead, and for year 0 there is one cell more than 1900 has days |
| RootApp.Init | app.js:2-24 | the app starts in day view on the current day with no notes, shade 1 and the chat input closed |
| RootApp.ZoomIn | app.js:187-205 | from week the day view opens on the week's Sunday; from month on the week of the month cursor's Sunday; from year on a month cursor at the year; day stays |
| RootApp.ZoomInGenerations | app.js:187-205 | this zoom-in agrees with the later navigator's except from a week, where the two agree exactly when the open day is the week's Sunday |
| RootApp.OutInLandsOnSunday | app.js:167-205 | zooming out of a day and back in lands on the Sunday on or before it, so the day survives only when it is a Sunday |
| RootApp.OnSwipe | app.js:99-113 | up goes forward, down backward, left zooms out and right zooms in |
| RootApp.SwipeUpDownReturns | app.js:115-165 | in day or week view a swipe up followed by a swipe down returns to where it was |
| RootApp.OnTouch | app.js:26-97 | a touch event updates the touch state; a fired long press opens the chat input, a swipe moves the cursors, and the notes and shade never change |
| RootApp.NoLongPressOutsideDay | app.js:36 | outside day view a touch start arms no timer and records no position |
| RootApp.HoldOpensChat | app.js:36-43 | in day view a touch held still past the delay opens the chat input at the touch point without moving the cursors |
| RootApp.CreateNote | app.js:578-606 | the note, with the selected shade at the last recorded long-press position, is appended to the current day only and saved; nothing else in the app changes (the re-render that follows is RootApp.RenderNotes) |
| RootApp.CreateNoteAtLongPress | app.js:592-594 | the created note sits at the recorded long-press position with the selected shade and a title of one to six characters, and its day gains exactly one note |
| RootApp.VerseNote | app.js:817-828 | the verse note's id is `<key>_verse_<time>`; it is titled by the reference, has no shade, sits at (centre - 100, 150) and is unread |
| RootApp.AddDailyVerse | app.js:809-843 | a day with a verse is left alone; otherwise the day's verse note is appended to that day and saved, and nothing else changes |
| RootApp.AddDailyVerseOnce | app.js:809-843 | a second call after the first adds nothing, and the verse added is the one indexed by the day of month modulo 10 |
| RootApp.RenderNotes | app.js:652-710 | outside day view rendering does nothing; in day view its only state change is the daily verse addition |
| RootApp.LoadNotes | app.js:630-650 | loading replaces the map with every stored note grouped under its own date, keys distinct, and changes nothing else |
| Notes.KeyIndex | note-manager.js:20 | the position of the first bucket with the key, and -1 exactly when no bucket has it (`Map.has`) |
| Notes.Get | note-manager.js:363-367 | `Map.get` is absent exactly when the key is missing, and otherwise is the notes stored under it |
| Notes.NotesFor | note-manager.js:365-366 | `get(key) \|\| []`: a missing key reads as no notes |
| Notes.Push | note-manager.js:19-23 | pushing under an existing key keeps the key order; a new key is appended at the end, as `Map.set` does |
| Notes.PushNotesFor | note-manager.js:49-53 | pushing appends the note to its own day's list and leaves every other day's list unchanged |
| Notes.PushDistinct | note-manager.js:49-53 | pushing keeps the map's keys distinct |
| Notes.GroupNotesFor | note-manager.js:14-28 | after loading, each day's list is exactly the loaded notes of that date, in load order |
| Notes.GroupKeys | note-manager.js:14-28 | after loading, the keys are distinct and are exactly the dates that occur among the loaded notes |
| Notes.FindIndex | note-manager.js:95 | `findIndex` gives the first note with the id, or -1 exactly when none has it |
| Notes.RemoveFirst | note-manager.js:94-98 | `splice(index, 1)` removes exactly the first note with the id, keeping the rest in order; nothing changes when the id is absent |
| Notes.UpdateFirst | note-manager.js:79-83 | the first note with the id is replaced in place and the length is kept; nothing changes when the id is absent |
| Notes.ModifyBucketNotesFor | note-manager.js:91-99 | replacing one day's list changes that day only, and the key order is kept |
| Notes.FindPosFrom | src/js/calendar-navigator.js:203-212 | the search finds the first day (in map order) holding the id and the first position in it, or reports that no later day holds it |
| Notes.FindById | src/js/calendar-navigator.js:203-212 | `findNoteById` returns a note with the id exactly when some day holds one, and then the first in map order |
| TitleHash.ToInt32 | note-manager.js:67-68 | `hash & hash` reduces to the signed 32-bit range and keeps values already in it |
| TitleHash.ToInt32Shift | note-manager.js:67-68 | the reduction ignores multiples of 2^32 |
| TitleHash.Utf16 | note-manager.js:65-66 | `charCodeAt` reads one UTF-16 unit per character below U+10000 and two above |
| TitleHash.StepIs31 | note-manager.js:67-68 | `(hash << 5) - hash + char` followed by `hash & hash` is 31·hash + char reduced to 32 bits |
| TitleHash.HashIsPoly | note-manager.js:62-69 | the loop's hash is the base-31 polynomial of the code units, reduced to 32 bits once at the end |
| TitleHash.ToBase36 | note-manager.js:70 | `toString(36)` is a non-empty string of base-36 digits |
| TitleHash.ToBase36Length | note-manager.js:70 | a number below 36^k has at most k base-36 digits |
| TitleHash.UpperBase36 | note-manager.js:70 | the upper-cased base-36 digits read back as the number |
| TitleHash.TitleOfHash | note-manager.js:70 | the title has one to six characters from 0-9 and A-Z, reads back as the hash's absolute value, and two hashes give the same title exactly when their absolute values agree |
| TitleHash.GenerateTitle | note-manager.js:61-71 | titles are one to six upper-case base-36 characters; the empty string gets `0` |
| TitleHash.GenerateTitleValue | note-manager.js:61-71 | the title encodes the absolute 32-bit polynomial hash of the content, or of the word `image` for non-string content |
| NoteManager.LoadNotes | note-manager.js:14-28 | a successful load regroups the notes by date with distinct keys, each day's list being the loaded notes of that date; a failed load keeps the old map; drag state is untouched |
| NoteManager.OrFallback | note-manager.js:44-45 | `position?.x \|\| fallback`: a missing position or a zero coordinate takes the centre of the window |
| NoteManager.MakeNote | note-manager.js:30-47 | the id is the date key, the time and a random suffix joined by `_`; the note carries the date key, content, type, title hash, shade, position and time |
| NoteManager.CreateNote | note-manager.js:30-58 | the new note is appended to its day's list only, a new day key goes to the end of the map, and the note is saved |
| NoteManager.CreatedIdPrefix | note-manager.js:32 | a created note's id starts with its date key and `_` |
| NoteManager.UpdateNotePosition | note-manager.js:79-88 | only the note's coordinates change, in its own day's list, and the changed note is written to the store |
| NoteManager.DeleteNote | note-manager.js:90-105 | the first note with the id is removed from the current day's list only, and the store delete is issued whether or not it was found |
| NoteManager.DeleteNoteOtherDay | note-manager.js:90-99 | a note dated on another day than the current one stays in memory although the store deletes it |
| NoteManager.RecycleBinClosed | note-manager.js:351-357 | the hit test includes the bin's edges, excludes points outside them, and fails when there is no bin |
| NoteManager.StartNoteDrag | note-manager.js:264-287 | starting a drag marks the note dragged and the manager in drag mode, and leaves the notes alone |
| NoteManager.EndNoteDrag | note-manager.js:289-318 | drag mode ends either way; a drop on the bin asks for deletion and writes nothing, any other drop moves the note to its element's position and saves it |
| NoteManager.NoteTouchEnd | note-manager.js:248-258 | a touch end matters only for the note being dragged, and then ends the drag |
| TouchHandler.Classify | touch-handler.js:57-81 | no swipe when both deltas are below 50 or more than 300 ms passed; otherwise horizontal exactly when the x delta is larger, positive deltas going right or down |
| TouchHandler.ClearTimer | touch-handler.js:37-41 | `clearTimeout` cancels the held timer and drops the handle |
| TouchHandler.Step | touch-handler.js:14-87 | a touch start in day view records the position and arms a fresh timer; a long press fires exactly when a pending timer runs out; a swipe is reported only on a touch end with a start and no long press |
| TouchHandler.NoLongPressOutsideDayView | touch-handler.js:24 | outside day view a touch start arms no timer |
| TouchHandler.MoveCancelsLongPress | touch-handler.js:36-42 | a move after a single touch start cancels its long press |
| TouchHandler.NoSwipeAfterLongPress | touch-handler.js:51-54 | the touch end after a long press reports no swipe and resets the flag |
| TouchHandler.SwipeReported | touch-handler.js:57-85 | a quick enough, long enough touch reports its direction and forgets the start |
| TouchHandler.OrphanedTimerFires | touch-handler.js:18-42 | a second touch start overwrites the handle of the first timer, so a move cannot cancel it and the long press fires at the second position |
| TouchHandler.StepCorrected | touch-handler.js:14-87 | with every armed timer tracked and the start tested for presence, long presses and swipes follow the same rules |
| TouchHandler.CorrectedMoveCancelsAll | touch-handler.js:36-42 | tracking every armed timer lets a move cancel all of them |
| TouchHandler.EdgeStartNoSwipe | touch-handler.js:57 | `!startX` rejects a touch that starts at x = 0, so a 200-pixel quick swipe from the left edge does nothing |
| TouchHandler.CorrectedEdgeStartSwipes | touch-handler.js:57 | testing for a missing start instead of a zero one lets that swipe go right |
| SwipeHandler.Configure | scripts/navigation/swipe-handler.js:2-21 | `options.x \|\| default`: a missing or zero threshold or velocity takes 50 or 0.3; the callbacks given are the gestures reported |
| SwipeHandler.SectorsPartition | scripts/navigation/swipe-handler.js:122-127 | the four angle sectors cover every direction and do not overlap, so the final `return null` is unreachable |
| SwipeHandler.Sector | scripts/navigation/swipe-handler.js:122-127 | the direction is right, down, left or up exactly when the movement's angle lies in that sector (boundaries as in the source) |
| SwipeHandler.DetectSwipe | scripts/navigation/swipe-handler.js:112-130 | no swipe exactly when the distance is below the threshold or the speed below the minimum; otherwise the sector of the movement |
| SwipeHandler.DefaultGates | scripts/navigation/swipe-handler.js:4-5 | with the defaults, 50 pixels is far enough and 49 is not; 50 pixels in 166 ms is fast enough and in 167 ms is not |
| SwipeHandler.PinchDistance | scripts/navigation/swipe-handler.js:137-143 | the pinch distance is non-negative and 0 unless exactly two fingers are down |
| SwipeHandler.Fire | scripts/navigation/swipe-handler.js:132-135 | a gesture is reported exactly when its callback is set |
| SwipeHandler.Reset | scripts/navigation/swipe-handler.js:145-151 | reset clears start, touches and pinch base and keeps only the last tap time |
| SwipeHandler.Step | scripts/navigation/swipe-handler.js:33-103 | every event keeps the handler's state well formed and reports at most one gesture |
| SwipeHandler.SwipeOnlyFromOneTouch | scripts/navigation/swipe-handler.js:72-93 | a swipe is reported only at the end of a one-finger touch with a start, and then it is exactly the detected, registered direction |
| SwipeHandler.LastLiftResets | scripts/navigation/swipe-handler.js:95-103 | lifting the last finger, or a cancel, resets the handler |
| SwipeHandler.ThreeQuickTapsFireTwice | scripts/navigation/swipe-handler.js:43-47 | three taps 200 ms apart report a double tap on the second and again on the third, since every tap restarts the window |
| SwipeHandler.PinchRebaselines | scripts/navigation/swipe-handler.js:56-68 | a two-finger move beyond 30 pixels of change reports pinch out or in and becomes the new base; a smaller change does nothing |
| SwipeHandler.PinchOutBySquares | scripts/navigation/swipe-handler.js:57-60 | the pinch-out test on distances is the same as the test on squared distances |
| GestureTracker.OrDefault | scripts/radial-menu/gesture-tracker.js:4-5 | `value \|\| default`: a missing or zero option takes the default |
| GestureTracker.Configure | scripts/radial-menu/gesture-tracker.js:2-21 | the delay and threshold default to 500 and 10 and are never zero |
| GestureTracker.Fire | scripts/radial-menu/gesture-tracker.js:142-184 | a callback is invoked exactly when it is set |
| GestureTracker.FindTouch | scripts/radial-menu/gesture-tracker.js:47-48 | a touch is found exactly when one carries the tracked identifier, and it is that touch |
| GestureTracker.StartTracking | scripts/radial-menu/gesture-tracker.js:91-100 | tracking starts at the press point with a fresh long-press timer armed |
| GestureTracker.Reset | scripts/radial-menu/gesture-tracker.js:120-140 | ending or cancelling clears every flag and point and cancels the held timer |
| GestureTracker.Step | scripts/radial-menu/gesture-tracker.js:37-200 | every event keeps the tracker well formed, never gives back a cleared timer handle, and invokes at most one callback |
| GestureTracker.StepCorrected | scripts/radial-menu/gesture-tracker.js:37-200 | the variant that drops the timer handle when the long press starts is well formed too and invokes at most one callback |
| GestureTracker.Run | scripts/radial-menu/gesture-tracker.js:37-200 | any event sequence keeps the tracker well formed |
| GestureTracker.StartIgnoredWhileTracking | scripts/radial-menu/gesture-tracker.js:38-67 | a second press while tracking changes nothing |
| GestureTracker.PressStartsTracking | scripts/radial-menu/gesture-tracker.js:37-71 | a touch or left-button press starts tracking with that pointer and arms a timer; other buttons are ignored |
| GestureTracker.SmallMoveSilent | scripts/radial-menu/gesture-tracker.js:102-118 | a mouse move within the threshold only records the point |
| GestureTracker.SmallTouchMoveSilent | scripts/radial-menu/gesture-tracker.js:44-51 | a move of the tracked touch within the threshold only records the point |
| GestureTracker.FarMoveStartsDrag | scripts/radial-menu/gesture-tracker.js:107-111 | moving past the threshold before the delay cancels the timer and starts a drag at the start point, so the timer no longer fires |
| GestureTracker.TimeoutStartsLongPress | scripts/radial-menu/gesture-tracker.js:97-148 | the timer firing starts a long press and reports the start point |
| GestureTracker.ReleaseEnds | scripts/radial-menu/gesture-tracker.js:79-132 | mouse release ends a drag or long press at the current point and resets the tracker |
| GestureTracker.TouchReleaseEnds | scripts/radial-menu/gesture-tracker.js:53-132 | lifting the tracked touch does the same |
| GestureTracker.CancelSilent | scripts/radial-menu/gesture-tracker.js:62-140 | a touch cancel resets without any callback |
| GestureTracker.ForeignPointerIgnored | scripts/radial-menu/gesture-tracker.js:44-89 | mouse events during a touch, and touch events without the tracked identifier, are ignored |
| GestureTracker.NoLongPressMoveStep | scripts/radial-menu/gesture-tracker.js:107-116 | once the long press has started the stale timer handle is still set, so a far move takes the first branch and never reports a long-press move |
| GestureTracker.LongPressMoveUnreachable | scripts/radial-menu/gesture-tracker.js:107-116 | from a fresh tracker no event sequence ever invokes the long-press move callback |
| GestureTracker.RunKeepsHandle | scripts/radial-menu/gesture-tracker.js:97-116 | from any state that keeps the handle, no sequence of events reports a long-press move |
| GestureTracker.HoldMoveReleaseLosesMenu | scripts/radial-menu/gesture-tracker.js:97-132 | hold, move far and release as written: the long press starts but the move turns into a silent drag start and the release reports nothing |
| GestureTracker.CorrectedHoldMoveRelease | scripts/radial-menu/gesture-tracker.js:97-132 | with the handle dropped when the long press starts, the same gesture reports long-press start, move and end |
| DragController.Init | scripts/content/drag-controller.js:2-13 | the threshold is the option or 10 when it is missing or zero; nothing is draggable or dragged yet |
| DragController.FindDraggableParent | scripts/content/drag-controller.js:196-207 | the walk up from the target returns the nearest marked ancestor below the container, and nothing exactly when there is none before the container |
| DragController.MakeDraggable | scripts/content/drag-controller.js:29-36 | the element is marked; its callbacks are stored only when at least one of start, move and end is given |
| DragController.RemoveDraggable | scripts/content/drag-controller.js:38-42 | the element is unmarked and its callbacks forgotten; other elements keep theirs |
| DragController.RemoveUndoesMake | scripts/content/drag-controller.js:29-42 | removing a freshly made draggable element restores the controller |
| DragController.Call | scripts/content/drag-controller.js:163-194 | an element's callback runs exactly when the dragged element registered it |
| DragController.Reset | scripts/content/drag-controller.js:209-214 | reset ends the drag and forgets the element, keeping registrations and constraints |
| DragController.Step | scripts/content/drag-controller.js:44-161 | every event keeps the controller well formed and never changes registrations or the container |
| DragController.PressArms | scripts/content/drag-controller.js:44-69 | a left press on a draggable element records it, the press point and the offset inside its box without dragging yet; elsewhere nothing happens |
| DragController.SmallMoveSilent | scripts/content/drag-controller.js:83-93 | a move within the threshold before a drag does nothing |
| DragController.FarMoveStartsDrag | scripts/content/drag-controller.js:83-105 | the first move past the threshold starts the drag and places the element at the pointer minus the offset, reporting start then move |
| DragController.DragFollowsPointer | scripts/content/drag-controller.js:95-104 | during a drag every move places the element at the pointer minus the offset and reports a move only |
| DragController.ReleaseResets | scripts/content/drag-controller.js:107-150 | release reports the drag's end with the element's box only when a drag was under way, and resets |
| DragController.CancelResets | scripts/content/drag-controller.js:128-161 | a cancel resets and reports only when dragging; leaving the window outside a drag does nothing |
| DragController.PressDragRelease | scripts/content/drag-controller.js:44-150 | press, far move and release on a registered element report start, move at the pointer minus offset, and end, then the controller is idle |
| DragController.ApplyConstraints | scripts/content/drag-controller.js:232-239 | without constraints the point is kept; with them each coordinate is clamped into its range, the minimum winning when the range is empty |
| DragController.ApplyConstraintsIdempotent | scripts/content/drag-controller.js:232-239 | constraining twice is constraining once |
| DragController.SetDragConstraints | scripts/content/drag-controller.js:224-226 | the four bounds are stored and nothing else changes |
| DragController.ClearDragConstraints | scripts/content/drag-controller.js:228-230 | the constraints are removed and nothing else changes |
| MenuController.Configure | scripts/radial-menu/menu-controller.js:12-18 | a given radius or step wins over the defaults 60 and 30, as the `...options` spread does; the menu starts hidden with nothing selected |
| MenuController.Isqrt | scripts/radial-menu/menu-controller.js:109-113 | the integer square root r satisfies r² ≤ n < (r + 1)² |
| MenuController.SelectionIndex | scripts/radial-menu/menu-controller.js:122 | `Math.floor(distance / step)` is the k with (k·step)² ≤ d² < ((k + 1)·step)² |
| MenuController.SelectionIndexUnique | scripts/radial-menu/menu-controller.js:122 | that k is the only index whose band holds the squared distance |
| MenuController.ClearSelection | scripts/radial-menu/menu-controller.js:140-145 | the selection and every active mark are cleared, nothing else |
| MenuController.UpdateSelection | scripts/radial-menu/menu-controller.js:121-138 | an index within the nine actions selects that action and marks only it; an index past the end clears the selection |
| MenuController.Show | scripts/radial-menu/menu-controller.js:71-87 | the menu becomes active at the press point |
| MenuController.Hide | scripts/radial-menu/menu-controller.js:89-171 | hiding or cancelling deactivates the menu and clears the selection |
| MenuController.UpdatePosition | scripts/radial-menu/menu-controller.js:95-107 | a hidden menu ignores moves; an active one selects by the distance from the press point |
| MenuController.ConfirmSelection | scripts/radial-menu/menu-controller.js:162-167 | the selected action's id is reported exactly when there is a selection and a callback, and the menu is hidden either way |
| MenuController.CloseSelectsNote | scripts/radial-menu/menu-controller.js:121-129 | any point less than one step away selects `note` |
| MenuController.FarClears | scripts/radial-menu/menu-controller.js:123-126 | nine steps or more away nothing is selected or marked |
| MenuController.DistanceAlone | scripts/radial-menu/menu-controller.js:121-138 | the selection depends on the distance alone, not its direction |
| MenuController.BandSelectsAction | scripts/radial-menu/menu-controller.js:95-166 | a point whose distance from the centre lies in the k-th band of `distancePerOption` selects action k, and confirming reports that action to the callback |
| MenuController.ShowMoveConfirm | scripts/radial-menu/menu-controller.js:71-167 | show, move and confirm report the action the distance selects, or nothing beyond the last action |
| ShakeDetector.Setup | src/js/shake-detector.js:17-38 | the listener is attached, and the detector listening, exactly when motion events exist and no permission is needed or the answer is 'granted'; no baseline or cooldown yet |
| ShakeDetector.AbsReal | src/js/shake-detector.js:50-52 | `Math.abs` is non-negative and is the value or its negation |
| ShakeDetector.Jolt | src/js/shake-detector.js:50-54 | the summed per-axis change is non-negative, and zero exactly when the samples are equal |
| ShakeDetector.JoltSymmetric | src/js/shake-detector.js:50-52 | the order of the two samples does not matter |
| ShakeDetector.TriggerShake | src/js/shake-detector.js:71-84 | a shake plays the pop sound first, vibrates for 50 ms exactly when vibration is available, and calls the callback last exactly when one is set |
| ShakeDetector.Step | src/js/shake-detector.js:40-110 | an event has effects only when it is a sample that the attached listener compares with a baseline and finds above the threshold, with no cooldown running; an attached listener always keeps the latest sample as the baseline, and other events keep it |
| ShakeDetector.StepCorrected | src/js/shake-detector.js:105-110 | with the same function removed as added, `destroy` on a listening detector detaches the listener |
| ShakeDetector.FirstSampleIsBaseline | src/js/shake-detector.js:43-48 | the first sample only records the baseline |
| ShakeDetector.ShakeIff | src/js/shake-detector.js:50-64 | after the baseline, a sample triggers exactly when its summed change exceeds 15 and no cooldown runs; a trigger arms a 1000 ms cooldown, otherwise the cooldown is unchanged |
| ShakeDetector.ThresholdIsStrict | src/js/shake-detector.js:10-54 | a change of exactly 15 does not trigger and one of 15.5 does |
| ShakeDetector.CooldownSuppresses | src/js/shake-detector.js:56-68 | while the cooldown runs no run of samples triggers, the cooldown stays, and the baseline is the latest sample |
| ShakeDetector.TimeoutEndsCooldown | src/js/shake-detector.js:60-62 | the cooldown's own timer ends it, and no other timer changes anything |
| ShakeDetector.DestroyedStillShakes | src/js/shake-detector.js:36-110 | as written, after `destroy` the flag is down but a large jolt still calls the callback |
| ShakeDetector.CorrectedDestroyStops | src/js/shake-detector.js:105-110 | corrected, once destroyed no sample has any effect |
| ActionFactory.Register | scripts/radial-menu/action-factory.js:19-21 | `Map.set`: the kind maps to the new builder, every other kind keeps its builder, and the kinds are the old ones plus this one |
| ActionFactory.Shade | scripts/radial-menu/action-factory.js:41 | `Math.floor(random * 5) + 1` is the shade s in 1..5 with s - 1 ≤ 5·random < s |
| ActionFactory.DateOr | scripts/radial-menu/action-factory.js:42 | `options.date \|\| today`: a given date is kept and an empty or missing one becomes today's key |
| ActionFactory.Build | scripts/radial-menu/action-factory.js:32-200 | every builder except email, and photo without a chosen file, yields an item of its kind with the fresh id, the time and the date; only note, todos, thai and ai items have a shade (1..5); every item's box contains the press point; a thai item holds one of the three word cards, the one the word draw picks |
| ActionFactory.PickWord | scripts/radial-menu/action-factory.js:142-148 | `words[Math.floor(Math.random() * 3)]` is one of the three cards, Hello, Thank you or Never mind |
| ActionFactory.WordBands | scripts/radial-menu/action-factory.js:148 | the k-th card is drawn exactly when the draw lies in [k/3, (k+1)/3) |
| ActionFactory.Opens | scripts/radial-menu/action-factory.js:136-139 | only the email action opens a window, on `mailto:?subject=Journal Entry&body=` |
| ActionFactory.EachBuilderActs | scripts/radial-menu/action-factory.js:32-200 | every constructor builds an item or opens the mail window, never both, unless the photo picker returns no file; the mail window is opened exactly by email |
| ActionFactory.Create | scripts/radial-menu/action-factory.js:23-30 | an unregistered kind fails with `Unknown action type: <kind>`; a registered one runs its builder |
| ActionFactory.DefaultsMatchMenu | scripts/radial-menu/action-factory.js:7-17 | the default kinds are exactly the nine actions of the radial menu |
| ActionFactory.DefaultKinds | scripts/radial-menu/action-factory.js:7-17 | every default kind other than email (and photo without a file) creates an item of that kind |
| ActionFactory.RegisterOverwrites | scripts/radial-menu/action-factory.js:19-30 | after registering, the kind uses the new builder and every other kind behaves as before |
| ActionFactory.DefaultGeometry | scripts/radial-menu/action-factory.js:32-194 | each kind's offset and size: note (-50,-50) 200×150, photo (-75,-75) 150×150, audio and video (-75,-50) 150×100, todos (-75,-50) 250×200, timer (-60,-60) 120×120, thai (-100,-50) 200×100, ai (-100,-75) 250×150 |
| ActionFactory.CentredKinds | scripts/radial-menu/action-factory.js:52-194 | photo, audio, video, timer and thai items are centred on the press point |
| ActionFactory.CreatedItemsHaveDates | scripts/radial-menu/action-factory.js:42 | every created item has a non-empty date |
| Items.Assign | scripts/content/content-manager.js:74 | `Object.assign` keeps the id and takes each given field from the update and every other field from the item |
| Items.AssignIdentityIdempotent | scripts/content/content-manager.js:74 | an empty update changes nothing, and applying an update twice is applying it once |
| Items.MoveChangesOnlyPosition | scripts/content/content-manager.js:74 | a position update changes x and y only |
| Items.Find | scripts/content/content-manager.js:357-359 | `Map.get` finds an item exactly when one has the id, and it has that id |
| Items.Set | scripts/content/content-manager.js:52 | `Map.set` appends a new id at the end and keeps the size for an existing one |
| Items.Remove | scripts/content/content-manager.js:99 | `Map.delete` keeps exactly the items with other ids |
| Items.SetFind | scripts/content/content-manager.js:52 | after setting, the id finds the new item and other ids find what they found before |
| Items.RemoveFind | scripts/content/content-manager.js:99 | after removing, the id finds nothing and other ids find what they found before |
| Items.RemoveAbsent | scripts/content/content-manager.js:99 | removing an absent id changes nothing |
| Items.SetRemoveFresh | scripts/content/content-manager.js:52-99 | adding a fresh item and removing it again restores the map |
| Items.OfKind | scripts/content/content-manager.js:361-363 | the items of a kind are exactly the map's items with that type |
| ContentManager.Init | scripts/content/content-manager.js:2-16 | a new manager holds no items and keeps its invariant (distinct ids) |
| ContentManager.FromListDistinct | scripts/content/content-manager.js:31-33 | loading a list whose ids are distinct into the `Map` keeps every element, in order |
| ContentManager.LoadContent | scripts/content/content-manager.js:22-43 | the current date is set before the read; a failed read returns no items and leaves the loaded items alone; a successful read loads exactly the stored items whose date is that day's key |
| ContentManager.Dated | scripts/content/content-manager.js:47-49 | an item without a date gets the key of the current date, or of today when no date is current; a dated item is left alone |
| ContentManager.AddItem | scripts/content/content-manager.js:45-67 | the operation fails exactly when the save fails, changing nothing; otherwise the dated item is both stored and loaded, and the create callback, when set, is told of it |
| ContentManager.SetDistinct | scripts/content/content-manager.js:52 | `Map.set` keeps ids distinct |
| ContentManager.SetIds | scripts/content/content-manager.js:52 | `Map.set` keeps each existing entry's key in its place |
| ContentManager.UpdateItem | scripts/content/content-manager.js:69-91 | an unknown id fails with "Item <id> not found"; otherwise the loaded item is merged even when the save then fails, no other item changes, and a successful save stores the merged item and notifies the update callback |
| ContentManager.DeleteItem | scripts/content/content-manager.js:93-115 | an unknown id returns nothing and changes nothing; a failed delete changes nothing; otherwise the item leaves both the loaded items and the store, other items stay, and the delete callback is told |
| ContentManager.RemoveDistinct | scripts/content/content-manager.js:99 | `Map.delete` keeps ids distinct |
| ContentManager.AddThenDelete | scripts/content/content-manager.js:45-115 | adding a fresh item and deleting it restores both the loaded items and the store |
| ContentManager.DragEnd | scripts/content/content-manager.js:286-295 | a drop inside the trash zone deletes the item; any other drop updates its position to the drop point |
| ContentManager.DropOutcomes | scripts/content/content-manager.js:286-295 | after a successful drop the item is gone from both places when dropped on the trash, and otherwise sits at the drop point in both, all other fields kept |
| ContentManager.TrashClosed | scripts/content/content-manager.js:337-340 | the trash zone's edges count as inside it, one pixel beyond does not |
| ContentManager.JsRem | scripts/content/content-manager.js:245 | JavaScript's `%`: the remainder takes the dividend's sign and agrees with the mathematical remainder on non-negative operands |
| ContentManager.ClockReadsBack | scripts/content/content-manager.js:244-246 | a non-negative remaining time shows as minutes, a colon and two digits under 60 that read back to the same number of seconds |
| ContentManager.TimerDisplay | scripts/content/content-manager.js:242-250 | "25:00" when the content does not parse or reading `remaining` throws; otherwise the `m:ss` face of `Number(remaining)`, "NaN:NaN" when that is NaN, and no face only for the numeric forms the model does not evaluate |
| ContentManager.ToNumber | scripts/content/content-manager.js:244-245 | `Number(v)`: undefined is NaN, null 0, a number itself, and a string, array or object goes through its `String(v)` text |
| ContentManager.StringOfInt | scripts/content/content-manager.js:244-245 | the decimal text of every integer converts back to that integer |
| ContentManager.TextCountShowsCount | scripts/content/content-manager.js:244-246 | a number shows its `m:ss` face, and the same count held as decimal text, or alone in a list, shows that same face (`"90"` shows "1:30") |
| ContentManager.EmptyCountsZero | scripts/content/content-manager.js:244-246 | an empty list, empty text and `null` show the same face as the number 0 |
| ContentManager.NonNumbersShowNaN | scripts/content/content-manager.js:244-246 | an object, text that cannot begin a number, and a missing `remaining` show "NaN:NaN" |
| ContentManager.FreshTimerFace | scripts/content/content-manager.js:242-250 | a fresh timer's payload shows "25:00", as does content that fails to parse |
| ContentManager.NegativeFace | scripts/content/content-manager.js:244-246 | a remaining time of -30 shows as "-1:-30", by floor division and a sign-keeping remainder |
| ContentManager.ShadeClass | scripts/content/content-manager.js:342-344 | a set, non-zero shade names its own class; a missing or zero shade gives shade 1 |
| ContentManager.ShadeClassSeparates | scripts/content/content-manager.js:342-344 | two non-zero shades share a class exactly when they are equal, and a missing shade looks like shade 1 |
| ContentManager.GetItemsByType | scripts/content/content-manager.js:361-363 | the result holds exactly the loaded items of that type |
| KeyStore.LessIrreflexive | scripts/storage/db-manager.js:34-45 | no key sorts before itself, so store order is strict |
| KeyStore.LessTransitive | scripts/storage/db-manager.js:34-45 | key order is transitive |
| KeyStore.LessTotal | scripts/storage/db-manager.js:34-45 | any two keys are equal or ordered one way, so every key has one place in a store |
| KeyStore.Get | scripts/storage/db-manager.js:69 | `store.get` finds a record exactly when one has the key, and what it finds is stored under that key |
| KeyStore.GetFinds | scripts/storage/db-manager.js:69 | in an ordered store, every stored record is what `get` returns for its key |
| KeyStore.Put | scripts/storage/db-manager.js:56 | after `store.put` the new record is present and every record was there before or is the new one |
| KeyStore.PutGet | scripts/storage/db-manager.js:56-69 | a put key reads back its new value and every other key reads as before |
| KeyStore.PutSorted | scripts/storage/db-manager.js:56 | `put` keeps the store ordered with no key twice |
| KeyStore.PutSize | scripts/storage/db-manager.js:56 | a put replaces the record of an existing key and adds one otherwise |
| KeyStore.PutPut | scripts/storage/db-manager.js:56 | two puts under one key leave only the second |
| KeyStore.Delete | scripts/storage/db-manager.js:138 | `store.delete` keeps exactly the records with other keys |
| KeyStore.DeleteGet | scripts/storage/db-manager.js:69-138 | a deleted key reads as absent and every other key reads as before |
| KeyStore.DeleteSorted | scripts/storage/db-manager.js:138 | `delete` keeps the store ordered |
| KeyStore.DeleteAbsent | scripts/storage/db-manager.js:138 | deleting an absent key changes nothing |
| KeyStore.DeletePutFresh | scripts/storage/db-manager.js:56-138 | putting under a fresh key and deleting it restores the store |
| KeyStore.PutAbove | scripts/storage/db-manager.js:56 | a key above every stored key is appended at the end |
| KeyStore.PutAllSorted | scripts/storage/db-manager.js:357-373 | putting, one by one, records already in key order after a store's last key appends them unchanged |
| KeyStore.Values | scripts/storage/db-manager.js:125 | `getAll` returns each record's value, in key order |
| DbManager.PutKeepsInv | scripts/storage/db-manager.js:34-45 | a keyed `put` keeps each object store ordered by key with no key twice |
| DbManager.SaveItem | scripts/storage/db-manager.js:50-61 | the save fails with "Failed to save item" exactly when the request fails; otherwise the item is stored under its id and the settings and cache are untouched |
| DbManager.GetItem | scripts/storage/db-manager.js:63-74 | an item is found exactly when one is stored under the id, and the one found carries that id |
| DbManager.SaveTwice | scripts/storage/db-manager.js:56 | saving two items with the same id leaves the store as saving only the second |
| DbManager.SaveThenGet | scripts/storage/db-manager.js:50-74 | after a save, reading the saved id gives the saved item and any other id reads as before |
| DbManager.DeleteItem | scripts/storage/db-manager.js:132-143 | the delete fails with "Failed to delete item" exactly when the request fails; otherwise nothing is stored under the id and the other stores are untouched |
| DbManager.DeleteThenGet | scripts/storage/db-manager.js:63-143 | after a delete the id reads as absent and every other id reads as before |
| DbManager.SaveDeleteFresh | scripts/storage/db-manager.js:50-143 | saving an item under a fresh id and deleting it restores the database |
| DbManager.Lookup | scripts/storage/db-manager.js:76-102 | a lookup in the `date` or the `type` index returns exactly the stored items filed under that key |
| DbManager.LookupDistinct | scripts/storage/db-manager.js:34-88 | an index lookup never returns two items with the same id |
| DbManager.GetItemsByDate | scripts/storage/db-manager.js:76-88 | the read fails with "Failed to get items by date" exactly when the request fails; otherwise it returns exactly the stored items of that date |
| DbManager.GetItemsByType | scripts/storage/db-manager.js:90-102 | the result holds exactly the stored items of that type |
| DbManager.Filter | scripts/storage/db-manager.js:150-158 | the filter keeps exactly the items whose text matches every search term |
| DbManager.SearchItems | scripts/storage/db-manager.js:145-159 | the search returns exactly the stored items that match the query |
| DbManager.EmptyQueryMatchesAll | scripts/storage/db-manager.js:148-157 | the empty query splits into one empty term, which every item contains, so every item is returned in order |
| DbManager.ToLowerIdempotent | scripts/storage/db-manager.js:148-155 | lower-casing twice is lower-casing once |
| DbManager.SearchIgnoresCase | scripts/storage/db-manager.js:148 | a query and its lower-case form match the same items |
| DbManager.SaveSetting | scripts/storage/db-manager.js:161-172 | saving a setting leaves the items and the cache untouched |
| DbManager.GetSetting | scripts/storage/db-manager.js:174-188 | a key with no stored setting reads as `null` |
| DbManager.SaveThenGetSetting | scripts/storage/db-manager.js:161-188 | a saved setting reads back as its value, and every other key reads as before |
| DbManager.CachePut | scripts/storage/db-manager.js:190-203 | the entry is stored with expiry now plus the time-to-live, one hour by default, and the other stores are untouched |
| DbManager.ClearCacheWith | scripts/storage/db-manager.js:233-250 | a truthy key deletes that entry alone, so it reads as absent and every other key reads as before; a missing or empty key empties the cache; the items and settings are untouched |
| DbManager.GetCacheWith | scripts/storage/db-manager.js:205-231 | a missing key gives `null` and changes nothing; an entry expiring at or after now gives its data; an entry expired before now gives `null` and is removed, every other entry staying as it was unless the key is the empty string, which as written empties the cache |
| DbManager.GetCacheCorrected | scripts/storage/db-manager.js:221-223 | evicting an expired entry leaves every other entry in place |
| DbManager.CacheThenGet | scripts/storage/db-manager.js:190-231 | data cached now reads back until its expiry, inclusive, and as `null` afterwards |
| DbManager.EmptyKeyEvictionClearsAll | scripts/storage/db-manager.js:222-248 | evicting an expired entry under the empty key clears the whole cache, other entries included |
| DbManager.Unexpired | scripts/storage/db-manager.js:259-269 | the kept entries are exactly those expiring after now |
| DbManager.UnexpiredSorted | scripts/storage/db-manager.js:259-269 | removing entries keeps the cache store ordered |
| DbManager.ClearExpiredCache | scripts/storage/db-manager.js:252-277 | every entry expiring at or before now is deleted and every other kept, and the count returned is the number deleted |
| DbManager.ExpiryBoundary | scripts/storage/db-manager.js:221-259 | an entry expiring exactly now is still returned by a read but is deleted by the expired-entry sweep |
| DbManager.ExportData | scripts/storage/db-manager.js:333-345 | the export carries the schema version, the timestamp, and every stored item and setting in key order |
| DbManager.ItemRecs | scripts/storage/db-manager.js:359 | each imported item is put under its own id |
| DbManager.SettingRecs | scripts/storage/db-manager.js:369 | each imported setting is put under its own key |
| DbManager.ImportData | scripts/storage/db-manager.js:347-380 | import never touches the cache, and a missing items or settings list leaves that store as it was |
| DbManager.ImportExportRoundTrip | scripts/storage/db-manager.js:333-380 | importing an export into an empty database restores the items and settings |
| Json.Lookup | scripts/config/settings-loader.js:68 | reading an own property finds a value exactly when the object has that key, and the value is the one stored under it |
| Json.Put | scripts/config/settings-loader.js:85 | assigning a new property appends it after the existing ones; assigning an existing one keeps the number of properties |
| Json.PutLookup | scripts/config/settings-loader.js:85 | an assigned property reads back its new value and every other property reads as before |
| Json.PutDistinct | scripts/config/settings-loader.js:85 | assignment never creates a second property with the same name |
| Json.Get | scripts/content/content-manager.js:244 | reading a property of a non-object, or a missing property, gives `undefined`; otherwise the stored value |
| Json.EscapeChar | scripts/radial-menu/action-factory.js:99-153 | an escaped character is never a bare quote, and a plain character stands for itself |
| Json.Escape | scripts/radial-menu/action-factory.js:99-153 | a string of plain characters is left unchanged |
| Json.Quote | scripts/radial-menu/action-factory.js:153 | a stringified string starts and ends with a double quote |
| Json.Defined | scripts/config/settings-loader.js:95 | `JSON.stringify` drops exactly the properties whose value is `undefined` |
| Json.Stringify | scripts/config/settings-loader.js:95 | `JSON.stringify` gives a string for every value except `undefined` |
| SettingsLoader.Init | scripts/config/settings-loader.js:2-5 | a new loader has a `null` tree and nothing saved |
| SettingsLoader.Walk | scripts/config/settings-loader.js:64-72 | a path walk never gives `undefined`; the empty walk gives the value itself, `null` in place of `undefined` |
| SettingsLoader.GetSetting | scripts/config/settings-loader.js:63-73 | before a tree is installed every path reads `null` |
| SettingsLoader.Write | scripts/config/settings-loader.js:76-85 | a successful assignment yields an object; assigning into a non-object target throws a TypeError |
| SettingsLoader.UpdateSetting | scripts/config/settings-loader.js:75-91 | a throwing write leaves the loader as it was; otherwise the new tree is installed and saved, and the call throws exactly when re-applying the matching section does |
| SettingsLoader.Load | scripts/config/settings-loader.js:7-19 | a failed fetch returns the defaults and installs nothing; a fetched tree is installed and returned, unless applying it throws, in which case the defaults are returned with the fetched tree still installed |
| SettingsLoader.SplitLast | scripts/config/settings-loader.js:76-77 | popping the last key leaves the leading keys, which with it make up the path |
| SettingsLoader.WalkStep | scripts/config/settings-loader.js:67-70 | a walk through an object takes one property and walks on from there |
| SettingsLoader.WriteStep | scripts/config/settings-loader.js:80-83 | a write below the root descends into the child, or a new empty object when the child is falsy, and stores the result back under the key |
| SettingsLoader.WriteLeaf | scripts/config/settings-loader.js:85 | the last key reads back the assigned value |
| SettingsLoader.WriteThenWalk | scripts/config/settings-loader.js:63-85 | reading back the full path just written gives the value written, `null` for `undefined` |
| SettingsLoader.UpdateThenGet | scripts/config/settings-loader.js:63-91 | `getSetting(path)` after `updateSetting(path, value)` gives back the value, unless the write threw |
| SettingsLoader.WriteFrame | scripts/config/settings-loader.js:76-85 | a write changes no path that parts ways with the written one |
| SettingsLoader.UpdateFrame | scripts/config/settings-loader.js:63-91 | `updateSetting(path, …)` changes the reading of no path that parts ways with `path` |
| SettingsLoader.UpdateBeforeLoadThrows | scripts/config/settings-loader.js:78-81 | before any load the tree is `null`, so every update throws and changes nothing |
| SettingsLoader.FailedLoadInstallsNothing | scripts/config/settings-loader.js:15-18 | after a failed fetch every setting still reads `null`, even the default gesture timings |
| SettingsLoader.WalkGestures | scripts/config/settings-loader.js:123-127 | the defaults' "gestures" object holds the gesture timings |
| SettingsLoader.DefaultGestureSettings | scripts/config/settings-loader.js:123-127 | with the defaults installed the gesture paths read a 50 pixel swipe, a 500 ms long press and a 300 ms double tap, and the drag threshold, which the defaults do not name, reads null |
| SettingsLoader.DefaultsLackTypography | scripts/config/settings-loader.js:38-129 | the defaults carry a theme but no typography, so loaded as the fetched tree they would fall back to themselves |
| JournalApp.Notified | scripts/app.js:257-266 | a date change shows the date and saves; a level change also re-renders; no notice does nothing |
| JournalApp.Refresh | scripts/app.js:151-168 | the current content becomes what loading the navigator's date gives: exactly that day's stored items, or nothing when the read fails; navigation, menu and store are untouched, and the view is rendered |
| JournalApp.NavigateTime | scripts/app.js:227-234 | the navigator steps one period, the content is reloaded for the new date, and the transition, render, date display and save follow the navigator's own notices |
| JournalApp.NavigateZoom | scripts/app.js:236-246 | a zoom that leaves the level unchanged does nothing at all; one that changes it runs the transition and ends with a save, without reloading content |
| JournalApp.JumpToDate | scripts/app.js:210-225 | the navigator lands on the date and its content is loaded; from day view the level stays day, from any other level it zooms in once |
| JournalApp.JumpOneLevelFiner | scripts/app.js:213-217 | a jump lands exactly one level finer than it started, and day stays day |
| JournalApp.GoToToday | scripts/app.js:248-255 | the navigator moves to today at its current level, today's content is loaded, the 'today' transition runs and a save ends it |
| JournalApp.KeyCommand | scripts/app.js:401-433 | keys typed into an input, a text area or editable content do nothing; the up and down arrows step in time, left and right zoom out and in, Space goes to today and Escape dismisses the menu |
| JournalApp.GestureCommand | scripts/app.js:105-117 | vertical swipes step in time, a right swipe and a pinch in zoom in, a left swipe and a pinch out zoom out, and a double tap goes to today |
| JournalApp.Perform | scripts/app.js:227-255 | each command runs its own handler; Escape only closes the menu, changing neither navigation nor content |
| JournalApp.HandleKeyboard | scripts/app.js:401-433 | editing targets are ignored; the navigation keys cancel the browser default before acting, Escape does not |
| JournalApp.SwipeUpGoesBack | scripts/app.js:109 | a swipe up in day view goes to the previous day |
| JournalApp.ZoomGesturesUndo | scripts/app.js:111-114 | above day view, a right swipe undone by a left swipe, or a pinch in undone by a pinch out, restores the app exactly |
| JournalApp.LongPressStart | scripts/app.js:268-272 | the radial menu opens at the press point only in day view |
| JournalApp.LongPressMove | scripts/app.js:274-278 | a move reaches the menu only while it is shown |
| JournalApp.HandleActionSelect | scripts/app.js:286-306 | the action creates an item dated with the navigator's key at the viewport centre; when the factory yields one and the store accepts it, it is added and appended to the current content; otherwise nothing changes |
| JournalApp.LongPressEnd | scripts/app.js:280-284 | a release while the menu is shown hides it and hands the selected action, if any and if a callback is set, to the action handler; otherwise nothing happens |
| JournalApp.Number | scripts/app.js:97-108 | a setting is read as a number exactly when it is one, and then as that number |
| JournalApp.TrackerConfig | scripts/app.js:94-103 | the tracker gets only the three long-press callbacks, and takes its delay and drag threshold from the settings when they are non-zero numbers, its own defaults otherwise |
| JournalApp.SwipeConfig | scripts/app.js:105-117 | the swipe handler gets the seven gesture callbacks, its default velocity, and its threshold from the settings when that is a non-zero number |
| JournalApp.DefaultsFileGivesBuiltIns | scripts/app.js:94-108 | installing the settings file's defaults configures the tracker and the swipe handler exactly as having no settings at all does |
| JournalApp.UnloadedSettingsGiveBuiltIns | scripts/app.js:97-108 | when no settings are loaded, every setting reads `null` and the recognisers fall back to their built-in 500 ms, 10 pixel and 50 pixel values |
| JournalApp.AsWrittenHoldCreatesNothing | scripts/app.js:268-306 | with the tracker as written, press, hold, drag and release leaves the menu open and creates nothing |
| JournalApp.ActionSelectAppends | scripts/app.js:298-301 | every registered action except email, and photo without a file, appends exactly one item of its kind after the existing content |
| JournalApp.PressMoveRelease | scripts/app.js:268-284 | the three long-press callbacks in order act as start, move and end |
| JournalApp.MenuGestureCreates | scripts/app.js:268-306 | a long press, a move and a release create the item of the action the moved distance selects, and close the menu |
| JournalApp.CorrectedHoldCreates | scripts/app.js:268-306 | with the corrected tracker, press, hold, drag and release creates the item the distance selects and closes the menu |
| JournalApp.HandleItemDelete | scripts/app.js:317-320 | every entry with the deleted id leaves the current content, and every other entry stays |
| JournalApp.ItemDeleteKeepsOrder | scripts/app.js:319 | the filter keeps the remaining entries in order, and content without the id is left as it was |
| ViewRenderer.Preview | scripts/navigation/view-renderer.js:217-233 | every type but todos always has a preview; a note shows its first 50 characters with "..." when longer; an unknown type shows its first 50 characters bare |
| ViewRenderer.TodosPreview | scripts/navigation/view-renderer.js:227-229 | a todo list's preview fails exactly when its content parses to `null` (or `undefined`), whose length cannot be read; an array shows its length, an object its own `length` property as a template literal shows it, a boolean or number "undefined" |
| ViewRenderer.TodosArrayLike | scripts/navigation/view-renderer.js:228-229 | an object whose `length` is n previews like a list of n tasks; one without `length` previews like a value that has none |
| ViewRenderer.NotePreview | scripts/navigation/view-renderer.js:220 | a note of at most 50 characters shows whole; a longer one shows 53 characters, its first 50 followed by "..." |
| ViewRenderer.OtherPreview | scripts/navigation/view-renderer.js:231 | an item of another type shows a prefix of its content, 50 characters long whenever the content has that many |
| ViewRenderer.FixedPreviews | scripts/navigation/view-renderer.js:221-229 | photo, audio and video show fixed labels; a todo list shows its number of entries, and content that does not parse gives no preview |
| ViewRenderer.OnDay | scripts/navigation/view-renderer.js:65-116 | the day filter keeps exactly the items whose date equals the day's key |
| ViewRenderer.OnDayNone | scripts/navigation/view-renderer.js:65-116 | a day none of whose items carry its key gets nothing |
| ViewRenderer.WeekCellAt | scripts/navigation/view-renderer.js:46-79 | a week cell carries its date's key and day number, is marked current exactly on today, is named by its position, and shows at most the first five of its day's items |
| ViewRenderer.RenderWeek | scripts/navigation/view-renderer.js:40-82 | the week view has one cell per date, in order |
| ViewRenderer.WeekPreviewsOfDay | scripts/navigation/view-renderer.js:65-67 | a week cell shows the first items of its day in order, at most five, and all of them when there are five or fewer |
| ViewRenderer.TakeOfDay | scripts/navigation/view-renderer.js:65-67 | `slice(0, 5)` of the day's items is their prefix of length at most five, all of them when there are at most five |
| ViewRenderer.WeekNamesAreWeekdays | scripts/navigation/view-renderer.js:44-57 | in the navigator's Monday-first week, each position's name is its date's weekday |
| ViewRenderer.NamesShift | scripts/navigation/view-renderer.js:44 | the Monday-first names are the Sunday-first names shifted by one |
| ViewRenderer.OnlyCurrentDayShows | scripts/navigation/view-renderer.js:65 | when the content holds only the current day's items, as after a load, every other day of the week shows empty |
| ViewRenderer.DotCount | scripts/navigation/view-renderer.js:118-130 | a day with items gets one dot per started three items, at most three, and a day without items none |
| ViewRenderer.DotsMonotone | scripts/navigation/view-renderer.js:122 | more items never give fewer dots |
| ViewRenderer.MonthCellOf | scripts/navigation/view-renderer.js:99-136 | a month cell is marked other-month outside the shown month and current exactly on today, carries its key and day number, and has the dots of its day's item count |
| ViewRenderer.RenderMonth | scripts/navigation/view-renderer.js:84-140 | the month view has one cell per grid date, in order |
| ViewRenderer.InMonth | scripts/navigation/view-renderer.js:164 | the month filter keeps exactly the items whose date starts with the month's key |
| ViewRenderer.YearCellAt | scripts/navigation/view-renderer.js:152-174 | a year cell is titled by its position and counts the items whose date starts with its month's key |
| ViewRenderer.RenderYear | scripts/navigation/view-renderer.js:142-178 | the year view has one cell per month, in order |
| ViewRenderer.YearKeyDigits | scripts/navigation/view-renderer.js:236-243 | a year prints as digits after an optional sign |
| ViewRenderer.PrefixAgrees | scripts/navigation/view-renderer.js:164 | a string starting with a key agrees with it on the key's characters |
| ViewRenderer.DayInMonthKey | scripts/navigation/view-renderer.js:164-246 | a day's key starts with a month's key exactly when the day lies in that month |
| ViewRenderer.TransitionClass | scripts/navigation/view-renderer.js:265 | the direction's class wins; an unknown direction falls back to the type's class, if any |
| ViewRenderer.ClassFor | scripts/navigation/view-renderer.js:256-263 | exactly the six directions up, down, left, right, in and out have a transition class |
| ViewRenderer.AppTransitions | scripts/navigation/view-renderer.js:255-272 | the app's up and in transitions animate, and its 'today' transition adds no class |
| ViewRenderer.Render | scripts/app.js:170-189 | the level picks the view: day lists all the content under the date's key; week, month and year have 7, 42 and 12 cells; any other level renders nothing |
| ExportHandler.FirstOfKind | src/js/export-handler.js:60 | `find` returns nothing exactly when no note has the type, and otherwise the earliest note that has it |
| ExportHandler.ExportDay | src/js/export-handler.js:48-61 | the export carries the current location and the day's first verse note |
| ExportHandler.ExportPartition | src/js/export-handler.js:57-59 | a note is among the exported notes, photos or audio exactly when it is one of the day's notes of type text, image or audio respectively |
| ExportHandler.PhotoSource | src/js/export-handler.js:176-182 | content that fails to parse, or whose parse reads as `null`, is used as is; a parsed object gives its original, or its thumbnail when the original is falsy |
| ExportHandler.Strip | src/js/export-handler.js:169-195 | there is a strip exactly when there are photos; it shows the first four, each by its image source |
| ExportHandler.LocationLabel | src/js/export-handler.js:102 | the label is empty exactly when there is no city; otherwise the city, followed by ", " and the country when there is one |
| ExportHandler.Clips | src/js/export-handler.js:135-142 | one player per recording, playing its content and captioned "Recording n", counting from 1 |
| ExportHandler.Contents | src/js/export-handler.js:125-129 | the notes section shows each text note's content, in order |
| ExportHandler.GenerateHtml | src/js/export-handler.js:80-167 | the page opens with the header and closes with the footer, and the header shows a location label exactly when a location is known |
| ExportHandler.HeaderPart | src/js/export-handler.js:97-106 | the header is a single block |
| ExportHandler.VersePart | src/js/export-handler.js:108-116 | the verse block appears exactly when there is a verse |
| ExportHandler.StripPart | src/js/export-handler.js:118-122 | the photobooth block appears exactly when there are photos |
| ExportHandler.AudioPart | src/js/export-handler.js:132-144 | the audio block appears exactly when there are recordings |
| ExportHandler.MapPart | src/js/export-handler.js:146-198 | the map block appears exactly when a location is known |
| ExportHandler.SectionsIff | src/js/export-handler.js:80-167 | the page has a verse, photobooth, audio and map block exactly when the day has a verse, photos, recordings and a location respectively |
| ExportHandler.VerseAppears | src/js/export-handler.js:108-116 | the page shows a verse exactly when the day has one |
| ExportHandler.StripAppears | src/js/export-handler.js:118-170 | the page shows a photobooth strip exactly when the day has photos |
| ExportHandler.AudioAppears | src/js/export-handler.js:132-144 | the page shows recordings exactly when the day has some |
| ExportHandler.StripFirstFour | src/js/export-handler.js:175 | photo i is in the strip exactly when i is below four, and then in position i |
| ExportHandler.Filename | src/js/export-handler.js:702 | the download is named "journal-" followed by the day's key |
| ExportHandler.FilenameInjective | src/js/export-handler.js:702-737 | two days share a download name exactly when they are the same day |
| ExportHandler.HandleExportAction | src/js/export-handler.js:652-667 | `preview` opens the preview, `download` downloads `journal-<day key>.html`, `copy` copies, and `share` shares when the share API resolves and otherwise downloads that same file; each acts once, and any other action does nothing |
| ExportHandler.ShareExport | src/js/export-handler.js:675-695 | the export is shared exactly when the share API exists and succeeds; otherwise it is downloaded under the day's name |
| ExportHandler.ShareFallsBack | src/js/export-handler.js:657-695 | without a working share API, sharing is downloading |
| TikTokExport.PhotoSlot | src/js/tiktok-export.js:202-207 | photo i sits in column i mod 2 and row i div 2 of a 420 pixel pitch, starting at (130, 800) |
| TikTokExport.PhotoGrid | src/js/tiktok-export.js:190-227 | at most four photos are placed, each in its own slot, in order |
| TikTokExport.GridLayout | src/js/tiktok-export.js:190-207 | the four slots lie inside the 1080 by 1920 canvas below the grid's top and do not overlap |
| TikTokExport.NoteLine | src/js/tiktok-export.js:243-244 | a note with text is drawn as a bullet, its first 50 characters and "..."; a note without text has no line to draw |
| TikTokExport.DrawNotes | src/js/tiktok-export.js:229-253 | the block fails exactly when one of the first two notes has no text; otherwise it has one line per note up to two, and a "+n more notes..." line exactly when there are more than two |
| TikTokExport.NotesAlwaysEllipsis | src/js/tiktok-export.js:243 | every note line ends in "...", even a short one, and holds at most 55 characters |
| TikTokExport.DateHeader | src/js/tiktok-export.js:124-132 | a date string without a comma is drawn as it is; one with a comma is drawn as two comma-free lines |
| TikTokExport.HeadingDropsYear | src/js/tiktok-export.js:124-129 | "Weekday, Month D, YYYY" is drawn as the weekday and "Month D": the year is lost |
| TikTokExport.DateHeaderCorrected | src/js/tiktok-export.js:124-132 | split at the first comma only, a string without a comma is still drawn as it is, and the first line holds no comma |
| TikTokExport.FirstComma | src/js/tiktok-export.js:124 | the first comma's position: a comma, with none before it |
| TikTokExport.FirstCommaAfter | src/js/tiktok-export.js:124 | after a comma-free prefix, the first comma is the one that ends it |
| TikTokExport.CorrectedHeadingKeepsYear | src/js/tiktok-export.js:124-129 | split at the first comma, the long date is drawn as the weekday and "Month D, YYYY" |
| TikTokExport.PlaceName | src/js/tiktok-export.js:148 | a known city is named; an empty one reads "Unknown Location" |
| TikTokExport.PlacePart | src/js/tiktok-export.js:29-31 | the location line is drawn exactly when a location with a city is known, naming that city |
| TikTokExport.VersePart | src/js/tiktok-export.js:34-36 | the verse is drawn exactly when there is one |
| TikTokExport.GridPart | src/js/tiktok-export.js:39-41 | the photo grid is drawn exactly when there are photos |
| TikTokExport.NotesPart | src/js/tiktok-export.js:44-46 | the notes block is drawn exactly when there are notes |
| TikTokExport.StoryImage | src/js/tiktok-export.js:17-56 | the story fails exactly when drawing the verse (a verse whose content is not text) or the notes fails; otherwise it starts with the background, decorations and date heading and ends with the stickers and watermark |
| TikTokExport.HasAppend | src/js/tiktok-export.js:17-56 | a story built from two parts has a location, grid or notes exactly when one of the parts has |
| TikTokExport.StoryParts | src/js/tiktok-export.js:29-46 | a story shows a location, a photo grid and notes exactly when the day has a city, photos and notes respectively |
| TikTokExport.VideoFrames | src/js/tiktok-export.js:58-84 | the video fails exactly when the verse frame (a verse whose content is not text) or the notes frame fails; otherwise it has a title frame first and an outro last, with one frame each for photos, notes and a verse when the day has them |
| TikTokExport.VideoShape | src/js/tiktok-export.js:58-84 | a video has two to five frames, and a location without a city makes the outro read "Unknown Location" |
| MediaHandler.Classify | src/js/media-handler.js:109-121 | each pair of error names, and NotSupportedError alone, picks one cause; every other name is left to the error's own message |
| MediaHandler.ErrorMessage | src/js/media-handler.js:107-123 | every message starts "Could not access microphone. "; an unrecognised error continues with its own message, or with general advice when that is empty |
| MediaHandler.MessageNamesClass | src/js/media-handler.js:109-118 | two recognised errors give the same message exactly when their names fall in the same class |
| MediaHandler.AdviceDistinct | src/js/media-handler.js:110-118 | the five recognised causes give five different pieces of advice |
| MediaHandler.StartRecording | src/js/media-handler.js:44-125 | recording starts exactly when capture is supported, the microphone permission is not denied and access is granted; without capture support, and with a denied permission, the matching early message is given; a failure changes nothing |
| MediaHandler.StopRecording | src/js/media-handler.js:127-177 | stopping acts exactly when a recording is running, and afterwards none is; otherwise nothing changes |
| MediaHandler.StartThenStop | src/js/media-handler.js:44-140 | a started recording stops once, and a second stop does nothing |
| MediaHandler.Payload | src/js/media-handler.js:30-33 | the image data holds the thumbnail and the original under their own names |
| MediaHandler.ProcessImage | src/js/media-handler.js:10-42 | a callback, when given, receives the stringified image data tagged "image"; without one nothing is reported |
| MediaHandler.ImageExportsOriginal | src/js/media-handler.js:30-36 | an image stored by the handler is exported by its original, or by its thumbnail when the original is empty |
| Text.NatToString | scripts/utils/helpers.js:17-18 | `String(n)` of a non-negative number is a non-empty digit string without a leading zero, one character exactly for n < 10 |
| Text.IntToString | scripts/utils/helpers.js:16 | `String(n)` is the unsigned rendering, with a leading `-` for negatives |
| Text.ParseNatToString | app.js:861 | `parseInt` of a rendered number gives the number back |
| Text.NatToStringInjective | scripts/utils/helpers.js:16 | distinct numbers render differently |
| Text.IntToStringInjective | scripts/utils/helpers.js:16 | distinct integers, negatives included, render differently |
| Text.ParseDigitsLastDigit | app.js:861-862 | a digit string's value modulo 10 is its last digit |
| Text.PadStart | scripts/utils/helpers.js:17-18 | `padStart` leaves a string that is wide enough alone, and otherwise prefixes fill characters up to the width, keeping the string as the tail |
| Text.Pad2 | scripts/utils/helpers.js:17-18 | two-digit padding of 0..99 is two digits: a `0` before a single digit, the number itself from 10 |
| Text.Pad2Parses | scripts/utils/helpers.js:17-18 | a padded field reads back as its number, and its second digit is the number modulo 10 |
| Text.Pad2Injective | scripts/utils/helpers.js:17-18 | distinct numbers below 100 pad differently |
| Text.ToLower | scripts/storage/db-manager.js:148 | `toLowerCase` (on ASCII) keeps the length, lowers each capital and leaves every other character |
| Text.ToUpper | app.js:619 | `toUpperCase` (on ASCII) keeps the length, raises each small letter and leaves every other character |
| Seqs.Take | scripts/navigation/view-renderer.js:220 | `substring(0, n)` and `slice(0, n)` give the first n elements, or the whole sequence when it is shorter |
| Text.Split | scripts/config/settings-loader.js:64 | `split` on one character gives at least one piece and no piece holds the separator |
| Text.SplitJoin | scripts/config/settings-loader.js:64 | joining the pieces with the separator gives the string back |
| Text.SplitAfter | src/js/tiktok-export.js:124 | splitting a string at its first separator gives the piece before it followed by the pieces of the rest |
| Text.SplitSingle | src/js/tiktok-export.js:124-125 | a split gives a single piece exactly when the separator does not occur |
| Text.Trim | src/js/tiktok-export.js:129 | `trim()` is a substring of the input with only white space cut away at either end, and starts and ends with a non-space |
| Text.TrimClean | src/js/tiktok-export.js:129 | a string without white space at its ends trims to itself |
| Text.Remove | app.js:861 | `replace(/-/g, '')` leaves no dash and never lengthens the string |
| Text.RemoveAppend | app.js:861 | removing a character from a concatenation removes it from each part |
| Text.RemoveDigits | app.js:861 | removing a non-digit from a digit string changes nothing |

## Left out

- **Drawing.** DOM construction, CSS, theme, typography and animation application, and canvas drawing are left out, because they produce pixels and markup rather than data. The model keeps what they compute: cells, lines, positions, sections and file names.
- **The store's setup.** `getItemsByDateRange`, `getStorageStats`, `init`, `createStores` and `ensureInitialized` of `scripts/storage/db-manager.js` are left out. They either read the same records the modelled queries read, or set up the object stores the model starts from.
- **DB request failures.** Only the failures the app reacts to are modelled. A request failure inside the other DB operations is not, and neither is an import that fails midway through its transaction.
- **Key order.** Record keys compare as sequences of characters. IndexedDB compares UTF-16 code units, so the two agree only below U+10000.
- **The empty date key.** `getDateKey` of a missing date and of an empty date are both `''`. The model keys both the same way, as the source does, and does not tell them apart.
- **Thai words.** `ActionFactory.Words` holds the three cards character for character as the source file spells them. The file's Thai script and accented pronunciations are UTF-8 text that was read back as Windows-1252, so they are those damaged characters, not Thai. The model keeps them as they are and does not decode them.
- **JSON.** `JSON.parse` is a parameter and is not modelled character by character.
- **Fractions.** The viewport centre given to a new item is an integer, whereas the source may compute a fractional one.
- Notes.Point: coordinates are integers. The source's `clientX`/`clientY` (the note positions of note-manager.js:44-45 and the drag offsets of scripts/content/drag-controller.js:62-66 and 97-98) and `getBoundingClientRect` rectangles (the trash zone of scripts/content/content-manager.js:337-339 and the recycle bin, NoteManager.Rect) are doubles, fractional on high-density or transformed layouts. The model's positions, offsets and hit tests are exact on integers, so a pointer between two pixels is not representable.
- Civil.Date: years are unbounded. A JavaScript `Date` holds at most 8.64e15 ms either side of 1970 (about years -271821 to 275760) and becomes an Invalid Date beyond, whereas the model's dates, day steps and month carries go on in both directions.
- **Item ids.** An `Object.assign` update that carries an `id` field renames the item in the source. `Items.Assign` keeps the key the item is stored under.
- **Local storage.** `loadFromLocalStorage` and the app's localStorage `saveState` are left out, because they only copy state through opaque storage. The ISO string `saveState` writes is left out with them.
- **Settings on arrays.** `SettingsLoader.UpdateSetting` treats a dotted path through any non-object as a TypeError. For a string, number or boolean this is what the source's strict-mode property assignment raises. For an array, the source would instead set a property on it.
- **Gesture settings.** JournalApp.TrackerConfig and JournalApp.SwipeConfig take a gesture setting only when it is a non-zero number. The source would also pass on a non-empty string or an object, which then misbehaves in its arithmetic.
- **String indexing.** `SettingsLoader.Walk` reads properties of objects only. A read of a string's or an array's own property (such as `length`) gives `null` in the model, where the source gives its value.
- **Interleaving.** Asynchronous interleaving of handlers is left out: each handler runs to completion (see the conventions above).
- **Floating point.** The heat-map colour scale and any other floating-point colour arithmetic are left out. The story export's image positions are integers, as the source's literals are.
- **The map section.** The HTML and SVG map of the export page is left out beyond its presence and position, because it is markup.
- **The share file name.** The share `File` name is built from `toLocaleDateString`, which depends on the locale. The model takes that string as a parameter.
- **Word wrap.** The verse word wrap of the story export depends on `measureText`. It is left out; the model keeps the verse text and its position.
- **Unicode spaces.** `Text.Trim` trims ASCII white space, the no-break space, the line and paragraph separators and the byte-order mark. It does not trim the other Unicode space separators (U+1680, U+2000 to U+200A, U+202F, U+205F, U+3000) that `String.prototype.trim` also removes.
- **Locale formatting.** `formatDateString` and the locale's long date are parameters, not computed.
- **Recording.** The recorder's chunk collection, `onstop` and `FileReader` are left out, because they are platform I/O. The model keeps the state changes and the resulting item.
- **Location.** Geolocation and the Nominatim reverse-geocoding request are left out, because they are network and sensor I/O. Their results are parameters.
- **Images.** The story export's `loadImage` placeholder is left out, because it only draws a grey box when an image fails to load.
- **Other files.** `src/js/database.js`, `https-server.js`, `serve-https.py`, `nue/neu.js` and `constants.js` are not part of this model. They hold the server, the old store wrapper and constant tables the modelled files do not read.
- **Pinch.** The pinch spread is the exact real square root of the squared distance between the two touches. The source's `Math.sqrt(dx ** 2 + dy ** 2)` rounds to a double, so a change within rounding of 30 px may compare differently.
- SwipeHandler.Sector: the four sectors are decided in exact arithmetic on dx and dy. The source compares `Math.atan2(dy, dx) * 180 / Math.PI` as a double against ±45 and ±135, so an exact diagonal (dx = ±dy) may fall into the neighbouring sector. The distance and speed gates are likewise compared exactly, through squares.
- **Time.** Time of day, time zones and daylight-saving shifts are left out: dates are civil days.
- MenuController.Configure: requires a positive step. The source also accepts an explicit 0 or a negative `distancePerOption`, which makes its `Math.floor(distance / step)` divide by zero or go negative.
- **Utilities.** The `debounce`, `throttle`, `lerp`, `getDistance`, `getAngle`, `generateId`, `random`, `shuffle`, `deepClone` and DOM helpers of `scripts/utils/helpers.js` are left out. They are either timing or randomness the model turns into parameters, or used only by the drawing code.
- **Editing.** Editing an item in place (`editItem`), toggling todos, running timers, the clock and date display, auto-save, the date picker, `handleError`, and the app's file-based export and import are left out. They are UI flows over operations the model already covers: item update, the DB export and import, and the date navigator.
- Json.Put: appends a new property after the existing ones. JavaScript lists integer-like property names (such as `"2"`) first, in ascending numeric order, before the other names in insertion order. The model keeps plain insertion order for every name, so for such names its property order, and the `JSON.stringify` text built from it, can differ from the source's.
- Helpers.MergeIntoDisjoint: appends the source's missing properties in the source's order. For integer-like property names the JavaScript order differs, as under Json.Put above.
- Json.Num: holds integers only. Timestamps, thresholds, delays and counts are integers in the source too. Pointer coordinates and bounding rectangles are not (see Notes.Point), and neither is a fractional number in a settings file or an imported record; none of these is representable.
- Text.ToLower / DbManager.SearchItems: lowers the ASCII capitals A to Z only. JavaScript's `toLowerCase` also lowers other scripts' capitals (such as `É` or `Ω`), so for a query or item text with such letters the search can miss a match the source finds.
- DbManager.Filter: matches through Text.ToLower, so it has the same ASCII-only case folding as DbManager.SearchItems.
- Seqs.Take: on strings counts characters, that is code points. JavaScript's `substring` counts UTF-16 code units, so for text beyond U+FFFF (emoji, for instance) the source's cut comes earlier and can split a surrogate pair, which a Dafny `char` cannot represent.
- ViewRenderer.Preview: its 50-character cut and its `length > 50` test count code points, not UTF-16 code units.
- ViewRenderer.NotePreview: the note's 50-character cut and its ellipsis test count code points, not UTF-16 code units.
- ViewRenderer.OtherPreview: the 50-character cut counts code points, not UTF-16 code units.
- ViewRenderer.TodosPreview: a parsed string's length counts code points, where the source's `.length` counts UTF-16 code units; it differs for text beyond U+FFFF.
- JournalApp.HandleActionSelect: the mail window the email action opens is stated by ActionFactory.Opens; the app state does not record opened windows.
- ContentManager.TimerDisplay: `Number(remaining)` is evaluated for integers, signed decimal digit strings, the empty string, booleans, `null`, `undefined`, lists through their comma-joined text, and objects. Text that cannot begin a numeric literal, or that holds a character no literal holds, is NaN. The other numeric texts (fractions, exponents, hexadecimal, octal and binary literals, `Infinity`) give no face in the model, and a digit string beyond 2^53 is taken exactly rather than rounded to a double.
- NoteManager.MakeNote: reads the clock once and uses that reading both in the id and as `timestamp`. The source calls `Date.now()` twice (note-manager.js:32 and 46), so its id time and timestamp can differ by a millisecond; the same holds for RootApp.CreateNote (app.js:580 and 594) and RootApp.VerseNote (app.js:820 and 828).
- TikTokExport.NoteLine: the note's 50-character cut counts code points, not UTF-16 code units.
- ShakeDetector.Jolt: computes in exact reals. The source computes in IEEE doubles, so a jolt within rounding of the threshold 15 may compare differently.
- JournalApp.JumpToDate: takes the civil date the cell names. The source runs `new Date("YYYY-MM-DD")` (or `"YYYY-MM"` for a month cell), which JavaScript parses as UTC midnight, and then reads the local date. West of UTC that is the day before, or the last day of the previous month for a month cell. The model lands on the named date, which is what the cell intends.

## Findings

| source | as written | input that shows it | evidently intended | confidence | as-written member | corrected member |
|---|---|---|---|---|---|---|
| scripts/radial-menu/gesture-tracker.js:97-116 | when the long-press timer fires it never clears its handle, so the move handler keeps taking the "cancel the pending long press" branch and `onLongPressMove` is never called; releasing after a move sends no selection to the menu | press, hold past the delay, move beyond the threshold, release | once the long press has fired, moves go to `onLongPressMove` and the release confirms the menu's selection | high, not executed | GestureTracker.HoldMoveReleaseLosesMenu | GestureTracker.CorrectedHoldMoveRelease |
| scripts/app.js:268-306 | through the tracker above, dragging the radial menu to an action and releasing creates nothing | hold, move 95 px, release | the selected action's item is created | high, not executed | JournalApp.AsWrittenHoldCreatesNothing | JournalApp.CorrectedHoldCreates |
| touch-handler.js:18-42 | a second `touchstart` overwrites the long-press timer handle, so a later `touchmove` cancels only the newer timer and the older one still fires a long press | two touch starts 10 ms apart, one move, then the first timer fires | a move cancels every pending long press | high, not executed | TouchHandler.OrphanedTimerFires | TouchHandler.CorrectedMoveCancelsAll |
| touch-handler.js:57 | `if (!startX \|\| !startY) return` treats a touch starting at x = 0 (or y = 0) as no touch, so that swipe is dropped | a swipe from (0, y) to (200, y) within 100 ms | a touch at the screen edge still counts | medium, not executed | TouchHandler.EdgeStartNoSwipe | TouchHandler.CorrectedEdgeStartSwipes |
| src/js/shake-detector.js:36-107 | the listener is added as `this.handleMotion.bind(this)` but removed as the unbound `this.handleMotion`, which is a different function, so `destroy` leaves it attached | set up, one sample, destroy, then a jolt above 15 | after `destroy` no sample triggers a shake | high, not executed | ShakeDetector.DestroyedStillShakes | ShakeDetector.CorrectedDestroyStops |
| scripts/storage/db-manager.js:222-240 | an expired entry makes `getCache` call `clearCache(key)`, which clears the whole cache when the key is falsy, so an expired `''` key wipes every other entry | a cache holding `''` (expired) and another key; `getCache('')` | only the expired entry is evicted | medium, not executed | DbManager.EmptyKeyEvictionClearsAll | DbManager.GetCacheCorrected |
| src/js/tiktok-export.js:124-129 | the heading splits the long date at every comma and draws only the first two parts, so "Monday, January 5, 2026" loses its year | the date "Monday, January 5, 2026" | the weekday on one line and the rest of the date, year included, on the next | medium, not executed | TikTokExport.HeadingDropsYear | TikTokExport.CorrectedHeadingKeepsYear |

=== FILE: action_factory.dfy ===
/** The action registry of the radial menu (`ActionFactory`): a map from action
    id to the constructor of that action's item. Each constructor places its item
    relative to the press point with a fixed size and a default payload. The
    clock, the id generator, `Math.random` and the file picker are inputs. */
module ActionFactory {
  import opened Wrappers
  import opened Items
  import Json
  import Civil
  import MenuController

  /** The built-in constructors `registerDefaultActions` installs. */
  datatype Builder = NoteBuilder | PhotoBuilder | AudioBuilder | VideoBuilder | TodosBuilder
                   | TimerBuilder | EmailBuilder | ThaiBuilder | AiBuilder

  type Registry = map<string, Builder>

  /** A Thai word card: the script, the English gloss and the pronunciation. */
  datatype ThaiWord = ThaiWord(thai: string, english: string, pronunciation: string)

  /** What a constructor takes from the world: the generated id, `Date.now()`,
      today's date, one `Math.random()` draw for the shade, another for the Thai
      word, and the picked photo as a data URL (`None` when the picker returns
      no file). */
  datatype World = World(id: string, now: int, today: Civil.Date, random: real, wordDraw: real, photo: Option<string>)

  predicate ValidWorld(w: World) {
    0.0 <= w.random < 1.0 && 0.0 <= w.wordDraw < 1.0
  }

  /** The Thai action's three word cards. The Thai script and the accented
      pronunciations are held exactly as the source file spells them, an UTF-8
      text read back as Windows-1252, so the Thai line shows those characters. */
  const Words: seq<ThaiWord> := [
    ThaiWord("\U{E0}\U{B8}\U{AA}\U{E0}\U{B8}\U{A7}\U{E0}\U{B8}\U{B1}\U{E0}\U{B8}\U{AA}\U{E0}\U{B8}\U{201D}\U{E0}\U{B8}\U{B5}",
             "Hello", "saw\U{C3}\U{A0}tdii"),
    ThaiWord("\U{E0}\U{B8}\U{201A}\U{E0}\U{B8}\U{AD}\U{E0}\U{B8}\U{161}\U{E0}\U{B8}\U{201E}\U{E0}\U{B8}\U{B8}\U{E0}\U{B8}\U{201C}",
             "Thank you", "kh\U{C9}\U{201D}\U{CC}\U{20AC}\U{C9}\U{201D}p khun"),
    ThaiWord("\U{E0}\U{B9}\U{201E}\U{E0}\U{B8}\U{A1}\U{E0}\U{B9}\U{2C6}\U{E0}\U{B9}\U{20AC}\U{E0}\U{B8}\U{203A}\U{E0}\U{B9}\U{2021}\U{E0}\U{B8}\U{2122}\U{E0}\U{B9}\U{201E}\U{E0}\U{B8}\U{A3}",
             "Never mind", "m\U{C3}\U{A2}i pen rai")]

  /** `words[Math.floor(Math.random() * words.length)]`: one of the three cards. */
  function PickWord(draw: real): (t: ThaiWord)
    requires 0.0 <= draw < 1.0
    ensures t in Words
    ensures t.english in {"Hello", "Thank you", "Never mind"}
  {
    var k := (draw * 3.0).Floor;
    Words[k]
  }

  /** Each card is drawn by exactly a third of the draws: the k-th card by the
      draws from k/3 up to (k+1)/3. */
  lemma WordBands(draw: real, k: nat)
    requires 0.0 <= draw < 1.0 && k < |Words|
    ensures PickWord(draw) == Words[k] <==> k as real <= draw * 3.0 < (k + 1) as real
  {
  }

  /** The address the email action opens: a new message with the subject
      filled in and an empty body. */
  const MailTo: string := "mailto:?subject=Journal Entry&body="

  const Defaults: Registry := map[
    "note" := NoteBuilder, "photo" := PhotoBuilder, "audio" := AudioBuilder, "video" := VideoBuilder,
    "todos" := TodosBuilder, "timer" := TimerBuilder, "email" := EmailBuilder, "thai" := ThaiBuilder,
    "ai" := AiBuilder]

  /** `register(type, factory)`. */
  function Register(reg: Registry, kind: string, b: Builder): (r: Registry)
    ensures kind in r && r[kind] == b
    ensures forall k | k in reg && k != kind :: k in r && r[k] == reg[k]
    ensures r.Keys == reg.Keys + {kind}
  {
    reg[kind := b]
  }

  /** The payload of a new todo list: one task, not done. */
  const TodosPayload: Json.Value :=
    Json.Arr([Json.Obj([Json.Field("text", Json.Str("New task")), Json.Field("done", Json.Bool(false))])])

  const TimerSeconds: int := 25 * 60

  /** The payload of a new timer: the full 25 minutes left, not running. */
  const TimerPayload: Json.Value :=
    Json.Obj([Json.Field("duration", Json.Num(TimerSeconds)), Json.Field("remaining", Json.Num(TimerSeconds)),
              Json.Field("isRunning", Json.Bool(false))])

  function WordPayload(w: ThaiWord): Json.Value {
    Json.Obj([Json.Field("thai", Json.Str(w.thai)), Json.Field("english", Json.Str(w.english)),
              Json.Field("pronunciation", Json.Str(w.pronunciation))])
  }

  /** `Math.floor(Math.random() * 5) + 1`. */
  function Shade(random: real): (s: int)
    requires 0.0 <= random < 1.0
    ensures 1 <= s <= 5
    ensures (s - 1) as real <= random * 5.0 < s as real
  {
    (random * 5.0).Floor + 1
  }

  /** `options.date || getCurrentDateKey()`: an empty or missing date takes
      today's key. */
  function DateOr(date: string, today: Civil.Date): (d: string)
    ensures date != "" ==> d == date
    ensures date == "" ==> d == Civil.DayKey(today)
  {
    if date != "" then date else Civil.DayKey(today)
  }

  /** The offset from the press point to the item's corner and the item's size. */
  datatype Box = Box(dx: int, dy: int, width: int, height: int)

  function Shaped(kind: string, content: string, at: Box, x: int, y: int, date: string, w: World, shaded: bool): Item
    requires ValidWorld(w)
  {
    Item(w.id, kind, content, x - at.dx, y - at.dy, at.width, at.height,
         if shaded then Some(Shade(w.random)) else None, DateOr(date, w.today), w.now)
  }

  /** The item type each constructor produces. */
  function KindOf(b: Builder): string {
    match b
    case NoteBuilder => "note"
    case PhotoBuilder => "photo"
    case AudioBuilder => "audio"
    case VideoBuilder => "video"
    case TodosBuilder => "todos"
    case TimerBuilder => "timer"
    case EmailBuilder => "email"
    case ThaiBuilder => "thai"
    case AiBuilder => "ai"
  }

  /** The page a constructor opens in a new window: only the email action
      opens one, its mail address. */
  function Opens(b: Builder): (u: Option<string>)
    ensures u.Some? <==> b.EmailBuilder?
    ensures u.Some? ==> u.value == MailTo
  {
    match b
    case EmailBuilder => Some(MailTo)
    case _ => None
  }

  /** One constructor's item. `None` is the `null` of the email action, which
      opens `Opens(b)` instead, and of a photo picker closed without a file. */
  function Build(b: Builder, x: int, y: int, date: string, w: World): (r: Option<Item>)
    requires ValidWorld(w)
    ensures r.None? <==> b.EmailBuilder? || (b.PhotoBuilder? && w.photo.None?)
    ensures b.ThaiBuilder? ==> r.value.content == Json.Stringify(WordPayload(PickWord(w.wordDraw))).value
    ensures b.ThaiBuilder? ==> exists k | 0 <= k < |Words| :: r.value.content == Json.Stringify(WordPayload(Words[k])).value
    ensures r.Some? ==> r.value.kind == KindOf(b)
    ensures r.Some? ==> r.value.id == w.id && r.value.timestamp == w.now && r.value.date == DateOr(date, w.today)
    ensures r.Some? ==> (r.value.shade.Some? <==> b in {NoteBuilder, TodosBuilder, ThaiBuilder, AiBuilder})
    ensures r.Some? && r.value.shade.Some? ==> 1 <= r.value.shade.value <= 5
    ensures r.Some? ==> r.value.x <= x <= r.value.x + r.value.width && r.value.y <= y <= r.value.y + r.value.height
  {
    match b
    case NoteBuilder => Some(Shaped("note", "", Box(50, 50, 200, 150), x, y, date, w, true))
    case PhotoBuilder =>
      if w.photo.None? then None
      else Some(Shaped("photo", w.photo.value, Box(75, 75, 150, 150), x, y, date, w, false))
    case AudioBuilder => Some(Shaped("audio", "", Box(75, 50, 150, 100), x, y, date, w, false))
    case VideoBuilder => Some(Shaped("video", "", Box(75, 50, 150, 100), x, y, date, w, false))
    case TodosBuilder =>
      Some(Shaped("todos", Json.Stringify(TodosPayload).value, Box(75, 50, 250, 200), x, y, date, w, true))
    case TimerBuilder =>
      Some(Shaped("timer", Json.Stringify(TimerPayload).value, Box(60, 60, 120, 120), x, y, date, w, false))
    case EmailBuilder => None
    case ThaiBuilder =>
      Some(Shaped("thai", Json.Stringify(WordPayload(PickWord(w.wordDraw))).value, Box(100, 50, 200, 100), x, y, date, w, true))
    case AiBuilder => Some(Shaped("ai", "Ask me anything...", Box(100, 75, 250, 150), x, y, date, w, true))
  }

  /** `create(type, x, y, options)`: an unregistered type throws. */
  function Create(reg: Registry, kind: string, x: int, y: int, date: string, w: World): (r: Result<Option<Item>, string>)
    requires ValidWorld(w)
    ensures r.Failure? <==> kind !in reg
    ensures r.Failure? ==> r.error == "Unknown action type: " + kind
    ensures r.Success? ==> r.value == Build(reg[kind], x, y, date, w)
  {
    if kind !in reg then Failure("Unknown action type: " + kind) else Success(Build(reg[kind], x, y, date, w))
  }

  /** The default registrations are exactly the menu's action ids. */
  lemma DefaultsMatchMenu()
    ensures Defaults.Keys == set a | a in MenuController.Actions
    ensures forall i | 0 <= i < |MenuController.Actions| :: MenuController.Actions[i] in Defaults
  {
    assert MenuController.Actions == ["note", "photo", "audio", "video", "todos", "timer", "email", "thai", "ai"];
  }

  /** Every default action id builds an item of that kind, except email, which
      builds nothing. */
  lemma DefaultKinds(kind: string, x: int, y: int, date: string, w: World)
    requires ValidWorld(w) && kind in Defaults && kind != "email" && (kind == "photo" ==> w.photo.Some?)
    ensures var r := Create(Defaults, kind, x, y, date, w);
            r.Success? && r.value.Some? && r.value.value.kind == kind
  {
    assert KindOf(Defaults[kind]) == kind;
  }

  /** A registration replaces the constructor an id had, and leaves the others. */
  lemma RegisterOverwrites(reg: Registry, kind: string, b: Builder, other: string, x: int, y: int, date: string, w: World)
    requires ValidWorld(w) && other != kind
    ensures Create(Register(reg, kind, b), kind, x, y, date, w) == Success(Build(b, x, y, date, w))
    ensures Create(Register(reg, kind, b), other, x, y, date, w) == Create(reg, other, x, y, date, w)
  {
  }

  /** The default geometry, as offsets from the press point and sizes. */
  lemma DefaultGeometry(x: int, y: int, date: string, w: World)
    requires ValidWorld(w) && w.photo.Some?
    ensures var n := Build(NoteBuilder, x, y, date, w).value;
            (n.x, n.y, n.width, n.height) == (x - 50, y - 50, 200, 150)
    ensures var p := Build(PhotoBuilder, x, y, date, w).value;
            (p.x, p.y, p.width, p.height) == (x - 75, y - 75, 150, 150)
    ensures var a := Build(AudioBuilder, x, y, date, w).value;
            var v := Build(VideoBuilder, x, y, date, w).value;
            (a.x, a.y, a.width, a.height) == (v.x, v.y, v.width, v.height) == (x - 75, y - 50, 150, 100)
    ensures var t := Build(TodosBuilder, x, y, date, w).value;
            (t.x, t.y, t.width, t.height) == (x - 75, y - 50, 250, 200)
    ensures var t := Build(TimerBuilder, x, y, date, w).value;
            (t.x, t.y, t.width, t.height) == (x - 60, y - 60, 120, 120)
    ensures var t := Build(ThaiBuilder, x, y, date, w).value;
            (t.x, t.y, t.width, t.height) == (x - 100, y - 50, 200, 100)
    ensures var a := Build(AiBuilder, x, y, date, w).value;
            (a.x, a.y, a.width, a.height) == (x - 100, y - 75, 250, 150)
  {
  }

  /** Photo, audio, video, timer and Thai items are centred on the press point. */
  lemma CentredKinds(b: Builder, x: int, y: int, date: string, w: World)
    requires ValidWorld(w) && b in {PhotoBuilder, AudioBuilder, VideoBuilder, TimerBuilder, ThaiBuilder}
    requires Build(b, x, y, date, w).Some?
    ensures var it := Build(b, x, y, date, w).value;
            2 * (x - it.x) == it.width && 2 * (y - it.y) == it.height
  {
  }

  /** Every constructor acts: it builds an item or opens a page, never both,
      except the photo constructor when the picker returns no file. */
  lemma EachBuilderActs(b: Builder, x: int, y: int, date: string, w: World)
    requires ValidWorld(w)
    ensures Build(b, x, y, date, w).Some? ==> Opens(b).None?
    ensures Build(b, x, y, date, w).None? && Opens(b).None? <==> b.PhotoBuilder? && w.photo.None?
    ensures Opens(b) == Some(MailTo) <==> b.EmailBuilder?
  {
  }

  /** Every created item has a date, so storing it never fills one in. */
  lemma CreatedItemsHaveDates(reg: Registry, kind: string, x: int, y: int, date: string, w: World)
    requires ValidWorld(w)
    requires Create(reg, kind, x, y, date, w).Success? && Create(reg, kind, x, y, date, w).value.Some?
    ensures Create(reg, kind, x, y, date, w).value.value.date != ""
  {
  }
}

=== FILE: calendar_cells.dfy ===
/** The cell models the two `UIRenderer` generations (and the first app's own
    `renderYear`) derive before writing any HTML: the seven days of a week, the
    42-cell Sunday-start month grid with its other-month flags, media slots and
    indicator dots, the days of a year, and the header titles. */
module CalendarCells {
  import opened Civil
  import opened Notes
  import Text
  import Helpers
  import Seqs
  import CalendarNavigator

  /** `isSameDay(a, b)`: same day of month, month and full year. */
  predicate IsSameDay(a: Date, b: Date) {
    a.day == b.day && a.month == b.month && a.year == b.year
  }

  lemma IsSameDayIsEquality(a: Date, b: Date)
    ensures IsSameDay(a, b) <==> a == b
    ensures IsSameDay(a, b) == IsSameDay(b, a) && IsSameDay(a, a)
  {
  }

  const ShortMonthNames: seq<string> := ["Jan", "Feb", "Mar", "Apr", "May", "Jun", "Jul", "Aug", "Sep", "Oct", "Nov", "Dec"]

  datatype Level = Day | Week | Month | Year

  /** The header text each render writes: empty for a day, `YYYY Mon` of the week
      start or of the shown month, `YYYY` for a year. */
  function HeaderTitle(level: Level, d: Date): (t: string)
    requires Valid(d)
    ensures level == Day <==> t == ""
    ensures level == Year ==> t == Text.IntToString(d.year)
    ensures level == Week || level == Month ==>
      t == Text.IntToString(d.year) + " " + ShortMonthNames[d.month - 1] && |t| >= 5
  {
    match level
    case Day => ""
    case Week | Month => Text.IntToString(d.year) + " " + ShortMonthNames[d.month - 1]
    case Year => Text.IntToString(d.year)
  }

  /** A week column: the date and whether it is marked `current`. */
  datatype WeekCell = WeekCell(date: Date, current: bool)

  /** `renderWeek(currentWeekStart, currentDate)`: seven consecutive days, a day being
      current when it is today or the current date. */
  function WeekCells(weekStart: Date, currentDate: Date, today: Date): (r: seq<WeekCell>)
    requires Valid(weekStart)
    ensures |r| == 7
    ensures forall i :: 0 <= i < 7 ==> Valid(r[i].date) && Serial(r[i].date) == Serial(weekStart) + i
    ensures forall i :: 0 <= i < 7 ==> (r[i].current <==> r[i].date == today || r[i].date == currentDate)
  {
    seq(7, i requires 0 <= i < 7 =>
      var day := Helpers.StepFrom(weekStart, i);
      WeekCell(day, IsSameDay(day, today) || IsSameDay(day, currentDate)))
  }

  /** A current date inside the shown week is exactly one of its cells, and that
      cell is marked; no other cell shows that date. */
  lemma WeekCellsShowCurrent(weekStart: Date, currentDate: Date, today: Date)
    requires Valid(weekStart) && Valid(currentDate)
    requires Serial(weekStart) <= Serial(currentDate) < Serial(weekStart) + 7
    ensures var r := WeekCells(weekStart, currentDate, today);
            var k := Serial(currentDate) - Serial(weekStart);
            r[k].date == currentDate && r[k].current &&
            forall i :: 0 <= i < 7 && i != k ==> r[i].date != currentDate
  {
    var r := WeekCells(weekStart, currentDate, today);
    var k := Serial(currentDate) - Serial(weekStart);
    SerialInjective(r[k].date, currentDate);
  }

  /** The notes of `ns` whose kind is among `kinds`, in order. */
  function OfKinds(ns: seq<Note>, kinds: set<string>): (r: seq<Note>)
    ensures |r| <= |ns|
    decreases |ns|
  {
    if |ns| == 0 then []
    else OfKinds(ns[..|ns| - 1], kinds) + (if ns[|ns| - 1].kind in kinds then [ns[|ns| - 1]] else [])
  }

  /** Filtering keeps exactly the notes of the chosen kinds. */
  lemma {:induction false} OfKindsMembers(ns: seq<Note>, kinds: set<string>)
    ensures forall n :: n in OfKinds(ns, kinds) <==> n in ns && n.kind in kinds
    decreases |ns|
  {
    if |ns| > 0 {
      OfKindsMembers(ns[..|ns| - 1], kinds);
      assert ns == ns[..|ns| - 1] + [ns[|ns| - 1]];
    }
  }

  /** The media squares of a week column: up to two text notes above the day,
      up to two photo or audio notes below it, each the first ones in order. */
  datatype MediaSlots = MediaSlots(above: seq<Note>, below: seq<Note>)

  function WeekMedia(dayNotes: seq<Note>): (m: MediaSlots)
    ensures |m.above| <= 2 && |m.below| <= 2
    ensures forall n :: n in m.above ==> n in dayNotes && n.kind == "text"
    ensures forall n :: n in m.below ==> n in dayNotes && (n.kind == "image" || n.kind == "audio")
    ensures m.above == Seqs.Take(OfKinds(dayNotes, {"text"}), 2)
    ensures m.below == Seqs.Take(OfKinds(dayNotes, {"image", "audio"}), 2)
  {
    OfKindsMembers(dayNotes, {"text"});
    OfKindsMembers(dayNotes, {"image", "audio"});
    MediaSlots(Seqs.Take(OfKinds(dayNotes, {"text"}), 2), Seqs.Take(OfKinds(dayNotes, {"image", "audio"}), 2))
  }

  /** A month grid cell: the date, the `other-month` flag and the `current` (today) flag. */
  datatype MonthCell = MonthCell(date: Date, otherMonth: bool, today: bool)

  /** The first cell of the grid: `new Date(y, m, 1)`, moved back by its weekday,
      so the Sunday on or before the first. */
  function SundayGridStart(shown: Date): (s: Date)
    requires Valid(shown)
    ensures var first := NewDate(shown.year, shown.month - 1, 1);
            Valid(s) && Weekday(s) == 0 && Serial(first) - 6 <= Serial(s) <= Serial(first)
  {
    CalendarNavigator.GetWeekStart(NewDate(shown.year, shown.month - 1, 1))
  }

  /** `renderMonth(currentMonth)`: 42 consecutive cells; a cell is other-month when
      its month number differs from the shown one (the year is not compared). */
  function MonthCells(shown: Date, today: Date): (r: seq<MonthCell>)
    requires Valid(shown)
    ensures |r| == 42
    ensures forall i :: 0 <= i < 42 ==> r[i].date == AddDays(SundayGridStart(shown), i)
    ensures forall i :: 0 <= i < 42 ==> (r[i].otherMonth <==> r[i].date.month != shown.month)
    ensures forall i :: 0 <= i < 42 ==> (r[i].today <==> r[i].date == today)
  {
    var s := SundayGridStart(shown);
    seq(42, i requires 0 <= i < 42 =>
      var day := Helpers.StepFrom(s, i);
      MonthCell(day, day.month != shown.month, IsSameDay(day, today)))
  }

  /** A cell showing the shown month's number lies in the shown year. */
  lemma MonthCellYear(shown: Date, today: Date, i: int)
    requires Valid(shown) && !(0 <= shown.year <= 99) && 0 <= i < 42
    requires MonthCells(shown, today)[i].date.month == shown.month
    ensures MonthCells(shown, today)[i].date.year == shown.year
  {
    var first := Date(shown.year, shown.month, 1);
    var s := SundayGridStart(shown);
    GridStartNearFirst(shown);
    var c := MonthCells(shown, today)[i].date;
    assert c == AddDays(s, i);
    Helpers.GridCellInMonth(first, s, c, i);
  }

  /** For years `new Date` takes literally, the grid starts 0..6 days before the
      first of the shown month. */
  lemma GridStartNearFirst(shown: Date)
    requires Valid(shown) && !(0 <= shown.year <= 99)
    ensures var first := Date(shown.year, shown.month, 1);
            Valid(first) && Serial(first) - 6 <= Serial(SundayGridStart(shown)) <= Serial(first)
  {
    MakeDayInRange(shown.year, shown.month, 1);
  }

  /** Day `day` of the shown month sits in cell (offset of the first) + day - 1. */
  lemma MonthCellOfDay(shown: Date, today: Date, day: int)
    requires Valid(shown) && !(0 <= shown.year <= 99) && 1 <= day <= DaysInMonth(shown.year, shown.month)
    ensures exists i :: 0 <= i < 42 && MonthCells(shown, today)[i].date == Date(shown.year, shown.month, day)
  {
    GridStartNearFirst(shown);
    var i := Helpers.GridDayIndex(Date(shown.year, shown.month, 1), SundayGridStart(shown), day);
    assert MonthCells(shown, today)[i].date == Date(shown.year, shown.month, day);
  }

  /** For years `new Date` takes literally, the cells not flagged other-month are
      exactly the days of the shown month, and every day of it has a cell. */
  lemma MonthCellsExact(shown: Date, today: Date)
    requires Valid(shown) && !(0 <= shown.year <= 99)
    ensures forall i :: 0 <= i < 42 ==>
      (!MonthCells(shown, today)[i].otherMonth <==>
        MonthCells(shown, today)[i].date.year == shown.year && MonthCells(shown, today)[i].date.month == shown.month)
    ensures forall day :: 1 <= day <= DaysInMonth(shown.year, shown.month) ==>
      exists i :: 0 <= i < 42 && MonthCells(shown, today)[i].date == Date(shown.year, shown.month, day)
  {
    var r := MonthCells(shown, today);
    forall i | 0 <= i < 42 && r[i].date.month == shown.month
      ensures r[i].date.year == shown.year
    {
      MonthCellYear(shown, today, i);
    }
    forall day | 1 <= day <= DaysInMonth(shown.year, shown.month)
      ensures exists i :: 0 <= i < 42 && r[i].date == Date(shown.year, shown.month, day)
    {
      MonthCellOfDay(shown, today, day);
    }
  }

  /** Only cells of the shown month get a click handler. */
  predicate Clickable(c: MonthCell) {
    !c.otherMonth
  }

  /** The indicator kinds, in the order the dots are drawn. */
  const IndicatorKinds: seq<string> := ["text", "image", "audio", "verse"]

  predicate HasKind(ns: seq<Note>, kind: string) {
    exists j :: 0 <= j < |ns| && ns[j].kind == kind
  }

  function KindsPresent(ns: seq<Note>, kinds: seq<string>): (r: seq<string>)
    ensures |r| <= |kinds|
    ensures forall t :: t in r <==> t in kinds && HasKind(ns, t)
  {
    if |kinds| == 0 then []
    else (if HasKind(ns, kinds[0]) then [kinds[0]] else []) + KindsPresent(ns, kinds[1..])
  }

  /** The dots of a month cell: none on other-month cells and on days without
      notes; otherwise one per indicator kind present among the day's notes, in
      the fixed order text, image, audio, verse. */
  function Indicators(c: MonthCell, dayNotes: seq<Note>): (r: seq<string>)
    ensures c.otherMonth || |dayNotes| == 0 ==> r == []
    ensures |r| <= 4
    ensures forall t :: t in r <==> !c.otherMonth && t in IndicatorKinds && HasKind(dayNotes, t)
  {
    if c.otherMonth || |dayNotes| == 0 then [] else KindsPresent(dayNotes, IndicatorKinds)
  }

  /** A kind present in the tail's dots sits after the head in `kinds`. */
  lemma InTailIsLater(ns: seq<Note>, kinds: seq<string>, t: string)
    requires |kinds| > 0 && t in KindsPresent(ns, kinds[1..])
    ensures exists b :: 1 <= b < |kinds| && kinds[b] == t
  {
    var b :| 0 <= b < |kinds[1..]| && kinds[1..][b] == t;
    assert kinds[b + 1] == t;
  }

  /** The dots keep the fixed order: any two of them appear in that order in `kinds`. */
  lemma {:induction false} KindsPresentOrdered(ns: seq<Note>, kinds: seq<string>, i: int, j: int)
    requires 0 <= i < j < |KindsPresent(ns, kinds)|
    ensures exists a, b :: 0 <= a < b < |kinds| && kinds[a] == KindsPresent(ns, kinds)[i] && kinds[b] == KindsPresent(ns, kinds)[j]
    decreases |kinds|
  {
    var r := KindsPresent(ns, kinds);
    var tail := KindsPresent(ns, kinds[1..]);
    var shift := if HasKind(ns, kinds[0]) then 1 else 0;
    assert r == (if HasKind(ns, kinds[0]) then [kinds[0]] else []) + tail;
    if shift == 1 && i == 0 {
      InTailIsLater(ns, kinds, r[j]);
    } else {
      KindsPresentOrdered(ns, kinds[1..], i - shift, j - shift);
      OrderedInTail(kinds, tail[i - shift], tail[j - shift]);
    }
  }

  /** Two entries in order in the tail are in order in the whole. */
  lemma OrderedInTail(kinds: seq<string>, x: string, y: string)
    requires |kinds| > 0
    requires exists a, b :: 0 <= a < b < |kinds[1..]| && kinds[1..][a] == x && kinds[1..][b] == y
    ensures exists a, b :: 0 <= a < b < |kinds| && kinds[a] == x && kinds[b] == y
  {
    var a, b :| 0 <= a < b < |kinds[1..]| && kinds[1..][a] == x && kinds[1..][b] == y;
    assert kinds[a + 1] == x && kinds[b + 1] == y;
  }

  /** A year cell: the date and its `current` (today) flag. */
  datatype YearCell = YearCell(date: Date, today: bool)

  /** `new Date(year, 0, 1 + i)`: day i of the year, counting 1 January as day 0. */
  function YearDay(year: int, i: int): (d: Date)
    ensures Valid(d) && d == NewDate(year, 0, 1 + i)
  {
    NewDate(year, 0, 1 + i)
  }

  /** `renderYear(currentYear)`: 366 cells when the year passes the Gregorian leap
      test and 365 otherwise, cell i being `new Date(year, 0, 1 + i)`. */
  function YearCells(year: int, today: Date): (r: seq<YearCell>)
    ensures |r| == DaysInYear(year)
    ensures forall i :: 0 <= i < |r| ==> r[i].date == YearDay(year, i)
    ensures forall i :: 0 <= i < |r| ==> r[i].today == IsSameDay(r[i].date, today)
  {
    var n := if (year % 4 == 0 && year % 100 != 0) || year % 400 == 0 then 366 else 365;
    seq(n, i requires 0 <= i < n => YearCell(YearDay(year, i), IsSameDay(YearDay(year, i), today)))
  }

  /** Cell i lies i days after 1 January of the year `new Date` reads the year as. */
  lemma YearCellSerial(year: int, today: Date, i: int)
    requires 0 <= i < DaysInYear(year)
    ensures var y := if 0 <= year <= 99 then 1900 + year else year;
            Serial(YearCells(year, today)[i].date) == DaysBeforeYear(y) + i
  {
    var y := if 0 <= year <= 99 then 1900 + year else year;
    assert Serial(Date(y, 1, 1)) == DaysBeforeYear(y);
  }

  /** For years `new Date` takes literally, the cells are the days of the year in
      order, and every day of the year has its cell. */
  lemma YearCellsCoverYear(year: int, today: Date)
    requires !(0 <= year <= 99)
    ensures var r := YearCells(year, today);
            (forall i :: 0 <= i < |r| ==> r[i].date.year == year && Serial(r[i].date) == DaysBeforeYear(year) + i) &&
            (forall d :: Valid(d) && d.year == year ==> exists i :: 0 <= i < |r| && r[i].date == d)
  {
    var r := YearCells(year, today);
    YearLength(year);
    forall i | 0 <= i < |r|
      ensures r[i].date.year == year && Serial(r[i].date) == DaysBeforeYear(year) + i
    {
      YearCellSerial(year, today, i);
      YearOfSerial(r[i].date, year);
    }
    forall d | Valid(d) && d.year == year
      ensures exists i :: 0 <= i < |r| && r[i].date == d
    {
      var i := Serial(d) - DaysBeforeYear(year);
      YearCellSerial(year, today, i);
      SerialInjective(r[i].date, d);
    }
  }

  /** For a two-digit year the cells are days of 1900 + year while their number
      follows the leap test on the year as given: for year 0 that is 366 cells
      although 1900 has 365 days, so the last cell falls on 1 January 1901. */
  lemma YearCellsTwoDigitYear(year: int, today: Date)
    requires 0 <= year <= 99
    ensures var r := YearCells(year, today);
            (forall i :: 0 <= i < |r| ==> Serial(r[i].date) == DaysBeforeYear(1900 + year) + i) &&
            (year == 0 ==> |r| == DaysInYear(1900 + year) + 1)
  {
    var r := YearCells(year, today);
    forall i | 0 <= i < |r|
      ensures Serial(r[i].date) == DaysBeforeYear(1900 + year) + i
    {
      YearCellSerial(year, today, i);
    }
  }
}

=== FILE: calendar_navigator.dfy ===
/** The coordinator of the second journal generation (`CalendarNavigator`): one
    cursor per view level (the day, the Sunday that starts the shown week, the
    shown month, the shown year), moved by swipes and zooms; the note lookup by
    id; and the verse of the day, added to a day that has none. */
module CalendarNavigator {
  import opened Civil
  import opened Wrappers
  import opened Notes
  import NoteManager
  import TouchHandler
  import Json

  datatype Level = Day | Week | Month | Year

  /** `currentDate`, `level`, `currentWeekStart`, `currentMonth`, `currentYear`;
      the three coarse cursors start out `null`. */
  datatype Cursor = Cursor(currentDate: Date, level: Level, weekStart: Option<Date>, month: Option<Date>, year: Option<Date>)

  predicate ValidOpt(d: Option<Date>) {
    d.Some? ==> Valid(d.value)
  }

  /** Every cursor holds a real date, and the cursor of the shown level is set. */
  predicate Inv(c: Cursor) {
    Valid(c.currentDate) && ValidOpt(c.weekStart) && ValidOpt(c.month) && ValidOpt(c.year) &&
    (c.level == Week ==> c.weekStart.Some?) &&
    (c.level == Month ==> c.month.Some?) &&
    (c.level == Year ==> c.year.Some?)
  }

  function Init(today: Date): (c: Cursor)
    requires Valid(today)
    ensures Inv(c)
  {
    Cursor(today, Day, None, None, None)
  }

  /** `getWeekStart(date)`: `setDate(getDate() - getDay())`, the Sunday on or before
      the date. */
  function GetWeekStart(d: Date): (r: Date)
    requires Valid(d)
    ensures r == AddDays(d, -Weekday(d))
    ensures Valid(r) && Weekday(r) == 0
    ensures Serial(r) <= Serial(d) < Serial(r) + 7
  {
    var k := -Weekday(d);
    SetDateRelative(d, k);
    SundayOnOrBefore(d);
    assert SetDate(d, d.day + k) == AddDays(d, k);
    SetDate(d, d.day + k)
  }

  lemma SundayOnOrBefore(d: Date)
    requires Valid(d)
    ensures Weekday(AddDays(d, -Weekday(d))) == 0
  {
    WeekdayAddDays(d, -Weekday(d));
  }

  /** One period step of the shown level's cursor; `delta` is 1 forward, -1 back. */
  function Navigate(c: Cursor, delta: int): (r: Cursor)
    requires Inv(c)
    ensures Inv(r) && r.level == c.level
    ensures c.level == Day ==> r == c.(currentDate := AddDays(c.currentDate, delta))
    ensures c.level == Week ==> r == c.(weekStart := Some(AddDays(c.weekStart.value, 7 * delta)))
    ensures c.level == Month ==> r == c.(month := Some(CarriedDate(c.month.value.year, c.month.value.month - 1 + delta, c.month.value.day)))
    ensures c.level == Year ==> r.currentDate == c.currentDate && r.weekStart == c.weekStart && r.month == c.month &&
                                r.year.Some? && r.year.value.year == c.year.value.year + delta
  {
    match c.level
    case Day => c.(currentDate := DayStep(c.currentDate, delta))
    case Week => c.(weekStart := Some(WeekStep(c.weekStart.value, delta)))
    case Month => c.(month := Some(MonthStep(c.month.value, delta)))
    case Year => c.(year := Some(YearStep(c.year.value, delta)))
  }

  /** `navigateForward()`. */
  function NavigateForward(c: Cursor): (r: Cursor)
    requires Inv(c)
    ensures Inv(r) && r == Navigate(c, 1)
  {
    Navigate(c, 1)
  }

  /** `navigateBackward()`. */
  function NavigateBackward(c: Cursor): (r: Cursor)
    requires Inv(c)
    ensures Inv(r) && r == Navigate(c, -1)
  {
    Navigate(c, -1)
  }

  /** `zoomOut()`: day to week at the Sunday of the current date's week, week to
      month at a copy of the week start, month to year at a copy of the month;
      nothing at year. */
  function ZoomOut(c: Cursor): (r: Cursor)
    requires Inv(c)
    ensures Inv(r) && r.currentDate == c.currentDate
    ensures c.level == Day ==> r == c.(level := Week, weekStart := Some(GetWeekStart(c.currentDate)))
    ensures c.level == Week ==> r == c.(level := Month, month := c.weekStart)
    ensures c.level == Month ==> r == c.(level := Year, year := c.month)
    ensures c.level == Year ==> r == c
  {
    match c.level
    case Day => c.(level := Week, weekStart := Some(GetWeekStart(c.currentDate)))
    case Week => c.(level := Month, month := c.weekStart)
    case Month => c.(level := Year, year := c.month)
    case Year => c
  }

  /** `zoomIn()`: week to day with the current date untouched, month to week at the
      Sunday of the shown month's cursor, year to month at a copy of the year;
      nothing at day. */
  function ZoomIn(c: Cursor): (r: Cursor)
    requires Inv(c)
    ensures Inv(r) && r.currentDate == c.currentDate
    ensures c.level == Week ==> r == c.(level := Day)
    ensures c.level == Month ==> r == c.(level := Week, weekStart := Some(GetWeekStart(c.month.value)))
    ensures c.level == Year ==> r == c.(level := Month, month := c.year)
    ensures c.level == Day ==> r == c
  {
    match c.level
    case Day => c
    case Week => c.(level := Day)
    case Month => c.(level := Week, weekStart := Some(GetWeekStart(c.month.value)))
    case Year => c.(level := Month, month := c.year)
  }

  /** `jumpToDate(date)`: that day, in day view. */
  function JumpToDate(c: Cursor, d: Date): (r: Cursor)
    requires Inv(c) && Valid(d)
    ensures Inv(r) && r.currentDate == d && r.level == Day
    ensures r.weekStart == c.weekStart && r.month == c.month && r.year == c.year
  {
    c.(currentDate := d, level := Day)
  }

  /** The touch wiring: up steps forward, down back, left zooms out, right zooms in. */
  function OnSwipe(c: Cursor, d: TouchHandler.Direction): (r: Cursor)
    requires Inv(c)
    ensures Inv(r)
    ensures d == TouchHandler.Up ==> r == NavigateForward(c)
    ensures d == TouchHandler.Down ==> r == NavigateBackward(c)
    ensures d == TouchHandler.Left ==> r == ZoomOut(c)
    ensures d == TouchHandler.Right ==> r == ZoomIn(c)
  {
    match d
    case Up => NavigateForward(c)
    case Down => NavigateBackward(c)
    case Left => ZoomOut(c)
    case Right => ZoomIn(c)
  }

  /** Week swipes: `true` steps forward, `false` back. */
  function WeekSwipes(c: Cursor, forward: seq<bool>): (r: Cursor)
    requires Inv(c)
    ensures Inv(r)
    decreases |forward|
  {
    if |forward| == 0 then c
    else
      var c' := WeekSwipes(c, forward[..|forward| - 1]);
      if forward[|forward| - 1] then NavigateForward(c') else NavigateBackward(c')
  }

  /** Week steps move only the week cursor. */
  lemma {:induction false} WeekSwipesKeepDate(c: Cursor, forward: seq<bool>)
    requires Inv(c) && c.level == Week
    ensures WeekSwipes(c, forward).level == Week
    ensures WeekSwipes(c, forward).currentDate == c.currentDate
    decreases |forward|
  {
    if |forward| > 0 {
      WeekSwipesKeepDate(c, forward[..|forward| - 1]);
    }
  }

  /** Out to the week, any number of week steps, and back in: the day shown before
      zooming out is shown again. */
  lemma OutWeeksInReturns(c: Cursor, forward: seq<bool>)
    requires Inv(c) && c.level == Day
    ensures var w := WeekSwipes(ZoomOut(c), forward);
            ZoomIn(w).level == Day && ZoomIn(w).currentDate == c.currentDate
  {
    WeekSwipesKeepDate(ZoomOut(c), forward);
  }

  /** The Sunday starting a date's week lies in the date's own month exactly when
      the day of the month exceeds the weekday number (0 for Sunday). */
  lemma WeekStartSameMonth(d: Date)
    requires Valid(d)
    ensures var m := GetWeekStart(d);
            m == AddDays(d, -Weekday(d)) &&
            (m.year == d.year && m.month == d.month <==> d.day > Weekday(d))
  {
    var w := Weekday(d);
    var m := GetWeekStart(d);
    if d.day > w {
      var same := Date(d.year, d.month, d.day - w);
      assert Serial(same) == Serial(d) - w;
      SerialInjective(m, same);
    } else {
      var first := Date(d.year, d.month, 1);
      assert Serial(first) == Serial(d) - d.day + 1;
      SerialOrder(m, first);
    }
  }

  /** Zooming out from day twice shows the month of the Sunday that starts the
      week, which is the month before the current date's whenever that Sunday
      falls before the 1st. */
  lemma DayWeekMonthShowsSundaysMonth(c: Cursor)
    requires Inv(c) && c.level == Day
    ensures var m := ZoomOut(ZoomOut(c)).month.value;
            var d := c.currentDate;
            m == AddDays(d, -Weekday(d)) &&
            (m.year == d.year && m.month == d.month <==> d.day > Weekday(d))
  {
    var d := c.currentDate;
    var m := GetWeekStart(d);
    WeekStartSameMonth(d);
    assert m.year == d.year && m.month == d.month <==> d.day > Weekday(d);
    var c1 := ZoomOut(c);
    assert c1 == c.(level := Week, weekStart := Some(m));
    assert ZoomOut(c1) == c1.(level := Month, month := Some(m));
  }

  /** `findNoteById(id)`: the first note with the id over the buckets in map order. */
  function FindNoteById(nm: NoteManager.Manager, id: string): (r: Option<Note>)
    ensures r.None? <==> !AnyId(nm.notes, id)
    ensures r.Some? ==> r.value.id == id
  {
    FindById(nm.notes, id)
  }

  datatype Verse = Verse(reference: string, text: string)

  /** The ten verses `getDailyVerse` chooses from, in order. */
  const Verses: seq<Verse> := [
    Verse("John 3:16", "For God so loved the world that he gave his one and only Son, that whoever believes in him shall not perish but have eternal life."),
    Verse("Psalm 23:1", "The Lord is my shepherd, I lack nothing."),
    Verse("Romans 8:28", "And we know that in all things God works for the good of those who love him, who have been called according to his purpose."),
    Verse("Philippians 4:13", "I can do all this through him who gives me strength."),
    Verse("Jeremiah 29:11", "For I know the plans I have for you, declares the Lord, plans to prosper you and not to harm you, plans to give you hope and a future."),
    Verse("Isaiah 41:10", "So do not fear, for I am with you; do not be dismayed, for I am your God. I will strengthen you and help you; I will uphold you with my righteous right hand."),
    Verse("Matthew 28:20", "And surely I am with you always, to the very end of the age."),
    Verse("Psalm 46:10", "Be still, and know that I am God; I will be exalted among the nations, I will be exalted in the earth."),
    Verse("Proverbs 3:5-6", "Trust in the Lord with all your heart and lean not on your own understanding; in all your ways submit to him, and he will make your paths straight."),
    Verse("1 Corinthians 13:4", "Love is patient, love is kind. It does not envy, it does not boast, it is not proud.")
  ]

  /** `getDailyVerse(dateKey)` on the day key of `d`: the key's digits read as a
      number, modulo 10, which is the last digit of the day of the month. */
  function GetDailyVerse(d: Date): (v: Verse)
    requires Valid(d)
    ensures v == Verses[d.day % 10]
  {
    Verses[DayKeyDigitsMod10(d)]
  }

  predicate HasVerse(ns: seq<Note>) {
    exists i :: 0 <= i < |ns| && ns[i].kind == "verse"
  }

  /** `addDailyVerse(dateKey)`, run to completion without another call interleaving:
      when the current day has no verse note, the day's verse is created through
      `createNote` at (centre.x - 100, 150), then given its reference and an unread
      flag and written again. */
  function AddDailyVerse(c: Cursor, nm: NoteManager.Manager, centre: Point, now: int, suffix: string): (r: (NoteManager.Manager, seq<StoreOp>))
    requires Inv(c)
    ensures HasVerse(NoteManager.GetNotesForDate(nm, c.currentDate)) ==> r == (nm, [])
    ensures !HasVerse(NoteManager.GetNotesForDate(nm, c.currentDate)) ==>
      var key := DayKey(c.currentDate);
      var v := GetDailyVerse(c.currentDate);
      |r.1| == 2 && r.1[0].SaveNote? && r.1[1].UpdateNote? &&
      var n := r.1[1].note;
      n.kind == "verse" && n.content == Json.Str(v.text) && n.reference == Some(v.reference) && n.read == Some(false) &&
      n.date == key && n.shade == Some(1) &&
      r.1[0].note == n.(reference := None, read := None) &&
      forall k :: NotesFor(r.0.notes, k) == if k == key then NotesFor(nm.notes, key) + [n] else NotesFor(nm.notes, k)
  {
    var key := DayKey(c.currentDate);
    if HasVerse(NoteManager.GetNotesForDate(nm, c.currentDate)) then (nm, [])
    else
      var v := GetDailyVerse(c.currentDate);
      var at := NoteManager.OrFallback(Some(Point(centre.x - 100, 150)), centre);
      var plain := NoteManager.MakeNote(key, Json.Str(v.text), "verse", 1, at, now, suffix);
      var n := plain.(reference := Some(v.reference), read := Some(false));
      PushNotesForAll(nm.notes, key, n);
      (nm.(notes := Push(nm.notes, key, n)), [SaveNote(plain), UpdateNote(n)])
  }

  /** The verse is added at most once: a second call finds it and does nothing. */
  lemma AddDailyVerseIdempotent(c: Cursor, nm: NoteManager.Manager, centre: Point, now: int, suffix: string, now': int, suffix': string)
    requires Inv(c)
    ensures var first := AddDailyVerse(c, nm, centre, now, suffix).0;
            AddDailyVerse(c, first, centre, now', suffix') == (first, [])
  {
    var first := AddDailyVerse(c, nm, centre, now, suffix);
    if !HasVerse(NoteManager.GetNotesForDate(nm, c.currentDate)) {
      AddDailyVerseAddsOne(c, nm, centre, now, suffix);
    }
  }

  /** Adding the verse grows the day by exactly one note, a verse, and changes no
      other day. */
  lemma AddDailyVerseAddsOne(c: Cursor, nm: NoteManager.Manager, centre: Point, now: int, suffix: string)
    requires Inv(c) && !HasVerse(NoteManager.GetNotesForDate(nm, c.currentDate))
    ensures var r := AddDailyVerse(c, nm, centre, now, suffix).0;
            var ns := NoteManager.GetNotesForDate(r, c.currentDate);
            |ns| == |NoteManager.GetNotesForDate(nm, c.currentDate)| + 1 && HasVerse(ns)
  {
    var r := AddDailyVerse(c, nm, centre, now, suffix).0;
    var ns := NoteManager.GetNotesForDate(r, c.currentDate);
    assert ns[|ns| - 1].kind == "verse";
  }

  /** The `onDeleteNote` callback the navigator passes with `renderNotes`: delete
      from the current day's bucket. A note drop ends in it when it lands on the
      recycle bin, and in a persisted move otherwise. */
  function DropNote(c: Cursor, nm: NoteManager.Manager, note: Note, x: int, y: int,
                    bin: Option<NoteManager.Rect>, left: int, top: int): (r: (NoteManager.Manager, seq<StoreOp>))
    requires Inv(c)
    ensures NoteManager.IsOverRecycleBin(bin, x, y) ==>
      r.1 == [StoreOp.DeleteNote(note.id)] &&
      forall k :: NotesFor(r.0.notes, k) ==
        if k == DayKey(c.currentDate) then RemoveFirst(NotesFor(nm.notes, k), note.id) else NotesFor(nm.notes, k)
    ensures !NoteManager.IsOverRecycleBin(bin, x, y) ==> r.1 == [UpdateNote(note.(x := left, y := top))]
  {
    var e := NoteManager.EndNoteDrag(nm, note, x, y, bin, left, top);
    match e.1
    case DeleteRequested(n) => NoteManager.DeleteNote(e.0, c.currentDate, n)
    case Moved(_) => (e.0, e.2)
  }
}

=== FILE: civil.dfy ===
/** Proleptic Gregorian calendar dates as the JavaScript `Date` object handles them
    in local time, reduced to whole days: a date is (year, month 1..12, day), and every
    setter that may overflow (`setDate`, `setMonth`, `setFullYear`, `new Date(y, m, d)`)
    is computed on serial day numbers, which is exactly how the ECMAScript `MakeDay`
    operation normalises out-of-range fields. */
module Civil {
  import Text

  predicate IsLeapYear(y: int) {
    (y % 4 == 0 && y % 100 != 0) || y % 400 == 0
  }

  function DaysInYear(y: int): (n: int)
    ensures n == 365 || n == 366
    ensures n == 366 <==> IsLeapYear(y)
  {
    if IsLeapYear(y) then 366 else 365
  }

  /** Month lengths of a common year, January first. */
  const CommonMonthLengths: seq<int> := [31, 28, 31, 30, 31, 30, 31, 31, 30, 31, 30, 31]

  /** Days before the first of each month in a common year, January first, then the year's length. */
  const CommonDaysBefore: seq<int> := [0, 31, 59, 90, 120, 151, 181, 212, 243, 273, 304, 334, 365]

  function DaysInMonth(y: int, m: int): (n: int)
    requires 1 <= m <= 12
    ensures 28 <= n <= 31
  {
    CommonMonthLengths[m - 1] + (if m == 2 && IsLeapYear(y) then 1 else 0)
  }

  /** Days of year `y` that lie in months 1 .. m-1. */
  function DaysBeforeMonth(y: int, m: int): (n: int)
    requires 1 <= m <= 13
    ensures m == 1 ==> n == 0
    ensures m == 13 ==> n == DaysInYear(y)
  {
    CommonDaysBefore[m - 1] + (if m > 2 && IsLeapYear(y) then 1 else 0)
  }

  lemma DaysBeforeMonthStep(y: int, m: int)
    requires 1 <= m <= 12
    ensures DaysBeforeMonth(y, m) + DaysInMonth(y, m) == DaysBeforeMonth(y, m + 1)
  {
  }

  lemma DaysBeforeMonthMonotone(y: int, a: int, b: int)
    requires 1 <= a <= b <= 13
    ensures DaysBeforeMonth(y, a) <= DaysBeforeMonth(y, b)
  {
  }

  /** Days from 0001-01-01 to 1 January of year `y` (negative before year 1): the
      lengths of the years in between, added up. */
  function DaysBeforeYear(y: int): int
    decreases if y < 1 then 1 - y else y - 1
  {
    if y == 1 then 0
    else if y > 1 then DaysBeforeYear(y - 1) + DaysInYear(y - 1)
    else DaysBeforeYear(y + 1) - DaysInYear(y)
  }

  lemma YearLength(y: int)
    ensures DaysBeforeYear(y + 1) == DaysBeforeYear(y) + DaysInYear(y)
  {
  }

  /** The same count in closed form: 365 days a year plus one for every leap year. */
  function LeapCountForm(y: int): int {
    var p := y - 1;
    365 * p + p / 4 - p / 100 + p / 400
  }

  lemma DivSucc4(p: int)
    ensures (p + 1) / 4 == p / 4 + (if (p + 1) % 4 == 0 then 1 else 0)
  {
  }

  lemma DivSucc100(p: int)
    ensures (p + 1) / 100 == p / 100 + (if (p + 1) % 100 == 0 then 1 else 0)
  {
  }

  lemma DivSucc400(p: int)
    ensures (p + 1) / 400 == p / 400 + (if (p + 1) % 400 == 0 then 1 else 0)
  {
  }

  lemma Divisibility(y: int)
    ensures y % 400 == 0 ==> y % 100 == 0
    ensures y % 100 == 0 ==> y % 4 == 0
  {
    if y % 400 == 0 {
      assert y == 400 * (y / 400);
      assert y == 100 * (4 * (y / 400));
    }
    if y % 100 == 0 {
      assert y == 100 * (y / 100);
      assert y == 4 * (25 * (y / 100));
    }
  }

  lemma LeapCountFormStep(y: int)
    ensures LeapCountForm(y + 1) == LeapCountForm(y) + DaysInYear(y)
  {
    var p := y - 1;
    DivSucc4(p);
    DivSucc100(p);
    DivSucc400(p);
    Divisibility(y);
    assert p + 1 == y;
  }

  lemma {:induction false} DaysBeforeYearClosedForm(y: int)
    ensures DaysBeforeYear(y) == LeapCountForm(y)
    decreases if y < 1 then 1 - y else y - 1
  {
    if y > 1 {
      DaysBeforeYearClosedForm(y - 1);
      LeapCountFormStep(y - 1);
    } else if y < 1 {
      DaysBeforeYearClosedForm(y + 1);
      LeapCountFormStep(y);
    }
  }

  /** Four hundred years are exactly 146097 days, so the calendar repeats by eras. */
  lemma EraLength(y: int)
    ensures DaysBeforeYear(y + 400) == DaysBeforeYear(y) + 146097
  {
    DaysBeforeYearClosedForm(y);
    DaysBeforeYearClosedForm(y + 400);
    var p := y - 1;
    assert (400 + p) / 4 == 100 + p / 4;
    assert (400 + p) / 100 == 4 + p / 100;
    assert (400 + p) / 400 == 1 + p / 400;
  }

  lemma FirstEraLength()
    ensures DaysBeforeYear(401) == 146097
  {
    DaysBeforeYearClosedForm(401);
  }

  lemma {:induction false} DaysBeforeYearMonotone(a: int, b: int)
    requires a <= b
    ensures DaysBeforeYear(a) <= DaysBeforeYear(b)
    decreases b - a
  {
    if a < b {
      DaysBeforeYearMonotone(a, b - 1);
      YearLength(b - 1);
    }
  }

  datatype Date = Date(year: int, month: int, day: int)

  predicate Valid(d: Date) {
    1 <= d.month <= 12 && 1 <= d.day <= DaysInMonth(d.year, d.month)
  }

  /** Serial day number: 0 is 0001-01-01, consecutive days differ by one. */
  function Serial(d: Date): (n: int)
    requires Valid(d)
    ensures DaysBeforeYear(d.year) <= n < DaysBeforeYear(d.year + 1)
  {
    YearLength(d.year);
    DaysBeforeMonthStep(d.year, d.month);
    DaysBeforeMonthMonotone(d.year, d.month + 1, 13);
    DaysBeforeYear(d.year) + DaysBeforeMonth(d.year, d.month) + d.day - 1
  }

  /** The year among 1..400 whose span of days (within the first era) holds `r`. */
  function YearInEra(r: int, k: int): (y: int)
    requires 0 <= r < 146097 && 1 <= k <= 400 && DaysBeforeYear(k) <= r
    ensures k <= y <= 400 && DaysBeforeYear(y) <= r < DaysBeforeYear(y + 1)
    decreases 400 - k
  {
    FirstEraLength();
    if r < DaysBeforeYear(k + 1) then k else YearInEra(r, k + 1)
  }

  /** The month among m..12 of year `y` whose span holds day-of-year `doy`. */
  function MonthOf(y: int, doy: int, m: int): (r: int)
    requires 0 <= doy < DaysInYear(y) && 1 <= m <= 12 && DaysBeforeMonth(y, m) <= doy
    ensures m <= r <= 12
    ensures DaysBeforeMonth(y, r) <= doy < DaysBeforeMonth(y, r) + DaysInMonth(y, r)
    decreases 12 - m
  {
    DaysBeforeMonthStep(y, m);
    if doy < DaysBeforeMonth(y, m) + DaysInMonth(y, m) then m else MonthOf(y, doy, m + 1)
  }

  lemma LeapPeriodic(y: int)
    ensures IsLeapYear(y + 400) == IsLeapYear(y)
  {
    assert (y + 400) % 4 == y % 4;
    assert (y + 400) % 100 == y % 100;
    assert (y + 400) % 400 == y % 400;
  }

  /** The same month and day 400 years later: the leap-year rule repeats every 400
      years, so the serial number moves by exactly 146097 days. */
  function EraLater(d: Date): (r: Date)
    requires Valid(d)
    ensures Valid(r) && r.month == d.month && r.day == d.day && r.year == d.year + 400
    ensures Serial(r) == Serial(d) + 146097
  {
    LeapPeriodic(d.year);
    EraLength(d.year);
    Date(d.year + 400, d.month, d.day)
  }

  /** The same month and day 400 years earlier. */
  function EraEarlier(d: Date): (r: Date)
    requires Valid(d)
    ensures Valid(r) && r.month == d.month && r.day == d.day && r.year == d.year - 400
    ensures Serial(r) == Serial(d) - 146097
  {
    LeapPeriodic(d.year - 400);
    EraLength(d.year - 400);
    Date(d.year - 400, d.month, d.day)
  }

  /** The date of a serial number within the first era (years 1..400). */
  function FromSerialInEra(n: int): (d: Date)
    requires 0 <= n < 146097
    ensures Valid(d) && Serial(d) == n
  {
    assert DaysBeforeYear(1) == 0;
    var y := YearInEra(n, 1);
    YearLength(y);
    var doy := n - DaysBeforeYear(y);
    var m := MonthOf(y, doy, 1);
    Date(y, m, doy - DaysBeforeMonth(y, m) + 1)
  }

  /** Constructs the date of a serial day number: whole eras of 400 years are
      peeled off until the number falls within the first era. */
  function FromSerialByEras(n: int): (d: Date)
    ensures Valid(d)
    ensures Serial(d) == n
    decreases if n < 0 then -n else if n < 146097 then 0 else n
  {
    if n < 0 then EraEarlier(FromSerialByEras(n + 146097))
    else if n >= 146097 then EraLater(FromSerialByEras(n - 146097))
    else FromSerialInEra(n)
  }

  /** Every integer is the serial number of some day. */
  lemma SerialOnto(n: int)
    ensures exists d :: Valid(d) && Serial(d) == n
  {
    var d := FromSerialByEras(n);
  }

  lemma SerialUnique()
    ensures forall a, b {:trigger Serial(a), Serial(b)} :: Valid(a) && Valid(b) && Serial(a) == Serial(b) ==> a == b
  {
    forall a, b | Valid(a) && Valid(b) && Serial(a) == Serial(b)
      ensures a == b
    {
      SerialInjective(a, b);
    }
  }

  /** The calendar date of a serial day number: the one valid date with that serial. */
  function FromSerial(n: int): (d: Date)
    ensures Valid(d)
    ensures Serial(d) == n
  {
    SerialOnto(n);
    SerialUnique();
    var d :| Valid(d) && Serial(d) == n; d
  }

  /** Distinct valid dates have distinct serial numbers. */
  lemma SerialInjective(a: Date, b: Date)
    requires Valid(a) && Valid(b)
    ensures Serial(a) == Serial(b) <==> a == b
  {
    if Serial(a) == Serial(b) {
      if a.year < b.year {
        DaysBeforeYearMonotone(a.year + 1, b.year);
      } else if b.year < a.year {
        DaysBeforeYearMonotone(b.year + 1, a.year);
      } else if a.month < b.month {
        DaysBeforeMonthStep(a.year, a.month);
        DaysBeforeMonthMonotone(a.year, a.month + 1, b.month);
      } else if b.month < a.month {
        DaysBeforeMonthStep(a.year, b.month);
        DaysBeforeMonthMonotone(a.year, b.month + 1, a.month);
      }
    }
  }

  /** Serial numbering is a bijection between valid dates and integers. */
  lemma FromSerialSerial(d: Date)
    requires Valid(d)
    ensures FromSerial(Serial(d)) == d
  {
    SerialInjective(FromSerial(Serial(d)), d);
  }

  lemma SerialOrder(a: Date, b: Date)
    requires Valid(a) && Valid(b)
    ensures Serial(a) < Serial(b) <==>
      a.year < b.year || (a.year == b.year && (a.month < b.month || (a.month == b.month && a.day < b.day)))
  {
    if a.year < b.year {
      DaysBeforeYearMonotone(a.year + 1, b.year);
    } else if b.year < a.year {
      DaysBeforeYearMonotone(b.year + 1, a.year);
    } else if a.month < b.month {
      DaysBeforeMonthStep(a.year, a.month);
      DaysBeforeMonthMonotone(a.year, a.month + 1, b.month);
    } else if b.month < a.month {
      DaysBeforeMonthStep(a.year, b.month);
      DaysBeforeMonthMonotone(a.year, b.month + 1, a.month);
    }
  }

  /** `date.getDay()`: 0 is Sunday .. 6 is Saturday (0001-01-01 was a Monday). */
  function Weekday(d: Date): (w: int)
    requires Valid(d)
    ensures 0 <= w < 7
    ensures w == (Serial(d) + 1) % 7
  {
    (Serial(d) + 1) % 7
  }

  /** A serial number within the span of year `y` belongs to a date of year `y`. */
  lemma YearOfSerial(d: Date, y: int)
    requires Valid(d) && DaysBeforeYear(y) <= Serial(d) < DaysBeforeYear(y + 1)
    ensures d.year == y
  {
    if d.year < y {
      DaysBeforeYearMonotone(d.year + 1, y);
    } else if d.year > y {
      DaysBeforeYearMonotone(y + 1, d.year);
    }
  }

  /** The day `k` days after `d` (before it when k < 0). */
  function AddDays(d: Date, k: int): (r: Date)
    requires Valid(d)
    ensures Valid(r) && Serial(r) == Serial(d) + k
  {
    FromSerial(Serial(d) + k)
  }

  lemma AddDaysZero(d: Date)
    requires Valid(d)
    ensures AddDays(d, 0) == d
  {
    FromSerialSerial(d);
  }

  lemma AddDaysAdd(d: Date, a: int, b: int)
    requires Valid(d)
    ensures AddDays(AddDays(d, a), b) == AddDays(d, a + b)
  {
    SerialInjective(AddDays(AddDays(d, a), b), AddDays(d, a + b));
  }

  lemma Mod7Shift(a: int, k: int)
    ensures (a + k) % 7 == (a % 7 + k) % 7
  {
    var q := a / 7;
    assert a == 7 * q + a % 7;
    assert (7 * q + (a % 7 + k)) % 7 == (a % 7 + k) % 7;
  }

  lemma WeekdayAddDays(d: Date, k: int)
    requires Valid(d)
    ensures Weekday(AddDays(d, k)) == (Weekday(d) + k) % 7
  {
    Mod7Shift(Serial(d) + 1, k);
  }

  lemma Mod7Weeks(x: int, n: int)
    ensures (x + 7 * n) % 7 == x % 7
  {
    assert x + 7 * n == 7 * (x / 7 + n) + x % 7;
  }

  /** Whole weeks keep the weekday. */
  lemma WeekdayAddWeeks(d: Date, n: int)
    requires Valid(d)
    ensures Weekday(AddDays(d, n * 7)) == Weekday(d)
  {
    Mod7Weeks(Serial(d) + 1, n);
  }

  /** ECMAScript `MakeDay(year, monthIndex, day)` followed by `MakeDate`: month
      indices outside 0..11 carry into the year, days outside the month carry into
      neighbouring months. */
  function MakeDay(year: int, monthIndex: int, day: int): (r: Date)
    ensures Valid(r)
  {
    FromSerial(Serial(Date(year + monthIndex / 12, monthIndex % 12 + 1, 1)) + day - 1)
  }

  /** On in-range fields `MakeDay` is the plain date. */
  lemma MakeDayInRange(y: int, m: int, d: int)
    requires Valid(Date(y, m, d))
    ensures MakeDay(y, m - 1, d) == Date(y, m, d)
  {
    assert (m - 1) / 12 == 0 && (m - 1) % 12 + 1 == m;
    assert Serial(Date(y, m, 1)) + d - 1 == Serial(Date(y, m, d));
    SerialInjective(MakeDay(y, m - 1, d), Date(y, m, d));
  }

  /** `new Date(year, monthIndex, day)`: like `MakeDay`, except that a year in 0..99
      means 1900..1999. */
  function NewDate(year: int, monthIndex: int, day: int): (r: Date)
    ensures Valid(r)
    ensures r == MakeDay(if 0 <= year <= 99 then 1900 + year else year, monthIndex, day)
  {
    MakeDay(if 0 <= year <= 99 then 1900 + year else year, monthIndex, day)
  }

  /** `d.setDate(v)`. */
  function SetDate(d: Date, v: int): (r: Date)
    requires Valid(d)
    ensures Valid(r)
    ensures Serial(r) == Serial(d) + v - d.day
  {
    assert (d.month - 1) / 12 == 0 && (d.month - 1) % 12 + 1 == d.month;
    assert Serial(Date(d.year, d.month, 1)) == Serial(d) - d.day + 1;
    MakeDay(d.year, d.month - 1, v)
  }

  /** Where ECMAScript's date arithmetic lands for a year, a month index counted
      from January of that year (any integer) and a day number of at least 1: the
      month index carries into the year, and a day past the month's end carries
      into the days after it. */
  function CarriedDate(year: int, monthIndex: int, day: int): (r: Date)
    requires 1 <= day
    ensures Valid(r)
  {
    var y := year + monthIndex / 12;
    var m := monthIndex % 12 + 1;
    if day <= DaysInMonth(y, m) then Date(y, m, day)
    else AddDays(Date(y, m, DaysInMonth(y, m)), day - DaysInMonth(y, m))
  }

  lemma MakeDayCarries(year: int, monthIndex: int, day: int)
    requires 1 <= day
    ensures MakeDay(year, monthIndex, day) == CarriedDate(year, monthIndex, day)
  {
    MakeDayOverflow(year, monthIndex, day);
  }

  /** `d.setMonth(v)`: keeps the day of month, which may overflow into the next month. */
  function SetMonth(d: Date, v: int): (r: Date)
    requires Valid(d)
    ensures Valid(r)
    ensures r == MakeDay(d.year, v, d.day)
  {
    MakeDay(d.year, v, d.day)
  }

  /** `d.setFullYear(v)`: keeps month and day of month (29 February may overflow). */
  function SetFullYear(d: Date, v: int): (r: Date)
    requires Valid(d)
    ensures Valid(r)
    ensures r == MakeDay(v, d.month - 1, d.day)
  {
    MakeDay(v, d.month - 1, d.day)
  }

  /** `d.setDate(d.getDate() + k)` moves by exactly k days. */
  lemma SetDateRelative(d: Date, k: int)
    requires Valid(d)
    ensures SetDate(d, d.day + k) == AddDays(d, k)
  {
    SerialInjective(SetDate(d, d.day + k), AddDays(d, k));
  }

  /** A day number past the end of a month carries into the days that follow it. */
  lemma DayOverflow(y: int, m: int, day: int)
    requires 1 <= m <= 12 && 1 <= day
    ensures var r := FromSerial(Serial(Date(y, m, 1)) + day - 1);
            (day <= DaysInMonth(y, m) ==> r == Date(y, m, day)) &&
            (day > DaysInMonth(y, m) ==> r == AddDays(Date(y, m, DaysInMonth(y, m)), day - DaysInMonth(y, m)))
  {
    var r := FromSerial(Serial(Date(y, m, 1)) + day - 1);
    if day <= DaysInMonth(y, m) {
      SerialInjective(r, Date(y, m, day));
    } else {
      SerialInjective(r, AddDays(Date(y, m, DaysInMonth(y, m)), day - DaysInMonth(y, m)));
    }
  }

  /** `MakeDay` carries the month index into the year, then lands on the requested day
      of that month, or past its end on the overflow into the following days. */
  lemma MakeDayOverflow(year: int, monthIndex: int, day: int)
    requires 1 <= day
    ensures var y := year + monthIndex / 12;
            var m := monthIndex % 12 + 1;
            var r := MakeDay(year, monthIndex, day);
            (day <= DaysInMonth(y, m) ==> r == Date(y, m, day)) &&
            (day > DaysInMonth(y, m) ==> r == AddDays(Date(y, m, DaysInMonth(y, m)), day - DaysInMonth(y, m)))
  {
    var y := year + monthIndex / 12;
    var m := monthIndex % 12 + 1;
    assert MakeDay(year, monthIndex, day) == FromSerial(Serial(Date(y, m, 1)) + day - 1);
    DayOverflow(y, m, day);
  }

  /** Moving by whole years keeps month and day except 29 February in a year that
      lands on a common year, which becomes 1 March. */
  lemma SetFullYearRelative(d: Date, k: int)
    requires Valid(d)
    ensures var r := SetFullYear(d, d.year + k);
            (Valid(Date(d.year + k, d.month, d.day)) ==> r == Date(d.year + k, d.month, d.day)) &&
            (!Valid(Date(d.year + k, d.month, d.day)) ==> r == Date(d.year + k, 3, 1))
  {
    var r := SetFullYear(d, d.year + k);
    var y := d.year + k;
    assert (d.month - 1) / 12 == 0 && (d.month - 1) % 12 + 1 == d.month;
    assert Serial(r) == Serial(Date(y, d.month, 1)) + d.day - 1;
    if Valid(Date(y, d.month, d.day)) {
      assert Serial(Date(y, d.month, d.day)) == Serial(Date(y, d.month, 1)) + d.day - 1;
      SerialInjective(r, Date(y, d.month, d.day));
    } else {
      assert d.month == 2 && d.day == 29 && !IsLeapYear(y);
      DaysBeforeMonthStep(y, 2);
      assert Serial(Date(y, 3, 1)) == Serial(Date(y, 2, 1)) + 28;
      SerialInjective(r, Date(y, 3, 1));
    }
  }

  /** `date.getDay() || 7`: ISO weekday, Monday 1 .. Sunday 7. */
  function IsoWeekday(d: Date): (w: int)
    requires Valid(d)
    ensures 1 <= w <= 7
    ensures w % 7 == Weekday(d)
  {
    if Weekday(d) == 0 then 7 else Weekday(d)
  }

  /** The week number the journal computes: move to the Thursday of the Monday-based
      week, then count whole weeks from 1 January of that Thursday's year, the
      January date being built with `new Date(year, 0, 1)`. */
  function WeekNumber(d: Date): int
    requires Valid(d)
  {
    var thursday := AddDays(d, 4 - IsoWeekday(d));
    var yearStart := NewDate(thursday.year, 0, 1);
    var diff := Serial(thursday) - Serial(yearStart);
    // Math.ceil((diff + 1) / 7) for an integer diff
    (diff + 1 + 6) / 7
  }

  /** The Monday that starts the ISO week holding `d`. */
  function MondayOf(d: Date): (m: Date)
    requires Valid(d)
    ensures Valid(m) && Weekday(m) == 1
    ensures Serial(m) <= Serial(d) < Serial(m) + 7
  {
    var w := Weekday(d);
    WeekdayAddDays(d, 1 - IsoWeekday(d));
    assert w == 0 ==> (w + 1 - IsoWeekday(d)) % 7 == 1;
    assert w != 0 ==> (w + 1 - IsoWeekday(d)) % 7 == 1;
    AddDays(d, 1 - IsoWeekday(d))
  }

  /** ISO 8601 week-numbering year: the year of the week's Thursday. */
  function IsoWeekYear(d: Date): int
    requires Valid(d)
  {
    AddDays(d, 4 - IsoWeekday(d)).year
  }

  /** The Thursday of a date's week is at most a year away from it. */
  lemma IsoWeekYearNear(d: Date)
    requires Valid(d)
    ensures d.year - 1 <= IsoWeekYear(d) <= d.year + 1
  {
    var k := 4 - IsoWeekday(d);
    DaysApartYearsApart(AddDays(d, k), d);
  }

  /** Dates less than a year's length apart lie in the same or adjacent years. */
  lemma DaysApartYearsApart(a: Date, b: Date)
    requires Valid(a) && Valid(b) && -365 < Serial(a) - Serial(b) < 365
    ensures b.year - 1 <= a.year <= b.year + 1
  {
    if a.year < b.year - 1 {
      DaysBeforeYearMonotone(a.year + 1, b.year - 1);
      YearLength(b.year - 1);
    } else if a.year > b.year + 1 {
      DaysBeforeYearMonotone(b.year + 1, a.year - 1);
      YearLength(a.year - 1);
    }
  }

  /** ISO 8601 week number, from its defining rule: week 1 is the week that holds
      4 January, and weeks run Monday to Sunday. */
  function IsoWeek(d: Date): (w: int)
    requires Valid(d)
  {
    var week1 := MondayOf(Date(IsoWeekYear(d), 1, 4));
    (Serial(MondayOf(d)) - Serial(week1)) / 7 + 1
  }

  /** Two dates on the same weekday lie a whole number of weeks apart. */
  lemma SameWeekday(a: Date, b: Date)
    requires Valid(a) && Valid(b) && Weekday(a) == Weekday(b)
    ensures (Serial(a) - Serial(b)) % 7 == 0
  {
    var x, y := Serial(a) + 1, Serial(b) + 1;
    assert x == 7 * (x / 7) + x % 7;
    assert y == 7 * (y / 7) + y % 7;
    assert x - y == 7 * (x / 7 - y / 7);
  }

  lemma WeekQuotient(diff: int, k: int, c: int)
    requires diff == 7 * k + c && 0 <= c < 7
    ensures (diff + 1 + 6) / 7 == k + 1
  {
  }

  /** The Monday of week 1 falls between 29 December and 4 January. */
  lemma Week1Monday(y: int)
    ensures var jan4 := Date(y, 1, 4);
            Serial(MondayOf(jan4)) == Serial(Date(y, 1, 1)) + 4 - IsoWeekday(jan4)
  {
  }

  /** For years the Date constructor takes literally, the journal's week number is
      the ISO 8601 week number. */
  lemma WeekNumberIsIso(d: Date)
    requires Valid(d)
    requires !(0 <= IsoWeekYear(d) <= 99)
    ensures WeekNumber(d) == IsoWeek(d)
  {
    var mon, week1 := IsoWeekSerials(d);
    var jan1, isoJan4 := Week1Serials(IsoWeekYear(d));
    var k := WeeksBetween(MondayOf(d), MondayOf(Date(IsoWeekYear(d), 1, 4)));
    WeekNumberFromMonday(d);
    WeekArithmetic(mon + 3, jan1, mon, week1, isoJan4, k);
  }

  /** The ISO week number counts the weeks between two Mondays. */
  lemma IsoWeekSerials(d: Date) returns (mon: int, week1: int)
    requires Valid(d)
    ensures mon == Serial(MondayOf(d)) && week1 == Serial(MondayOf(Date(IsoWeekYear(d), 1, 4)))
    ensures IsoWeek(d) == (mon - week1) / 7 + 1
  {
    mon, week1 := Serial(MondayOf(d)), Serial(MondayOf(Date(IsoWeekYear(d), 1, 4)));
  }

  /** The Monday of week 1 lies 4 - (weekday of 4 January) days after 1 January. */
  lemma Week1Serials(y: int) returns (jan1: int, isoJan4: int)
    ensures jan1 == Serial(Date(y, 1, 1)) && 1 <= isoJan4 <= 7
    ensures Serial(MondayOf(Date(y, 1, 4))) == jan1 + 4 - isoJan4
  {
    Week1Monday(y);
    jan1, isoJan4 := Serial(Date(y, 1, 1)), IsoWeekday(Date(y, 1, 4));
  }

  /** Two Mondays are a whole number `k` of weeks apart. */
  lemma WeeksBetween(a: Date, b: Date) returns (k: int)
    requires Valid(a) && Valid(b) && Weekday(a) == 1 && Weekday(b) == 1
    ensures Serial(a) - Serial(b) == 7 * k
  {
    SameWeekday(a, b);
    k := (Serial(a) - Serial(b)) / 7;
  }

  /** The journal's count starts from the Thursday three days after the week's
      Monday and from 1 January as the Date constructor builds it. */
  lemma WeekNumberFromMonday(d: Date)
    requires Valid(d)
    requires !(0 <= IsoWeekYear(d) <= 99)
    ensures WeekNumber(d) == (Serial(MondayOf(d)) + 3 - Serial(Date(IsoWeekYear(d), 1, 1)) + 1 + 6) / 7
  {
    MakeDayInRange(IsoWeekYear(d), 1, 1);
  }

  /** The week count from 1 January of the Thursday's year equals the week count
      from the Monday of week 1. */
  lemma WeekArithmetic(thu: int, jan1: int, mon: int, week1: int, isoJan4: int, k: int)
    requires thu == mon + 3 && week1 == jan1 + 4 - isoJan4 && 1 <= isoJan4 <= 7
    requires mon - week1 == 7 * k
    ensures (thu - jan1 + 1 + 6) / 7 == (mon - week1) / 7 + 1
  {
    WeekQuotient(thu - jan1, k, 7 - isoJan4);
  }

  /** For years the Date constructor takes literally, week numbers run 1..53. */
  lemma WeekNumberRange(d: Date)
    requires Valid(d)
    requires !(0 <= IsoWeekYear(d) <= 99)
    ensures 1 <= WeekNumber(d) <= 53
  {
    var thursday := AddDays(d, 4 - IsoWeekday(d));
    var y := thursday.year;
    MakeDayInRange(y, 1, 1);
    assert NewDate(y, 0, 1) == Date(y, 1, 1);
    assert Serial(Date(y, 1, 1)) == DaysBeforeYear(y);
  }

  /** `-` followed by a number padded to two digits: the month and day fields of keys. */
  function DashPad(n: int): (s: string)
    ensures 0 <= n < 100 ==> |s| == 3
  {
    "-" + Text.Pad2(n)
  }

  lemma DashPadInjective(a: int, b: int)
    requires 0 <= a < 100 && 0 <= b < 100
    ensures DashPad(a) == DashPad(b) <==> a == b
  {
    if DashPad(a) == DashPad(b) {
      assert DashPad(a)[1..] == Text.Pad2(a);
      assert DashPad(b)[1..] == Text.Pad2(b);
      Text.Pad2Injective(a, b);
    }
  }

  lemma DashPadDigits(n: int)
    requires 0 <= n < 100
    ensures Text.Remove(DashPad(n), '-') == Text.Pad2(n)
  {
    Text.RemoveAppend("-", Text.Pad2(n), '-');
    Text.RemoveDigits(Text.Pad2(n), '-');
  }

  /** `YYYY`: the year as `String(year)`. */
  function YearKey(d: Date): string {
    Text.IntToString(d.year)
  }

  /** `YYYY-MM-DD` with month and day padded to two digits. */
  function DayKey(d: Date): string {
    YearKey(d) + (DashPad(d.month) + DashPad(d.day))
  }

  /** `YYYY-MM`. */
  function MonthKey(d: Date): string {
    YearKey(d) + DashPad(d.month)
  }

  /** `YYYY-Www`: the calendar year of the date with its week number. */
  function WeekKey(d: Date): string
    requires Valid(d)
  {
    YearKey(d) + "-W" + Text.Pad2(WeekNumber(d))
  }

  /** Day keys identify days: two valid dates share a key exactly when they are equal. */
  lemma DayKeyInjective(a: Date, b: Date)
    requires Valid(a) && Valid(b)
    ensures DayKey(a) == DayKey(b) <==> a == b
  {
    if DayKey(a) == DayKey(b) {
      Text.AppendCancel(YearKey(a), DashPad(a.month) + DashPad(a.day), YearKey(b), DashPad(b.month) + DashPad(b.day));
      Text.IntToStringInjective(a.year, b.year);
      Text.AppendCancel(DashPad(a.month), DashPad(a.day), DashPad(b.month), DashPad(b.day));
      DashPadInjective(a.month, b.month);
      DashPadInjective(a.day, b.day);
    }
  }

  /** Month keys identify months. */
  lemma MonthKeyInjective(a: Date, b: Date)
    requires Valid(a) && Valid(b)
    ensures MonthKey(a) == MonthKey(b) <==> a.year == b.year && a.month == b.month
  {
    if MonthKey(a) == MonthKey(b) {
      Text.AppendCancel(YearKey(a), DashPad(a.month), YearKey(b), DashPad(b.month));
      Text.IntToStringInjective(a.year, b.year);
      DashPadInjective(a.month, b.month);
    }
  }

  /** With the dashes removed a day key is the year's digits followed by the two
      month digits and the two day digits. */
  lemma DayKeyDigits(d: Date)
    requires Valid(d)
    ensures var ys := Text.NatToString(if d.year < 0 then -d.year else d.year);
            Text.Remove(DayKey(d), '-') == ys + (Text.Pad2(d.month) + Text.Pad2(d.day))
  {
    var ys := YearDigits(d.year);
    PadsDigits(d.month, d.day);
    Text.RemoveAppend(YearKey(d), DashPad(d.month) + DashPad(d.day), '-');
  }

  /** The year's key without its sign. */
  lemma YearDigits(y: int) returns (ys: string)
    ensures ys == Text.NatToString(if y < 0 then -y else y)
    ensures Text.Remove(Text.IntToString(y), '-') == ys
  {
    ys := Text.NatToString(if y < 0 then -y else y);
    if y < 0 {
      Text.RemoveAppend("-", ys, '-');
    }
    Text.RemoveDigits(ys, '-');
  }

  lemma PadsDigits(m: int, n: int)
    requires 0 <= m < 100 && 0 <= n < 100
    ensures Text.Remove(DashPad(m) + DashPad(n), '-') == Text.Pad2(m) + Text.Pad2(n)
  {
    Text.RemoveAppend(DashPad(m), DashPad(n), '-');
    DashPadDigits(m);
    DashPadDigits(n);
  }

  /** `parseInt(dayKey.replace(/-/g, '')) % 10`: the result is the last digit of the day. */
  function DayKeyDigitsMod10(d: Date): (r: int)
    requires Valid(d)
    ensures r == d.day % 10
  {
    var ys := Text.NatToString(if d.year < 0 then -d.year else d.year);
    DayKeyDigits(d);
    Text.ParseDigitsLastDigit(ys, Text.Pad2(d.month) + Text.Pad2(d.day));
    Text.Pad2Parses(d.day);
    assert (Text.Pad2(d.month) + Text.Pad2(d.day))[3] == Text.Pad2(d.day)[1];
    Text.ParseDigits(Text.Remove(DayKey(d), '-')) % 10
  }

  /** `setDate(getDate() + delta)`. */
  function DayStep(d: Date, delta: int): (r: Date)
    requires Valid(d)
    ensures r == AddDays(d, delta)
  {
    SetDateRelative(d, delta);
    SetDate(d, d.day + delta)
  }

  /** `setDate(getDate() + delta * 7)`. */
  function WeekStep(d: Date, delta: int): (r: Date)
    requires Valid(d)
    ensures r == AddDays(d, 7 * delta)
  {
    SetDateRelative(d, delta * 7);
    SetDate(d, d.day + delta * 7)
  }

  /** `setMonth(getMonth() + delta)`. */
  function MonthStep(d: Date, delta: int): (r: Date)
    requires Valid(d)
    ensures r == CarriedDate(d.year, d.month - 1 + delta, d.day)
  {
    var mi := d.month - 1 + delta;
    var r := SetMonth(d, mi);
    MakeDayCarries(d.year, mi, d.day);
    assert r == CarriedDate(d.year, mi, d.day);
    r
  }

  /** `setFullYear(getFullYear() + delta)`. */
  function YearStep(d: Date, delta: int): (r: Date)
    requires Valid(d)
    ensures Valid(r) && r.year == d.year + delta
    ensures Valid(Date(d.year + delta, d.month, d.day)) ==> r == Date(d.year + delta, d.month, d.day)
  {
    SetFullYearRelative(d, delta);
    SetFullYear(d, d.year + delta)
  }
}

=== FILE: content_manager.dfy ===
/** The content manager of the newer journal (`ContentManager`): the items of the
    shown day in an insertion-ordered map from id, kept in step with the item
    store. Every write goes to the store first; the callbacks it fires are
    returned as notices. Rendering is left out, except for the text a timer
    shows and the class a shade maps to. */
module ContentManager {
  import opened Wrappers
  import opened Items
  import Db = DbManager
  import KeyStore
  import Json
  import Text
  import Civil
  import NoteManager
  import ActionFactory

  /** Which of `onItemCreate`, `onItemUpdate`, `onItemDelete` were given. */
  datatype Callbacks = Callbacks(onCreate: bool, onUpdate: bool, onDelete: bool)

  datatype Notice = Created(item: Item) | Updated(item: Item) | Deleted(item: Item)

  datatype Manager = Manager(items: seq<Item>, currentDate: Option<Civil.Date>, callbacks: Callbacks)

  /** The map, the store, what the operation resolved with or threw, and the
      callbacks it fired. */
  datatype Outcome<T> = Outcome(manager: Manager, db: Db.Db, result: Result<T, string>, notices: seq<Notice>)

  predicate Inv(m: Manager) {
    DistinctIds(m.items)
  }

  function Init(cb: Callbacks): (m: Manager)
    ensures Inv(m) && m.items == []
  {
    Manager([], None, cb)
  }

  /** `items.forEach(item => map.set(item.id, item))` on an empty map. */
  function FromList(xs: seq<Item>): (r: seq<Item>)
    decreases |xs|
  {
    if |xs| == 0 then [] else Set(FromList(xs[..|xs| - 1]), xs[|xs| - 1])
  }

  lemma {:induction false} FromListDistinct(xs: seq<Item>)
    requires DistinctIds(xs)
    ensures FromList(xs) == xs
    decreases |xs|
  {
    if |xs| > 0 {
      var init, last := xs[..|xs| - 1], xs[|xs| - 1];
      InitDistinct(xs);
      FromListDistinct(init);
      assert FromList(xs) == Set(init, last);
      assert init + [last] == xs;
    }
  }

  /** `loadContent(date)`: on success the map holds exactly the stored items of
      that day and they are returned; on a store failure `[]` is returned and the
      map is kept. The date is remembered either way. */
  function LoadContent(m: Manager, db: Db.Db, date: Civil.Date, io: Db.Io): (r: (Manager, seq<Item>))
    requires Db.Inv(db)
    ensures r.0.currentDate == Some(date) && r.0.callbacks == m.callbacks
    ensures io.Fault? ==> r.0.items == m.items && r.1 == []
    ensures io.Done? ==> r.0.items == r.1 && Inv(r.0)
    ensures io.Done? ==> forall x | x in r.1 :: x.date == Civil.DayKey(date) && x in KeyStore.Values(db.items)
    ensures io.Done? ==> forall x | x in KeyStore.Values(db.items) && x.date == Civil.DayKey(date) :: x in r.1
  {
    match Db.GetItemsByDate(db, Civil.DayKey(date), io)
    case Failure(_) => (m.(currentDate := Some(date)), [])
    case Success(xs) =>
      Db.LookupDistinct(db.items, Db.ByDate, Civil.DayKey(date));
      FromListDistinct(xs);
      (m.(currentDate := Some(date), items := FromList(xs)), xs)
  }

  /** The date an item is stored under: its own, else the current date's key,
      else today's. */
  function Dated(m: Manager, it: Item, today: Civil.Date): (r: Item)
    ensures r.date != "" && r.id == it.id
    ensures it.date != "" ==> r == it
    ensures it.date == "" ==> r == it.(date := Civil.DayKey(m.currentDate.GetOr(today)))
  {
    if it.date != "" then it else it.(date := Civil.DayKey(m.currentDate.GetOr(today)))
  }

  /** `addItem(item)`: the item is stored first; only then does it enter the map
      and `onItemCreate` fire. A store failure changes nothing and propagates. */
  function AddItem(m: Manager, db: Db.Db, it: Item, today: Civil.Date, io: Db.Io): (r: Outcome<Item>)
    requires Inv(m) && Db.Inv(db)
    ensures Inv(r.manager) && Db.Inv(r.db)
    ensures r.result.Failure? <==> io.Fault?
    ensures io.Fault? ==> r.manager == m && r.db == db && r.notices == []
    ensures io.Done? ==> r.result == Success(Dated(m, it, today))
    ensures io.Done? ==> Find(r.manager.items, it.id) == Some(Dated(m, it, today))
    ensures io.Done? ==> Db.GetItem(r.db, it.id) == Some(Dated(m, it, today))
    ensures io.Done? ==> r.notices == if m.callbacks.onCreate then [Created(Dated(m, it, today))] else []
  {
    var d := Dated(m, it, today);
    match Db.SaveItem(db, d, io)
    case Failure(e) => Outcome(m, db, Failure(e), [])
    case Success(db') =>
      SetFind(m.items, d, d.id);
      SetDistinct(m.items, d);
      Outcome(m.(items := Set(m.items, d)), db', Success(d), if m.callbacks.onCreate then [Created(d)] else [])
  }

  lemma SetDistinct(m: seq<Item>, it: Item)
    requires DistinctIds(m)
    ensures DistinctIds(Set(m, it))
  {
    var r := Set(m, it);
    if HasId(m, it.id) {
      forall i, j | 0 <= i < j < |r|
        ensures r[i].id != r[j].id
      {
        SetIds(m, it, i);
        SetIds(m, it, j);
      }
    } else {
      assert r == m + [it];
    }
  }

  /** Setting keeps the id at every position of the map. */
  lemma {:induction false} SetIds(m: seq<Item>, it: Item, i: int)
    requires 0 <= i < |m|
    ensures i < |Set(m, it)| && Set(m, it)[i].id == m[i].id
    decreases |m|
  {
    if m[0].id != it.id && i > 0 {
      SetIds(m[1..], it, i - 1);
    }
  }

  /** `updateItem(id, updates)`: an unknown id throws and changes nothing.
      Otherwise the updates are merged into the item held in the map, which is
      then stored; a store failure therefore leaves the map ahead of the store. */
  function UpdateItem(m: Manager, db: Db.Db, id: string, u: Update, io: Db.Io): (r: Outcome<Item>)
    requires Inv(m) && Db.Inv(db)
    ensures Inv(r.manager) && Db.Inv(r.db)
    ensures !HasId(m.items, id) ==> r == Outcome(m, db, Failure("Item " + id + " not found"), [])
    ensures HasId(m.items, id) ==>
      var merged := Assign(Find(m.items, id).value, u);
      Find(r.manager.items, id) == Some(merged) &&
      (forall k | k != id :: Find(r.manager.items, k) == Find(m.items, k)) &&
      |r.manager.items| == |m.items| &&
      (io.Fault? ==> r.db == db && r.result == Failure("Failed to save item") && r.notices == []) &&
      (io.Done? ==> r.result == Success(merged) && Db.GetItem(r.db, id) == Some(merged) &&
                    r.notices == if m.callbacks.onUpdate then [Updated(merged)] else [])
  {
    match Find(m.items, id)
    case None => Outcome(m, db, Failure("Item " + id + " not found"), [])
    case Some(it) =>
      var merged := Assign(it, u);
      var m' := m.(items := Set(m.items, merged));
      SetDistinct(m.items, merged);
      forall k
        ensures Find(m'.items, k) == if k == id then Some(merged) else Find(m.items, k)
      {
        SetFind(m.items, merged, k);
      }
      match Db.SaveItem(db, merged, io)
      case Failure(e) => Outcome(m', db, Failure(e), [])
      case Success(db') => Outcome(m', db', Success(merged), if m.callbacks.onUpdate then [Updated(merged)] else [])
  }

  /** `deleteItem(id)`: an unknown id resolves with `undefined` and changes
      nothing. Otherwise the item leaves the store, then the map, and
      `onItemDelete` fires once with it. */
  function DeleteItem(m: Manager, db: Db.Db, id: string, io: Db.Io): (r: Outcome<Option<Item>>)
    requires Inv(m) && Db.Inv(db)
    ensures Inv(r.manager) && Db.Inv(r.db)
    ensures !HasId(m.items, id) ==> r == Outcome(m, db, Success(None), [])
    ensures HasId(m.items, id) && io.Fault? ==> r == Outcome(m, db, Failure("Failed to delete item"), [])
    ensures HasId(m.items, id) && io.Done? ==>
      var it := Find(m.items, id).value;
      r.result == Success(Some(it)) && !HasId(r.manager.items, id) && Db.GetItem(r.db, id).None? &&
      (forall k | k != id :: Find(r.manager.items, k) == Find(m.items, k)) &&
      r.notices == if m.callbacks.onDelete then [Deleted(it)] else []
  {
    match Find(m.items, id)
    case None => Outcome(m, db, Success(None), [])
    case Some(it) =>
      match Db.DeleteItem(db, id, io)
      case Failure(e) => Outcome(m, db, Failure(e), [])
      case Success(db') =>
        var items := Remove(m.items, id);
        forall k
          ensures Find(items, k) == if k == id then None else Find(m.items, k)
        {
          RemoveFind(m.items, id, k);
        }
        RemoveDistinct(m.items, id);
        Outcome(m.(items := items), db', Success(Some(it)), if m.callbacks.onDelete then [Deleted(it)] else [])
  }

  lemma {:induction false} RemoveDistinct(m: seq<Item>, id: string)
    requires DistinctIds(m)
    ensures DistinctIds(Remove(m, id))
    decreases |m|
  {
    if |m| > 0 {
      TailDistinct(m);
      RemoveDistinct(m[1..], id);
      if m[0].id != id {
        var t := Remove(m[1..], id);
        forall y | y in t
          ensures y.id != m[0].id
        {
          var i :| 0 <= i < |m[1..]| && m[1..][i] == y;
          assert m[i + 1] == y;
        }
        ConsDistinct(m[0], t);
      }
    }
  }

  /** Adding an item under a fresh id and deleting it again leaves the map and
      the store as they were. */
  lemma AddThenDelete(m: Manager, db: Db.Db, it: Item, today: Civil.Date)
    requires Inv(m) && Db.Inv(db) && !HasId(m.items, it.id) && Db.GetItem(db, it.id).None?
    ensures var a := AddItem(m, db, it, today, Db.Done);
            var d := DeleteItem(a.manager, a.db, it.id, Db.Done);
            d.manager.items == m.items && d.db == db
  {
    var a := AddItem(m, db, it, today, Db.Done);
    var dated := Dated(m, it, today);
    assert a.manager.items == Set(m.items, dated);
    SetRemoveFresh(m.items, dated);
    Db.SaveDeleteFresh(db, dated);
  }

  /** `isOverTrash(x, y)`: inside the trash zone's rectangle, edges included. */
  predicate IsOverTrash(trash: NoteManager.Rect, x: int, y: int) {
    trash.left <= x <= trash.right && trash.top <= y <= trash.bottom
  }

  /** The drag-end handler of an item: dropped on the trash it is deleted,
      anywhere else it moves to the drop point. The handler does not wait for the
      outcome, so only the effects remain. */
  function DragEnd(m: Manager, db: Db.Db, id: string, x: int, y: int, trash: NoteManager.Rect, io: Db.Io)
    : (r: (Manager, Db.Db, seq<Notice>))
    requires Inv(m) && Db.Inv(db)
    ensures Inv(r.0) && Db.Inv(r.1)
    ensures IsOverTrash(trash, x, y) ==> r == (DeleteItem(m, db, id, io).manager, DeleteItem(m, db, id, io).db, DeleteItem(m, db, id, io).notices)
    ensures !IsOverTrash(trash, x, y) ==> r == (UpdateItem(m, db, id, MoveTo(x, y), io).manager, UpdateItem(m, db, id, MoveTo(x, y), io).db, UpdateItem(m, db, id, MoveTo(x, y), io).notices)
  {
    if IsOverTrash(trash, x, y) then
      var o := DeleteItem(m, db, id, io);
      (o.manager, o.db, o.notices)
    else
      var o := UpdateItem(m, db, id, MoveTo(x, y), io);
      (o.manager, o.db, o.notices)
  }

  /** A drop on the trash removes the item from map and store; a drop elsewhere
      moves it, changing nothing but its position. */
  lemma DropOutcomes(m: Manager, db: Db.Db, id: string, x: int, y: int, trash: NoteManager.Rect)
    requires Inv(m) && Db.Inv(db) && HasId(m.items, id)
    ensures var r := DragEnd(m, db, id, x, y, trash, Db.Done);
            var it := Find(m.items, id).value;
            (IsOverTrash(trash, x, y) ==> !HasId(r.0.items, id) && Db.GetItem(r.1, id).None?) &&
            (!IsOverTrash(trash, x, y) ==>
               Find(r.0.items, id) == Some(it.(x := x, y := y)) && Db.GetItem(r.1, id) == Some(it.(x := x, y := y)))
  {
    MoveChangesOnlyPosition(Find(m.items, id).value, x, y);
  }

  /** The trash zone is closed: its corners count, one pixel beyond does not. */
  lemma TrashClosed(t: NoteManager.Rect)
    requires t.left <= t.right && t.top <= t.bottom
    ensures IsOverTrash(t, t.left, t.top) && IsOverTrash(t, t.right, t.bottom)
    ensures !IsOverTrash(t, t.right + 1, t.bottom) && !IsOverTrash(t, t.left, t.top - 1)
  {
  }

  /** JavaScript's `%`: the remainder takes the sign of the dividend. */
  function JsRem(a: int, b: int): (r: int)
    requires b > 0
    ensures a >= 0 ==> 0 <= r < b
    ensures a >= 0 ==> r == a % b
    ensures a < 0 ==> -b < r <= 0 && -r == (-a) % b
  {
    if a >= 0 then a % b else -((-a) % b)
  }

  /** `Number(v)` as far as the timer face needs it: an integer, NaN, or
      `Other` for the numeric forms the model does not evaluate (fractions,
      exponents, hexadecimal, octal and binary literals, `Infinity`). */
  datatype Numeric = Whole(n: int) | NaN | Other

  /** A character that occurs in some numeric literal. */
  predicate LiteralChar(c: char) {
    Text.IsDigit(c) || c in "+-.eExXoObBaAcCdDfFIinty"
  }

  /** `Number(s)` for a string: the spaces around it are ignored. */
  function StringToNumber(s: string): (r: Numeric)
    ensures Text.Trim(s) == "" ==> r == Whole(0)
  {
    LiteralToNumber(Text.Trim(s))
  }

  /** `Number` of a trimmed text: the empty text is 0, an optional sign and
      decimal digits are that integer, and a text that cannot start a literal
      after at most one sign, or that holds a character no literal holds, is
      NaN. */
  function LiteralToNumber(t: string): (r: Numeric)
    ensures t == "" ==> r == Whole(0)
  {
    var body := if |t| > 0 && (t[0] == '+' || t[0] == '-') then t[1..] else t;
    if t == "" then Whole(0)
    else if body != "" && Text.AllDigits(body) then
      Whole(if t[0] == '-' then -(Text.ParseDigits(body) as int) else Text.ParseDigits(body))
    else if body == "" || !(Text.IsDigit(body[0]) || body[0] == '.' || body[0] == 'I') then NaN
    else if exists i | 0 <= i < |t| :: !LiteralChar(t[i]) then NaN
    else Other
  }

  /** `Number(v)`: `undefined` is NaN, `null` 0, a boolean 0 or 1, and a string,
      array or object is converted through the text `String(v)` gives it. */
  function ToNumber(v: Json.Value): (r: Numeric)
    ensures v.Num? ==> r == Whole(v.n)
    ensures v.Undefined? ==> r.NaN?
    ensures v.Null? ==> r == Whole(0)
    ensures v.Str? ==> r == StringToNumber(v.s)
    ensures v.Arr? || v.Obj? ==> r == StringToNumber(Json.Show(v))
  {
    match v
    case Undefined => NaN
    case Null => Whole(0)
    case Bool(b) => Whole(if b then 1 else 0)
    case Num(n) => Whole(n)
    case _ => StringToNumber(Json.Show(v))
  }

  /** The timer face for `JSON.parse(item.content)` (`None` when the parse
      throws): "25:00" when reading `remaining` throws, otherwise `m:ss` of
      `Number(remaining)`, or "NaN:NaN" when that is NaN. `None` for a
      `remaining` whose number is one of the forms `Other` stands for. */
  function TimerDisplay(parsed: Option<Json.Value>): (r: Option<string>)
    ensures parsed.None? || parsed.value.Null? || parsed.value.Undefined? ==> r == Some("25:00")
    ensures parsed.Some? && !parsed.value.Null? && !parsed.value.Undefined? ==>
              var x := ToNumber(Json.Get(parsed.value, "remaining"));
              (r.None? <==> x.Other?) && (x.NaN? ==> r == Some("NaN:NaN")) && (x.Whole? ==> r == Some(Clock(x.n)))
  {
    if parsed.None? || parsed.value.Null? || parsed.value.Undefined? then Some("25:00")
    else
      match ToNumber(Json.Get(parsed.value, "remaining"))
      case Whole(n) => Some(Clock(n))
      case NaN => Some("NaN:NaN")
      case Other => None
  }

  /** A parsed timer whose only property is `remaining`, holding `v`. */
  function Remaining(v: Json.Value): Option<Json.Value> {
    Some(Json.Obj([Json.Field("remaining", v)]))
  }

  /** The decimal text of an integer converts back to it. */
  lemma StringOfInt(n: int)
    ensures StringToNumber(Text.IntToString(n)) == Whole(n)
  {
    var s := Text.IntToString(n);
    assert !Text.IsSpace(s[0]) && !Text.IsSpace(s[|s| - 1]);
    Text.TrimClean(s);
    LiteralOfInt(n);
  }

  lemma LiteralOfInt(n: int)
    ensures LiteralToNumber(Text.IntToString(n)) == Whole(n)
  {
    var s := Text.IntToString(n);
    if n < 0 {
      assert s[0] == '-' && s[1..] == Text.NatToString(-n);
      Text.ParseNatToString(-n);
    } else {
      assert Text.IsDigit(s[0]);
      Text.ParseNatToString(n);
    }
  }

  /** A list of one defined element shows as that element. */
  lemma ShowSingleton(x: Json.Value)
    requires !x.Null? && !x.Undefined?
    ensures Json.Show(Json.Arr([x])) == Json.Show(x)
  {
    var parts := seq(1, i requires 0 <= i < 1 =>
                        if [x][i].Undefined? || [x][i].Null? then "" else Json.Show([x][i]));
    assert parts == [Json.Show(x)];
  }

  lemma GetRemaining(v: Json.Value)
    ensures Json.Get(Remaining(v).value, "remaining") == v
  {
  }

  /** A timer shows the face of its `remaining`'s number. */
  lemma RemainingFace(v: Json.Value)
    ensures ToNumber(v).Whole? ==> TimerDisplay(Remaining(v)) == Some(Clock(ToNumber(v).n))
    ensures ToNumber(v).NaN? ==> TimerDisplay(Remaining(v)) == Some("NaN:NaN")
  {
    GetRemaining(v);
  }

  /** A count held as decimal text, or alone in a list, shows the same face as
      the count itself: `{"remaining": "90"}` shows "1:30". */
  lemma TextCountShowsCount(n: int)
    ensures TimerDisplay(Remaining(Json.Num(n))) == Some(Clock(n))
    ensures TimerDisplay(Remaining(Json.Str(Text.IntToString(n)))) == TimerDisplay(Remaining(Json.Num(n)))
    ensures TimerDisplay(Remaining(Json.Arr([Json.Num(n)]))) == TimerDisplay(Remaining(Json.Num(n)))
    ensures TimerDisplay(Remaining(Json.Arr([Json.Str(Text.IntToString(n))]))) == TimerDisplay(Remaining(Json.Num(n)))
  {
    RemainingFace(Json.Num(n));
    StringOfInt(n);
    SameNumberSameFace(Json.Str(Text.IntToString(n)), Json.Num(n));
    ListOfCount(Json.Num(n), n);
    SameNumberSameFace(Json.Arr([Json.Num(n)]), Json.Num(n));
    ListOfCount(Json.Str(Text.IntToString(n)), n);
    SameNumberSameFace(Json.Arr([Json.Str(Text.IntToString(n))]), Json.Num(n));
  }

  /** A list holding only a count, as a number or as its text, is that count. */
  lemma ListOfCount(x: Json.Value, n: int)
    requires x == Json.Num(n) || x == Json.Str(Text.IntToString(n))
    ensures ToNumber(Json.Arr([x])) == Whole(n)
  {
    ShowSingleton(x);
    assert Json.Show(x) == Text.IntToString(n);
    StringOfInt(n);
  }

  /** An empty list, empty text and `null` all count as no time left. */
  lemma EmptyCountsZero()
    ensures TimerDisplay(Remaining(Json.Arr([]))) == TimerDisplay(Remaining(Json.Num(0)))
    ensures TimerDisplay(Remaining(Json.Str(""))) == TimerDisplay(Remaining(Json.Num(0)))
    ensures TimerDisplay(Remaining(Json.Null)) == TimerDisplay(Remaining(Json.Num(0)))
  {
    EmptyListZero();
    EmptyTextZero();
    SameNumberSameFace(Json.Arr([]), Json.Num(0));
    SameNumberSameFace(Json.Str(""), Json.Num(0));
    SameNumberSameFace(Json.Null, Json.Num(0));
  }

  /** Two values with the same number show the same face. */
  lemma SameNumberSameFace(v: Json.Value, w: Json.Value)
    requires ToNumber(v) == ToNumber(w)
    ensures TimerDisplay(Remaining(v)) == TimerDisplay(Remaining(w))
  {
    GetRemaining(v);
    GetRemaining(w);
  }

  lemma EmptyListZero()
    ensures ToNumber(Json.Arr([])) == Whole(0)
  {
    assert Json.Show(Json.Arr([])) == "";
    EmptyTextZero();
  }

  lemma EmptyTextZero()
    ensures StringToNumber("") == Whole(0)
  {
    Text.TrimClean("");
  }

  /** An object, or text that cannot begin a number, shows "NaN:NaN", as does a
      timer without `remaining`. */
  lemma NonNumbersShowNaN(fs: seq<Json.Field>, s: string, v: Json.Value)
    requires |s| > 0 && !Text.IsSpace(s[0]) && !Text.IsDigit(s[0]) && s[0] !in "+-.I"
    requires v.Obj? && Json.Lookup(v.fields, "remaining").None?
    ensures TimerDisplay(Remaining(Json.Obj(fs))) == Some("NaN:NaN")
    ensures TimerDisplay(Remaining(Json.Str(s))) == Some("NaN:NaN")
    ensures TimerDisplay(Some(v)) == Some("NaN:NaN")
  {
    ObjectIsNaN(fs);
    RemainingFace(Json.Obj(fs));
    TextIsNaN(s);
    RemainingFace(Json.Str(s));
  }

  lemma ObjectIsNaN(fs: seq<Json.Field>)
    ensures ToNumber(Json.Obj(fs)).NaN?
  {
    var o := "[object Object]";
    assert !Text.IsSpace(o[0]) && !Text.IsSpace(o[|o| - 1]);
    Text.TrimClean(o);
  }

  lemma TextIsNaN(s: string)
    requires |s| > 0 && !Text.IsSpace(s[0]) && !Text.IsDigit(s[0]) && s[0] !in "+-.I"
    ensures ToNumber(Json.Str(s)).NaN?
  {
    assert Text.Leading(s) == 0;
    var t := Text.Trim(s);
    assert |t| > 0 && t[0] == s[0];
  }

  /** `${Math.floor(n / 60)}:${(n % 60).toString().padStart(2, '0')}`. */
  function Clock(n: int): string {
    Text.IntToString(n / 60) + ":" + Text.PadStart(Text.IntToString(JsRem(n, 60)), 2, '0')
  }

  /** For a non-negative count the face reads back: whole minutes, a colon, and
      two digits of seconds below 60 that make up the rest. */
  lemma ClockReadsBack(n: nat)
    ensures var s := Clock(n);
            var mins := Text.NatToString(n / 60);
            |s| == |mins| + 3 && s[..|mins|] == mins && s[|mins|] == ':' &&
            Text.AllDigits(s[|mins| + 1..]) &&
            60 * Text.ParseDigits(mins) + Text.ParseDigits(s[|mins| + 1..]) == n &&
            Text.ParseDigits(s[|mins| + 1..]) < 60
  {
    var mins := Text.NatToString(n / 60);
    Text.ParseNatToString(n / 60);
    Text.Pad2Parses(n % 60);
    assert Text.PadStart(Text.IntToString(JsRem(n, 60)), 2, '0') == Text.Pad2(n % 60);
    var s := Clock(n);
    assert s[|mins| + 1..] == Text.Pad2(n % 60);
  }

  /** A new timer shows the full 25 minutes, the same face as an unreadable
      timer. */
  lemma FreshTimerFace()
    ensures TimerDisplay(Some(ActionFactory.TimerPayload)) == Some("25:00") == TimerDisplay(None)
  {
    var fs := ActionFactory.TimerPayload.fields;
    assert fs[0].key != "remaining" by {
      assert fs[0].key[0] == 'd';
    }
    assert fs[1..][0] == Json.Field("remaining", Json.Num(1500));
    assert Json.Lookup(fs, "remaining") == Json.Lookup(fs[1..], "remaining");
    assert Json.Lookup(fs[1..], "remaining") == Some(Json.Num(1500));
    assert Json.Get(ActionFactory.TimerPayload, "remaining") == Json.Num(1500);
    assert TimerDisplay(Some(ActionFactory.TimerPayload)) == Some(Clock(1500));
    assert JsRem(1500, 60) == 0 && 1500 / 60 == 25;
    assert Text.NatToString(25) == [Text.DigitChar(2), Text.DigitChar(5)] == "25";
    assert Text.Pad2(0) == "00";
    assert Clock(1500) == "25" + ":" + "00" == "25:00";
  }

  /** Negative time left shows a negative minute and negative seconds, from
      floor division and a sign-keeping remainder. */
  lemma NegativeFace()
    ensures Clock(-30) == "-1:-30"
  {
    assert JsRem(-30, 60) == -30;
    assert Text.IntToString(-1) == "-1";
    assert Text.IntToString(-30) == "-" + Text.NatToString(30);
    assert Text.NatToString(30) == "30" by {
      assert Text.NatToString(30) == Text.NatToString(3) + [Text.DigitChar(0)];
    }
  }

  /** `getShadeClass(item)`: a missing or zero shade shows as shade 1. */
  function ShadeClass(it: Item): (c: string)
    ensures it.shade.Some? && it.shade.value != 0 ==> c == "note-shade-" + Text.IntToString(it.shade.value)
    ensures it.shade.None? || it.shade == Some(0) ==> c == "note-shade-1"
  {
    if it.shade.Some? && it.shade.value != 0 then "note-shade-" + Text.IntToString(it.shade.value)
    else "note-shade-1"
  }

  /** Distinct set shades give distinct classes, and a missing shade looks like
      shade 1. */
  lemma ShadeClassSeparates(a: Item, b: Item)
    ensures a.shade.Some? && b.shade.Some? && a.shade.value != 0 && b.shade.value != 0 ==>
              (ShadeClass(a) == ShadeClass(b) <==> a.shade == b.shade)
    ensures a.shade.None? && b.shade == Some(1) ==> ShadeClass(a) == ShadeClass(b)
  {
    if a.shade.Some? && b.shade.Some? && a.shade.value != 0 && b.shade.value != 0 {
      Text.IntToStringInjective(a.shade.value, b.shade.value);
      if ShadeClass(a) == ShadeClass(b) {
        var p := "note-shade-";
        Text.AppendCancel(p, Text.IntToString(a.shade.value), p, Text.IntToString(b.shade.value));
      }
    }
    assert Text.IntToString(1) == "1";
  }

  /** `getItemsByType(type)`: exactly the items of that type, in map order. */
  function GetItemsByType(m: Manager, kind: string): (r: seq<Item>)
    ensures forall x | x in r :: x in m.items && x.kind == kind
    ensures forall x | x in m.items && x.kind == kind :: x in r
  {
    OfKind(m.items, kind)
  }
}

=== FILE: date_navigator.dfy ===
/** The day/week/month/year cursor of the touch journal: a current date and a
    view level, moved by period steps and zoomed between levels, with the change
    notices it sends to the registered callbacks. */
module DateNavigator {
  import opened Civil
  import Helpers
  import opened Wrappers

  const ViewLevels: seq<string> := ["day", "week", "month", "year"]

  /** Which of the two callbacks the application has registered. */
  datatype Callbacks = Callbacks(onDateChange: bool, onViewChange: bool)

  datatype Navigator = Navigator(currentDate: Date, viewLevel: string, callbacks: Callbacks)

  /** A callback invocation: `onDateChange(new, old, direction)` or
      `onViewChange(newLevel, oldLevel, direction)`. */
  datatype Notice =
    | DateChanged(newDate: Date, oldDate: Date, direction: string)
    | ViewChanged(newLevel: string, oldLevel: string, direction: string)

  /** The navigator after an operation, and the callback it invoked, if any. */
  datatype Step = Step(nav: Navigator, notice: Option<Notice>)

  predicate WellFormed(n: Navigator) {
    Valid(n.currentDate)
  }

  /** A new navigator: today's date, the day level, no callbacks. */
  function Init(today: Date): Navigator {
    Navigator(today, "day", Callbacks(false, false))
  }

  /** `setCallbacks(callbacks)`: `Object.assign`, so only the callbacks passed in
      are replaced. */
  function SetCallbacks(n: Navigator, onDateChange: Option<bool>, onViewChange: Option<bool>): (r: Navigator)
    ensures r.currentDate == n.currentDate && r.viewLevel == n.viewLevel
    ensures r.callbacks.onDateChange == onDateChange.GetOr(n.callbacks.onDateChange)
    ensures r.callbacks.onViewChange == onViewChange.GetOr(n.callbacks.onViewChange)
  {
    n.(callbacks := Callbacks(onDateChange.GetOr(n.callbacks.onDateChange), onViewChange.GetOr(n.callbacks.onViewChange)))
  }

  /** `viewLevels.indexOf(level)`: the position of the level, or -1. */
  function IndexOf(level: string): (i: int)
    ensures -1 <= i < 4
    ensures i >= 0 ==> ViewLevels[i] == level
    ensures i == -1 <==> level !in ViewLevels
  {
    if level == "day" then 0
    else if level == "week" then 1
    else if level == "month" then 2
    else if level == "year" then 3
    else -1
  }

  /** `direction === 'up' ? -1 : 1`. */
  function Delta(direction: string): int {
    if direction == "up" then -1 else 1
  }

  /** The date after one period step at the given level. */
  function StepDate(d: Date, level: string, delta: int): (r: Date)
    requires Valid(d)
    ensures Valid(r)
  {
    match level
    case "day" => DayStep(d, delta)
    case "week" => WeekStep(d, delta)
    case "month" => MonthStep(d, delta)
    case "year" => YearStep(d, delta)
    case _ => d
  }

  /** `navigatePeriod(direction)`: the date moves by one period of the current
      level, which stays as it is. */
  function NavigatePeriod(n: Navigator, direction: string): (r: Step)
    requires WellFormed(n)
    ensures WellFormed(r.nav)
    ensures r.nav == n.(currentDate := StepDate(n.currentDate, n.viewLevel, Delta(direction)))
    ensures r.notice.Some? <==> n.callbacks.onDateChange
    ensures r.notice.Some? ==> r.notice.value == DateChanged(r.nav.currentDate, n.currentDate, direction)
  {
    var d := n.currentDate;
    var nd := StepDate(d, n.viewLevel, Delta(direction));
    Step(n.(currentDate := nd), if n.callbacks.onDateChange then Some(DateChanged(nd, d, direction)) else None)
  }

  /** 'up' steps back one period and any other direction steps forward; the period
      is 1 day, 7 days, a calendar month or a calendar year by level, and an unknown
      level leaves the date alone. */
  lemma NavigatePeriodUnits(n: Navigator, direction: string)
    requires WellFormed(n)
    ensures var d := n.currentDate;
            var k := if direction == "up" then -1 else 1;
            var r := NavigatePeriod(n, direction).nav.currentDate;
            (n.viewLevel == "day" ==> r == AddDays(d, k)) &&
            (n.viewLevel == "week" ==> r == AddDays(d, 7 * k)) &&
            (n.viewLevel == "month" ==> r == CarriedDate(d.year, d.month - 1 + k, d.day)) &&
            (n.viewLevel == "year" ==> r.year == d.year + k) &&
            (n.viewLevel !in ViewLevels ==> r == d)
  {
  }

  /** Day and week steps are undone by the opposite step. */
  lemma NavigateDayWeekReversible(n: Navigator, direction: string)
    requires WellFormed(n) && (n.viewLevel == "day" || n.viewLevel == "week") && direction != "up"
    ensures NavigatePeriod(NavigatePeriod(n, direction).nav, "up").nav == n
  {
    var m := NavigatePeriod(n, direction).nav;
    var k := if n.viewLevel == "day" then 1 else 7;
    AddDaysAdd(n.currentDate, k, -k);
    AddDaysZero(n.currentDate);
  }

  /** A month step from 31 January overflows into March, and stepping back lands in
      February: month steps are not always reversible. */
  lemma NavigateMonthNotReversible(y: int, cb: Callbacks)
    ensures var n := Navigator(Date(y, 1, 31), "month", cb);
            NavigatePeriod(NavigatePeriod(n, "down").nav, "up").nav.currentDate == Date(y, 2, 31 - DaysInMonth(y, 2))
  {
    Helpers.AddMonthsOverflow(Date(y, 1, 31));
  }

  /** A year step from 29 February lands on 1 March, and stepping back gives 1 March
      of the leap year. */
  lemma NavigateYearNotReversible(y: int, cb: Callbacks)
    requires IsLeapYear(y) && !IsLeapYear(y + 1)
    ensures var n := Navigator(Date(y, 2, 29), "year", cb);
            NavigatePeriod(n, "down").nav.currentDate == Date(y + 1, 3, 1) &&
            NavigatePeriod(NavigatePeriod(n, "down").nav, "up").nav.currentDate == Date(y, 3, 1)
  {
    SetFullYearRelative(Date(y, 2, 29), 1);
    SetFullYearRelative(Date(y + 1, 3, 1), -1);
  }

  /** `zoomLevel(direction)`: 'in' moves one level finer (never below day) and any
      other direction one level coarser (never above year); an unknown level counts
      as position -1, so either direction gives day. Only an actual change of level
      is reported. */
  function ZoomLevel(n: Navigator, direction: string): (r: Step)
    ensures r.nav.currentDate == n.currentDate && r.nav.callbacks == n.callbacks
    ensures var i := IndexOf(n.viewLevel);
            var j := if direction == "in" then (if i - 1 > 0 then i - 1 else 0) else (if i + 1 < 3 then i + 1 else 3);
            r.nav.viewLevel == if j != i then ViewLevels[j] else n.viewLevel
    ensures r.notice.Some? <==> r.nav.viewLevel != n.viewLevel && n.callbacks.onViewChange
    ensures r.notice.Some? ==> r.notice.value == ViewChanged(r.nav.viewLevel, n.viewLevel, direction)
  {
    var current := IndexOf(n.viewLevel);
    var next := if direction == "in" then Max(0, current - 1) else Min(3, current + 1);
    if next != current then
      var level := ViewLevels[next];
      Step(n.(viewLevel := level), if n.callbacks.onViewChange then Some(ViewChanged(level, n.viewLevel, direction)) else None)
    else
      Step(n, None)
  }

  function Max(a: int, b: int): int { if a > b then a else b }
  function Min(a: int, b: int): int { if a < b then a else b }

  /** Zooming in from week, month or year and then out again restores the level. */
  lemma ZoomInThenOut(n: Navigator)
    requires n.viewLevel in ["week", "month", "year"]
    ensures ZoomLevel(ZoomLevel(n, "in").nav, "out").nav == n
  {
  }

  /** Zooming out from day, week or month and then in again restores the level. */
  lemma ZoomOutThenIn(n: Navigator, direction: string)
    requires n.viewLevel in ["day", "week", "month"] && direction != "in"
    ensures ZoomLevel(ZoomLevel(n, direction).nav, "in").nav == n
  {
  }

  /** At the ends of the scale nothing changes and no callback is made. */
  lemma ZoomAtEnds(n: Navigator, direction: string)
    requires (n.viewLevel == "day" && direction == "in") || (n.viewLevel == "year" && direction != "in")
    ensures ZoomLevel(n, direction) == Step(n, None)
  {
  }

  /** A level outside the four names is replaced by day whichever way one zooms. */
  lemma ZoomUnknownLevel(n: Navigator, direction: string)
    requires n.viewLevel !in ViewLevels
    ensures ZoomLevel(n, direction).nav.viewLevel == "day"
  {
  }

  /** A move to a date at the current level, announced with its reason. */
  function MoveTo(n: Navigator, date: Date, reason: string): Step {
    Step(n.(currentDate := date), if n.callbacks.onDateChange then Some(DateChanged(date, n.currentDate, reason)) else None)
  }

  /** `goToToday()`, with the current day passed in. */
  function GoToToday(n: Navigator, today: Date): (r: Step)
    ensures r.nav == n.(currentDate := today)
    ensures r.notice == if n.callbacks.onDateChange then Some(DateChanged(today, n.currentDate, "today")) else None
  {
    MoveTo(n, today, "today")
  }

  /** `goToDate(date)`: the level is kept. */
  function GoToDate(n: Navigator, date: Date): (r: Step)
    ensures r.nav == n.(currentDate := date)
    ensures r.notice == if n.callbacks.onDateChange then Some(DateChanged(date, n.currentDate, "jump")) else None
  {
    MoveTo(n, date, "jump")
  }

  /** `getDateKey()`: the key of the current date at the current level. */
  function GetDateKey(n: Navigator): (k: string)
    requires WellFormed(n)
    ensures k == Helpers.DateKey(n.currentDate, n.viewLevel)
  {
    match n.viewLevel
    case "day" => DayKey(n.currentDate)
    case "week" => WeekKey(n.currentDate)
    case "month" => MonthKey(n.currentDate)
    case "year" => YearKey(n.currentDate)
    case _ => DayKey(n.currentDate)
  }

  /** The navigator's date sets are the helpers' date sets of its current date. */
  function GetWeekDates(n: Navigator): seq<Date>
    requires WellFormed(n)
  {
    Helpers.WeekDates(n.currentDate)
  }

  function GetMonthDates(n: Navigator): seq<Helpers.MonthCell>
    requires WellFormed(n)
  {
    Helpers.MonthDates(n.currentDate)
  }

  function GetYearMonths(n: Navigator): seq<Date> {
    Helpers.YearMonths(n.currentDate)
  }
}

=== FILE: db_manager.dfy ===
/** The journal's IndexedDB database (`DBManager`) as three object stores held
    as finite maps in key order: items keyed by id (with lookups by date and by
    type), settings keyed by name, and a cache of expiring entries. The clock is
    an input (`now`, in milliseconds), and `Io` says whether the store request
    succeeds. */
module DbManager {
  import opened Wrappers
  import opened Items
  import opened KeyStore
  import Json
  import Text

  const Version: int := 1
  const DefaultTtl: int := 3600000

  datatype Setting = Setting(key: string, value: Json.Value, timestamp: int)

  datatype Entry = Entry(key: string, data: Json.Value, expiry: int)

  datatype Db = Db(items: seq<Rec<Item>>, settings: seq<Rec<Setting>>, cache: seq<Rec<Entry>>)

  /** Whether a store request succeeds or fires its `onerror`. */
  datatype Io = Done | Fault

  /** Each store is in key order and files every record under its own key. */
  predicate Inv(db: Db) {
    Sorted(db.items) && Sorted(db.settings) && Sorted(db.cache) &&
    (forall i | 0 <= i < |db.items| :: db.items[i].key == db.items[i].val.id) &&
    (forall i | 0 <= i < |db.settings| :: db.settings[i].key == db.settings[i].val.key) &&
    (forall i | 0 <= i < |db.cache| :: db.cache[i].key == db.cache[i].val.key)
  }

  const Empty: Db := Db([], [], [])

  lemma PutKeepsInv<T>(s: seq<Rec<T>>, k: string, v: T)
    requires Sorted(s)
    ensures Sorted(Put(s, k, v))
  {
    PutSorted(s, k, v);
  }

  /** `saveItem(item)`: an upsert by id. */
  function SaveItem(db: Db, it: Item, io: Io): (r: Result<Db, string>)
    requires Inv(db)
    ensures io.Fault? <==> r.Failure?
    ensures r.Failure? ==> r.error == "Failed to save item"
    ensures r.Success? ==> Inv(r.value) && r.value.settings == db.settings && r.value.cache == db.cache
    ensures r.Success? ==> Get(r.value.items, it.id) == Some(it)
  {
    if io.Fault? then Failure("Failed to save item")
    else
      var items := Put(db.items, it.id, it);
      PutSorted(db.items, it.id, it);
      PutGet(db.items, it.id, it, it.id);
      assert forall x | x in items :: x.key == x.val.id by {
        forall x | x in items
          ensures x.key == x.val.id
        {
          if x != Rec(it.id, it) {
            var i :| 0 <= i < |db.items| && db.items[i] == x;
          }
        }
      }
      Success(db.(items := items))
  }

  /** `getItem(id)`. */
  function GetItem(db: Db, id: string): (r: Option<Item>)
    requires Inv(db)
    ensures r.Some? ==> r.value.id == id
    ensures r.Some? <==> HasKey(db.items, id)
  {
    var r := Get(db.items, id);
    if r.Some? then
      var i :| 0 <= i < |db.items| && db.items[i] == Rec(id, r.value);
      r
    else r
  }

  /** Saving an item twice leaves one record holding the second version. */
  lemma SaveTwice(db: Db, a: Item, b: Item)
    requires Inv(db) && a.id == b.id
    ensures SaveItem(SaveItem(db, a, Done).value, b, Done).value == SaveItem(db, b, Done).value
  {
    PutPut(db.items, a.id, a, b);
  }

  /** After a save, the item reads back and every other id reads as before. */
  lemma SaveThenGet(db: Db, it: Item, id: string)
    requires Inv(db)
    ensures GetItem(SaveItem(db, it, Done).value, id) == if id == it.id then Some(it) else GetItem(db, id)
  {
    PutGet(db.items, it.id, it, id);
  }

  /** `deleteItem(id)`. */
  function DeleteItem(db: Db, id: string, io: Io): (r: Result<Db, string>)
    requires Inv(db)
    ensures io.Fault? <==> r.Failure?
    ensures r.Failure? ==> r.error == "Failed to delete item"
    ensures r.Success? ==> Inv(r.value) && r.value.settings == db.settings && r.value.cache == db.cache
    ensures r.Success? ==> !HasKey(r.value.items, id)
  {
    if io.Fault? then Failure("Failed to delete item")
    else
      var items := Delete(db.items, id);
      DeleteSorted(db.items, id);
      assert forall x | x in items :: x.key == x.val.id by {
        forall x | x in items
          ensures x.key == x.val.id
        {
          var i :| 0 <= i < |db.items| && db.items[i] == x;
        }
      }
      Success(db.(items := items))
  }

  /** After a delete, `getItem` of that id yields `undefined`, and every other id
      reads as before. */
  lemma DeleteThenGet(db: Db, id: string, id': string)
    requires Inv(db)
    ensures GetItem(DeleteItem(db, id, Done).value, id') == if id' == id then None else GetItem(db, id')
  {
    DeleteGet(db.items, id, id');
  }

  /** Saving a new item and deleting it again restores the item store. */
  lemma SaveDeleteFresh(db: Db, it: Item)
    requires Inv(db) && GetItem(db, it.id).None?
    ensures DeleteItem(SaveItem(db, it, Done).value, it.id, Done).value == db
  {
    DeletePutFresh(db.items, it.id, it);
  }

  /** The two secondary indexes of the items store. */
  datatype Index = ByDate | ByType

  /** The key an item is filed under in an index. */
  function IndexKey(x: Item, ix: Index): string {
    match ix
    case ByDate => x.date
    case ByType => x.kind
  }

  /** An index lookup: the records filed under one key, in primary-key order. */
  function Lookup(s: seq<Rec<Item>>, ix: Index, key: string): (r: seq<Item>)
    ensures forall x | x in r :: IndexKey(x, ix) == key && exists i | 0 <= i < |s| :: s[i].val == x
    ensures forall i | 0 <= i < |s| && IndexKey(s[i].val, ix) == key :: s[i].val in r
    decreases |s|
  {
    if |s| == 0 then []
    else if IndexKey(s[0].val, ix) == key then [s[0].val] + Lookup(s[1..], ix, key)
    else Lookup(s[1..], ix, key)
  }

  /** The records under one index key carry distinct ids, since the store files
      each id once. */
  lemma {:induction false} LookupDistinct(s: seq<Rec<Item>>, ix: Index, key: string)
    requires Sorted(s) && forall i | 0 <= i < |s| :: s[i].key == s[i].val.id
    ensures DistinctIds(Lookup(s, ix, key))
    decreases |s|
  {
    if |s| > 0 {
      SortedTail(s);
      LookupDistinct(s[1..], ix, key);
      if IndexKey(s[0].val, ix) == key {
        var t := Lookup(s[1..], ix, key);
        forall y | y in t
          ensures y.id != s[0].val.id
        {
          var i :| 0 <= i < |s[1..]| && s[1..][i].val == y;
          assert Less(s[0].key, s[1..][i].key);
          LessIrreflexive(s[0].key);
        }
        ConsDistinct(s[0].val, t);
      }
    }
  }

  /** `getItemsByDate(date)`: exactly the items of that date. */
  function GetItemsByDate(db: Db, date: string, io: Io): (r: Result<seq<Item>, string>)
    ensures io.Fault? <==> r.Failure?
    ensures r.Failure? ==> r.error == "Failed to get items by date"
    ensures r.Success? ==> forall x | x in r.value :: x.date == date && x in Values(db.items)
    ensures r.Success? ==> forall x | x in Values(db.items) && x.date == date :: x in r.value
  {
    if io.Fault? then Failure("Failed to get items by date") else Success(Lookup(db.items, ByDate, date))
  }

  /** `getItemsByType(type)`: exactly the items of that type. */
  function GetItemsByType(db: Db, kind: string): (r: seq<Item>)
    ensures forall x | x in r :: x.kind == kind && x in Values(db.items)
    ensures forall x | x in Values(db.items) && x.kind == kind :: x in r
  {
    Lookup(db.items, ByType, kind)
  }

  /** The text an item is searched in: content, type and date joined by spaces,
      lower-cased. */
  function SearchText(it: Item): string {
    Text.ToLower(it.content + " " + it.kind + " " + it.date)
  }

  /** Every space-separated term of the lower-cased query occurs in the text. */
  predicate Matches(it: Item, query: string) {
    var terms := Text.Split(Text.ToLower(query), ' ');
    forall t | t in terms :: Text.Contains(SearchText(it), t)
  }

  function Filter(items: seq<Item>, query: string): (r: seq<Item>)
    ensures forall x | x in r :: x in items && Matches(x, query)
    ensures forall x | x in items && Matches(x, query) :: x in r
    decreases |items|
  {
    if |items| == 0 then []
    else if Matches(items[0], query) then [items[0]] + Filter(items[1..], query)
    else Filter(items[1..], query)
  }

  /** `searchItems(query)`. */
  function SearchItems(db: Db, query: string): (r: seq<Item>)
    ensures forall x | x in r :: x in Values(db.items) && Matches(x, query)
    ensures forall x | x in Values(db.items) && Matches(x, query) :: x in r
  {
    Filter(Values(db.items), query)
  }

  /** An empty query is one empty term, which every text contains. */
  lemma {:induction false} EmptyQueryMatchesAll(items: seq<Item>)
    ensures Filter(items, "") == items
    decreases |items|
  {
    if |items| > 0 {
      assert Text.Split(Text.ToLower(""), ' ') == [""];
      Text.ContainsEmpty(SearchText(items[0]));
      EmptyQueryMatchesAll(items[1..]);
      assert items == [items[0]] + items[1..];
    }
  }

  lemma ToLowerIdempotent(s: string)
    ensures Text.ToLower(Text.ToLower(s)) == Text.ToLower(s)
  {
  }

  /** The search ignores the query's letter case. */
  lemma SearchIgnoresCase(it: Item, query: string)
    ensures Matches(it, query) <==> Matches(it, Text.ToLower(query))
  {
    ToLowerIdempotent(query);
  }

  /** `saveSetting(key, value)` stamps the record with the clock. */
  function SaveSetting(db: Db, key: string, value: Json.Value, now: int): (r: Db)
    requires Inv(db)
    ensures Inv(r) && r.items == db.items && r.cache == db.cache
  {
    var rec := Setting(key, value, now);
    PutSorted(db.settings, key, rec);
    assert forall x | x in Put(db.settings, key, rec) :: x.key == x.val.key by {
      forall x | x in Put(db.settings, key, rec)
        ensures x.key == x.val.key
      {
        if x != Rec(key, rec) {
          var i :| 0 <= i < |db.settings| && db.settings[i] == x;
        }
      }
    }
    db.(settings := Put(db.settings, key, rec))
  }

  /** `getSetting(key)`: the stored value, or `null` for an unknown key. */
  function GetSetting(db: Db, key: string): (r: Json.Value)
    ensures !HasKey(db.settings, key) ==> r == Json.Null
  {
    match Get(db.settings, key)
    case Some(s) => s.value
    case None => Json.Null
  }

  /** A saved setting reads back; the others read as before. */
  lemma SaveThenGetSetting(db: Db, key: string, value: Json.Value, now: int, other: string)
    requires Inv(db) && other != key
    ensures GetSetting(SaveSetting(db, key, value, now), key) == value
    ensures GetSetting(SaveSetting(db, key, value, now), other) == GetSetting(db, other)
  {
    PutGet(db.settings, key, Setting(key, value, now), key);
    PutGet(db.settings, key, Setting(key, value, now), other);
  }

  /** `cache(key, data, ttl)`: the entry expires `ttl` milliseconds from now, an
      hour when no ttl is passed. */
  function CachePut(db: Db, key: string, data: Json.Value, ttl: Option<int>, now: int): (r: Db)
    requires Inv(db)
    ensures Inv(r) && r.items == db.items && r.settings == db.settings
    ensures Get(r.cache, key) == Some(Entry(key, data, now + ttl.GetOr(DefaultTtl)))
  {
    var e := Entry(key, data, now + ttl.GetOr(DefaultTtl));
    PutSorted(db.cache, key, e);
    PutGet(db.cache, key, e, key);
    assert forall x | x in Put(db.cache, key, e) :: x.key == x.val.key by {
      forall x | x in Put(db.cache, key, e)
        ensures x.key == x.val.key
      {
        if x != Rec(key, e) {
          var i :| 0 <= i < |db.cache| && db.cache[i] == x;
        }
      }
    }
    db.(cache := Put(db.cache, key, e))
  }

  /** `clearCache(key)`: a truthy key deletes that entry; a missing or empty key
      clears the whole cache. */
  function ClearCacheWith(db: Db, key: Option<string>, corrected: bool): (r: Db)
    requires Inv(db)
    ensures Inv(r) && r.items == db.items && r.settings == db.settings
    ensures (if corrected then key.Some? else key.Some? && key.value != "") ==>
              forall k :: Get(r.cache, k) == if k == key.value then None else Get(db.cache, k)
    ensures !(if corrected then key.Some? else key.Some? && key.value != "") ==> r.cache == []
  {
    var single := if corrected then key.Some? else key.Some? && key.value != "";
    if single then
      DeleteSorted(db.cache, key.value);
      forall k ensures Get(Delete(db.cache, key.value), k) == if k == key.value then None else Get(db.cache, k) {
        DeleteGet(db.cache, key.value, k);
      }
      assert forall x | x in Delete(db.cache, key.value) :: x.key == x.val.key by {
        forall x | x in Delete(db.cache, key.value)
          ensures x.key == x.val.key
        {
          var i :| 0 <= i < |db.cache| && db.cache[i] == x;
        }
      }
      db.(cache := Delete(db.cache, key.value))
    else db.(cache := [])
  }

  /** `getCache(key)` at time `now`: `null` for a missing entry; an entry whose
      expiry is before now is evicted and reads `null`; an entry expiring exactly
      now is still returned. */
  function GetCacheWith(db: Db, key: string, now: int, corrected: bool): (r: (Db, Json.Value))
    requires Inv(db)
    ensures Inv(r.0)
    ensures !HasKey(db.cache, key) ==> r == (db, Json.Null)
    ensures HasKey(db.cache, key) && Get(db.cache, key).value.expiry >= now ==>
              r == (db, Get(db.cache, key).value.data)
    ensures HasKey(db.cache, key) && Get(db.cache, key).value.expiry < now ==>
              r.1 == Json.Null && !HasKey(r.0.cache, key) &&
              r.0.items == db.items && r.0.settings == db.settings &&
              (corrected || key != "" ==> forall k | k != key :: Get(r.0.cache, k) == Get(db.cache, k)) &&
              (!corrected && key == "" ==> r.0.cache == [])
  {
    match Get(db.cache, key)
    case None => (db, Json.Null)
    case Some(e) =>
      if e.expiry < now then
        (ClearCacheWith(db, Some(key), corrected), Json.Null)
      else (db, e.data)
  }

  /** The database as written. */
  function GetCache(db: Db, key: string, now: int): (r: (Db, Json.Value))
    requires Inv(db)
  {
    GetCacheWith(db, key, now, false)
  }

  /** With the eviction deleting exactly the expired key. */
  function GetCacheCorrected(db: Db, key: string, now: int): (r: (Db, Json.Value))
    requires Inv(db)
    ensures forall k | k != key :: Get(r.0.cache, k) == Get(db.cache, k)
  {
    GetCacheWith(db, key, now, true)
  }

  /** Cached data reads back until its expiry has passed, and then reads `null`. */
  lemma CacheThenGet(db: Db, key: string, data: Json.Value, ttl: Option<int>, now: int, later: int)
    requires Inv(db)
    ensures var c := CachePut(db, key, data, ttl, now);
            GetCache(c, key, later).1 == if later <= now + ttl.GetOr(DefaultTtl) then data else Json.Null
  {
  }

  /** As written: evicting an expired entry under the empty key `""` clears the
      whole cache, because the empty key is falsy. */
  lemma EmptyKeyEvictionClearsAll(db: Db, other: string, now: int)
    requires Inv(db) && other != ""
    requires HasKey(db.cache, "") && HasKey(db.cache, other)
    requires Get(db.cache, "").value.expiry < now
    ensures GetCache(db, "", now).0.cache == []
    ensures GetCacheCorrected(db, "", now).0.cache != []
  {
    var e := Get(db.cache, other).value;
    DeleteGet(db.cache, "", other);
    assert Get(GetCacheCorrected(db, "", now).0.cache, other).Some?;
  }

  /** The entries still valid at `now` (expiry after it), and how many are not. */
  function Unexpired(s: seq<Rec<Entry>>, now: int): (r: seq<Rec<Entry>>)
    ensures forall x | x in r :: x in s && x.val.expiry > now
    ensures forall x | x in s && x.val.expiry > now :: x in r
    ensures |r| <= |s|
    decreases |s|
  {
    if |s| == 0 then []
    else if s[0].val.expiry <= now then Unexpired(s[1..], now)
    else [s[0]] + Unexpired(s[1..], now)
  }

  lemma {:induction false} UnexpiredSorted(s: seq<Rec<Entry>>, now: int)
    requires Sorted(s)
    ensures Sorted(Unexpired(s, now))
    decreases |s|
  {
    if |s| > 0 {
      SortedTail(s);
      UnexpiredSorted(s[1..], now);
      if s[0].val.expiry > now {
        SortedCons(s[0], Unexpired(s[1..], now));
      }
    }
  }

  /** `clearExpiredCache()`: deletes every entry whose expiry is at or before now
      and reports how many it deleted. */
  function ClearExpiredCache(db: Db, now: int): (r: (Db, nat))
    requires Inv(db)
    ensures Inv(r.0) && r.0.items == db.items && r.0.settings == db.settings
    ensures forall x | x in r.0.cache :: x in db.cache && x.val.expiry > now
    ensures forall x | x in db.cache && x.val.expiry > now :: x in r.0.cache
    ensures r.1 == |db.cache| - |r.0.cache|
  {
    var kept := Unexpired(db.cache, now);
    UnexpiredSorted(db.cache, now);
    assert forall x | x in kept :: x.key == x.val.key by {
      forall x | x in kept
        ensures x.key == x.val.key
      {
        var i :| 0 <= i < |db.cache| && db.cache[i] == x;
      }
    }
    (db.(cache := kept), |db.cache| - |kept|)
  }

  /** An entry expiring exactly now is still returned by `getCache` yet swept by
      `clearExpiredCache`: the two use `<` and `<=`. */
  lemma ExpiryBoundary(db: Db, key: string, data: Json.Value, now: int)
    requires Inv(db)
    ensures var c := CachePut(db, key, data, Some(0), now);
            GetCache(c, key, now).1 == data && !HasKey(ClearExpiredCache(c, now).0.cache, key)
  {
    var c := CachePut(db, key, data, Some(0), now);
    var swept := ClearExpiredCache(c, now).0.cache;
    if HasKey(swept, key) {
      var i :| 0 <= i < |swept| && swept[i].key == key;
      GetFinds(c.cache, swept[i]);
    }
  }

  /** `exportData()`. */
  datatype Export = Export(version: int, timestamp: int, items: seq<Item>, settings: seq<Setting>)

  function ExportData(db: Db, now: int): (r: Export)
    ensures r.version == Version && r.timestamp == now
    ensures r.items == Values(db.items) && r.settings == Values(db.settings)
  {
    Export(Version, now, Values(db.items), Values(db.settings))
  }

  function ItemRecs(items: seq<Item>): (r: seq<Rec<Item>>)
    ensures |r| == |items| && forall i | 0 <= i < |items| :: r[i] == Rec(items[i].id, items[i])
  {
    seq(|items|, i requires 0 <= i < |items| => Rec(items[i].id, items[i]))
  }

  function SettingRecs(settings: seq<Setting>): (r: seq<Rec<Setting>>)
    ensures |r| == |settings| && forall i | 0 <= i < |settings| :: r[i] == Rec(settings[i].key, settings[i])
  {
    seq(|settings|, i requires 0 <= i < |settings| => Rec(settings[i].key, settings[i]))
  }

  /** `importData(data)`: the items, then the settings, put one by one; a
      missing list is skipped. */
  function ImportData(db: Db, items: Option<seq<Item>>, settings: Option<seq<Setting>>): (r: Db)
    ensures r.cache == db.cache
    ensures items.None? ==> r.items == db.items
    ensures settings.None? ==> r.settings == db.settings
  {
    db.(items := if items.Some? then PutAll(db.items, ItemRecs(items.value)) else db.items,
        settings := if settings.Some? then PutAll(db.settings, SettingRecs(settings.value)) else db.settings)
  }

  /** Importing an export into an empty database reproduces the items and the
      settings records. */
  lemma ImportExportRoundTrip(db: Db, now: int)
    requires Inv(db)
    ensures var e := ExportData(db, now);
            var r := ImportData(Empty, Some(e.items), Some(e.settings));
            r.items == db.items && r.settings == db.settings && r.cache == []
  {
    assert ItemRecs(Values(db.items)) == db.items;
    assert SettingRecs(Values(db.settings)) == db.settings;
    PutAllSorted([], db.items);
    PutAllSorted([], db.settings);
    assert [] + db.items == db.items && [] + db.settings == db.settings;
  }
}

=== FILE: drag_controller.dfy ===
/** The content area's drag controller (`DragController`): a press on an element
    marked draggable (or inside one) arms a drag, the first move beyond the
    threshold starts it, later moves place the element at pointer minus grab
    offset, and release or cancel end it. Elements are ids; a press names the
    target's ancestor chain and the element's bounding box, which layout supplies. */
module DragController {
  import opened Wrappers
  import opened Notes

  const DefaultDragThreshold: int := 10

  type ElemId = nat

  /** The per-element callbacks that `makeDraggable` may register. */
  datatype Hook = Start | Move | End | Cancel

  /** An effect: a registered callback invoked on the element being dragged. */
  datatype Effect =
    | DragStarted(elem: ElemId)
    | DragMoved(elem: ElemId, at: Point)
    | DragEnded(elem: ElemId, at: Point)
    | DragCancelled(elem: ElemId)

  datatype Constraints = Constraints(minX: int, minY: int, maxX: int, maxY: int)

  /** `container` is never a drag target; `marked` is the set of elements whose
      `data-draggable` is 'true'; `hooks` is the callback map; `placed` records
      each element's `style.left/top` as set while dragging. */
  datatype State = State(
    container: ElemId,
    threshold: int,
    marked: set<ElemId>,
    hooks: map<ElemId, set<Hook>>,
    dragging: bool,
    current: Option<ElemId>,
    start: Option<Point>,
    offset: Option<Point>,
    placed: map<ElemId, Point>,
    constraints: Option<Constraints>)

  /** `options.dragThreshold || 10`. */
  function Init(container: ElemId, threshold: Option<int>): (s: State)
    ensures s.threshold == if threshold.Some? && threshold.value != 0 then threshold.value else DefaultDragThreshold
    ensures Inv(s) && s.current.None? && s.hooks == map[] && s.marked == {}
  {
    var t := if threshold.Some? && threshold.value != 0 then threshold.value else DefaultDragThreshold;
    State(container, t, {}, map[], false, None, None, None, map[], None)
  }

  /** An element is being tracked exactly when its start and offset are known;
      only a tracked element can be dragging. */
  predicate Inv(s: State) {
    (s.current.Some? <==> s.start.Some?) && (s.current.Some? <==> s.offset.Some?) &&
    (s.dragging ==> s.current.Some?)
  }

  /** `findDraggableParent(target)`: walking `path` (the target, its parent, its
      grandparent, ...) the first marked element met before the container, or
      `None` when the container or the top is reached first. */
  function FindDraggableParent(path: seq<ElemId>, container: ElemId, marked: set<ElemId>): (r: Option<ElemId>)
    ensures r.Some? <==> exists i :: 0 <= i < |path| && path[i] in marked && path[i] != container && container !in path[..i]
    ensures r.Some? ==> r.value in marked && r.value != container &&
                        exists i :: 0 <= i < |path| && path[i] == r.value && container !in path[..i] &&
                                    forall j :: 0 <= j < i ==> path[j] !in marked
  {
    if |path| == 0 || path[0] == container then
      assert forall i :: 0 < i <= |path| ==> path[..i][0] == path[0];
      None
    else if path[0] in marked then
      assert path[..0] == [];
      Some(path[0])
    else
      var r := FindDraggableParent(path[1..], container, marked);
      assert forall i :: 1 <= i <= |path| ==> path[..i] == [path[0]] + path[1..][..i - 1];
      if r.Some? then
        var k :| 0 <= k < |path| - 1 && path[1..][k] == r.value && container !in path[1..][..k] &&
                 forall j :: 0 <= j < k ==> path[1..][j] !in marked;
        assert path[k + 1] == r.value && path[..k + 1] == [path[0]] + path[1..][..k];
        r
      else r
  }

  /** `makeDraggable`: the element is marked; its callbacks are registered only
      when one of start, move or end is among them. */
  function MakeDraggable(s: State, elem: ElemId, hooks: set<Hook>): (r: State)
    ensures r.marked == s.marked + {elem}
    ensures hooks * {Start, Move, End} != {} ==> r.hooks == s.hooks[elem := hooks]
    ensures hooks * {Start, Move, End} == {} ==> r.hooks == s.hooks
    ensures r.(marked := s.marked, hooks := s.hooks) == s
  {
    s.(marked := s.marked + {elem},
       hooks := if hooks * {Start, Move, End} != {} then s.hooks[elem := hooks] else s.hooks)
  }

  /** `removeDraggable`: unmarked and unregistered. */
  function RemoveDraggable(s: State, elem: ElemId): (r: State)
    ensures r.marked == s.marked - {elem} && elem !in r.hooks
    ensures forall e :: e != elem ==> (e in r.hooks <==> e in s.hooks)
    ensures r.(marked := s.marked, hooks := s.hooks) == s
  {
    s.(marked := s.marked - {elem}, hooks := s.hooks - {elem})
  }

  /** Registering callbacks and then removing the element forgets them, leaving
      the other elements' registrations as before. */
  lemma RemoveUndoesMake(s: State, elem: ElemId, hooks: set<Hook>)
    requires elem !in s.hooks && elem !in s.marked
    ensures RemoveDraggable(MakeDraggable(s, elem, hooks), elem) == s
  {
    assert MakeDraggable(s, elem, hooks).hooks - {elem} == s.hooks;
  }

  /** A callback of the current element, if it was registered with that hook. */
  function Call(s: State, h: Hook, fx: Effect): (r: seq<Effect>)
    ensures r == [] || r == [fx]
    ensures r != [] <==> s.current.Some? && s.current.value in s.hooks && h in s.hooks[s.current.value]
  {
    if s.current.Some? && s.current.value in s.hooks && h in s.hooks[s.current.value] then [fx] else []
  }

  function Reset(s: State): (r: State)
    ensures Inv(r) && !r.dragging && r.current.None?
    ensures r.(dragging := s.dragging, current := s.current, start := s.start, offset := s.offset) == s
  {
    s.(dragging := false, current := None, start := None, offset := None)
  }

  /** `startDrag`: without a draggable ancestor nothing changes; otherwise that
      element is tracked from the press, not yet dragging. */
  function StartDrag(s: State, path: seq<ElemId>, at: Point, box: Point): (r: State)
    ensures Inv(s) ==> Inv(r)
  {
    match FindDraggableParent(path, s.container, s.marked)
    case None => s
    case Some(e) =>
      s.(current := Some(e), start := Some(at), offset := Some(Point(at.x - box.x, at.y - box.y)), dragging := false)
  }

  /** `distance > dragThreshold` without the square root. */
  predicate Beyond(threshold: int, a: Point, b: Point) {
    var dx := b.x - a.x;
    var dy := b.y - a.y;
    threshold < 0 || dx * dx + dy * dy > threshold * threshold
  }

  function UpdateDrag(s: State, at: Point): (r: (State, seq<Effect>))
    requires Inv(s)
    ensures Inv(r.0)
  {
    if s.current.None? then (s, [])
    else
      var e := s.current.value;
      var starting := !s.dragging && Beyond(s.threshold, s.start.value, at);
      var s1 := if starting then s.(dragging := true) else s;
      var fx1 := if starting then Call(s1, Start, DragStarted(e)) else [];
      if !s1.dragging then (s1, [])
      else
        var p := Point(at.x - s.offset.value.x, at.y - s.offset.value.y);
        (s1.(placed := s1.placed[e := p]), fx1 + Call(s1, Move, DragMoved(e, p)))
  }

  /** `endDrag`: a drag in progress reports the element's box at release; any
      tracked press is then forgotten. */
  function EndDrag(s: State, box: Point): (r: (State, seq<Effect>))
    requires Inv(s)
    ensures Inv(r.0)
  {
    if s.current.None? then (s, [])
    else (Reset(s), if s.dragging then Call(s, End, DragEnded(s.current.value, box)) else [])
  }

  function CancelDrag(s: State): (r: (State, seq<Effect>))
    requires Inv(s)
    ensures Inv(r.0)
  {
    (Reset(s), if s.current.Some? && s.dragging then Call(s, Cancel, DragCancelled(s.current.value)) else [])
  }

  /** Pointer events. `box` is the element's bounding box (left, top) as layout
      reports it at that moment; the release position itself is not used. */
  datatype Event =
    | MouseDown(button: int, path: seq<ElemId>, at: Point, box: Point)
    | TouchStart(count: nat, path: seq<ElemId>, at: Point, box: Point)
    | MouseMove(at: Point)
    | TouchMove(count: nat, at: Point)
    | MouseUp(box: Point)
    | TouchEnd(box: Point)
    | MouseLeave
    | TouchCancel

  function Step(s: State, e: Event): (r: (State, seq<Effect>))
    requires Inv(s)
    ensures Inv(r.0)
    ensures r.0.marked == s.marked && r.0.hooks == s.hooks && r.0.container == s.container
  {
    match e
    case MouseDown(button, path, at, box) => if button != 0 then (s, []) else (StartDrag(s, path, at, box), [])
    case TouchStart(n, path, at, box) => if n != 1 then (s, []) else (StartDrag(s, path, at, box), [])
    case MouseMove(at) => UpdateDrag(s, at)
    case TouchMove(n, at) => if s.current.None? || n != 1 then (s, []) else UpdateDrag(s, at)
    case MouseUp(box) => EndDrag(s, box)
    case TouchEnd(box) => EndDrag(s, box)
    case MouseLeave => if s.dragging then CancelDrag(s) else (s, [])
    case TouchCancel => CancelDrag(s)
  }

  /** A press arms a drag only on a draggable ancestor below the container; the
      grab offset is the press point minus the element's box. */
  lemma PressArms(s: State, path: seq<ElemId>, at: Point, box: Point)
    requires Inv(s)
    ensures var r := Step(s, MouseDown(0, path, at, box));
            var f := FindDraggableParent(path, s.container, s.marked);
            r.1 == [] &&
            (f.None? ==> r.0 == s) &&
            (f.Some? ==> r.0.current == f && r.0.current.value != s.container && !r.0.dragging &&
                         r.0.start == Some(at) && r.0.offset == Some(Point(at.x - box.x, at.y - box.y)))
  {
  }

  /** Moves within the threshold, before a drag has begun, change nothing. */
  lemma SmallMoveSilent(s: State, at: Point)
    requires Inv(s) && s.current.Some? && !s.dragging && !Beyond(s.threshold, s.start.value, at)
    ensures Step(s, MouseMove(at)) == (s, [])
  {
  }

  /** The first move beyond the threshold starts the drag: the start callback,
      then the move callback, with the element placed at pointer minus offset. */
  lemma FarMoveStartsDrag(s: State, at: Point)
    requires Inv(s) && s.current.Some? && !s.dragging && Beyond(s.threshold, s.start.value, at)
    ensures var r := Step(s, MouseMove(at));
            var e := s.current.value;
            var p := Point(at.x - s.offset.value.x, at.y - s.offset.value.y);
            r.0 == s.(dragging := true, placed := s.placed[e := p]) &&
            r.1 == Call(s, Start, DragStarted(e)) + Call(s, Move, DragMoved(e, p))
  {
  }

  /** While dragging, every move places the element at pointer minus grab offset
      and the start callback does not fire again. */
  lemma DragFollowsPointer(s: State, at: Point)
    requires Inv(s) && s.dragging
    ensures var r := Step(s, MouseMove(at));
            var e := s.current.value;
            var p := Point(at.x - s.offset.value.x, at.y - s.offset.value.y);
            r.0 == s.(placed := s.placed[e := p]) && r.1 == Call(s, Move, DragMoved(e, p)) &&
            forall i :: 0 <= i < |r.1| ==> !r.1[i].DragStarted?
  {
  }

  /** Release reports the end only if a drag began, and always forgets the press. */
  lemma ReleaseResets(s: State, box: Point)
    requires Inv(s) && s.current.Some?
    ensures var r := Step(s, MouseUp(box));
            r.0 == Reset(s) &&
            r.1 == (if s.dragging then Call(s, End, DragEnded(s.current.value, box)) else [])
  {
  }

  /** A touch cancel reports the cancel only if dragging, and always resets;
      the pointer leaving the document cancels only a drag in progress. */
  lemma CancelResets(s: State)
    requires Inv(s)
    ensures Step(s, TouchCancel).0 == Reset(s)
    ensures Step(s, TouchCancel).1 != [] ==> s.dragging
    ensures !s.dragging ==> Step(s, MouseLeave) == (s, [])
  {
  }

  /** One full gesture on a registered element: press, a far move, release. The
      callbacks are start, move and end, in that order, and the controller is
      idle again. */
  lemma PressDragRelease(s: State, path: seq<ElemId>, at: Point, box: Point, to: Point, endBox: Point)
    requires Inv(s) && s.threshold > 0
    requires FindDraggableParent(path, s.container, s.marked).Some?
    requires var e := FindDraggableParent(path, s.container, s.marked).value;
             e in s.hooks && s.hooks[e] == {Start, Move, End}
    requires Beyond(s.threshold, at, to)
    ensures var e := FindDraggableParent(path, s.container, s.marked).value;
            var r1 := Step(s, MouseDown(0, path, at, box));
            var r2 := Step(r1.0, MouseMove(to));
            var r3 := Step(r2.0, MouseUp(endBox));
            r1.1 + r2.1 + r3.1 == [DragStarted(e), DragMoved(e, Point(to.x - (at.x - box.x), to.y - (at.y - box.y))), DragEnded(e, endBox)] &&
            r3.0.current.None? && !r3.0.dragging
  {
  }

  /** `applyConstraints`: the point unchanged without constraints, otherwise each
      axis raised to its minimum after being lowered to its maximum. */
  function ApplyConstraints(c: Option<Constraints>, p: Point): (r: Point)
    ensures c.None? ==> r == p
    ensures c.Some? && c.value.minX <= c.value.maxX ==> c.value.minX <= r.x <= c.value.maxX
    ensures c.Some? && c.value.minY <= c.value.maxY ==> c.value.minY <= r.y <= c.value.maxY
    ensures c.Some? && c.value.minX <= p.x <= c.value.maxX ==> r.x == p.x
    ensures c.Some? && c.value.minY <= p.y <= c.value.maxY ==> r.y == p.y
    ensures c.Some? && c.value.minX > c.value.maxX ==> r.x == c.value.minX
    ensures c.Some? && c.value.minY > c.value.maxY ==> r.y == c.value.minY
  {
    match c
    case None => p
    case Some(k) =>
      var lx := if k.maxX < p.x then k.maxX else p.x;
      var ly := if k.maxY < p.y then k.maxY else p.y;
      Point(if k.minX > lx then k.minX else lx, if k.minY > ly then k.minY else ly)
  }

  /** Constraining twice is constraining once. */
  lemma ApplyConstraintsIdempotent(c: Option<Constraints>, p: Point)
    ensures ApplyConstraints(c, ApplyConstraints(c, p)) == ApplyConstraints(c, p)
  {
  }

  function SetDragConstraints(s: State, minX: int, minY: int, maxX: int, maxY: int): (r: State)
    ensures r.constraints == Some(Constraints(minX, minY, maxX, maxY)) && r.(constraints := s.constraints) == s
  {
    s.(constraints := Some(Constraints(minX, minY, maxX, maxY)))
  }

  function ClearDragConstraints(s: State): (r: State)
    ensures r.constraints.None? && r.(constraints := s.constraints) == s
  {
    s.(constraints := None)
  }
}

=== FILE: export_handler.dfy ===
/** The newer journal's day export (`ExportHandler`): a day's notes are split by
    kind, the page is assembled from the sections that have something to show,
    and the chosen action previews, shares, downloads or copies it. The HTML
    text, the map drawing and the platform calls are not modelled; what is kept
    is which sections appear, in which order, with which data. */
module ExportHandler {
  import opened Wrappers
  import opened Notes
  import Json
  import Text
  import Seqs
  import Civil
  import CalendarCells

  /** The reverse-geocoded place, with "" for a name that is missing or empty
      (both read as false where the export tests them). */
  datatype Location = Location(city: string, country: string)

  /** `exportData` without the locale date string. */
  datatype ExportData = ExportData(
    location: Option<Location>,
    notes: seq<Note>,
    photos: seq<Note>,
    audio: seq<Note>,
    verse: Option<Note>)

  /** `dayNotes.find(n => n.type === kind)`. */
  function FirstOfKind(ns: seq<Note>, kind: string): (r: Option<Note>)
    ensures r.None? <==> forall i | 0 <= i < |ns| :: ns[i].kind != kind
    ensures r.Some? ==> exists i | 0 <= i < |ns| :: ns[i] == r.value && forall j | 0 <= j < i :: ns[j].kind != kind
    ensures r.Some? ==> r.value.kind == kind
    decreases |ns|
  {
    if |ns| == 0 then None
    else if ns[0].kind == kind then Some(ns[0])
    else
      var r := FirstOfKind(ns[1..], kind);
      assert forall i | 0 <= i < |ns[1..]| :: ns[1..][i] == ns[i + 1];
      if r.Some? then
        var i :| 0 <= i < |ns[1..]| && ns[1..][i] == r.value && forall j | 0 <= j < i :: ns[1..][j].kind != kind;
        assert ns[i + 1] == r.value && forall j | 0 <= j < i + 1 :: ns[j].kind != kind;
        r
      else r
  }

  /** `exportDay(currentDate)` up to the page: the day's notes, split by kind. */
  function ExportDay(dayNotes: seq<Note>, location: Option<Location>): (d: ExportData)
    ensures d.location == location && d.verse == FirstOfKind(dayNotes, "verse")
  {
    ExportData(location,
               CalendarCells.OfKinds(dayNotes, {"text"}),
               CalendarCells.OfKinds(dayNotes, {"image"}),
               CalendarCells.OfKinds(dayNotes, {"audio"}),
               FirstOfKind(dayNotes, "verse"))
  }

  /** Texts, photos and recordings each land in their own list, and nothing
      else lands in any of them. */
  lemma ExportPartition(dayNotes: seq<Note>, location: Option<Location>, n: Note)
    ensures var d := ExportDay(dayNotes, location);
            (n in d.notes <==> n in dayNotes && n.kind == "text") &&
            (n in d.photos <==> n in dayNotes && n.kind == "image") &&
            (n in d.audio <==> n in dayNotes && n.kind == "audio")
  {
    CalendarCells.OfKindsMembers(dayNotes, {"text"});
    CalendarCells.OfKindsMembers(dayNotes, {"image"});
    CalendarCells.OfKindsMembers(dayNotes, {"audio"});
  }

  /** The photo's image source: the parsed `original` if it is truthy, else the
      parsed `thumbnail`; the raw content when parsing throws, which includes
      reading a property of a parsed `null`. `parse` stands for `JSON.parse`. */
  function PhotoSource(content: Json.Value, parse: Json.Value -> Option<Json.Value>): (src: Json.Value)
    ensures parse(content).None? || parse(content) == Some(Json.Null) ==> src == content
    ensures parse(content).Some? && parse(content).value.Obj? ==>
              var v := parse(content).value;
              src == if Json.Truthy(Json.Get(v, "original")) then Json.Get(v, "original") else Json.Get(v, "thumbnail")
  {
    match parse(content)
    case None => content
    case Some(v) =>
      if v.Null? || v.Undefined? then content
      else if Json.Truthy(Json.Get(v, "original")) then Json.Get(v, "original")
      else Json.Get(v, "thumbnail")
  }

  /** `createPhotoboothStrip(photos)`: no strip without photos, otherwise the
      sources of the first four photos, in order. */
  function Strip(photos: seq<Note>, parse: Json.Value -> Option<Json.Value>): (r: Option<seq<Json.Value>>)
    ensures r.None? <==> |photos| == 0
    ensures r.Some? ==> |r.value| == if |photos| < 4 then |photos| else 4
    ensures r.Some? ==> forall i | 0 <= i < |r.value| :: r.value[i] == PhotoSource(photos[i].content, parse)
  {
    if |photos| == 0 then None
    else
      var shown := Seqs.Take(photos, 4);
      Some(seq(|shown|, i requires 0 <= i < |shown| => PhotoSource(shown[i].content, parse)))
  }

  /** The location line: "City, Country", "City", or nothing without a city. */
  function LocationLabel(loc: Location): (r: string)
    ensures loc.city == "" <==> r == ""
    ensures Text.StartsWith(r, loc.city)
    ensures loc.city != "" && loc.country != "" ==> r[|loc.city|..] == ", " + loc.country
    ensures loc.country == "" ==> r == loc.city
  {
    if loc.city == "" then ""
    else loc.city + (if loc.country != "" then ", " + loc.country else "")
  }

  /** A recording on the page and its 1-based label. */
  datatype AudioClip = AudioClip(src: Json.Value, caption: string)

  /** The page's parts in order; the header shows a location line only when a
      location is known. */
  datatype Section =
    | Header(location: Option<string>)
    | VerseSection(content: Json.Value, title: string)
    | Photobooth(sources: seq<Json.Value>)
    | NotesSection(contents: seq<Json.Value>)
    | AudioSection(clips: seq<AudioClip>)
    | MapSection
    | Footer

  function Clips(audio: seq<Note>): (r: seq<AudioClip>)
    ensures |r| == |audio|
    ensures forall i | 0 <= i < |r| :: r[i].src == audio[i].content && r[i].caption == "Recording " + Text.IntToString(i + 1)
  {
    seq(|audio|, i requires 0 <= i < |audio| => AudioClip(audio[i].content, "Recording " + Text.IntToString(i + 1)))
  }

  function Contents(ns: seq<Note>): (r: seq<Json.Value>)
    ensures |r| == |ns| && forall i | 0 <= i < |r| :: r[i] == ns[i].content
  {
    seq(|ns|, i requires 0 <= i < |ns| => ns[i].content)
  }

  /** `generateHTML(data)`: header, verse, photobooth, notes, audio, map and
      footer, each optional section present only when it has data. */
  function GenerateHtml(d: ExportData, parse: Json.Value -> Option<Json.Value>): (page: seq<Section>)
    ensures |page| >= 3 && page[0].Header? && page[|page| - 1] == Footer
    ensures page[0].location.Some? <==> d.location.Some?
    ensures d.location.Some? ==> page[0].location == Some(LocationLabel(d.location.value))
  {
    HeaderPart(d) + VersePart(d) + StripPart(d, parse) + [NotesSection(Contents(d.notes))]
    + AudioPart(d) + MapPart(d) + [Footer]
  }

  function HeaderPart(d: ExportData): (r: seq<Section>)
    ensures |r| == 1 && r[0].Header?
  {
    [Header(if d.location.Some? then Some(LocationLabel(d.location.value)) else None)]
  }

  function VersePart(d: ExportData): (r: seq<Section>)
    ensures |r| <= 1 && forall s | s in r :: s.VerseSection?
    ensures |r| == 1 <==> d.verse.Some?
  {
    if d.verse.Some? then [VerseSection(d.verse.value.content, d.verse.value.title)] else []
  }

  function StripPart(d: ExportData, parse: Json.Value -> Option<Json.Value>): (r: seq<Section>)
    ensures |r| <= 1 && forall s | s in r :: s.Photobooth?
    ensures HasPhotobooth(r) <==> |d.photos| > 0
  {
    match Strip(d.photos, parse)
    case Some(s) => assert Photobooth(s) in [Photobooth(s)]; [Photobooth(s)]
    case None => []
  }

  function AudioPart(d: ExportData): (r: seq<Section>)
    ensures |r| <= 1 && forall s | s in r :: s.AudioSection?
    ensures |r| == 1 <==> |d.audio| > 0
  {
    if |d.audio| > 0 then [AudioSection(Clips(d.audio))] else []
  }

  function MapPart(d: ExportData): (r: seq<Section>)
    ensures r == [] || r == [MapSection]
    ensures r == [MapSection] <==> d.location.Some?
  {
    if d.location.Some? then [MapSection] else []
  }

  predicate HasVerse(page: seq<Section>) { exists s | s in page :: s.VerseSection? }
  predicate HasPhotobooth(page: seq<Section>) { exists s | s in page :: s.Photobooth? }
  predicate HasAudio(page: seq<Section>) { exists s | s in page :: s.AudioSection? }
  predicate HasMap(page: seq<Section>) { MapSection in page }

  /** Each optional section appears exactly when its data exists: the verse when
      the day has one, the strip when there is a photo, the recordings when there
      is a clip, the map when a location is known. */
  lemma SectionsIff(d: ExportData, parse: Json.Value -> Option<Json.Value>)
    ensures var page := GenerateHtml(d, parse);
            (HasVerse(page) <==> d.verse.Some?) &&
            (HasPhotobooth(page) <==> |d.photos| > 0) &&
            (HasAudio(page) <==> |d.audio| > 0) &&
            (HasMap(page) <==> d.location.Some?)
  {
    VerseAppears(d, parse);
    StripAppears(d, parse);
    AudioAppears(d, parse);
    assert GenerateHtml(d, parse) == (HeaderPart(d) + VersePart(d) + StripPart(d, parse) + [NotesSection(Contents(d.notes))]
                                      + AudioPart(d)) + MapPart(d) + [Footer];
  }

  lemma VerseAppears(d: ExportData, parse: Json.Value -> Option<Json.Value>)
    ensures HasVerse(GenerateHtml(d, parse)) <==> d.verse.Some?
  {
    var rest := StripPart(d, parse) + [NotesSection(Contents(d.notes))] + AudioPart(d) + MapPart(d) + [Footer];
    assert GenerateHtml(d, parse) == HeaderPart(d) + VersePart(d) + rest;
    VerseIff(HeaderPart(d), VersePart(d), rest);
    if d.verse.Some? { assert VersePart(d)[0] in VersePart(d); }
  }

  lemma StripAppears(d: ExportData, parse: Json.Value -> Option<Json.Value>)
    ensures HasPhotobooth(GenerateHtml(d, parse)) <==> |d.photos| > 0
  {
    var pre := HeaderPart(d) + VersePart(d);
    var rest := [NotesSection(Contents(d.notes))] + AudioPart(d) + MapPart(d) + [Footer];
    assert GenerateHtml(d, parse) == pre + StripPart(d, parse) + rest;
    assert forall s | s in pre :: s == pre[0] || s in VersePart(d);
    PhotoboothIff(pre, StripPart(d, parse), rest);
  }

  lemma AudioAppears(d: ExportData, parse: Json.Value -> Option<Json.Value>)
    ensures HasAudio(GenerateHtml(d, parse)) <==> |d.audio| > 0
  {
    var pre := HeaderPart(d) + VersePart(d) + StripPart(d, parse) + [NotesSection(Contents(d.notes))];
    var rest := MapPart(d) + [Footer];
    assert GenerateHtml(d, parse) == pre + AudioPart(d) + rest;
    AudioIff(pre, AudioPart(d), rest);
    if |d.audio| > 0 { assert AudioPart(d)[0] in AudioPart(d); }
  }

  lemma VerseIff(pre: seq<Section>, mid: seq<Section>, post: seq<Section>)
    requires forall s | s in pre + post :: !s.VerseSection?
    ensures HasVerse(pre + mid + post) <==> HasVerse(mid)
  {
    if HasVerse(mid) {
      var s :| s in mid && s.VerseSection?;
      assert s in pre + mid + post;
    }
  }

  lemma PhotoboothIff(pre: seq<Section>, mid: seq<Section>, post: seq<Section>)
    requires forall s | s in pre :: !s.Photobooth?
    requires forall s | s in post :: !s.Photobooth?
    ensures HasPhotobooth(pre + mid + post) <==> HasPhotobooth(mid)
  {
    if HasPhotobooth(mid) {
      var s :| s in mid && s.Photobooth?;
      assert s in pre + mid + post;
    }
  }

  lemma AudioIff(pre: seq<Section>, mid: seq<Section>, post: seq<Section>)
    requires forall s | s in pre + post :: !s.AudioSection?
    ensures HasAudio(pre + mid + post) <==> HasAudio(mid)
  {
    if HasAudio(mid) {
      var s :| s in mid && s.AudioSection?;
      assert s in pre + mid + post;
    }
  }

  /** The strip shows at most four photos, the first ones, each by its source;
      a parsed image payload shows its original. */
  lemma StripFirstFour(photos: seq<Note>, parse: Json.Value -> Option<Json.Value>, i: nat)
    requires |photos| > 0 && i < |photos|
    ensures var s := Strip(photos, parse).value;
            |s| <= 4 && (i < 4 <==> i < |s|) && (i < |s| ==> s[i] == PhotoSource(photos[i].content, parse))
  {
  }

  /** The download's file name, `journal-YYYY-MM-DD.html`. */
  function Filename(d: Civil.Date): (name: string)
    ensures Text.StartsWith(name, "journal-")
  {
    Text.StartsWithAppend("journal-", Civil.DayKey(d) + ".html");
    "journal-" + (Civil.DayKey(d) + ".html")
  }

  /** Different days download under different names. */
  lemma FilenameInjective(a: Civil.Date, b: Civil.Date)
    requires Civil.Valid(a) && Civil.Valid(b)
    ensures Filename(a) == Filename(b) <==> a == b
  {
    if Filename(a) == Filename(b) {
      var ka, kb := Civil.DayKey(a), Civil.DayKey(b);
      Text.AppendCancel("journal-", ka + ".html", "journal-", kb + ".html");
      Text.AppendCancel(ka, ".html", kb, ".html");
      Civil.DayKeyInjective(a, b);
    }
  }

  /** What `navigator.share` does when it is called. */
  datatype ShareApi = NoShare | ShareRejects | ShareResolves

  datatype ExportEffect = OpenedPreview | Shared | Downloaded(filename: string) | Copied

  /** `handleExportAction(action, html, data)`. */
  function HandleExportAction(action: string, share: ShareApi, day: Civil.Date): (r: seq<ExportEffect>)
    ensures action !in {"preview", "share", "download", "copy"} <==> r == []
    ensures |r| <= 1
    ensures action == "preview" ==> r == [OpenedPreview]
    ensures action == "download" ==> r == [Downloaded(Filename(day))]
    ensures action == "copy" ==> r == [Copied]
    ensures action == "share" ==> r == (if share.ShareResolves? then [Shared] else [Downloaded(Filename(day))])
  {
    match action
    case "preview" => [OpenedPreview]
    case "share" => [ShareExport(share, day)]
    case "download" => [Downloaded(Filename(day))]
    case "copy" => [Copied]
    case _ => []
  }

  /** `shareExport(html, data)`: a missing or failing share downloads instead. */
  function ShareExport(share: ShareApi, day: Civil.Date): (e: ExportEffect)
    ensures e.Shared? <==> share.ShareResolves?
    ensures !e.Shared? ==> e == Downloaded(Filename(day))
  {
    if share.ShareResolves? then Shared else Downloaded(Filename(day))
  }

  /** Sharing always ends in exactly one outcome, and when the share does not go
      through the result is the same as choosing download. */
  lemma ShareFallsBack(share: ShareApi, day: Civil.Date)
    ensures share != ShareResolves ==>
              HandleExportAction("share", share, day) == HandleExportAction("download", share, day)
    ensures share == ShareResolves ==> HandleExportAction("share", share, day) == [Shared]
  {
  }
}

=== FILE: gesture_tracker.dfy ===
/** The radial menu's pointer tracker (`GestureTracker`): one touch or the mouse
    is tracked from press to release; a press held for the delay becomes a long
    press, a press moved beyond the drag threshold first becomes a drag. The
    long-press timer is explicit: arming allocates a timer id and a `Timeout`
    event for a still-pending id fires it. Callbacks are effects, reported only
    when registered. */
module GestureTracker {
  import opened Wrappers
  import opened Notes

  const DefaultLongPressDelay: int := 500
  const DefaultDragThreshold: int := 10

  datatype Callback =
    | OnLongPressStart | OnLongPressMove | OnLongPressEnd
    | OnDragStart | OnDragMove | OnDragEnd

  /** `longPressDelay` only fixes when the `Timeout` event arrives, so it is
      recorded but not otherwise consulted. */
  datatype Config = Config(longPressDelay: int, dragThreshold: int, registered: set<Callback>)

  /** `option || default`: a missing option and a zero both take the default. */
  function OrDefault(o: Option<int>, default: int): (r: int)
    ensures o.Some? && o.value != 0 ==> r == o.value
    ensures o.None? || o.value == 0 ==> r == default
  {
    if o.Some? && o.value != 0 then o.value else default
  }

  function Configure(delay: Option<int>, threshold: Option<int>, registered: set<Callback>): (c: Config)
    ensures c.longPressDelay == OrDefault(delay, DefaultLongPressDelay)
    ensures c.dragThreshold == OrDefault(threshold, DefaultDragThreshold)
    ensures c.longPressDelay != 0 && c.dragThreshold != 0
    ensures c.registered == registered
  {
    Config(OrDefault(delay, DefaultLongPressDelay), OrDefault(threshold, DefaultDragThreshold), registered)
  }

  /** `touchIdentifier`: a touch's identifier or the string 'mouse'. */
  datatype Pointer = TouchId(n: int) | Mouse

  datatype TouchPoint = TouchPoint(identifier: int, at: Point)

  /** `isTracking`, `touchIdentifier`, `startPoint`, `currentPoint`,
      `longPressTimer`, `isLongPressing`, `isDragging`; `pending` holds the armed
      timers that have neither fired nor been cleared. */
  datatype State = State(
    tracking: bool,
    pointer: Option<Pointer>,
    start: Option<Point>,
    current: Option<Point>,
    timer: Option<nat>,
    pending: set<nat>,
    nextTimer: nat,
    longPressing: bool,
    dragging: bool)

  /** Touch ends carry only the identifiers of the changed touches: the position
      handed to the end callbacks is the last recorded one, so the release point
      plays no part. */
  datatype Event =
    | TouchStart(first: TouchPoint)
    | TouchMove(touches: seq<TouchPoint>)
    | TouchEnd(changed: seq<int>)
    | TouchCancel
    | MouseDown(button: int, at: Point)
    | MouseMove(at: Point)
    | MouseUp
    | MouseLeave
    | Timeout(id: nat)

  datatype Effect = Effect(callback: Callback, at: Point)

  function Init(): State {
    State(false, None, None, None, None, {}, 1, false, false)
  }

  /** The tracker's own bookkeeping, kept by both variants: only the held timer
      can be pending, and an idle tracker holds nothing. */
  predicate Inv(s: State) {
    (s.timer.None? ==> s.pending == {}) &&
    (s.timer.Some? ==> s.pending <= {s.timer.value}) &&
    (s.tracking <==> s.pointer.Some?) &&
    (s.tracking ==> s.start.Some? && s.current.Some?) &&
    (!s.tracking ==> s.timer.None? && !s.longPressing && !s.dragging)
  }

  /** As written, a long press never gives up the timer handle unless a drag
      takes it. */
  predicate HandleKept(s: State) {
    s.longPressing ==> s.timer.Some? || s.dragging
  }

  /** `getDistance() > dragThreshold` without the square root: a negative
      threshold is exceeded by every distance. */
  predicate Beyond(threshold: int, a: Point, b: Point) {
    var dx := b.x - a.x;
    var dy := b.y - a.y;
    threshold < 0 || dx * dx + dy * dy > threshold * threshold
  }

  function Fire(c: Config, cb: Callback, p: Point): (r: seq<Effect>)
    ensures r == [] || r == [Effect(cb, p)]
    ensures r != [] <==> cb in c.registered
  {
    if cb in c.registered then [Effect(cb, p)] else []
  }

  /** The first touch whose identifier is the tracked one (`Array.find`). */
  function FindTouch(ts: seq<TouchPoint>, p: Option<Pointer>): (r: Option<TouchPoint>)
    ensures r.Some? <==> exists i :: 0 <= i < |ts| && p == Some(TouchId(ts[i].identifier))
    ensures r.Some? ==> r.value in ts && p == Some(TouchId(r.value.identifier))
  {
    if |ts| == 0 then None
    else if p == Some(TouchId(ts[0].identifier)) then Some(ts[0])
    else FindTouch(ts[1..], p)
  }

  function StartTracking(s: State, p: Pointer, at: Point): (r: State)
    ensures r.tracking && r.pointer == Some(p) && r.start == Some(at) && r.current == Some(at)
    ensures r.timer == Some(s.nextTimer) && r.pending == s.pending + {s.nextTimer}
    ensures r.nextTimer > s.nextTimer
  {
    s.(tracking := true, pointer := Some(p), start := Some(at), current := Some(at),
       timer := Some(s.nextTimer), pending := s.pending + {s.nextTimer}, nextTimer := s.nextTimer + 1)
  }

  /** `reset()` after the held timer, if any, is cleared. */
  function Reset(s: State): (r: State)
    ensures !r.tracking && r.pointer.None? && r.start.None? && r.current.None? && r.timer.None?
    ensures !r.longPressing && !r.dragging && r.nextTimer == s.nextTimer
    ensures r.pending == if s.timer.Some? then s.pending - {s.timer.value} else s.pending
  {
    var pending := if s.timer.Some? then s.pending - {s.timer.value} else s.pending;
    State(false, None, None, None, None, pending, s.nextTimer, false, false)
  }

  function UpdatePosition(c: Config, s: State, at: Point): (r: (State, seq<Effect>))
    requires s.start.Some?
  {
    var s1 := s.(current := Some(at));
    if !Beyond(c.dragThreshold, s.start.value, at) then (s1, [])
    else if s.timer.Some? then
      (s1.(timer := None, pending := s.pending - {s.timer.value}, dragging := true),
       Fire(c, OnDragStart, s.start.value))
    else if s.dragging then (s1, Fire(c, OnDragMove, at))
    else if s.longPressing then (s1, Fire(c, OnLongPressMove, at))
    else (s1, [])
  }

  function EndTracking(c: Config, s: State): (r: (State, seq<Effect>))
    requires s.current.Some?
  {
    var fx := if s.dragging then Fire(c, OnDragEnd, s.current.value)
              else if s.longPressing then Fire(c, OnLongPressEnd, s.current.value)
              else [];
    (Reset(s), fx)
  }

  /** One event. With `corrected` false this is the code as written; with it
      true, the long press also drops the timer handle when it fires. */
  function StepWith(c: Config, s: State, e: Event, corrected: bool): (r: (State, seq<Effect>))
    requires Inv(s)
    ensures Inv(r.0)
    ensures !corrected && HandleKept(s) ==> HandleKept(r.0)
  {
    match e
    case TouchStart(t) =>
      if s.tracking then (s, []) else (StartTracking(s, TouchId(t.identifier), t.at), [])
    case TouchMove(ts) =>
      if !s.tracking then (s, [])
      else
        var t := FindTouch(ts, s.pointer);
        if t.None? then (s, []) else UpdatePosition(c, s, t.value.at)
    case TouchEnd(ids) =>
      if !s.tracking then (s, [])
      else if !exists i :: 0 <= i < |ids| && s.pointer == Some(TouchId(ids[i])) then (s, [])
      else EndTracking(c, s)
    case TouchCancel => (Reset(s), [])
    case MouseDown(button, at) =>
      if s.tracking || button != 0 then (s, []) else (StartTracking(s, Mouse, at), [])
    case MouseMove(at) =>
      if !s.tracking || s.pointer != Some(Mouse) then (s, []) else UpdatePosition(c, s, at)
    case MouseUp =>
      if !s.tracking || s.pointer != Some(Mouse) then (s, []) else EndTracking(c, s)
    case MouseLeave =>
      if s.pointer == Some(Mouse) then (Reset(s), []) else (s, [])
    case Timeout(id) =>
      if id !in s.pending then (s, [])
      else
        var s1 := s.(pending := s.pending - {id}, longPressing := true);
        (if corrected then s1.(timer := None) else s1, Fire(c, OnLongPressStart, s.start.value))
  }

  /** The tracker as written. */
  function Step(c: Config, s: State, e: Event): (r: (State, seq<Effect>))
    requires Inv(s)
    ensures Inv(r.0)
    ensures HandleKept(s) ==> HandleKept(r.0)
    ensures |r.1| <= 1
  {
    StepWith(c, s, e, false)
  }

  /** The tracker with the long-press handle dropped when it fires. */
  function StepCorrected(c: Config, s: State, e: Event): (r: (State, seq<Effect>))
    requires Inv(s)
    ensures Inv(r.0)
    ensures |r.1| <= 1
  {
    StepWith(c, s, e, true)
  }

  /** A sequence of events from `s`, as written, with every effect in order. */
  function Run(c: Config, s: State, es: seq<Event>): (r: (State, seq<Effect>))
    requires Inv(s)
    ensures Inv(r.0)
    decreases |es|
  {
    if |es| == 0 then (s, [])
    else
      var r1 := Step(c, s, es[0]);
      var r2 := Run(c, r1.0, es[1..]);
      (r2.0, r1.1 + r2.1)
  }

  /** A press while a pointer is tracked, by touch or by mouse, changes nothing. */
  lemma StartIgnoredWhileTracking(c: Config, s: State, e: Event)
    requires Inv(s) && s.tracking && (e.TouchStart? || e.MouseDown?)
    ensures Step(c, s, e) == (s, [])
  {
  }

  /** An idle tracker starts on a touch or a primary-button press: both points are
      the press position and one fresh long-press timer is armed. Other mouse
      buttons are ignored. */
  lemma PressStartsTracking(c: Config, s: State, e: Event)
    requires Inv(s) && !s.tracking && (e.TouchStart? || e.MouseDown?)
    ensures var r := Step(c, s, e);
            var at := if e.TouchStart? then e.first.at else e.at;
            if e.MouseDown? && e.button != 0 then r == (s, [])
            else r.1 == [] && r.0.tracking && r.0.start == Some(at) && r.0.current == Some(at) &&
                 r.0.timer == Some(s.nextTimer) && r.0.pending == {s.nextTimer} &&
                 r.0.pointer == Some(if e.TouchStart? then TouchId(e.first.identifier) else Mouse)
  {
  }

  /** A move of the tracked pointer that stays within the threshold only records
      the new position. */
  lemma SmallMoveSilent(c: Config, s: State, at: Point)
    requires Inv(s) && s.tracking && s.pointer == Some(Mouse)
    requires !Beyond(c.dragThreshold, s.start.value, at)
    ensures Step(c, s, MouseMove(at)) == (s.(current := Some(at)), [])
  {
  }

  /** The same for a touch move: the matching touch's position is recorded and
      no callback fires. */
  lemma SmallTouchMoveSilent(c: Config, s: State, t: TouchPoint, others: seq<TouchPoint>)
    requires Inv(s) && s.tracking && s.pointer == Some(TouchId(t.identifier))
    requires !Beyond(c.dragThreshold, s.start.value, t.at)
    ensures Step(c, s, TouchMove([t] + others)) == (s.(current := Some(t.at)), [])
  {
  }

  /** The first move beyond the threshold while the timer is held clears it and
      starts a drag, reported at the start point; the long press can no longer
      fire. */
  lemma FarMoveStartsDrag(c: Config, s: State, at: Point)
    requires Inv(s) && s.tracking && s.pointer == Some(Mouse) && s.timer.Some?
    requires Beyond(c.dragThreshold, s.start.value, at)
    ensures var r := Step(c, s, MouseMove(at));
            r.0.dragging && r.0.timer.None? && r.0.pending == {} && r.0.current == Some(at) &&
            r.1 == Fire(c, OnDragStart, s.start.value) &&
            Step(c, r.0, Timeout(s.timer.value)) == (r.0, [])
  {
  }

  /** When the delay elapses on a still-pending timer the long press begins,
      reported at the start point. */
  lemma TimeoutStartsLongPress(c: Config, s: State, id: nat)
    requires Inv(s) && id in s.pending
    ensures var r := Step(c, s, Timeout(id));
            r.0.longPressing && r.0.pending == {} && r.0.tracking &&
            r.1 == Fire(c, OnLongPressStart, s.start.value)
  {
  }

  /** A release of the tracked pointer reports the drag's end if dragging, else
      the long press's end, else nothing, at the last recorded position; then
      the tracker is idle with no timer pending. */
  lemma ReleaseEnds(c: Config, s: State)
    requires Inv(s) && s.tracking && s.pointer == Some(Mouse)
    ensures var r := Step(c, s, MouseUp);
            r.0 == Init().(nextTimer := s.nextTimer) &&
            r.1 == (if s.dragging then Fire(c, OnDragEnd, s.current.value)
                    else if s.longPressing then Fire(c, OnLongPressEnd, s.current.value)
                    else [])
  {
  }

  /** A touch end of the tracked touch behaves the same way. */
  lemma TouchReleaseEnds(c: Config, s: State, n: int, others: seq<int>)
    requires Inv(s) && s.tracking && s.pointer == Some(TouchId(n))
    ensures var r := Step(c, s, TouchEnd(others + [n]));
            r.0 == Init().(nextTimer := s.nextTimer) &&
            r.1 == (if s.dragging then Fire(c, OnDragEnd, s.current.value)
                    else if s.longPressing then Fire(c, OnLongPressEnd, s.current.value)
                    else [])
  {
    assert (others + [n])[|others|] == n;
  }

  /** A touch cancel, in any state, leaves the tracker idle without a callback. */
  lemma CancelSilent(c: Config, s: State)
    requires Inv(s)
    ensures Step(c, s, TouchCancel) == (Init().(nextTimer := s.nextTimer), [])
  {
  }

  /** Mouse moves, releases and leaves mean nothing unless the mouse is the
      tracked pointer; touch moves and ends mean nothing unless they carry the
      tracked identifier. */
  lemma ForeignPointerIgnored(c: Config, s: State, e: Event)
    requires Inv(s) && s.pointer != Some(Mouse)
    requires e.MouseMove? || e.MouseUp? || e.MouseLeave? ||
             (e.TouchMove? && FindTouch(e.touches, s.pointer).None?) ||
             (e.TouchEnd? && forall i :: 0 <= i < |e.changed| ==> s.pointer != Some(TouchId(e.changed[i])))
    ensures Step(c, s, e) == (s, [])
  {
  }

  /** As written: no single step ever reports a long-press move. */
  lemma NoLongPressMoveStep(c: Config, s: State, e: Event)
    requires Inv(s) && HandleKept(s)
    ensures forall i :: 0 <= i < |Step(c, s, e).1| ==> Step(c, s, e).1[i].callback != OnLongPressMove
  {
  }

  /** As written: from an idle tracker, no sequence of events whatever reports a
      long-press move. */
  lemma {:induction false} LongPressMoveUnreachable(c: Config, es: seq<Event>)
    ensures forall i :: 0 <= i < |Run(c, Init(), es).1| ==> Run(c, Init(), es).1[i].callback != OnLongPressMove
  {
    RunKeepsHandle(c, Init(), es);
  }

  lemma {:induction false} RunKeepsHandle(c: Config, s: State, es: seq<Event>)
    requires Inv(s) && HandleKept(s)
    ensures HandleKept(Run(c, s, es).0)
    ensures forall i :: 0 <= i < |Run(c, s, es).1| ==> Run(c, s, es).1[i].callback != OnLongPressMove
    decreases |es|
  {
    if |es| > 0 {
      var r1 := Step(c, s, es[0]);
      NoLongPressMoveStep(c, s, es[0]);
      RunKeepsHandle(c, r1.0, es[1..]);
      var r2 := Run(c, r1.0, es[1..]);
      assert Run(c, s, es).1 == r1.1 + r2.1;
      forall i | 0 <= i < |r1.1 + r2.1|
        ensures (r1.1 + r2.1)[i].callback != OnLongPressMove
      {
        if i < |r1.1| {
          assert (r1.1 + r2.1)[i] == r1.1[i];
        } else {
          assert (r1.1 + r2.1)[i] == r2.1[i - |r1.1|];
        }
      }
    }
  }

  /** The journal registers only the three long-press callbacks. */
  const MenuCallbacks: set<Callback> := {OnLongPressStart, OnLongPressMove, OnLongPressEnd}

  /** As written, with the journal's callbacks: hold the mouse until the long
      press fires, move beyond the threshold, release. The menu opens, but the
      move is taken for a drag, so neither the move nor the release reaches it. */
  lemma HoldMoveReleaseLosesMenu(delay: int, threshold: int, at: Point, to: Point)
    requires threshold > 0 && Beyond(threshold, at, to)
    ensures var c := Config(delay, threshold, MenuCallbacks);
            var s1 := Step(c, Init(), MouseDown(0, at)).0;
            var r2 := Step(c, s1, Timeout(1));
            var r3 := Step(c, r2.0, MouseMove(to));
            var r4 := Step(c, r3.0, MouseUp);
            r2.1 == [Effect(OnLongPressStart, at)] && r3.1 == [] && r4.1 == []
  {
  }

  /** Corrected: the same gesture reports the long press, the move and the
      release at the moved-to point. */
  lemma CorrectedHoldMoveRelease(delay: int, threshold: int, at: Point, to: Point)
    requires threshold > 0 && Beyond(threshold, at, to)
    ensures var c := Config(delay, threshold, MenuCallbacks);
            var s1 := StepCorrected(c, Init(), MouseDown(0, at)).0;
            var r2 := StepCorrected(c, s1, Timeout(1));
            var r3 := StepCorrected(c, r2.0, MouseMove(to));
            var r4 := StepCorrected(c, r3.0, MouseUp);
            r2.1 == [Effect(OnLongPressStart, at)] && r3.1 == [Effect(OnLongPressMove, to)] &&
            r4.1 == [Effect(OnLongPressEnd, to)]
  {
  }
}

=== FILE: helpers.dfy ===
/** The journal's shared helpers: date keys and date sets computed from one date,
    date arithmetic, `clamp`, the emptiness and object tests, and the recursive
    object merge. */
module Helpers {
  import opened Civil
  import Text
  import opened Json
  import opened Wrappers

  /** `getDateKey(date, viewLevel)`: the key of the day, week, month or year holding
      the date; any other level name gives the day key. */
  function DateKey(d: Date, level: string): (k: string)
    requires Valid(d)
    ensures level == "week" ==> k == WeekKey(d)
    ensures level == "month" ==> k == MonthKey(d)
    ensures level == "year" ==> k == YearKey(d)
    ensures level !in {"week", "month", "year"} ==> k == DayKey(d)
  {
    match level
    case "week" => WeekKey(d)
    case "month" => MonthKey(d)
    case "year" => YearKey(d)
    case _ => DayKey(d)
  }

  /** Shape of a four-digit year followed by `n` dash-led two-digit fields. */
  predicate KeyShape(k: string, fields: nat) {
    |k| == 4 + 3 * fields &&
    (forall i :: 0 <= i < 4 ==> Text.IsDigit(k[i])) &&
    (forall f :: 0 <= f < fields ==> k[4 + 3 * f] == '-' && Text.IsDigit(k[5 + 3 * f]) && Text.IsDigit(k[6 + 3 * f]))
  }

  lemma FourDigitYear(y: int)
    requires 1000 <= y <= 9999
    ensures |Text.IntToString(y)| == 4 && Text.AllDigits(Text.IntToString(y))
  {
    assert Text.NatToString(y) == Text.NatToString(y / 10) + [Text.DigitChar(y % 10)];
    assert Text.NatToString(y / 10) == Text.NatToString(y / 100) + [Text.DigitChar(y / 10 % 10)];
    assert Text.NatToString(y / 100) == Text.NatToString(y / 1000) + [Text.DigitChar(y / 100 % 10)];
  }

  lemma KeyShapeExtend(k: string, n: nat, p: string)
    requires KeyShape(k, n) && |p| == 2 && Text.AllDigits(p)
    ensures KeyShape(k + ("-" + p), n + 1)
  {
    var k' := k + ("-" + p);
    assert forall i :: 0 <= i < |k| ==> k'[i] == k[i];
    assert k'[4 + 3 * n] == '-' && k'[5 + 3 * n] == p[0] && k'[6 + 3 * n] == p[1];
  }

  /** For four-digit years the day, month and year keys are zero-padded
      `YYYY-MM-DD`, `YYYY-MM` and `YYYY`. */
  lemma DateKeyFormats(d: Date)
    requires Valid(d) && 1000 <= d.year <= 9999
    ensures KeyShape(DateKey(d, "day"), 2)
    ensures KeyShape(DateKey(d, "month"), 1)
    ensures KeyShape(DateKey(d, "year"), 0)
  {
    FourDigitYear(d.year);
    var ys := YearKey(d);
    assert KeyShape(ys, 0);
    KeyShapeExtend(ys, 0, Text.Pad2(d.month));
    assert MonthKey(d) == ys + ("-" + Text.Pad2(d.month));
    KeyShapeExtend(MonthKey(d), 1, Text.Pad2(d.day));
    assert DayKey(d) == MonthKey(d) + ("-" + Text.Pad2(d.day));
  }

  /** For four-digit years the week key is `YYYY-Www`: the calendar year, then the
      week number padded to two digits, 01..53. */
  lemma WeekKeyFormat(d: Date)
    requires Valid(d) && 1000 <= d.year <= 9999
    ensures var w := DateKey(d, "week");
            |w| == 8 && w[..4] == YearKey(d) && w[4..6] == "-W" && Text.AllDigits(w[6..]) &&
            1 <= Text.ParseDigits(w[6..]) <= 53
  {
    FourDigitYear(d.year);
    IsoWeekYearNear(d);
    WeekNumberRange(d);
    var wn := WeekNumber(d);
    Text.Pad2Parses(wn);
    var w := WeekKey(d);
    assert w == YearKey(d) + "-W" + Text.Pad2(wn);
    assert w[6..] == Text.Pad2(wn);
  }

  /** `getWeekNumber(date)`: the week number the journal computes. */
  lemma WeekNumberMatchesIso(d: Date)
    requires Valid(d) && !(0 <= IsoWeekYear(d) <= 99)
    ensures WeekNumber(d) == IsoWeek(d) && 1 <= WeekNumber(d) <= 53
  {
    WeekNumberIsIso(d);
    WeekNumberRange(d);
  }

  /** `isSameDate(a, b)`: same day of month, month and year. */
  predicate IsSameDate(a: Date, b: Date) {
    a.day == b.day && a.month == b.month && a.year == b.year
  }

  /** `isToday(date)` with the clock's current day passed in. */
  predicate IsToday(d: Date, today: Date) {
    d.day == today.day && d.month == today.month && d.year == today.year
  }

  /** Two days are the same date exactly when their day keys agree, so the test is
      reflexive, symmetric and transitive. */
  lemma IsSameDateByKey(a: Date, b: Date)
    requires Valid(a) && Valid(b)
    ensures IsSameDate(a, b) <==> DayKey(a) == DayKey(b)
    ensures IsSameDate(a, a) && (IsSameDate(a, b) <==> IsSameDate(b, a))
    ensures IsToday(a, b) <==> IsSameDate(a, b)
  {
    DayKeyInjective(a, b);
  }

  /** `addDays(date, n)`: a new date n days later (earlier for negative n). */
  function AddDaysTo(d: Date, n: int): (r: Date)
    requires Valid(d)
    ensures Valid(r) && Serial(r) == Serial(d) + n
    ensures Weekday(r) == (Weekday(d) + n) % 7
  {
    SetDateRelative(d, n);
    WeekdayAddDays(d, n);
    SetDate(d, d.day + n)
  }

  /** Adding and then subtracting the same number of days gives the date back. */
  lemma AddDaysInverse(d: Date, n: int)
    requires Valid(d)
    ensures AddDaysTo(AddDaysTo(d, n), -n) == d
  {
    SerialInjective(AddDaysTo(AddDaysTo(d, n), -n), d);
  }

  /** `addWeeks(date, n)`: 7·n days on, the same weekday. */
  function AddWeeks(d: Date, n: int): (r: Date)
    requires Valid(d)
    ensures Valid(r) && Serial(r) == Serial(d) + 7 * n
    ensures Weekday(r) == Weekday(d)
  {
    WeekdayAddWeeks(d, n);
    AddDaysTo(d, n * 7)
  }

  /** `addMonths(date, n)`: the same day in the month n months on; a day past that
      month's end overflows into the next month. */
  function AddMonths(d: Date, n: int): (r: Date)
    requires Valid(d)
    ensures Valid(r)
  {
    CarriedDate(d.year, d.month - 1 + n, d.day)
  }

  /** `addMonths` is `setMonth(getMonth() + n)` on a copy of the date. */
  lemma AddMonthsSetsMonth(d: Date, n: int)
    requires Valid(d)
    ensures AddMonths(d, n) == SetMonth(d, d.month - 1 + n)
  {
    MakeDayCarries(d.year, d.month - 1 + n, d.day);
  }

  /** Month steps undo each other when the day exists in the month reached. */
  lemma AddMonthsInverse(d: Date, n: int)
    requires Valid(d)
    requires d.day <= DaysInMonth(d.year + (d.month - 1 + n) / 12, (d.month - 1 + n) % 12 + 1)
    ensures AddMonths(AddMonths(d, n), -n) == d
  {
    var mi := d.month - 1 + n;
    InverseVia(d, n, mi / 12, mi % 12);
  }

  /** `AddMonthsInverse` with the month index split as 12 * q + m0. */
  lemma InverseVia(d: Date, n: int, q: int, m0: int)
    requires Valid(d) && d.month - 1 + n == 12 * q + m0 && 0 <= m0 < 12
    requires d.day <= DaysInMonth(d.year + q, m0 + 1)
    ensures AddMonths(AddMonths(d, n), -n) == d
  {
    var r := Date(d.year + q, m0 + 1, d.day);
    ForwardVia(d, n, q, m0);
    BackVia(d, n, q, r);
  }

  /** The forward month step of `InverseVia` keeps the day. */
  lemma ForwardVia(d: Date, n: int, q: int, m0: int)
    requires Valid(d) && d.month - 1 + n == 12 * q + m0 && 0 <= m0 < 12
    requires d.day <= DaysInMonth(d.year + q, m0 + 1)
    ensures AddMonths(d, n) == Date(d.year + q, m0 + 1, d.day)
  {
    CarriedSplit(d.year, d.month - 1 + n, d.day, q, m0);
  }

  /** The backward month step of `InverseVia` returns to the date. */
  lemma BackVia(d: Date, n: int, q: int, r: Date)
    requires Valid(d) && Valid(r) && r.year == d.year + q && r.day == d.day
    requires r.month - 1 + -n == 12 * -q + (d.month - 1)
    ensures AddMonths(r, -n) == d
  {
    CarriedSplit(r.year, r.month - 1 + -n, r.day, -q, d.month - 1);
    assert r.year + -q == d.year && d.month - 1 + 1 == d.month;
    assert d == Date(d.year, d.month, d.day);
  }

  /** A month index 12 * q + m0 whose month has the day lands in year + q. */
  lemma CarriedSplit(year: int, mi: int, day: int, q: int, m0: int)
    requires mi == 12 * q + m0 && 0 <= m0 < 12 && 1 <= day <= DaysInMonth(year + q, m0 + 1)
    ensures CarriedDate(year, mi, day) == Date(year + q, m0 + 1, day)
  {
    assert mi / 12 == q && mi % 12 == m0;
  }

  /** A month step to a month that has the day keeps the day. */
  lemma AddMonthsExact(d: Date, n: int)
    requires Valid(d)
    requires d.day <= DaysInMonth(d.year + (d.month - 1 + n) / 12, (d.month - 1 + n) % 12 + 1)
    ensures AddMonths(d, n) == Date(d.year + (d.month - 1 + n) / 12, (d.month - 1 + n) % 12 + 1, d.day)
  {
    var mi := d.month - 1 + n;
    ForwardVia(d, n, mi / 12, mi % 12);
  }

  /** A day that exists in the month reached needs no day carry. */
  lemma CarriedInMonth(year: int, monthIndex: int, day: int)
    requires 1 <= day <= DaysInMonth(year + monthIndex / 12, monthIndex % 12 + 1)
    ensures CarriedDate(year, monthIndex, day) == Date(year + monthIndex / 12, monthIndex % 12 + 1, day)
  {
  }

  /** A day past the end of the next month overflows into the month after it,
      and a month back from there lands in the next month, never on the date
      itself: such month steps are not reversible. */
  lemma AddMonthsOverflow(d: Date)
    requires Valid(d) && d.month < 12 && d.day > DaysInMonth(d.year, d.month + 1)
    ensures d.month + 2 <= 12
    ensures AddMonths(d, 1) == Date(d.year, d.month + 2, d.day - DaysInMonth(d.year, d.month + 1))
    ensures AddMonths(AddMonths(d, 1), -1) == Date(d.year, d.month + 1, d.day - DaysInMonth(d.year, d.month + 1))
    ensures AddMonths(AddMonths(d, 1), -1) != d
  {
    var over := OverflowForward(d);
    OverflowBack(d, over);
  }

  /** The backward step of `AddMonthsOverflow`. */
  lemma OverflowBack(d: Date, over: int)
    requires Valid(d) && d.month + 2 <= 12 && 1 <= over <= 3
    requires AddMonths(d, 1) == Date(d.year, d.month + 2, over)
    ensures AddMonths(AddMonths(d, 1), -1) == Date(d.year, d.month + 1, over)
  {
    var b := AddMonths(Date(d.year, d.month + 2, over), -1);
    assert b == CarriedDate(d.year, d.month, over);
    CarriedWithinYear(d.year, d.month, over);
  }

  /** The forward step of `AddMonthsOverflow`, and the overflow it leaves. */
  lemma OverflowForward(d: Date) returns (over: int)
    requires Valid(d) && d.month < 12 && d.day > DaysInMonth(d.year, d.month + 1)
    ensures d.month + 2 <= 12 && over == d.day - DaysInMonth(d.year, d.month + 1)
    ensures 1 <= over <= 3
    ensures AddMonths(d, 1) == Date(d.year, d.month + 2, over)
  {
    over := d.day - DaysInMonth(d.year, d.month + 1);
    assert DaysInMonth(d.year, 11) == 30 && DaysInMonth(d.year, 12) == 31;
    assert AddMonths(d, 1) == CarriedDate(d.year, d.month, d.day);
    CarriedPastEnd(d.year, d.month, d.day);
  }

  /** A day that fits month mi + 1 stays in that month of the same year. */
  lemma CarriedWithinYear(y: int, mi: int, day: int)
    requires 0 <= mi < 12 && 1 <= day <= DaysInMonth(y, mi + 1)
    ensures CarriedDate(y, mi, day) == Date(y, mi + 1, day)
  {
    assert mi / 12 == 0 && mi % 12 == mi;
    CarriedInMonth(y, mi, day);
  }

  /** A day past the end of month mi + 1 carries into month mi + 2 of the same
      year. */
  lemma CarriedPastEnd(y: int, mi: int, day: int)
    requires 0 <= mi < 11 && DaysInMonth(y, mi + 1) < day <= 31
    ensures CarriedDate(y, mi, day) == Date(y, mi + 2, day - DaysInMonth(y, mi + 1))
  {
    var last := DaysInMonth(y, mi + 1);
    assert y + mi / 12 == y && mi % 12 + 1 == mi + 1;
    assert CarriedDate(y, mi, day) == AddDays(Date(y, mi + 1, last), day - last);
    StepIntoNextMonth(y, mi + 1, day - last);
  }

  /** k days on from the last day of a month is day k of the next, when the next
      month has that day. */
  lemma StepIntoNextMonth(y: int, m: int, k: int)
    requires 1 <= m < 12 && 1 <= k <= DaysInMonth(y, m + 1)
    ensures AddDays(Date(y, m, DaysInMonth(y, m)), k) == Date(y, m + 1, k)
  {
    DaysBeforeMonthStep(y, m);
    SerialInjective(AddDays(Date(y, m, DaysInMonth(y, m)), k), Date(y, m + 1, k));
  }

  /** `addYears(date, n)`: the same month and day n years on; 29 February in a year
      reached that is common becomes 1 March. */
  function AddYears(d: Date, n: int): (r: Date)
    requires Valid(d)
    ensures Valid(r)
    ensures Valid(Date(d.year + n, d.month, d.day)) ==> r == Date(d.year + n, d.month, d.day)
    ensures !Valid(Date(d.year + n, d.month, d.day)) ==> r == Date(d.year + n, 3, 1)
  {
    SetFullYearRelative(d, n);
    SetFullYear(d, d.year + n)
  }

  /** `date.setDate(start.getDate() + i)` on a copy of `start`: the i-th day after. */
  function StepFrom(start: Date, i: int): (r: Date)
    requires Valid(start)
    ensures r == AddDays(start, i)
  {
    SetDateRelative(start, i);
    SetDate(start, start.day + i)
  }

  /** One day of `getWeekDates`: a copy of the date set to `diff + i`, where `diff`
      is the day of month of the week's Monday (6 days back from a Sunday). */
  function WeekDay(d: Date, i: int): (r: Date)
    requires Valid(d)
    ensures r == AddDays(MondayOf(d), i)
  {
    var w := Weekday(d);
    var diff := d.day - w + (if w == 0 then -6 else 1);
    SerialInjective(SetDate(d, diff + i), AddDays(MondayOf(d), i));
    SetDate(d, diff + i)
  }

  /** `getWeekDates(date)`. */
  function WeekDates(d: Date): (r: seq<Date>)
    requires Valid(d)
    ensures |r| == 7
    ensures forall i :: 0 <= i < 7 ==> r[i] == AddDays(MondayOf(d), i)
  {
    seq(7, i requires 0 <= i < 7 => WeekDay(d, i))
  }

  /** The week runs Monday to Sunday, one day apart: day i is i days after the
      Monday. */
  lemma WeekDatesMondayToSunday(d: Date)
    requires Valid(d)
    ensures Weekday(WeekDates(d)[0]) == 1 && Weekday(WeekDates(d)[6]) == 0
    ensures forall i :: 0 <= i < 7 ==> Serial(WeekDates(d)[i]) == Serial(WeekDates(d)[0]) + i
  {
    var mon, r := MondayOf(d), WeekDates(d);
    WeekEnds(mon, r);
    ConsecutiveDays(mon, r);
  }

  /** A run of seven days from a Monday starts on a Monday and ends on a Sunday. */
  lemma WeekEnds(mon: Date, r: seq<Date>)
    requires Valid(mon) && Weekday(mon) == 1
    requires |r| == 7 && r[0] == AddDays(mon, 0) && r[6] == AddDays(mon, 6)
    ensures Weekday(r[0]) == 1 && Weekday(r[6]) == 0
  {
    AddDaysZero(mon);
    WeekdayAddDays(mon, 6);
  }

  /** Days counted on from one date lie that many days after it. */
  lemma ConsecutiveDays(start: Date, r: seq<Date>)
    requires Valid(start) && |r| > 0
    requires forall i :: 0 <= i < |r| ==> r[i] == AddDays(start, i)
    ensures Valid(r[0]) && forall i :: 0 <= i < |r| ==> Valid(r[i]) && Serial(r[i]) == Serial(r[0]) + i
  {
  }

  /** The week holds the date itself, at position weekday - 1 counting Monday as 1
      and Sunday as 7; so a Sunday's week starts six days before it. */
  lemma WeekDatesHoldDate(d: Date)
    requires Valid(d)
    ensures WeekDates(d)[IsoWeekday(d) - 1] == d
    ensures Weekday(d) == 0 ==> WeekDates(d)[0] == AddDays(d, -6)
  {
    var r := WeekDates(d);
    SerialInjective(r[IsoWeekday(d) - 1], d);
    if Weekday(d) == 0 {
      SerialInjective(r[0], AddDays(d, -6));
    }
  }

  /** One cell of the month grid: the date and whether it lies in the month shown. */
  datatype MonthCell = MonthCell(date: Date, isCurrentMonth: bool)

  /** The Monday 0..6 days on or before the first of the date's month, built the way
      `getMonthDates` builds it (`new Date(year, month, 1)`, then `setDate`). */
  function GridStart(d: Date): (s: Date)
    requires Valid(d)
    ensures var first := NewDate(d.year, d.month - 1, 1);
            s == MondayOf(first) && Serial(first) - 6 <= Serial(s) <= Serial(first)
  {
    var first := NewDate(d.year, d.month - 1, 1);
    var s := SetDate(first, first.day - IsoWeekday(first) + 1);
    SerialInjective(s, MondayOf(first));
    s
  }

  /** `getMonthDates(date)`: 42 consecutive cells from `GridStart`, flagged by
      comparing month numbers only. */
  function MonthDates(d: Date): (r: seq<MonthCell>)
    requires Valid(d)
    ensures |r| == 42
    ensures forall i :: 0 <= i < 42 ==> r[i].date == AddDays(GridStart(d), i)
    ensures forall i :: 0 <= i < 42 ==> (r[i].isCurrentMonth <==> r[i].date.month == d.month)
  {
    var s := GridStart(d);
    seq(42, i requires 0 <= i < 42 => MonthCell(StepFrom(s, i), StepFrom(s, i).month == d.month))
  }

  /** A date in month m of a year other than y is more than 41 days away from the
      first of month m of year y. */
  lemma OtherYearSameMonthFar(c: Date, y: int, m: int)
    requires Valid(c) && 1 <= m <= 12 && c.month == m && c.year != y
    ensures Serial(c) < Serial(Date(y, m, 1)) - 6 || Serial(c) > Serial(Date(y, m, 1)) + 41
  {
    if c.year > y {
      DaysBeforeYearMonotone(y + 1, c.year);
      YearLength(y);
    } else {
      DaysBeforeYearMonotone(c.year + 1, y);
      YearLength(c.year);
    }
  }

  /** A 42-day grid that starts 0..6 days before the first of a month: a cell
      whose month number is that month's lies in that month's year. */
  lemma GridCellInMonth(first: Date, s: Date, c: Date, i: int)
    requires Valid(first) && first.day == 1 && Valid(s) && Valid(c)
    requires Serial(first) - 6 <= Serial(s) <= Serial(first) && 0 <= i < 42 && Serial(c) == Serial(s) + i
    requires c.month == first.month
    ensures c.year == first.year
  {
    if c.year != first.year {
      OtherYearSameMonthFar(c, first.year, first.month);
    }
  }

  /** Such a grid holds every day of the month, the first at offset
      Serial(first) - Serial(s). */
  lemma GridDayIndex(first: Date, s: Date, day: int) returns (i: int)
    requires Valid(first) && first.day == 1 && Valid(s)
    requires Serial(first) - 6 <= Serial(s) <= Serial(first)
    requires 1 <= day <= DaysInMonth(first.year, first.month)
    ensures 0 <= i < 42 && AddDays(s, i) == Date(first.year, first.month, day)
  {
    i := Serial(first) - Serial(s) + day - 1;
    assert Serial(Date(first.year, first.month, day)) == Serial(first) + day - 1;
    SerialInjective(AddDays(s, i), Date(first.year, first.month, day));
  }

  /** For years `new Date` takes literally, the flag marks exactly the days of the
      date's own month, and every one of those days is in the grid. */
  lemma MonthDatesExact(d: Date)
    requires Valid(d) && !(0 <= d.year <= 99)
    ensures forall i :: 0 <= i < 42 ==>
      (MonthDates(d)[i].isCurrentMonth <==> MonthDates(d)[i].date.year == d.year && MonthDates(d)[i].date.month == d.month)
    ensures forall day :: 1 <= day <= DaysInMonth(d.year, d.month) ==>
      exists i :: 0 <= i < 42 && MonthDates(d)[i].date == Date(d.year, d.month, day)
  {
    var r := MonthDates(d);
    var first := Date(d.year, d.month, 1);
    MakeDayInRange(d.year, d.month, 1);
    var s := GridStart(d);
    forall i | 0 <= i < 42 && r[i].date.month == d.month
      ensures r[i].date.year == d.year
    {
      GridCellInMonth(first, s, r[i].date, i);
    }
    forall day | 1 <= day <= DaysInMonth(d.year, d.month)
      ensures exists i :: 0 <= i < 42 && r[i].date == Date(d.year, d.month, day)
    {
      var i := GridDayIndex(first, s, day);
      assert r[i].date == Date(d.year, d.month, day);
    }
  }

  /** `getYearMonths(date)`: `new Date(year, i, 1)` for i = 0..11. */
  function YearMonths(d: Date): (r: seq<Date>)
    ensures |r| == 12
    ensures forall i :: 0 <= i < 12 ==> r[i] == Date(if 0 <= d.year <= 99 then 1900 + d.year else d.year, i + 1, 1)
  {
    var y := if 0 <= d.year <= 99 then 1900 + d.year else d.year;
    assert forall i :: 0 <= i < 12 ==> NewDate(d.year, i, 1) == Date(y, i + 1, 1) by {
      forall i | 0 <= i < 12 {
        MakeDayInRange(y, i + 1, 1);
      }
    }
    seq(12, i requires 0 <= i < 12 => NewDate(d.year, i, 1))
  }

  /** The twelve month starts are strictly increasing days. */
  lemma YearMonthsOrdered(d: Date)
    ensures forall i :: 0 <= i < 11 ==> Serial(YearMonths(d)[i]) < Serial(YearMonths(d)[i + 1])
  {
    var y := if 0 <= d.year <= 99 then 1900 + d.year else d.year;
    forall i | 0 <= i < 11
      ensures Serial(YearMonths(d)[i]) < Serial(YearMonths(d)[i + 1])
    {
      DaysBeforeMonthStep(y, i + 1);
    }
  }

  /** `clamp(value, min, max)`, i.e. `Math.min(Math.max(value, min), max)`. */
  function Clamp(v: int, lo: int, hi: int): (r: int)
    ensures lo <= hi ==> lo <= r <= hi
    ensures lo <= hi && lo <= v <= hi ==> r == v
    ensures lo <= hi && v < lo ==> r == lo
    ensures v > hi || lo > hi ==> r == hi
  {
    var m := if v > lo then v else lo;
    if m < hi then m else hi
  }

  /** `isEmpty(value)`: null, undefined or the empty string. */
  predicate IsEmpty(v: Value) {
    v == Null || v == Undefined || v == Str("")
  }

  /** `isObject(value)`: non-null, `typeof` object, and not an array. */
  predicate IsObject(v: Value) {
    v.Obj?
  }

  /** Emptiness is not falsiness: `0` and `false` are not empty, and objects and
      arrays are never empty, not even when they have no elements. */
  lemma IsEmptyCases(v: Value)
    ensures IsEmpty(v) ==> !Truthy(v)
    ensures IsEmpty(Num(0)) == false && IsEmpty(Bool(false)) == false
    ensures v.Arr? || v.Obj? ==> !IsEmpty(v)
    ensures IsObject(v) ==> !v.Arr? && v != Null
  {
  }

  /** The value `mergeObjects` leaves at a key the source has: a recursive merge
      when both sides hold plain objects, otherwise the source's value. */
  function MergedValue(t: Option<Value>, sv: Value): Value
    decreases sv, 1
  {
    if t.Some? && t.value.Obj? && sv.Obj? then Obj(MergeObjects(t.value.fields, sv.fields)) else sv
  }

  /** `mergeObjects(target, source)`: a copy of the target, then each own property of
      the source assigned in order, merging where both sides hold plain objects. */
  function MergeObjects(t: seq<Field>, s: seq<Field>): (r: seq<Field>)
    decreases s, 0
  {
    if |s| == 0 then t
    else MergeObjects(Put(t, s[0].key, MergedValue(Lookup(t, s[0].key), s[0].value)), s[1..])
  }

  /** Merging, key by key: a key only the target has keeps its value, and a key the
      source has gets the source's value, or the two objects merged. */
  lemma {:induction false} MergeObjectsLookup(t: seq<Field>, s: seq<Field>, k: string)
    requires DistinctKeys(s)
    ensures Lookup(MergeObjects(t, s), k) ==
      if Lookup(s, k).None? then Lookup(t, k) else Some(MergedValue(Lookup(t, k), Lookup(s, k).value))
    decreases |s|
  {
    if |s| > 0 {
      var f := s[0];
      var t' := Put(t, f.key, MergedValue(Lookup(t, f.key), f.value));
      assert DistinctKeys(s[1..]);
      MergeObjectsLookup(t', s[1..], k);
      PutLookup(t, f.key, MergedValue(Lookup(t, f.key), f.value), k);
      if k == f.key {
        assert !HasKey(s[1..], k);
      } else {
        assert Lookup(s, k) == Lookup(s[1..], k);
      }
    }
  }

  /** Merging keeps property names distinct. */
  lemma {:induction false} MergeObjectsDistinct(t: seq<Field>, s: seq<Field>)
    requires DistinctKeys(t)
    ensures DistinctKeys(MergeObjects(t, s))
    decreases |s|
  {
    if |s| > 0 {
      PutDistinct(t, s[0].key, MergedValue(Lookup(t, s[0].key), s[0].value));
      MergeObjectsDistinct(Put(t, s[0].key, MergedValue(Lookup(t, s[0].key), s[0].value)), s[1..]);
    }
  }

  lemma HasKeyAppend(t: seq<Field>, f: Field, k: string)
    ensures HasKey(t + [f], k) <==> HasKey(t, k) || f.key == k
  {
    if f.key == k {
      assert (t + [f])[|t|] == f;
    }
    if HasKey(t + [f], k) && f.key != k {
      var j :| 0 <= j < |t| + 1 && (t + [f])[j].key == k;
      assert t[j].key == k;
    }
    if HasKey(t, k) {
      var j :| 0 <= j < |t| && t[j].key == k;
      assert (t + [f])[j].key == k;
    }
  }

  /** Merging source properties the target lacks appends them in order; in
      particular merging into an empty object copies the source. */
  lemma {:induction false} MergeIntoDisjoint(t: seq<Field>, s: seq<Field>)
    requires DistinctKeys(s)
    requires forall i :: 0 <= i < |s| ==> !HasKey(t, s[i].key)
    ensures MergeObjects(t, s) == t + s
    decreases |s|
  {
    if |s| > 0 {
      var t' := t + [s[0]];
      assert Put(t, s[0].key, MergedValue(Lookup(t, s[0].key), s[0].value)) == t';
      forall i | 0 <= i < |s| - 1
        ensures !HasKey(t', s[1..][i].key)
      {
        HasKeyAppend(t, s[0], s[i + 1].key);
      }
      MergeIntoDisjoint(t', s[1..]);
      assert t' + s[1..] == t + s;
    }
  }

  lemma MergeObjectsIdentities(t: seq<Field>, s: seq<Field>)
    requires DistinctKeys(s)
    ensures MergeObjects(t, []) == t
    ensures MergeObjects([], s) == s
  {
    MergeIntoDisjoint([], s);
  }
}

=== FILE: items.dfy ===
/** The content items of the newer journal (notes, photos, media, todo lists,
    timers, Thai words, AI prompts) and the insertion-ordered `Map` from id to
    item that `ContentManager` keeps. An item's `content` is always a string:
    plain text, a data URL, or the JSON text of a structured payload. */
module Items {
  import opened Wrappers

  /** `date` is the day key; the empty string stands for a missing date, which
      JavaScript's `!item.date` treats alike. `shade` is absent on the kinds that
      have none. */
  datatype Item = Item(
    id: string,
    kind: string,
    content: string,
    x: int,
    y: int,
    width: int,
    height: int,
    shade: Option<int>,
    date: string,
    timestamp: int)

  /** The properties an `updates` object passed to `Object.assign` may carry; an
      absent one leaves the item's property alone. */
  datatype Update = Update(
    kind: Option<string>,
    content: Option<string>,
    x: Option<int>,
    y: Option<int>,
    width: Option<int>,
    height: Option<int>,
    shade: Option<Option<int>>,
    date: Option<string>,
    timestamp: Option<int>)

  const NoUpdate: Update := Update(None, None, None, None, None, None, None, None, None)

  /** `{ x, y }`. */
  function MoveTo(x: int, y: int): Update {
    NoUpdate.(x := Some(x), y := Some(y))
  }

  /** `Object.assign(item, updates)`: every given property overwrites, every
      other one stays. */
  function Assign(it: Item, u: Update): (r: Item)
    ensures r.id == it.id
    ensures r.kind == u.kind.GetOr(it.kind) && r.content == u.content.GetOr(it.content)
    ensures r.x == u.x.GetOr(it.x) && r.y == u.y.GetOr(it.y)
    ensures r.width == u.width.GetOr(it.width) && r.height == u.height.GetOr(it.height)
    ensures r.shade == u.shade.GetOr(it.shade) && r.date == u.date.GetOr(it.date)
    ensures r.timestamp == u.timestamp.GetOr(it.timestamp)
  {
    Item(it.id, u.kind.GetOr(it.kind), u.content.GetOr(it.content), u.x.GetOr(it.x), u.y.GetOr(it.y),
         u.width.GetOr(it.width), u.height.GetOr(it.height), u.shade.GetOr(it.shade),
         u.date.GetOr(it.date), u.timestamp.GetOr(it.timestamp))
  }

  /** Assigning nothing changes nothing, and assigning the same updates twice is
      the same as once. */
  lemma AssignIdentityIdempotent(it: Item, u: Update)
    ensures Assign(it, NoUpdate) == it
    ensures Assign(Assign(it, u), u) == Assign(it, u)
  {
  }

  /** A move changes the position and nothing else. */
  lemma MoveChangesOnlyPosition(it: Item, x: int, y: int)
    ensures Assign(it, MoveTo(x, y)) == it.(x := x, y := y)
  {
  }

  /** The ids of a map, in insertion order. */
  predicate DistinctIds(m: seq<Item>) {
    forall i, j :: 0 <= i < j < |m| ==> m[i].id != m[j].id
  }

  lemma TailDistinct(m: seq<Item>)
    requires DistinctIds(m) && |m| > 0
    ensures DistinctIds(m[1..])
  {
    assert forall i | 0 <= i < |m[1..]| :: m[1..][i] == m[i + 1];
  }

  /** Without its last item, a map with distinct ids keeps them distinct and no
      longer holds that item's id. */
  lemma InitDistinct(m: seq<Item>)
    requires DistinctIds(m) && |m| > 0
    ensures DistinctIds(m[..|m| - 1]) && !HasId(m[..|m| - 1], m[|m| - 1].id)
  {
    assert forall i | 0 <= i < |m| - 1 :: m[..|m| - 1][i] == m[i];
  }

  lemma ConsDistinct(x: Item, t: seq<Item>)
    requires DistinctIds(t) && forall y | y in t :: y.id != x.id
    ensures DistinctIds([x] + t)
  {
    var r := [x] + t;
    forall i, j | 0 <= i < j < |r|
      ensures r[i].id != r[j].id
    {
      assert r[j] == t[j - 1];
      if i > 0 {
        assert r[i] == t[i - 1];
      }
    }
  }

  predicate HasId(m: seq<Item>, id: string) {
    exists i :: 0 <= i < |m| && m[i].id == id
  }

  /** `map.get(id)`. */
  function Find(m: seq<Item>, id: string): (r: Option<Item>)
    ensures r.Some? <==> HasId(m, id)
    ensures r.Some? ==> r.value in m && r.value.id == id
    decreases |m|
  {
    if |m| == 0 then None
    else if m[0].id == id then Some(m[0])
    else
      assert HasId(m, id) ==> HasId(m[1..], id) by {
        if HasId(m, id) {
          var i :| 0 <= i < |m| && m[i].id == id;
          assert m[1..][i - 1].id == id;
        }
      }
      Find(m[1..], id)
  }

  /** `map.set(item.id, item)`: an existing id keeps its place, a new one goes
      last. */
  function Set(m: seq<Item>, it: Item): (r: seq<Item>)
    ensures !HasId(m, it.id) ==> r == m + [it]
    ensures HasId(m, it.id) ==> |r| == |m|
    decreases |m|
  {
    if |m| == 0 then [it]
    else if m[0].id == it.id then [it] + m[1..]
    else
      assert HasId(m, it.id) ==> HasId(m[1..], it.id) by {
        if HasId(m, it.id) {
          var i :| 0 <= i < |m| && m[i].id == it.id;
          assert m[1..][i - 1].id == it.id;
        }
      }
      assert !HasId(m, it.id) ==> m == [m[0]] + m[1..];
      [m[0]] + Set(m[1..], it)
  }

  /** `map.delete(id)`. */
  function Remove(m: seq<Item>, id: string): (r: seq<Item>)
    ensures forall x | x in r :: x in m && x.id != id
    ensures forall x | x in m && x.id != id :: x in r
    decreases |m|
  {
    if |m| == 0 then []
    else if m[0].id == id then Remove(m[1..], id)
    else [m[0]] + Remove(m[1..], id)
  }

  /** After a set, the id finds the new item and every other id finds what it
      found before. */
  lemma {:induction false} SetFind(m: seq<Item>, it: Item, id: string)
    ensures Find(Set(m, it), id) == if id == it.id then Some(it) else Find(m, id)
    decreases |m|
  {
    if |m| > 0 && m[0].id != it.id {
      SetFind(m[1..], it, id);
      assert Set(m, it)[1..] == Set(m[1..], it);
    }
  }

  /** After a delete, the id finds nothing and every other id finds what it found
      before. */
  lemma {:induction false} RemoveFind(m: seq<Item>, id: string, id': string)
    ensures Find(Remove(m, id), id') == if id' == id then None else Find(m, id')
    decreases |m|
  {
    if |m| > 0 {
      RemoveFind(m[1..], id, id');
      if m[0].id != id {
        assert Remove(m, id)[1..] == Remove(m[1..], id);
      }
    }
  }

  lemma {:induction false} RemoveAbsent(m: seq<Item>, id: string)
    requires !HasId(m, id)
    ensures Remove(m, id) == m
    decreases |m|
  {
    if |m| > 0 {
      assert forall i :: 0 <= i < |m[1..]| ==> m[1..][i] == m[i + 1];
      RemoveAbsent(m[1..], id);
      assert m == [m[0]] + m[1..];
    }
  }

  /** Setting a new id and deleting it again restores the map, order included. */
  lemma SetRemoveFresh(m: seq<Item>, it: Item)
    requires !HasId(m, it.id)
    ensures Remove(Set(m, it), it.id) == m
  {
    RemoveAppend(m, [it], it.id);
    RemoveAbsent(m, it.id);
  }

  lemma {:induction false} RemoveAppend(a: seq<Item>, b: seq<Item>, id: string)
    ensures Remove(a + b, id) == Remove(a, id) + Remove(b, id)
    decreases |a|
  {
    if |a| > 0 {
      assert (a + b)[1..] == a[1..] + b;
      RemoveAppend(a[1..], b, id);
    } else {
      assert a + b == b;
    }
  }

  /** `Array.from(map.values()).filter(item => item.type === kind)`. */
  function OfKind(m: seq<Item>, kind: string): (r: seq<Item>)
    ensures forall x | x in r :: x in m && x.kind == kind
    ensures forall x | x in m && x.kind == kind :: x in r
    decreases |m|
  {
    if |m| == 0 then []
    else if m[0].kind == kind then [m[0]] + OfKind(m[1..], kind)
    else OfKind(m[1..], kind)
  }

  /** The filter keeps the map's order: filtering a concatenation concatenates
      the filtered parts. */
  lemma {:induction false} OfKindAppend(a: seq<Item>, b: seq<Item>, kind: string)
    ensures OfKind(a + b, kind) == OfKind(a, kind) + OfKind(b, kind)
    decreases |a|
  {
    if |a| > 0 {
      assert (a + b)[1..] == a[1..] + b;
      OfKindAppend(a[1..], b, kind);
    } else {
      assert a + b == b;
    }
  }
}

=== FILE: journal_app.dfy ===
/** The newer journal's application object (`CosmicJournalApp`): it wires the
    gesture recognisers, the keyboard and the radial menu to the date navigator
    and the content manager. Each handler runs to completion before the next
    event; what it does to the screen and to saved state is returned as effects. */
module JournalApp {
  import opened Wrappers
  import opened Notes
  import Civil
  import Json
  import Items
  import Nav = DateNavigator
  import Menu = MenuController
  import Tracker = GestureTracker
  import Swipe = SwipeHandler
  import Settings = SettingsLoader
  import Factory = ActionFactory
  import CM = ContentManager
  import Db = DbManager

  /** The navigator, the radial menu, `currentContent`, and the content manager
      with the store behind it. */
  datatype App = App(nav: Nav.Navigator, menu: Menu.Menu, content: seq<Items.Item>, manager: CM.Manager, db: Db.Db)

  predicate Inv(a: App) {
    Nav.WellFormed(a.nav) && Menu.Inv(a.menu) && CM.Inv(a.manager) && Db.Inv(a.db)
  }

  /** `applyTransition(name)`, `renderCurrentView()`, `updateDateDisplay()`,
      `saveState()` and `event.preventDefault()`. */
  datatype Effect = Transition(name: string) | Render | ShowDate | SaveState | PreventDefault

  /** What a press in the menu needs from outside: the registered factories, the
      id, clock, random draw, Thai word and picked file a builder uses, the
      viewport centre, and whether the store request succeeds. */
  datatype Env = Env(reg: Factory.Registry, world: Factory.World, centre: Point, io: Db.Io)

  /** The navigator's callbacks, registered by the app: `handleDateChange` shows
      the date and saves; `handleViewChange` also re-renders. */
  function Notified(notice: Option<Nav.Notice>): (r: seq<Effect>)
    ensures notice.None? ==> r == []
    ensures notice.Some? && notice.value.DateChanged? ==> r == [ShowDate, SaveState]
    ensures notice.Some? && notice.value.ViewChanged? ==> r == [Render, ShowDate, SaveState]
  {
    match notice
    case None => []
    case Some(DateChanged(_, _, _)) => [ShowDate, SaveState]
    case Some(ViewChanged(_, _, _)) => [Render, ShowDate, SaveState]
  }

  /** `refreshContent()`: `currentContent` becomes what the content manager loads
      for the current date (nothing when the store fails), then the view is
      rendered. */
  function Refresh(a: App, io: Db.Io): (r: (App, seq<Effect>))
    requires Inv(a)
    ensures Inv(r.0) && r.0.nav == a.nav && r.0.menu == a.menu && r.0.db == a.db
    ensures r.0.content == CM.LoadContent(a.manager, a.db, a.nav.currentDate, io).1
    ensures io.Done? ==> forall x | x in r.0.content :: x.date == Civil.DayKey(a.nav.currentDate)
    ensures io.Fault? ==> r.0.content == []
    ensures r.1 == [Render]
  {
    var l := CM.LoadContent(a.manager, a.db, a.nav.currentDate, io);
    (a.(manager := l.0, content := l.1), [Render])
  }

  /** `navigateTime(direction)`: one period back for 'up', forward otherwise,
      then a transition, a reload, the date display and a save. */
  function NavigateTime(a: App, direction: string, io: Db.Io): (r: (App, seq<Effect>))
    requires Inv(a)
    ensures Inv(r.0)
    ensures r.0.nav == Nav.NavigatePeriod(a.nav, direction).nav
    ensures r.0.content == CM.LoadContent(a.manager, a.db, r.0.nav.currentDate, io).1
    ensures r.1 == Notified(Nav.NavigatePeriod(a.nav, direction).notice) +
                   [Transition(direction), Render, ShowDate, SaveState]
  {
    var s := Nav.NavigatePeriod(a.nav, direction);
    var f := Refresh(a.(nav := s.nav), io);
    (f.0, Notified(s.notice) + [Transition(direction), Render, ShowDate, SaveState])
  }

  /** `navigateZoom(direction)`: the transition, rendering, date display and save
      happen only when the level actually changed. */
  function NavigateZoom(a: App, direction: string): (r: (App, seq<Effect>))
    requires Inv(a)
    ensures Inv(r.0) && r.0 == a.(nav := Nav.ZoomLevel(a.nav, direction).nav)
    ensures r.1 == [] <==> r.0.nav.viewLevel == a.nav.viewLevel
    ensures r.0.nav.viewLevel == a.nav.viewLevel ==> r.0 == a
    ensures r.0.nav.viewLevel != a.nav.viewLevel ==>
              Transition(direction) in r.1 && SaveState in r.1 && r.1[|r.1| - 1] == SaveState
  {
    var s := Nav.ZoomLevel(a.nav, direction);
    if s.nav.viewLevel != a.nav.viewLevel then
      (a.(nav := s.nav), Notified(s.notice) + [Transition(direction), Render, ShowDate, SaveState])
    else
      (a.(nav := s.nav), [])
  }

  /** `jumpToDate(date)` from a day or month cell: go to the date, and from any
      level but day zoom in once; then reload. The date string's parsing is not
      modelled: the parsed date is given. */
  function JumpToDate(a: App, date: Civil.Date, io: Db.Io): (r: (App, seq<Effect>))
    requires Inv(a) && Civil.Valid(date)
    ensures Inv(r.0) && r.0.nav.currentDate == date
    ensures r.0.content == CM.LoadContent(a.manager, a.db, date, io).1
    ensures a.nav.viewLevel == "day" ==> r.0.nav.viewLevel == "day"
    ensures a.nav.viewLevel != "day" ==> r.0.nav == Nav.ZoomLevel(a.nav.(currentDate := date), "in").nav
  {
    var g := Nav.GoToDate(a.nav, date);
    var z := if g.nav.viewLevel != "day" then Nav.ZoomLevel(g.nav, "in") else Nav.Step(g.nav, None);
    var f := Refresh(a.(nav := z.nav), io);
    (f.0, Notified(g.notice) + Notified(z.notice) + [Render, ShowDate])
  }

  /** A jump lands exactly one level finer than it started: month on week, week
      on day, year on month; day stays day. */
  lemma JumpOneLevelFiner(a: App, date: Civil.Date, io: Db.Io)
    requires Inv(a) && Civil.Valid(date) && a.nav.viewLevel in Nav.ViewLevels
    ensures var level := JumpToDate(a, date, io).0.nav.viewLevel;
            var i := Nav.IndexOf(a.nav.viewLevel);
            level == Nav.ViewLevels[if i == 0 then 0 else i - 1]
  {
  }

  /** `goToToday()`, with today given. */
  function GoToToday(a: App, today: Civil.Date, io: Db.Io): (r: (App, seq<Effect>))
    requires Inv(a) && Civil.Valid(today)
    ensures Inv(r.0) && r.0.nav == a.nav.(currentDate := today)
    ensures r.0.content == CM.LoadContent(a.manager, a.db, today, io).1
    ensures Transition("today") in r.1 && r.1[|r.1| - 1] == SaveState
  {
    var g := Nav.GoToToday(a.nav, today);
    var f := Refresh(a.(nav := g.nav), io);
    (f.0, Notified(g.notice) + [Transition("today"), Render, ShowDate, SaveState])
  }

  /** The navigation a key or gesture asks for. */
  datatype Command = Time(direction: string) | Zoom(direction: string) | Today | Dismiss | NoCommand

  /** The element a key event is aimed at: its `tagName` and `contentEditable`. */
  datatype Target = Target(tagName: string, contentEditable: string)

  predicate Editing(t: Target) {
    t.tagName == "INPUT" || t.tagName == "TEXTAREA" || t.contentEditable == "true"
  }

  /** `handleKeyboard(event)`: keys typed into a field are left alone; the arrows
      step in time or zoom, Space goes to today, Escape closes the menu. */
  function KeyCommand(t: Target, key: string): (c: Command)
    ensures Editing(t) ==> c == NoCommand
    ensures !Editing(t) ==>
              c == (if key == "ArrowUp" then Time("up")
                    else if key == "ArrowDown" then Time("down")
                    else if key == "ArrowLeft" then Zoom("out")
                    else if key == "ArrowRight" then Zoom("in")
                    else if key == " " then Today
                    else if key == "Escape" then Dismiss
                    else NoCommand)
  {
    if Editing(t) then NoCommand
    else
      match key
      case "ArrowUp" => Time("up")
      case "ArrowDown" => Time("down")
      case "ArrowLeft" => Zoom("out")
      case "ArrowRight" => Zoom("in")
      case " " => Today
      case "Escape" => Dismiss
      case _ => NoCommand
  }

  /** The callbacks the app gives the swipe handler. */
  function GestureCommand(g: Swipe.Gesture): (c: Command)
    ensures g.SwipeUp? || g.SwipeDown? <==> c.Time?
    ensures g.SwipeRight? || g.PinchIn? <==> c == Zoom("in")
    ensures g.SwipeLeft? || g.PinchOut? <==> c == Zoom("out")
    ensures g.DoubleTap? <==> c == Today
  {
    match g
    case SwipeUp => Time("up")
    case SwipeDown => Time("down")
    case SwipeLeft => Zoom("out")
    case SwipeRight => Zoom("in")
    case PinchIn => Zoom("in")
    case PinchOut => Zoom("out")
    case DoubleTap => Today
  }

  /** Carry out a command. Escape hides the menu only while it is shown. */
  function Perform(a: App, c: Command, today: Civil.Date, io: Db.Io): (r: (App, seq<Effect>))
    requires Inv(a) && Civil.Valid(today)
    ensures Inv(r.0)
    ensures c.NoCommand? ==> r == (a, [])
    ensures c.Dismiss? ==> r.1 == [] && !r.0.menu.active && r.0.nav == a.nav && r.0.content == a.content
    ensures c.Time? ==> r == NavigateTime(a, c.direction, io)
    ensures c.Zoom? ==> r == NavigateZoom(a, c.direction)
    ensures c.Today? ==> r == GoToToday(a, today, io)
  {
    match c
    case Time(d) => NavigateTime(a, d, io)
    case Zoom(d) => NavigateZoom(a, d)
    case Today => GoToToday(a, today, io)
    case Dismiss => (if a.menu.active then a.(menu := Menu.Hide(a.menu)) else a, [])
    case NoCommand => (a, [])
  }

  /** A key press: the navigation keys also cancel the browser's default. */
  function HandleKeyboard(a: App, t: Target, key: string, today: Civil.Date, io: Db.Io): (r: (App, seq<Effect>))
    requires Inv(a) && Civil.Valid(today)
    ensures Inv(r.0)
    ensures Editing(t) ==> r == (a, [])
    ensures var c := KeyCommand(t, key);
            var p := Perform(a, c, today, io);
            r.0 == p.0 && r.1 == (if c.Time? || c.Zoom? || c.Today? then [PreventDefault] + p.1 else p.1)
  {
    var c := KeyCommand(t, key);
    var p := Perform(a, c, today, io);
    (p.0, if c.Time? || c.Zoom? || c.Today? then [PreventDefault] + p.1 else p.1)
  }

  /** Swiping up steps back in time, as the navigator reads 'up' as backward:
      in day view the previous day. */
  lemma SwipeUpGoesBack(a: App, today: Civil.Date, io: Db.Io)
    requires Inv(a) && Civil.Valid(today) && a.nav.viewLevel == "day"
    ensures Perform(a, GestureCommand(Swipe.SwipeUp), today, io).0.nav.currentDate == Civil.AddDays(a.nav.currentDate, -1)
  {
    Nav.NavigatePeriodUnits(a.nav, "up");
  }

  /** A swipe right then a swipe left restores the level above day; pinching in
      then out does too. */
  lemma ZoomGesturesUndo(a: App, today: Civil.Date, io: Db.Io)
    requires Inv(a) && Civil.Valid(today) && a.nav.viewLevel in ["week", "month", "year"]
    ensures var a1 := Perform(a, GestureCommand(Swipe.SwipeRight), today, io).0;
            Perform(a1, GestureCommand(Swipe.SwipeLeft), today, io).0 == a
    ensures var a1 := Perform(a, GestureCommand(Swipe.PinchIn), today, io).0;
            Perform(a1, GestureCommand(Swipe.PinchOut), today, io).0 == a
  {
    Nav.ZoomInThenOut(a.nav);
  }

  /** `handleLongPressStart(x, y)`: the menu opens only in day view. */
  function LongPressStart(a: App, p: Point): (r: App)
    requires Inv(a)
    ensures Inv(r)
    ensures a.nav.viewLevel == "day" ==> r == a.(menu := Menu.Show(a.menu, p))
    ensures a.nav.viewLevel != "day" ==> r == a
  {
    if a.nav.viewLevel == "day" then a.(menu := Menu.Show(a.menu, p)) else a
  }

  /** `handleLongPressMove(x, y)`: forwarded only while the menu is shown. */
  function LongPressMove(a: App, p: Point): (r: App)
    requires Inv(a)
    ensures Inv(r)
    ensures !a.menu.active ==> r == a
    ensures a.menu.active ==> r == a.(menu := Menu.UpdatePosition(a.menu, p))
  {
    if a.menu.active then a.(menu := Menu.UpdatePosition(a.menu, p)) else a
  }

  /** `handleActionSelect(action)`: the factory builds the item at the viewport
      centre for the current date key; only an item the content manager stored
      is appended to `currentContent`. A factory or store failure is caught and
      changes nothing. */
  function HandleActionSelect(a: App, kind: string, env: Env): (r: App)
    requires Inv(a) && Factory.ValidWorld(env.world)
    ensures Inv(r) && r.nav == a.nav && r.menu == a.menu
    ensures var made := Factory.Create(env.reg, kind, env.centre.x, env.centre.y, Nav.GetDateKey(a.nav), env.world);
            if made.Success? && made.value.Some? && env.io.Done? then
              var stored := CM.AddItem(a.manager, a.db, made.value.value, env.world.today, env.io);
              r.content == a.content + [stored.result.value] && r.manager == stored.manager && r.db == stored.db
            else r == a
  {
    match Factory.Create(env.reg, kind, env.centre.x, env.centre.y, Nav.GetDateKey(a.nav), env.world)
    case Failure(_) => a
    case Success(None) => a
    case Success(Some(item)) =>
      var o := CM.AddItem(a.manager, a.db, item, env.world.today, env.io);
      if o.result.Failure? then a
      else a.(manager := o.manager, db := o.db, content := a.content + [o.result.value])
  }

  /** `handleLongPressEnd()`: while the menu is shown it confirms, which hides it
      and hands the selected action, if any, to `handleActionSelect`. */
  function LongPressEnd(a: App, env: Env): (r: App)
    requires Inv(a) && Factory.ValidWorld(env.world)
    ensures Inv(r) && r.nav == a.nav
    ensures !a.menu.active ==> r == a
    ensures a.menu.active ==> !r.menu.active
    ensures a.menu.active && (a.menu.selected.None? || !a.menu.hasCallback) ==> r == a.(menu := Menu.Hide(a.menu))
    ensures a.menu.active && a.menu.selected.Some? && a.menu.hasCallback ==>
              r == HandleActionSelect(a.(menu := Menu.Hide(a.menu)), Menu.Actions[a.menu.selected.value], env)
  {
    if !a.menu.active then a
    else
      var (m, act) := Menu.ConfirmSelection(a.menu);
      if act.Some? then HandleActionSelect(a.(menu := m), act.value, env) else a.(menu := m)
  }

  /** The tracker's callbacks as the app registers them: the drag callbacks are
      not registered, so they never arrive. */
  function OnTracker(a: App, e: Tracker.Effect, env: Env): (r: App)
    requires Inv(a) && Factory.ValidWorld(env.world)
    ensures Inv(r)
  {
    match e.callback
    case OnLongPressStart => LongPressStart(a, e.at)
    case OnLongPressMove => LongPressMove(a, e.at)
    case OnLongPressEnd => LongPressEnd(a, env)
    case _ => a
  }

  function OnTrackerAll(a: App, es: seq<Tracker.Effect>, env: Env): (r: App)
    requires Inv(a) && Factory.ValidWorld(env.world)
    ensures Inv(r)
    decreases |es|
  {
    if |es| == 0 then a else OnTrackerAll(OnTracker(a, es[0], env), es[1..], env)
  }

  /** The settings the recognisers read: a number, or nothing. */
  function Number(v: Json.Value): (r: Option<int>)
    ensures r.Some? <==> v.Num?
    ensures r.Some? ==> Json.Num(r.value) == v
  {
    if v.Num? then Some(v.n) else None
  }

  /** The tracker's options: a numeric, non-zero setting wins, anything else
      (null, a string, zero) gives the tracker's own default. */
  function TrackerConfig(l: Settings.Loader): (c: Tracker.Config)
    ensures c.registered == Tracker.MenuCallbacks
    ensures var d := Settings.GetSetting(l, "gestures.longPressDelay");
            c.longPressDelay == if d.Num? && d.n != 0 then d.n else Tracker.DefaultLongPressDelay
    ensures var t := Settings.GetSetting(l, "gestures.dragThreshold");
            c.dragThreshold == if t.Num? && t.n != 0 then t.n else Tracker.DefaultDragThreshold
  {
    Tracker.Configure(Number(Settings.GetSetting(l, "gestures.longPressDelay")),
                      Number(Settings.GetSetting(l, "gestures.dragThreshold")), Tracker.MenuCallbacks)
  }

  const SwipeGestures: set<Swipe.Gesture> :=
    {Swipe.SwipeUp, Swipe.SwipeDown, Swipe.SwipeLeft, Swipe.SwipeRight, Swipe.PinchIn, Swipe.PinchOut, Swipe.DoubleTap}

  /** The swipe handler's options: only the threshold comes from the settings. */
  function SwipeConfig(l: Settings.Loader): (c: Swipe.Config)
    ensures c.registered == SwipeGestures && c.velocity == Swipe.DefaultVelocity
    ensures var t := Settings.GetSetting(l, "gestures.swipeThreshold");
            c.threshold == if t.Num? && t.n != 0 then t.n else Swipe.DefaultThreshold
  {
    Swipe.Configure(Number(Settings.GetSetting(l, "gestures.swipeThreshold")), None, SwipeGestures)
  }

  /** With no settings installed, as before a load or after a failed one, the
      recognisers run on their own defaults: a 500 ms long press, a 10 pixel drag
      threshold and a 50 pixel swipe. */
  lemma UnloadedSettingsGiveBuiltIns(l: Settings.Loader)
    requires l.settings.Null?
    ensures TrackerConfig(l).longPressDelay == 500 && TrackerConfig(l).dragThreshold == 10
    ensures SwipeConfig(l).threshold == 50
  {
  }

  /** The settings file's defaults agree with the recognisers' built-ins:
      installed, they configure the tracker and the swipe handler exactly as no
      settings at all do. */
  lemma DefaultsFileGivesBuiltIns(l: Settings.Loader)
    requires l.settings == Settings.Defaults
    ensures TrackerConfig(l) == TrackerConfig(l.(settings := Json.Null))
    ensures SwipeConfig(l) == SwipeConfig(l.(settings := Json.Null))
  {
    Settings.DefaultGestureSettings(l);
  }

  /** As written, with the tracker's long press not cleared: hold, move beyond
      the drag threshold and release opens the menu and leaves it open, and
      nothing is created. */
  lemma AsWrittenHoldCreatesNothing(a: App, env: Env, delay: int, threshold: int, at: Point, to: Point)
    requires Inv(a) && Factory.ValidWorld(env.world) && a.nav.viewLevel == "day"
    requires threshold > 0 && Tracker.Beyond(threshold, at, to)
    ensures var c := Tracker.Config(delay, threshold, Tracker.MenuCallbacks);
            var s1 := Tracker.Step(c, Tracker.Init(), Tracker.MouseDown(0, at)).0;
            var r2 := Tracker.Step(c, s1, Tracker.Timeout(1));
            var r3 := Tracker.Step(c, r2.0, Tracker.MouseMove(to));
            var r4 := Tracker.Step(c, r3.0, Tracker.MouseUp);
            var b := OnTrackerAll(a, r2.1 + r3.1 + r4.1, env);
            b.menu.active && b.content == a.content && b.db == a.db
  {
    Tracker.HoldMoveReleaseLosesMenu(delay, threshold, at, to);
    var c := Tracker.Config(delay, threshold, Tracker.MenuCallbacks);
    var s1 := Tracker.Step(c, Tracker.Init(), Tracker.MouseDown(0, at)).0;
    var r2 := Tracker.Step(c, s1, Tracker.Timeout(1));
    var r3 := Tracker.Step(c, r2.0, Tracker.MouseMove(to));
    var r4 := Tracker.Step(c, r3.0, Tracker.MouseUp);
    assert r2.1 + r3.1 + r4.1 == [Tracker.Effect(Tracker.OnLongPressStart, at)];
  }

  /** A registered action other than email (and photo without a file) appends
      exactly one item of its kind when the store accepts it. */
  lemma ActionSelectAppends(a: App, kind: string, env: Env)
    requires Inv(a) && Factory.ValidWorld(env.world) && env.reg == Factory.Defaults && env.io.Done?
    requires kind in Factory.Defaults && kind != "email" && (kind == "photo" ==> env.world.photo.Some?)
    ensures var r := HandleActionSelect(a, kind, env);
            |r.content| == |a.content| + 1 && r.content[..|a.content|] == a.content &&
            r.content[|a.content|].kind == kind
  {
    Factory.DefaultKinds(kind, env.centre.x, env.centre.y, Nav.GetDateKey(a.nav), env.world);
  }

  /** The three long-press callbacks in order reach the app as start, move, end. */
  lemma PressMoveRelease(a: App, env: Env, at: Point, to: Point)
    requires Inv(a) && Factory.ValidWorld(env.world)
    ensures var es := [Tracker.Effect(Tracker.OnLongPressStart, at), Tracker.Effect(Tracker.OnLongPressMove, to),
                       Tracker.Effect(Tracker.OnLongPressEnd, to)];
            OnTrackerAll(a, es, env) == LongPressEnd(LongPressMove(LongPressStart(a, at), to), env)
  {
    var es := [Tracker.Effect(Tracker.OnLongPressStart, at), Tracker.Effect(Tracker.OnLongPressMove, to),
               Tracker.Effect(Tracker.OnLongPressEnd, to)];
    var a1 := LongPressStart(a, at);
    var a2 := LongPressMove(a1, to);
    assert OnTrackerAll(a, es, env) == OnTrackerAll(a1, es[1..], env);
    assert es[1..][0] == es[1] && es[1..][1..] == es[2..];
    assert OnTrackerAll(a1, es[1..], env) == OnTrackerAll(a2, es[2..], env);
    assert es[2..][0] == es[2] && es[2..][1..] == [];
    assert OnTrackerAll(a2, es[2..], env) == OnTrackerAll(LongPressEnd(a2, env), [], env);
  }

  /** A long press at `at`, a move to `to` and a release, as the app receives
      them, create the item of the action the distance selects. */
  lemma MenuGestureCreates(a: App, env: Env, at: Point, to: Point)
    requires Inv(a) && Factory.ValidWorld(env.world) && a.nav.viewLevel == "day"
    requires a.menu.hasCallback && env.reg == Factory.Defaults && env.io.Done?
    requires var k := Menu.SelectionIndex(Menu.SqDist(at, to), a.menu.step);
             k < |Menu.Actions| && Menu.Actions[k] != "email" && (Menu.Actions[k] == "photo" ==> env.world.photo.Some?)
    ensures var es := [Tracker.Effect(Tracker.OnLongPressStart, at), Tracker.Effect(Tracker.OnLongPressMove, to),
                       Tracker.Effect(Tracker.OnLongPressEnd, to)];
            var b := OnTrackerAll(a, es, env);
            var k := Menu.SelectionIndex(Menu.SqDist(at, to), a.menu.step);
            !b.menu.active && |b.content| == |a.content| + 1 &&
            b.content[..|a.content|] == a.content && b.content[|a.content|].kind == Menu.Actions[k]
  {
    PressMoveRelease(a, env, at, to);
    var a2 := LongPressMove(LongPressStart(a, at), to);
    var k := Menu.SelectionIndex(Menu.SqDist(at, to), a.menu.step);
    assert a2.menu.selected == Some(k) && a2.menu.active && a2.content == a.content;
    Factory.DefaultsMatchMenu();
    ActionSelectAppends(a2.(menu := Menu.Hide(a2.menu)), Menu.Actions[k], env);
  }

  /** With the corrected tracker the same gesture creates the item whose action
      the distance selects, appended to `currentContent`, and closes the menu. */
  lemma CorrectedHoldCreates(a: App, env: Env, delay: int, threshold: int, at: Point, to: Point)
    requires Inv(a) && Factory.ValidWorld(env.world) && a.nav.viewLevel == "day"
    requires a.menu.hasCallback && env.reg == Factory.Defaults && env.io.Done?
    requires threshold > 0 && Tracker.Beyond(threshold, at, to)
    requires var k := Menu.SelectionIndex(Menu.SqDist(at, to), a.menu.step);
             k < |Menu.Actions| && Menu.Actions[k] != "email" && (Menu.Actions[k] == "photo" ==> env.world.photo.Some?)
    ensures var c := Tracker.Config(delay, threshold, Tracker.MenuCallbacks);
            var s1 := Tracker.StepCorrected(c, Tracker.Init(), Tracker.MouseDown(0, at)).0;
            var r2 := Tracker.StepCorrected(c, s1, Tracker.Timeout(1));
            var r3 := Tracker.StepCorrected(c, r2.0, Tracker.MouseMove(to));
            var r4 := Tracker.StepCorrected(c, r3.0, Tracker.MouseUp);
            var b := OnTrackerAll(a, r2.1 + r3.1 + r4.1, env);
            var k := Menu.SelectionIndex(Menu.SqDist(at, to), a.menu.step);
            !b.menu.active && |b.content| == |a.content| + 1 &&
            b.content[..|a.content|] == a.content && b.content[|a.content|].kind == Menu.Actions[k]
  {
    Tracker.CorrectedHoldMoveRelease(delay, threshold, at, to);
    MenuGestureCreates(a, env, at, to);
  }

  /** `handleItemDelete(item)`: every entry with that id leaves `currentContent`,
      and the others stay in order. */
  function HandleItemDelete(a: App, item: Items.Item): (r: App)
    ensures r == a.(content := Items.Remove(a.content, item.id))
    ensures !Items.HasId(r.content, item.id)
    ensures forall x | x in a.content && x.id != item.id :: x in r.content
  {
    a.(content := Items.Remove(a.content, item.id))
  }

  /** Deleting from joined lists is deleting from each, so relative order is kept;
      content without the id is untouched. */
  lemma ItemDeleteKeepsOrder(a: App, item: Items.Item, xs: seq<Items.Item>, ys: seq<Items.Item>)
    requires a.content == xs + ys
    ensures HandleItemDelete(a, item).content == Items.Remove(xs, item.id) + Items.Remove(ys, item.id)
    ensures !Items.HasId(a.content, item.id) ==> HandleItemDelete(a, item).content == a.content
  {
    Items.RemoveAppend(xs, ys, item.id);
    if !Items.HasId(a.content, item.id) {
      Items.RemoveAbsent(a.content, item.id);
    }
  }
}

=== FILE: json.dfy ===
/** JavaScript values as the journal stores and merges them: JSON-shaped data plus
    `undefined`. Objects keep their properties in insertion order. JavaScript does
    the same for names that are not integer-like, but lists integer-like names
    (such as "2") first, in ascending order; the model does not. Numbers are
    integers. */
module Json {
  import opened Wrappers
  import Text

  datatype Value =
    | Undefined
    | Null
    | Bool(b: bool)
    | Num(n: int)
    | Str(s: string)
    | Arr(items: seq<Value>)
    | Obj(fields: seq<Field>)

  datatype Field = Field(key: string, value: Value)

  /** No property name occurs twice, as in every JavaScript object. */
  predicate DistinctKeys(fs: seq<Field>) {
    forall i, j :: 0 <= i < j < |fs| ==> fs[i].key != fs[j].key
  }

  predicate HasKey(fs: seq<Field>, k: string) {
    exists i :: 0 <= i < |fs| && fs[i].key == k
  }

  /** `obj[k]` on an object's own properties: `None` plays `undefined`. */
  function Lookup(fs: seq<Field>, k: string): (r: Option<Value>)
    ensures r.Some? <==> HasKey(fs, k)
    ensures r.Some? ==> exists i :: 0 <= i < |fs| && fs[i] == Field(k, r.value)
    decreases |fs|
  {
    if |fs| == 0 then None
    else if fs[0].key == k then Some(fs[0].value)
    else
      var r := Lookup(fs[1..], k);
      assert forall i :: 0 <= i < |fs| - 1 ==> fs[1..][i] == fs[i + 1];
      assert HasKey(fs, k) ==> HasKey(fs[1..], k) by {
        if HasKey(fs, k) {
          var i :| 0 <= i < |fs| && fs[i].key == k;
          assert fs[1..][i - 1].key == k;
        }
      }
      r
  }

  /** `obj[k] = v`: an existing property keeps its place, a new one goes last. */
  function Put(fs: seq<Field>, k: string, v: Value): (r: seq<Field>)
    ensures !HasKey(fs, k) ==> r == fs + [Field(k, v)]
    ensures HasKey(fs, k) ==> |r| == |fs|
    decreases |fs|
  {
    if |fs| == 0 then [Field(k, v)]
    else if fs[0].key == k then [Field(k, v)] + fs[1..]
    else
      assert HasKey(fs, k) ==> HasKey(fs[1..], k) by {
        if HasKey(fs, k) {
          var i :| 0 <= i < |fs| && fs[i].key == k;
          assert fs[1..][i - 1].key == k;
        }
      }
      assert !HasKey(fs, k) ==> fs == [fs[0]] + fs[1..];
      [fs[0]] + Put(fs[1..], k, v)
  }

  /** After `obj[k] = v`, reading `k` gives `v` and every other property reads as
      before. */
  lemma {:induction false} PutLookup(fs: seq<Field>, k: string, v: Value, k': string)
    ensures Lookup(Put(fs, k, v), k') == if k' == k then Some(v) else Lookup(fs, k')
    decreases |fs|
  {
    if |fs| > 0 && fs[0].key != k {
      PutLookup(fs[1..], k, v, k');
      assert Put(fs, k, v)[1..] == Put(fs[1..], k, v);
    }
  }

  /** Assignment keeps property names distinct. */
  lemma {:induction false} PutDistinct(fs: seq<Field>, k: string, v: Value)
    requires DistinctKeys(fs)
    ensures DistinctKeys(Put(fs, k, v))
    decreases |fs|
  {
    if |fs| == 0 {
    } else if fs[0].key == k {
      var r := Put(fs, k, v);
      assert r == [Field(k, v)] + fs[1..];
      forall i, j | 0 <= i < j < |r|
        ensures r[i].key != r[j].key
      {
        assert r[i].key == fs[i].key && r[j].key == fs[j].key;
      }
    } else {
      PutDistinct(fs[1..], k, v);
      TailLacksHead(fs);
      PutLookup(fs[1..], k, v, fs[0].key);
      assert Put(fs, k, v) == [fs[0]] + Put(fs[1..], k, v);
      ConsDistinctKeys(fs[0], Put(fs[1..], k, v));
    }
  }

  lemma TailLacksHead(fs: seq<Field>)
    requires DistinctKeys(fs) && |fs| > 0
    ensures DistinctKeys(fs[1..]) && !HasKey(fs[1..], fs[0].key)
  {
    assert forall i | 0 <= i < |fs| - 1 :: fs[1..][i] == fs[i + 1];
  }

  lemma ConsDistinctKeys(f: Field, t: seq<Field>)
    requires DistinctKeys(t) && !HasKey(t, f.key)
    ensures DistinctKeys([f] + t)
  {
    var r := [f] + t;
    forall i, j | 0 <= i < j < |r|
      ensures r[i].key != r[j].key
    {
      assert r[j] == t[j - 1];
      if i > 0 {
        assert r[i] == t[i - 1];
      }
    }
  }

  /** `value[k]` for any value: properties exist only on objects. */
  function Get(v: Value, k: string): (r: Value)
    ensures !v.Obj? ==> r == Undefined
    ensures v.Obj? && Lookup(v.fields, k).Some? ==> r == Lookup(v.fields, k).value
    ensures v.Obj? && Lookup(v.fields, k).None? ==> r == Undefined
  {
    if v.Obj? then Lookup(v.fields, k).GetOr(Undefined) else Undefined
  }

  /** JavaScript truthiness for the values the journal tests with `!x`. */
  predicate Truthy(v: Value) {
    match v
    case Undefined => false
    case Null => false
    case Bool(b) => b
    case Num(n) => n != 0
    case Str(s) => s != ""
    case Arr(_) => true
    case Obj(_) => true
  }

  function HexDigit(d: int): (c: char)
    requires 0 <= d < 16
  {
    if d < 10 then Text.DigitChar(d) else ('a' as int + d - 10) as char
  }

  /** One character of a string literal as `JSON.stringify` writes it: quote and
      backslash escaped, control characters in their short or `\u00xx` form. */
  function EscapeChar(c: char): (r: string)
    ensures |r| >= 1
    ensures r[0] != '"'
    ensures Plain(c) ==> r == [c]
  {
    if c == '"' then ['\\', '"']
    else if c == '\\' then ['\\', '\\']
    else if c as int == 8 then ['\\', 'b']
    else if c == '\t' then ['\\', 't']
    else if c == '\n' then ['\\', 'n']
    else if c as int == 12 then ['\\', 'f']
    else if c == '\r' then ['\\', 'r']
    else if c as int < 0x20 then ['\\', 'u', '0', '0', HexDigit(c as int / 16), HexDigit(c as int % 16)]
    else [c]
  }

  /** A character a string literal holds as it is. */
  predicate Plain(c: char) {
    c != '"' && c != '\\' && c as int >= 0x20
  }

  function Escape(s: string): (r: string)
    ensures (forall i | 0 <= i < |s| :: Plain(s[i])) ==> r == s
    decreases |s|
  {
    if |s| == 0 then "" else EscapeChar(s[0]) + Escape(s[1..])
  }

  function Quote(s: string): (r: string)
    ensures |r| >= 2 && r[0] == '"' && r[|r| - 1] == '"'
  {
    "\"" + Escape(s) + "\""
  }

  function Commas(parts: seq<string>): string
    decreases |parts|
  {
    if |parts| == 0 then ""
    else if |parts| == 1 then parts[0]
    else parts[0] + "," + Commas(parts[1..])
  }

  /** `String(v)`, the text a template literal shows for a value: an array joins
      its elements with commas, a `null` or `undefined` element showing as
      nothing, and every object shows as "[object Object]". */
  function Show(v: Value): string
    decreases v
  {
    match v
    case Undefined => "undefined"
    case Null => "null"
    case Bool(b) => if b then "true" else "false"
    case Num(n) => Text.IntToString(n)
    case Str(s) => s
    case Arr(items) =>
      Commas(seq(|items|, i requires 0 <= i < |items| =>
                   if items[i].Undefined? || items[i].Null? then "" else Show(items[i])))
    case Obj(_) => "[object Object]"
  }

  /** The properties `JSON.stringify` writes: those whose value is not `undefined`. */
  function Defined(fs: seq<Field>): (r: seq<Field>)
    ensures forall f :: f in r <==> f in fs && !f.value.Undefined?
    decreases |fs|
  {
    if |fs| == 0 then []
    else if fs[0].value.Undefined? then Defined(fs[1..])
    else [fs[0]] + Defined(fs[1..])
  }

  /** The JSON text of a nested value: an `undefined` array element becomes `null`
      and an `undefined` property is dropped, as `JSON.stringify` does. */
  function Encode(v: Value): string
    decreases v
  {
    match v
    case Undefined => "null"
    case Null => "null"
    case Bool(b) => if b then "true" else "false"
    case Num(n) => Text.IntToString(n)
    case Str(s) => Quote(s)
    case Arr(items) => "[" + Commas(seq(|items|, i requires 0 <= i < |items| => Encode(items[i]))) + "]"
    case Obj(fs) =>
      var kept := Defined(fs);
      "{" + Commas(seq(|kept|, i requires 0 <= i < |kept| =>
                         assert kept[i] in fs;
                         Quote(kept[i].key) + ":" + Encode(kept[i].value))) + "}"
  }

  /** `JSON.stringify(v)`: no text at all for `undefined` itself. */
  function Stringify(v: Value): (r: Option<string>)
    ensures r.None? <==> v.Undefined?
  {
    if v.Undefined? then None else Some(Encode(v))
  }
}

=== FILE: key_store.dfy ===
/** An IndexedDB object store with an in-line string key: its records kept in
    ascending key order, which is the order `getAll` and index lookups with one
    key value return them in. Keys compare code point by code point. */
module KeyStore {
  import opened Wrappers

  datatype Rec<T> = Rec(key: string, val: T)

  /** Lexicographic order on strings: a proper prefix comes first. */
  predicate Less(a: string, b: string)
    decreases |a|
  {
    if |b| == 0 then false
    else if |a| == 0 then true
    else if a[0] != b[0] then a[0] < b[0]
    else Less(a[1..], b[1..])
  }

  lemma {:induction false} LessIrreflexive(a: string)
    ensures !Less(a, a)
    decreases |a|
  {
    if |a| > 0 {
      LessIrreflexive(a[1..]);
    }
  }

  lemma {:induction false} LessTransitive(a: string, b: string, c: string)
    requires Less(a, b) && Less(b, c)
    ensures Less(a, c)
    decreases |a|
  {
    if |a| > 0 && a[0] == b[0] && b[0] == c[0] {
      LessTransitive(a[1..], b[1..], c[1..]);
    }
  }

  lemma {:induction false} LessTotal(a: string, b: string)
    ensures a == b || Less(a, b) || Less(b, a)
    decreases |a|
  {
    if |a| > 0 && |b| > 0 && a[0] == b[0] {
      LessTotal(a[1..], b[1..]);
      if a[1..] == b[1..] {
        assert a == [a[0]] + a[1..] && b == [b[0]] + b[1..];
      }
    }
  }

  /** Keys strictly ascending, hence distinct. */
  predicate Sorted<T>(s: seq<Rec<T>>) {
    forall i, j :: 0 <= i < j < |s| ==> Less(s[i].key, s[j].key)
  }

  predicate HasKey<T>(s: seq<Rec<T>>, k: string) {
    exists i :: 0 <= i < |s| && s[i].key == k
  }

  /** `store.get(k)`: `None` plays `undefined`. */
  function Get<T>(s: seq<Rec<T>>, k: string): (r: Option<T>)
    ensures r.Some? <==> HasKey(s, k)
    ensures r.Some? ==> Rec(k, r.value) in s
    decreases |s|
  {
    if |s| == 0 then None
    else if s[0].key == k then Some(s[0].val)
    else
      assert HasKey(s, k) ==> HasKey(s[1..], k) by {
        if HasKey(s, k) {
          var i :| 0 <= i < |s| && s[i].key == k;
          assert s[1..][i - 1].key == k;
        }
      }
      Get(s[1..], k)
  }

  /** In a sorted store a key files one record, so looking up any record's key
      finds that record. */
  lemma {:induction false} GetFinds<T>(s: seq<Rec<T>>, x: Rec<T>)
    requires Sorted(s) && x in s
    ensures Get(s, x.key) == Some(x.val)
    decreases |s|
  {
    if s[0] != x {
      SortedTail(s);
      assert x in s[1..];
      LessIrreflexive(x.key);
      GetFinds(s[1..], x);
    }
  }

  /** `store.put(record)`: a record with the same key is replaced in place, a new
      one goes where its key sorts. */
  function Put<T>(s: seq<Rec<T>>, k: string, v: T): (r: seq<Rec<T>>)
    ensures Rec(k, v) in r
    ensures forall x | x in r :: x in s || x == Rec(k, v)
    decreases |s|
  {
    if |s| == 0 then [Rec(k, v)]
    else if s[0].key == k then [Rec(k, v)] + s[1..]
    else if Less(k, s[0].key) then [Rec(k, v)] + s
    else [s[0]] + Put(s[1..], k, v)
  }

  /** After a put, the key reads the new value and every other key reads as
      before. */
  lemma {:induction false} PutGet<T>(s: seq<Rec<T>>, k: string, v: T, k': string)
    ensures Get(Put(s, k, v), k') == if k' == k then Some(v) else Get(s, k')
    decreases |s|
  {
    if |s| > 0 && s[0].key != k && !Less(k, s[0].key) {
      PutGet(s[1..], k, v, k');
      assert Put(s, k, v)[1..] == Put(s[1..], k, v);
    }
  }

  lemma SortedTail<T>(s: seq<Rec<T>>)
    requires Sorted(s) && |s| > 0
    ensures Sorted(s[1..])
    ensures forall x :: x in s[1..] ==> Less(s[0].key, x.key)
  {
    forall x | x in s[1..]
      ensures Less(s[0].key, x.key)
    {
      var j :| 0 <= j < |s[1..]| && s[1..][j] == x;
      assert s[j + 1] == x;
    }
  }

  lemma SortedCons<T>(x: Rec<T>, s: seq<Rec<T>>)
    requires Sorted(s)
    requires forall y :: y in s ==> Less(x.key, y.key)
    ensures Sorted([x] + s)
  {
    var r := [x] + s;
    forall i, j | 0 <= i < j < |r|
      ensures Less(r[i].key, r[j].key)
    {
      assert r[j] == s[j - 1];
      if i > 0 {
        assert r[i] == s[i - 1];
      }
    }
  }

  /** A put keeps the keys ascending. */
  lemma {:induction false} PutSorted<T>(s: seq<Rec<T>>, k: string, v: T)
    requires Sorted(s)
    ensures Sorted(Put(s, k, v))
    decreases |s|
  {
    if |s| > 0 {
      SortedTail(s);
      if s[0].key == k {
        forall y | y in s[1..]
          ensures Less(k, y.key)
        {
        }
        SortedCons(Rec(k, v), s[1..]);
      } else if Less(k, s[0].key) {
        forall y | y in s
          ensures Less(k, y.key)
        {
          if y != s[0] {
            LessTransitive(k, s[0].key, y.key);
          }
        }
        SortedCons(Rec(k, v), s);
      } else {
        PutSorted(s[1..], k, v);
        LessTotal(k, s[0].key);
        SortedCons(s[0], Put(s[1..], k, v));
      }
    }
  }

  /** A new key grows the store by one record, an existing key keeps its size. */
  lemma {:induction false} PutSize<T>(s: seq<Rec<T>>, k: string, v: T)
    requires Sorted(s)
    ensures |Put(s, k, v)| == if HasKey(s, k) then |s| else |s| + 1
    decreases |s|
  {
    if |s| > 0 {
      SortedTail(s);
      if s[0].key == k {
      } else if Less(k, s[0].key) {
        if HasKey(s, k) {
          var i :| 0 <= i < |s| && s[i].key == k;
          assert s[i] in s[1..];
          LessTransitive(k, s[0].key, k);
          LessIrreflexive(k);
        }
      } else {
        PutSize(s[1..], k, v);
        assert HasKey(s, k) <==> HasKey(s[1..], k) by {
          if HasKey(s, k) {
            var i :| 0 <= i < |s| && s[i].key == k;
            assert s[1..][i - 1].key == k;
          }
          if HasKey(s[1..], k) {
            var i :| 0 <= i < |s[1..]| && s[1..][i].key == k;
            assert s[i + 1].key == k;
          }
        }
      }
    }
  }

  /** Putting the same key twice leaves the second value, as one put would. */
  lemma {:induction false} PutPut<T>(s: seq<Rec<T>>, k: string, v1: T, v2: T)
    ensures Put(Put(s, k, v1), k, v2) == Put(s, k, v2)
    decreases |s|
  {
    if |s| > 0 && s[0].key != k && !Less(k, s[0].key) {
      PutPut(s[1..], k, v1, v2);
    }
  }

  /** `store.delete(k)`. */
  function Delete<T>(s: seq<Rec<T>>, k: string): (r: seq<Rec<T>>)
    ensures forall x | x in r :: x in s && x.key != k
    ensures forall x | x in s && x.key != k :: x in r
    ensures |r| <= |s|
    decreases |s|
  {
    if |s| == 0 then []
    else if s[0].key == k then Delete(s[1..], k)
    else [s[0]] + Delete(s[1..], k)
  }

  /** After a delete, the key reads `undefined` and every other key reads as
      before. */
  lemma {:induction false} DeleteGet<T>(s: seq<Rec<T>>, k: string, k': string)
    ensures Get(Delete(s, k), k') == if k' == k then None else Get(s, k')
    decreases |s|
  {
    if |s| > 0 {
      DeleteGet(s[1..], k, k');
      if s[0].key != k {
        assert Delete(s, k)[1..] == Delete(s[1..], k);
      }
    }
  }

  lemma {:induction false} DeleteSorted<T>(s: seq<Rec<T>>, k: string)
    requires Sorted(s)
    ensures Sorted(Delete(s, k))
    decreases |s|
  {
    if |s| > 0 {
      SortedTail(s);
      DeleteSorted(s[1..], k);
      if s[0].key != k {
        SortedCons(s[0], Delete(s[1..], k));
      }
    }
  }

  lemma {:induction false} DeleteAbsent<T>(s: seq<Rec<T>>, k: string)
    requires !HasKey(s, k)
    ensures Delete(s, k) == s
    decreases |s|
  {
    if |s| > 0 {
      assert s[0].key != k;
      assert forall i :: 0 <= i < |s[1..]| ==> s[1..][i] == s[i + 1];
      DeleteAbsent(s[1..], k);
      assert s == [s[0]] + s[1..];
    }
  }

  /** Deleting a key that was just put for the first time restores the store. */
  lemma {:induction false} DeletePutFresh<T>(s: seq<Rec<T>>, k: string, v: T)
    requires !HasKey(s, k)
    ensures Delete(Put(s, k, v), k) == s
    decreases |s|
  {
    if |s| == 0 {
    } else {
      assert s[0].key != k;
      assert forall i :: 0 <= i < |s[1..]| ==> s[1..][i] == s[i + 1];
      if Less(k, s[0].key) {
        DeleteAbsent(s, k);
      } else {
        DeletePutFresh(s[1..], k, v);
        assert s == [s[0]] + s[1..];
      }
    }
  }

  /** Records put one after another, as an import does. */
  function PutAll<T>(s: seq<Rec<T>>, rs: seq<Rec<T>>): (r: seq<Rec<T>>)
    decreases |rs|
  {
    if |rs| == 0 then s else PutAll(Put(s, rs[0].key, rs[0].val), rs[1..])
  }

  /** A key above every stored key is appended. */
  lemma {:induction false} PutAbove<T>(s: seq<Rec<T>>, k: string, v: T)
    requires forall x :: x in s ==> Less(x.key, k)
    ensures Put(s, k, v) == s + [Rec(k, v)]
    decreases |s|
  {
    if |s| > 0 {
      assert s[0] in s;
      LessIrreflexive(k);
      if Less(k, s[0].key) {
        LessTransitive(k, s[0].key, k);
      }
      PutAbove(s[1..], k, v);
      assert s == [s[0]] + s[1..];
    }
  }

  /** Putting the records of a sorted store, in order, after a sorted prefix
      below them rebuilds the whole store. */
  lemma {:induction false} PutAllSorted<T>(a: seq<Rec<T>>, b: seq<Rec<T>>)
    requires Sorted(a + b)
    ensures PutAll(a, b) == a + b
    decreases |b|
  {
    if |b| > 0 {
      var ab := a + b;
      forall x | x in a
        ensures Less(x.key, b[0].key)
      {
        var i :| 0 <= i < |a| && a[i] == x;
        assert ab[i] == x && ab[|a|] == b[0];
      }
      PutAbove(a, b[0].key, b[0].val);
      assert a + [Rec(b[0].key, b[0].val)] + b[1..] == a + b;
      PutAllSorted(a + [b[0]], b[1..]);
    }
  }

  /** `store.getAll()`: the values in key order. */
  function Values<T>(s: seq<Rec<T>>): (r: seq<T>)
    ensures |r| == |s| && forall i | 0 <= i < |s| :: r[i] == s[i].val
  {
    seq(|s|, i requires 0 <= i < |s| => s[i].val)
  }
}

=== FILE: media_handler.dfy ===
/** The newer journal's media capture (`MediaHandler`): a picked image becomes a
    JSON payload holding a thumbnail and the original; a recording starts only
    after the browser checks pass, and a failure to reach the microphone is
    reported with a message chosen by the error's name. The browser's answers
    (feature presence, permission state, the outcome of `getUserMedia`) are
    inputs; the encoders and the recorder's own events are not modelled. */
module MediaHandler {
  import opened Wrappers
  import Json
  import Text
  import ExportHandler

  const ErrorPrefix: string := "Could not access microphone. "
  const NoRecordingSupport: string := "Your browser doesn't support audio recording. Please use a modern browser."
  const AccessDenied: string := "Microphone access denied. Please enable microphone permissions in your browser settings and reload the page."

  const AllowAdvice: string := "Please allow microphone access when prompted. If you previously denied access, go to your browser settings to enable it."
  const NoDeviceAdvice: string := "No microphone found. Please connect a microphone and try again."
  const InUseAdvice: string := "Microphone is already in use by another application."
  const ConstraintAdvice: string := "Could not configure microphone with the requested settings."
  const UnsupportedAdvice: string := "Audio recording is not supported in this browser or context. Note: microphone access requires HTTPS or localhost."
  const GenericAdvice: string := "Please check your browser settings."

  /** The classes of `getUserMedia` failure the handler tells apart. */
  datatype Cause = NotAllowed | NotFound | NotReadable | Overconstrained | NotSupported | OtherCause

  /** Two error names per class, the standard one and its older alias. */
  function Classify(name: string): (c: Cause)
    ensures c == NotAllowed <==> name in {"NotAllowedError", "PermissionDeniedError"}
    ensures c == NotFound <==> name in {"NotFoundError", "DevicesNotFoundError"}
    ensures c == NotReadable <==> name in {"NotReadableError", "TrackStartError"}
    ensures c == Overconstrained <==> name in {"OverconstrainedError", "ConstraintNotSatisfiedError"}
    ensures c == NotSupported <==> name == "NotSupportedError"
  {
    if name == "NotAllowedError" || name == "PermissionDeniedError" then NotAllowed
    else if name == "NotFoundError" || name == "DevicesNotFoundError" then NotFound
    else if name == "NotReadableError" || name == "TrackStartError" then NotReadable
    else if name == "OverconstrainedError" || name == "ConstraintNotSatisfiedError" then Overconstrained
    else if name == "NotSupportedError" then NotSupported
    else OtherCause
  }

  function Advice(c: Cause, message: string): string {
    match c
    case NotAllowed => AllowAdvice
    case NotFound => NoDeviceAdvice
    case NotReadable => InUseAdvice
    case Overconstrained => ConstraintAdvice
    case NotSupported => UnsupportedAdvice
    case OtherCause => if message != "" then message else GenericAdvice
  }

  /** The message reported when `getUserMedia` throws, from the error's `name`
      and `message`. */
  function ErrorMessage(name: string, message: string): (r: string)
    ensures Text.StartsWith(r, ErrorPrefix)
    ensures Classify(name) == OtherCause ==> r[|ErrorPrefix|..] == if message != "" then message else GenericAdvice
  {
    Text.StartsWithAppend(ErrorPrefix, Advice(Classify(name), message));
    ErrorPrefix + Advice(Classify(name), message)
  }

  /** A recognised error's message names its class alone: two recognised
      errors read the same exactly when they are of one class, whatever their
      own messages say. */
  lemma MessageNamesClass(n1: string, m1: string, n2: string, m2: string)
    requires Classify(n1) != OtherCause && Classify(n2) != OtherCause
    ensures ErrorMessage(n1, m1) == ErrorMessage(n2, m2) <==> Classify(n1) == Classify(n2)
  {
    var a1, a2 := Advice(Classify(n1), m1), Advice(Classify(n2), m2);
    if Classify(n1) != Classify(n2) {
      AdviceDistinct(Classify(n1), Classify(n2));
      assert a1 == ErrorMessage(n1, m1)[|ErrorPrefix|..];
      assert a2 == ErrorMessage(n2, m2)[|ErrorPrefix|..];
    }
  }

  lemma AdviceDistinct(c1: Cause, c2: Cause)
    requires c1 != OtherCause && c2 != OtherCause && c1 != c2
    ensures Advice(c1, "") != Advice(c2, "")
  {
    assert |AllowAdvice| == 120 && |NoDeviceAdvice| == 63 && |InUseAdvice| == 52;
    assert |ConstraintAdvice| == 59 && |UnsupportedAdvice| == 113;
    assert |Advice(c1, "")| != |Advice(c2, "")|;
  }

  /** Where `navigator.permissions.query` stands. */
  datatype Permission = NoPermissionsApi | QueryThrows | PermissionState(state: string)

  /** What `getUserMedia` does when asked. */
  datatype Access = Granted | Refused(name: string, message: string)

  datatype Browser = Browser(hasGetUserMedia: bool, permission: Permission, access: Access)

  datatype RecorderState = Inactive | Recording | Paused

  /** `mediaRecorder`, absent until the first recording starts. */
  datatype Handler = Handler(recorder: Option<RecorderState>)

  datatype StartOutcome = Started | Failed(message: string)

  /** `startRecording(button, onComplete, onError)`: without `getUserMedia`, or
      with the permission known to be denied, it reports and stops at once;
      otherwise it asks for the microphone and starts a recorder or reports the
      refusal. A permission query that throws is passed over. */
  function StartRecording(h: Handler, b: Browser): (r: (Handler, StartOutcome))
    ensures r.1.Started? <==> b.hasGetUserMedia && b.permission != PermissionState("denied") && b.access.Granted?
    ensures r.1.Started? ==> IsRecording(r.0)
    ensures r.1.Failed? ==> r.0 == h
    ensures !b.hasGetUserMedia ==> r.1 == Failed(NoRecordingSupport)
    ensures b.hasGetUserMedia && b.permission == PermissionState("denied") ==> r.1 == Failed(AccessDenied)
  {
    if !b.hasGetUserMedia then (h, Failed(NoRecordingSupport))
    else if b.permission == PermissionState("denied") then (h, Failed(AccessDenied))
    else
      match b.access
      case Refused(name, message) => (h, Failed(ErrorMessage(name, message)))
      case Granted => (Handler(Some(Recording)), Started)
  }

  /** `isRecording()`. */
  predicate IsRecording(h: Handler) {
    h.recorder == Some(Recording)
  }

  /** `stopRecording(button)`: stops a running recorder; otherwise nothing. */
  function StopRecording(h: Handler): (r: (Handler, bool))
    ensures r.1 <==> IsRecording(h)
    ensures !IsRecording(r.0)
    ensures !r.1 ==> r.0 == h
  {
    if IsRecording(h) then (Handler(Some(Inactive)), true) else (h, false)
  }

  /** Start then stop: exactly one stop takes effect, and a second is a no-op. */
  lemma StartThenStop(h: Handler, b: Browser)
    requires StartRecording(h, b).1.Started?
    ensures var s := StopRecording(StartRecording(h, b).0);
            s.1 && !IsRecording(s.0) && StopRecording(s.0) == (s.0, false)
  {
  }

  /** The stored image: `{thumbnail, original}`. */
  function Payload(original: string, thumbnail: string): (v: Json.Value)
    ensures Json.Get(v, "original") == Json.Str(original)
    ensures Json.Get(v, "thumbnail") == Json.Str(thumbnail)
  {
    var fs := [Json.Field("thumbnail", Json.Str(thumbnail)), Json.Field("original", Json.Str(original))];
    assert "thumbnail"[0] != "original"[0];
    assert Json.Lookup(fs, "original") == Json.Lookup(fs[1..], "original");
    Json.Obj(fs)
  }

  /** `processImage(file, callback)` once the file is read and the thumbnail
      drawn: the callback receives the payload's JSON text and the type "image". */
  function ProcessImage(original: string, thumbnail: string, hasCallback: bool): (r: Option<(string, string)>)
    ensures r.Some? <==> hasCallback
    ensures r.Some? ==> r.value.1 == "image" && r.value.0 == Json.Encode(Payload(original, thumbnail))
  {
    if hasCallback then Some((Json.Stringify(Payload(original, thumbnail)).value, "image")) else None
  }

  /** An image stored this way exports as its original, and as its thumbnail
      when the original is empty, given a `JSON.parse` that reads back what was
      written. */
  lemma ImageExportsOriginal(original: string, thumbnail: string, parse: Json.Value -> Option<Json.Value>)
    requires parse(Json.Str(ProcessImage(original, thumbnail, true).value.0)) == Some(Payload(original, thumbnail))
    ensures var content := Json.Str(ProcessImage(original, thumbnail, true).value.0);
            ExportHandler.PhotoSource(content, parse) == if original != "" then Json.Str(original) else Json.Str(thumbnail)
  {
  }
}

=== FILE: menu_controller.dfy ===
/** The radial action menu (`MenuController`): shown at a long-press point, it
    selects an action by how far the pointer has moved from that point, one
    action per `distancePerOption` pixels, and reports the selected action on
    confirmation. The direction of the movement plays no part in the choice. */
module MenuController {
  import opened Wrappers
  import opened Notes

  const DefaultRadius: int := 60
  const DefaultDistancePerOption: int := 30

  /** The action ids, in menu order. */
  const Actions: seq<string> := ["note", "photo", "audio", "video", "todos", "timer", "email", "thai", "ai"]

  /** `selected` is the index of `selectedAction` in `Actions`; `marked` is the
      set of option elements carrying the 'active' class. */
  datatype Menu = Menu(
    active: bool,
    start: Point,
    current: Point,
    selected: Option<nat>,
    marked: set<nat>,
    radius: int,
    step: int,
    hasCallback: bool)

  /** `options.x || default` followed by `...options`: a given option always
      wins, a missing one takes the default. */
  function Configure(radius: Option<int>, step: Option<int>, hasCallback: bool): (m: Menu)
    requires step.None? || step.value > 0
    ensures Inv(m) && !m.active && m.selected.None?
    ensures m.radius == (if radius.Some? then radius.value else DefaultRadius)
    ensures m.step == (if step.Some? then step.value else DefaultDistancePerOption)
  {
    Menu(false, Point(0, 0), Point(0, 0), None, {},
         if radius.Some? then radius.value else DefaultRadius,
         if step.Some? then step.value else DefaultDistancePerOption,
         hasCallback)
  }

  /** At most one option is marked active, and it is the selected one. */
  predicate Inv(m: Menu) {
    m.step > 0 &&
    (m.selected.Some? ==> m.selected.value < |Actions|) &&
    m.marked == (if m.selected.Some? then {m.selected.value} else {})
  }

  function Sq(x: int): int { x * x }

  lemma SquareMonotone(a: nat, b: nat)
    requires a <= b
    ensures Sq(a) <= Sq(b)
  {
    MulMonotone(a, b, a);
    MulMonotone(a, b, b);
  }

  lemma MulMonotone(a: int, b: int, c: nat)
    requires a <= b
    ensures a * c <= b * c
  {
  }

  /** The integer square root. */
  function Isqrt(n: nat): (r: nat)
    ensures Sq(r) <= n < Sq(r + 1)
    decreases n
  {
    if n < 4 then (if n == 0 then 0 else 1)
    else
      var h := Isqrt(n / 4);
      IsqrtStep(n, h);
      if Sq(2 * h + 1) <= n then 2 * h + 1 else 2 * h
  }

  lemma IsqrtStep(n: nat, h: nat)
    requires n >= 4 && Sq(h) <= n / 4 < Sq(h + 1)
    ensures Sq(2 * h) <= n < Sq(2 * h + 2)
  {
    assert Sq(2 * h) == 4 * Sq(h);
    assert Sq(2 * h + 2) == 4 * Sq(h + 1);
  }

  /** `Math.floor(distance / distancePerOption)`, with the distance the square
      root of `d2`: the k with k steps at most the distance and k + 1 steps
      beyond it. */
  function SelectionIndex(d2: nat, step: int): (k: nat)
    requires step > 0
    ensures Sq(k * step) <= d2 < Sq((k + 1) * step)
  {
    var r := Isqrt(d2);
    IndexBand(d2, r, step);
    r / step
  }

  lemma IndexBand(d2: nat, r: nat, step: int)
    requires step > 0 && Sq(r) <= d2 < Sq(r + 1)
    ensures Sq(r / step * step) <= d2 < Sq((r / step + 1) * step)
  {
    var k := r / step;
    assert r == k * step + r % step;
    MulMonotone(0, k, step);
    SquareMonotone(k * step, r);
    SquareMonotone(r + 1, (k + 1) * step);
  }

  /** The index is the only one whose band of distances holds `d2`, so it is the
      floor of distance over step. */
  lemma SelectionIndexUnique(d2: nat, step: int, j: nat)
    requires step > 0
    requires Sq(j * step) <= d2 < Sq((j + 1) * step)
    ensures SelectionIndex(d2, step) == j
  {
    var k := SelectionIndex(d2, step);
    if j < k {
      MulMonotone(j + 1, k, step);
      SquareMonotone((j + 1) * step, k * step);
    } else if k < j {
      MulMonotone(k + 1, j, step);
      SquareMonotone((k + 1) * step, j * step);
    }
  }

  function SqDist(a: Point, b: Point): (d: nat)
    ensures d == (b.x - a.x) * (b.x - a.x) + (b.y - a.y) * (b.y - a.y)
  {
    var dx := b.x - a.x;
    var dy := b.y - a.y;
    assert dx * dx >= 0 && dy * dy >= 0;
    dx * dx + dy * dy
  }

  function ClearSelection(m: Menu): (r: Menu)
    ensures r.selected.None? && r.marked == {}
    ensures r.(selected := m.selected, marked := m.marked) == m
  {
    m.(selected := None, marked := {})
  }

  /** `updateSelection(distance)`: an index past the last action clears the
      selection instead of clamping to it. */
  function UpdateSelection(m: Menu, d2: nat): (r: Menu)
    requires Inv(m)
    ensures Inv(r)
    ensures var k := SelectionIndex(d2, m.step);
            if k < |Actions| then r.selected == Some(k) && r.marked == {k} else r.selected.None? && r.marked == {}
    ensures r.(selected := m.selected, marked := m.marked) == m
  {
    var k := SelectionIndex(d2, m.step);
    if k >= |Actions| then ClearSelection(m)
    else m.(selected := Some(k), marked := set i | 0 <= i < |Actions| && Actions[i] == Actions[k])
  }

  /** `show(x, y)`: start and current are the press point; the selection is left
      as it was. */
  function Show(m: Menu, p: Point): (r: Menu)
    ensures r.active && r.start == p && r.current == p
    ensures r.(active := m.active, start := m.start, current := m.current) == m
  {
    m.(active := true, start := p, current := p)
  }

  /** `hide()`, which is also `cancel()`. */
  function Hide(m: Menu): (r: Menu)
    requires Inv(m)
    ensures Inv(r) && !r.active && r.selected.None?
    ensures r.(active := m.active, selected := m.selected, marked := m.marked) == m
  {
    ClearSelection(m.(active := false))
  }

  /** `updatePosition(x, y)`: nothing while the menu is hidden. */
  function UpdatePosition(m: Menu, p: Point): (r: Menu)
    requires Inv(m)
    ensures Inv(r)
    ensures !m.active ==> r == m
    ensures m.active ==> r == UpdateSelection(m.(current := p), SqDist(m.start, p))
  {
    if !m.active then m else UpdateSelection(m.(current := p), SqDist(m.start, p))
  }

  /** `confirmSelection()`: the selected action's id is reported when there is
      one and a callback is set; the menu is hidden either way. */
  function ConfirmSelection(m: Menu): (r: (Menu, Option<string>))
    requires Inv(m)
    ensures r.1.Some? <==> m.selected.Some? && m.hasCallback
    ensures r.1.Some? ==> r.1.value == Actions[m.selected.value]
    ensures r.0 == Hide(m)
  {
    (Hide(m), if m.selected.Some? && m.hasCallback then Some(Actions[m.selected.value]) else None)
  }

  /** Any point less than one step from the start selects the first action,
      'note'. */
  lemma CloseSelectsNote(m: Menu, p: Point)
    requires Inv(m) && m.active && SqDist(m.start, p) < Sq(m.step)
    ensures UpdatePosition(m, p).selected == Some(0) && Actions[0] == "note"
  {
    assert 0 * m.step == 0 && (0 + 1) * m.step == m.step;
    SelectionIndexUnique(SqDist(m.start, p), m.step, 0);
  }

  /** Nine steps or more from the start nothing is selected: with the default
      step, from a distance of 270 on. */
  lemma FarClears(m: Menu, p: Point)
    requires Inv(m) && m.active && SqDist(m.start, p) >= Sq(9 * m.step)
    ensures UpdatePosition(m, p).selected.None? && UpdatePosition(m, p).marked == {}
  {
    var k := SelectionIndex(SqDist(m.start, p), m.step);
    if k < 9 {
      MulMonotone(k + 1, 9, m.step);
      SquareMonotone((k + 1) * m.step, 9 * m.step);
    }
  }

  /** The selection depends on the distance alone: two points equally far from
      the start, in whatever directions, select the same action. */
  lemma DistanceAlone(m: Menu, p: Point, q: Point)
    requires Inv(m) && m.active && SqDist(m.start, p) == SqDist(m.start, q)
    ensures UpdatePosition(m, p).selected == UpdatePosition(m, q).selected
    ensures UpdatePosition(m, p).marked == UpdatePosition(m, q).marked
  {
  }

  /** A point whose distance from the centre lies in the k-th band of width
      `step` selects the k-th action, and confirming reports it. */
  lemma BandSelectsAction(m: Menu, p: Point, k: nat)
    requires Inv(m) && m.active && k < |Actions|
    requires Sq(k * m.step) <= SqDist(m.start, p) < Sq((k + 1) * m.step)
    ensures UpdatePosition(m, p).selected == Some(k)
    ensures m.hasCallback ==> ConfirmSelection(UpdatePosition(m, p)).1 == Some(Actions[k])
  {
    SelectionIndexUnique(SqDist(m.start, p), m.step, k);
  }

  /** Show, move, confirm: the action reported is the one the last move selected. */
  lemma ShowMoveConfirm(m: Menu, at: Point, to: Point)
    requires Inv(m) && m.hasCallback
    ensures var m1 := UpdatePosition(Show(m, at), to);
            var k := SelectionIndex(SqDist(at, to), m.step);
            ConfirmSelection(m1).1 == (if k < |Actions| then Some(Actions[k]) else None)
  {
  }
}

=== FILE: note_manager.dfy ===
/** The note manager of the second journal generation: the day-keyed note map,
    note creation with its hashed title, position updates, deletion, and the
    drop-on-recycle-bin decision that ends a note drag. Store writes are recorded
    as `StoreOp`s; the clock and the random id suffix are parameters. */
module NoteManager {
  import opened Wrappers
  import opened Notes
  import Json
  import Civil
  import Text
  import TitleHash

  /** A bounding client rectangle. */
  datatype Rect = Rect(left: int, top: int, right: int, bottom: int)

  datatype Manager = Manager(notes: seq<Bucket>, isDragging: bool, draggedNote: Option<Note>, dragMode: bool)

  /** The manager, a note it produced, and the store writes it issued. */
  datatype Outcome = Outcome(manager: Manager, note: Note, ops: seq<StoreOp>)

  function Init(): Manager {
    Manager([], false, None, false)
  }

  /** `getDateKey(date)`: the zero-padded `YYYY-MM-DD` key. */
  function GetDateKey(d: Civil.Date): string {
    Civil.DayKey(d)
  }

  /** `getNotesForDate(date)`: the day's bucket, or `[]`. */
  function GetNotesForDate(m: Manager, d: Civil.Date): seq<Note> {
    NotesFor(m.notes, GetDateKey(d))
  }

  /** `loadNotes()`, with `None` for a rejected `loadAllNotes`: a successful load
      replaces the whole map by the loaded notes grouped by date; a failed one
      leaves the map as it was. */
  function LoadNotes(m: Manager, loaded: Option<seq<Note>>): (r: Manager)
    ensures r.isDragging == m.isDragging && r.draggedNote == m.draggedNote && r.dragMode == m.dragMode
    ensures loaded.None? ==> r.notes == m.notes
    ensures loaded.Some? ==>
              DistinctKeys(r.notes) && forall k :: NotesFor(r.notes, k) == WithDate(loaded.value, k)
  {
    match loaded
    case None => m
    case Some(ns) =>
      GroupKeys(ns, "");
      forall k ensures NotesFor(Group(ns), k) == WithDate(ns, k) {
        GroupNotesFor(ns, k);
      }
      m.(notes := Group(ns))
  }

  /** `position?.x || fallback`: a missing position or a zero coordinate falls back. */
  function OrFallback(position: Option<Point>, fallback: Point): (p: Point)
    ensures p.x == if position.Some? && position.value.x != 0 then position.value.x else fallback.x
    ensures p.y == if position.Some? && position.value.y != 0 then position.value.y else fallback.y
  {
    Point(if position.Some? && position.value.x != 0 then position.value.x else fallback.x,
          if position.Some? && position.value.y != 0 then position.value.y else fallback.y)
  }

  /** The note `createNote` builds: the id is the day key, the creation time and a
      random suffix joined by `_`. */
  function MakeNote(key: string, content: Json.Value, kind: string, shade: int, at: Point, now: int, suffix: string): (n: Note)
    ensures n.id == (key + "_") + (Text.IntToString(now) + ("_" + suffix))
    ensures n.date == key && n.content == content && n.kind == kind && n.timestamp == now
    ensures n.title == TitleHash.GenerateTitle(content) && n.shade == Some(shade)
    ensures n.x == at.x && n.y == at.y && n.reference == None && n.read == None
  {
    Note((key + "_") + (Text.IntToString(now) + ("_" + suffix)), key, content, kind,
         TitleHash.GenerateTitle(content), Some(shade), at.x, at.y, now, None, None)
  }

  /** `createNote(currentDate, content, type, shade, position)`: exactly one note
      is appended to the bucket of the current day, which is created if missing;
      every other bucket reads as before, and the note is saved. `centre` is the
      viewport centre the coordinates fall back to. */
  function CreateNote(m: Manager, currentDate: Civil.Date, content: Json.Value, kind: string, shade: int,
                      position: Option<Point>, centre: Point, now: int, suffix: string): (r: Outcome)
    ensures var key := GetDateKey(currentDate);
            r.note == MakeNote(key, content, kind, shade, OrFallback(position, centre), now, suffix) &&
            r.ops == [SaveNote(r.note)] &&
            (forall k :: NotesFor(r.manager.notes, k) == if k == key then NotesFor(m.notes, key) + [r.note] else NotesFor(m.notes, k)) &&
            (key in Keys(m.notes) ==> Keys(r.manager.notes) == Keys(m.notes)) &&
            (key !in Keys(m.notes) ==> Keys(r.manager.notes) == Keys(m.notes) + [key])
    ensures r.manager.isDragging == m.isDragging && r.manager.draggedNote == m.draggedNote && r.manager.dragMode == m.dragMode
  {
    var key := GetDateKey(currentDate);
    var note := MakeNote(key, content, kind, shade, OrFallback(position, centre), now, suffix);
    PushNotesForAll(m.notes, key, note);
    Outcome(m.(notes := Push(m.notes, key, note)), note, [SaveNote(note)])
  }

  /** The id of a created note starts with its day key and `_`. */
  lemma CreatedIdPrefix(m: Manager, currentDate: Civil.Date, content: Json.Value, kind: string, shade: int,
                        position: Option<Point>, centre: Point, now: int, suffix: string)
    ensures var key := GetDateKey(currentDate);
            var id := CreateNote(m, currentDate, content, kind, shade, position, centre, now, suffix).note.id;
            |key| < |id| && id[..|key| + 1] == key + "_"
  {
    var key := GetDateKey(currentDate);
    var id := CreateNote(m, currentDate, content, kind, shade, position, centre, now, suffix).note.id;
    var head := key + "_";
    assert (head + (Text.IntToString(now) + ("_" + suffix)))[..|head|] == head;
  }

  /** `updateNotePosition(note, x, y)`: the note object, which is the one held in
      its date's bucket, gets the new coordinates and nothing else; it is written
      back to the store. */
  function UpdateNotePosition(m: Manager, note: Note, x: int, y: int): (r: Outcome)
    ensures r.note == note.(x := x, y := y)
    ensures r.ops == [UpdateNote(r.note)]
    ensures Keys(r.manager.notes) == Keys(m.notes)
    ensures forall k ::
              NotesFor(r.manager.notes, k) ==
              if k == note.date then UpdateFirst(NotesFor(m.notes, k), note.id, r.note) else NotesFor(m.notes, k)
    ensures r.manager.isDragging == m.isDragging && r.manager.draggedNote == m.draggedNote && r.manager.dragMode == m.dragMode
  {
    var moved := note.(x := x, y := y);
    var bs := if note.date in Keys(m.notes) then
                ModifyBucketNotesForAll(m.notes, note.date, UpdateFirst(NotesFor(m.notes, note.date), note.id, moved));
                ModifyBucket(m.notes, note.date, UpdateFirst(NotesFor(m.notes, note.date), note.id, moved))
              else m.notes;
    Outcome(m.(notes := bs), moved, [UpdateNote(moved)])
  }

  /** `deleteNote(currentDate, note)`: removes the first note with the note's id
      from the bucket of the current day (not of the note's own date); other
      buckets are untouched, an emptied bucket stays in the map, and the store
      delete is issued in every case. */
  function DeleteNote(m: Manager, currentDate: Civil.Date, note: Note): (r: (Manager, seq<StoreOp>))
    ensures r.1 == [StoreOp.DeleteNote(note.id)]
    ensures Keys(r.0.notes) == Keys(m.notes)
    ensures var key := GetDateKey(currentDate);
            forall k :: NotesFor(r.0.notes, k) == if k == key then RemoveFirst(NotesFor(m.notes, k), note.id) else NotesFor(m.notes, k)
    ensures r.0.isDragging == m.isDragging && r.0.draggedNote == m.draggedNote && r.0.dragMode == m.dragMode
  {
    var key := GetDateKey(currentDate);
    var bs := if key in Keys(m.notes) then
                ModifyBucketNotesForAll(m.notes, key, RemoveFirst(NotesFor(m.notes, key), note.id));
                ModifyBucket(m.notes, key, RemoveFirst(NotesFor(m.notes, key), note.id))
              else m.notes;
    (m.(notes := bs), [StoreOp.DeleteNote(note.id)])
  }

  /** A note whose date is not the current day survives its own deletion in memory. */
  lemma DeleteNoteOtherDay(m: Manager, currentDate: Civil.Date, note: Note)
    requires note.date != GetDateKey(currentDate)
    ensures NotesFor(DeleteNote(m, currentDate, note).0.notes, note.date) == NotesFor(m.notes, note.date)
  {
  }

  /** `isOverRecycleBin(x, y)`: inside the closed rectangle; false when there is no bin. */
  predicate IsOverRecycleBin(bin: Option<Rect>, x: int, y: int) {
    bin.Some? && bin.value.left <= x <= bin.value.right && bin.value.top <= y <= bin.value.bottom
  }

  /** The rectangle's edges and corners count as inside; one pixel beyond does not. */
  lemma RecycleBinClosed(r: Rect)
    requires r.left <= r.right && r.top <= r.bottom
    ensures IsOverRecycleBin(Some(r), r.left, r.top) && IsOverRecycleBin(Some(r), r.right, r.bottom)
    ensures !IsOverRecycleBin(Some(r), r.right + 1, r.top) && !IsOverRecycleBin(Some(r), r.left, r.top - 1)
    ensures !IsOverRecycleBin(None, r.left, r.top)
  {
  }

  /** `startNoteDrag`, fired by the note's own 500 ms long-press timer. */
  function StartNoteDrag(m: Manager, note: Note): (r: Manager)
    ensures r.isDragging && r.draggedNote == Some(note) && r.dragMode && r.notes == m.notes
  {
    m.(isDragging := true, draggedNote := Some(note), dragMode := true)
  }

  /** What a drop asks for: the `onDeleteNote` callback, or a persisted move. */
  datatype Drop = DeleteRequested(note: Note) | Moved(note: Note)

  /** `endNoteDrag(noteEl, note, x, y)`: `x, y` is where the finger lifted and
      `left, top` are the element's parsed style coordinates. */
  function EndNoteDrag(m: Manager, note: Note, x: int, y: int, bin: Option<Rect>, left: int, top: int): (r: (Manager, Drop, seq<StoreOp>))
    ensures !r.0.isDragging && r.0.draggedNote == None && !r.0.dragMode
    ensures IsOverRecycleBin(bin, x, y) ==> r.0.notes == m.notes && r.1 == DeleteRequested(note) && r.2 == []
    ensures !IsOverRecycleBin(bin, x, y) ==>
      r.1 == Moved(note.(x := left, y := top)) && r.2 == [UpdateNote(note.(x := left, y := top))] &&
      r.0.notes == UpdateNotePosition(m, note, left, top).manager.notes
  {
    var m' := m.(isDragging := false, draggedNote := None);
    if IsOverRecycleBin(bin, x, y) then
      (m'.(dragMode := false), DeleteRequested(note), [])
    else
      var u := UpdateNotePosition(m', note, left, top);
      (u.manager.(dragMode := false), Moved(u.note), u.ops)
  }

  /** The note's `touchend` handler: the drag ends only when this note is the one
      being dragged. */
  function NoteTouchEnd(m: Manager, note: Note, x: int, y: int, bin: Option<Rect>, left: int, top: int): (r: (Manager, Option<Drop>, seq<StoreOp>))
    ensures !(m.isDragging && m.draggedNote == Some(note)) ==> r == (m, None, [])
    ensures m.isDragging && m.draggedNote == Some(note) ==> r.1.Some? && !r.0.isDragging && r.0.draggedNote == None
  {
    if m.isDragging && m.draggedNote == Some(note) then
      var e := EndNoteDrag(m, note, x, y, bin, left, top);
      (e.0, Some(e.1), e.2)
    else (m, None, [])
  }
}

=== FILE: notes.dfy ===
/** Sticky notes and the in-memory note map both journal generations keep: a
    JavaScript `Map` from a day key to the array of that day's notes, iterated in
    the order its keys were first set. */
module Notes {
  import opened Wrappers
  import Json

  datatype Point = Point(x: int, y: int)

  /** A note record. `shade`, `reference` and `read` are absent on the notes that
      do not carry them (verse notes of the older app have no shade; only verse
      notes have a reference and a read flag). */
  datatype Note = Note(
    id: string,
    date: string,
    content: Json.Value,
    kind: string,
    title: string,
    shade: Option<int>,
    x: int,
    y: int,
    timestamp: int,
    reference: Option<string>,
    read: Option<bool>)

  /** One entry of the map: a day key and its notes in insertion order. */
  datatype Bucket = Bucket(key: string, notes: seq<Note>)

  /** A write sent to the note store. The store's own semantics are not part of
      this model; the operations only record which writes they issue. */
  datatype StoreOp = SaveNote(note: Note) | UpdateNote(note: Note) | DeleteNote(id: string)

  predicate DistinctKeys(bs: seq<Bucket>) {
    forall i, j :: 0 <= i < j < |bs| ==> bs[i].key != bs[j].key
  }

  function Keys(bs: seq<Bucket>): (ks: seq<string>)
    ensures |ks| == |bs| && forall i :: 0 <= i < |bs| ==> ks[i] == bs[i].key
  {
    seq(|bs|, i requires 0 <= i < |bs| => bs[i].key)
  }

  /** Where key `k` sits in the map, or -1. */
  function KeyIndex(bs: seq<Bucket>, k: string): (i: int)
    ensures -1 <= i < |bs|
    ensures i >= 0 ==> bs[i].key == k && forall j :: 0 <= j < i ==> bs[j].key != k
    ensures i == -1 <==> k !in Keys(bs)
    decreases |bs|
  {
    if |bs| == 0 then -1
    else if bs[0].key == k then 0
    else
      var i := KeyIndex(bs[1..], k);
      assert Keys(bs) == [bs[0].key] + Keys(bs[1..]);
      if i == -1 then -1 else i + 1
  }

  /** `map.get(k)`. */
  function Get(bs: seq<Bucket>, k: string): (r: Option<seq<Note>>)
    ensures r.None? <==> k !in Keys(bs)
    ensures r.Some? ==> exists i :: 0 <= i < |bs| && bs[i] == Bucket(k, r.value)
  {
    var i := KeyIndex(bs, k);
    if i >= 0 then Some(bs[i].notes) else None
  }

  /** `map.get(k) || []`: an array, even an empty one, is truthy. */
  function NotesFor(bs: seq<Bucket>, k: string): (ns: seq<Note>)
    ensures k !in Keys(bs) ==> ns == []
  {
    Get(bs, k).GetOr([])
  }

  /** `if (!map.has(k)) map.set(k, []); map.get(k).push(n)`. */
  function Push(bs: seq<Bucket>, k: string, n: Note): (r: seq<Bucket>)
    ensures k in Keys(bs) ==> Keys(r) == Keys(bs)
    ensures k !in Keys(bs) ==> Keys(r) == Keys(bs) + [k]
  {
    var i := KeyIndex(bs, k);
    if i >= 0 then bs[i := Bucket(k, bs[i].notes + [n])] else bs + [Bucket(k, [n])]
  }

  /** Pushing appends exactly one note to the bucket of its key and leaves every
      other bucket as it was. */
  lemma PushNotesFor(bs: seq<Bucket>, k: string, n: Note, k': string)
    ensures NotesFor(Push(bs, k, n), k') == if k' == k then NotesFor(bs, k) + [n] else NotesFor(bs, k')
  {
    var r := Push(bs, k, n);
    if KeyIndex(bs, k) >= 0 {
      KeyIndexByKeys(r, bs, k');
    } else {
      KeyIndexAppend(bs, Bucket(k, [n]), k');
    }
  }

  /** Maps with the same keys in the same order find a key at the same place. */
  lemma KeyIndexByKeys(a: seq<Bucket>, b: seq<Bucket>, k: string)
    requires Keys(a) == Keys(b)
    ensures KeyIndex(a, k) == KeyIndex(b, k)
  {
    assert |a| == |b|;
    forall t | 0 <= t < |a|
      ensures a[t].key == b[t].key
    {
      assert Keys(a)[t] == Keys(b)[t];
    }
  }

  /** A bucket set last is found last, and moves no other key. */
  lemma KeyIndexAppend(bs: seq<Bucket>, b: Bucket, k: string)
    requires b.key !in Keys(bs)
    ensures KeyIndex(bs + [b], k) == if k == b.key then |bs| else KeyIndex(bs, k)
  {
    var r := bs + [b];
    var i := KeyIndex(r, k);
    assert forall j :: 0 <= j < |bs| ==> r[j] == bs[j];
    if k == b.key {
      assert Keys(r)[|bs|] == k;
      forall t | 0 <= t < |bs|
        ensures r[t].key != k
      {
        assert Keys(bs)[t] == r[t].key;
      }
    } else {
      var i' := KeyIndex(bs, k);
      if i' >= 0 {
        assert Keys(r)[i'] == k;
      }
      if 0 <= i < |bs| {
        assert Keys(bs)[i] == r[i].key;
      }
    }
  }

  lemma PushNotesForAll(bs: seq<Bucket>, k: string, n: Note)
    ensures forall k' :: NotesFor(Push(bs, k, n), k') == if k' == k then NotesFor(bs, k) + [n] else NotesFor(bs, k')
  {
    forall k' {
      PushNotesFor(bs, k, n, k');
    }
  }

  lemma PushDistinct(bs: seq<Bucket>, k: string, n: Note)
    requires DistinctKeys(bs)
    ensures DistinctKeys(Push(bs, k, n))
  {
    var r := Push(bs, k, n);
    assert forall j :: 0 <= j < |r| ==> r[j].key == Keys(r)[j];
  }

  /** The notes of `ns` dated `k`, in their order in `ns`. */
  function WithDate(ns: seq<Note>, k: string): seq<Note>
    decreases |ns|
  {
    if |ns| == 0 then []
    else WithDate(ns[..|ns| - 1], k) + (if ns[|ns| - 1].date == k then [ns[|ns| - 1]] else [])
  }

  /** The regrouping `loadNotes` performs: every note is pushed to the bucket of
      its own date, in order. */
  function Group(ns: seq<Note>): (r: seq<Bucket>)
    decreases |ns|
  {
    if |ns| == 0 then []
    else
      var last := ns[|ns| - 1];
      Push(Group(ns[..|ns| - 1]), last.date, last)
  }

  /** After regrouping, the bucket of every key holds exactly the notes with that
      date, in the order they were loaded. */
  lemma {:induction false} GroupNotesFor(ns: seq<Note>, k: string)
    ensures NotesFor(Group(ns), k) == WithDate(ns, k)
    decreases |ns|
  {
    if |ns| > 0 {
      var last := ns[|ns| - 1];
      GroupNotesFor(ns[..|ns| - 1], k);
      PushNotesFor(Group(ns[..|ns| - 1]), last.date, last, k);
    }
  }

  /** Regrouping creates one bucket per distinct date, and no other. */
  lemma {:induction false} GroupKeys(ns: seq<Note>, k: string)
    ensures DistinctKeys(Group(ns))
    ensures k in Keys(Group(ns)) <==> exists i :: 0 <= i < |ns| && ns[i].date == k
    decreases |ns|
  {
    if |ns| > 0 {
      var init := ns[..|ns| - 1];
      var last := ns[|ns| - 1];
      GroupKeys(init, k);
      PushDistinct(Group(init), last.date, last);
      if exists i :: 0 <= i < |ns| && ns[i].date == k {
        var i :| 0 <= i < |ns| && ns[i].date == k;
        if i < |ns| - 1 {
          assert init[i].date == k;
        }
      }
      if exists i :: 0 <= i < |init| && init[i].date == k {
        var i :| 0 <= i < |init| && init[i].date == k;
        assert ns[i].date == k;
      }
    }
  }

  predicate HasId(ns: seq<Note>, id: string) {
    exists j :: 0 <= j < |ns| && ns[j].id == id
  }

  /** `notes.findIndex(n => n.id === id)`. */
  function FindIndex(ns: seq<Note>, id: string): (i: int)
    ensures -1 <= i < |ns|
    ensures i >= 0 ==> ns[i].id == id && forall j :: 0 <= j < i ==> ns[j].id != id
    ensures i == -1 <==> !HasId(ns, id)
    decreases |ns|
  {
    if |ns| == 0 then -1
    else if ns[0].id == id then 0
    else
      var i := FindIndex(ns[1..], id);
      assert forall j :: 0 <= j < |ns| - 1 ==> ns[1..][j] == ns[j + 1];
      if i == -1 then -1 else i + 1
  }

  /** `const i = notes.findIndex(...); if (i !== -1) notes.splice(i, 1)`: only the
      first note with the id goes; the others keep their order. */
  function RemoveFirst(ns: seq<Note>, id: string): (r: seq<Note>)
    ensures !HasId(ns, id) ==> r == ns
    ensures HasId(ns, id) ==>
              |r| == |ns| - 1 &&
              exists i :: 0 <= i < |ns| && ns[i].id == id && (forall j :: 0 <= j < i ==> ns[j].id != id) &&
                r == ns[..i] + ns[i + 1..]
    ensures multiset(r) <= multiset(ns)
  {
    var i := FindIndex(ns, id);
    if i >= 0 then
      assert ns == ns[..i] + [ns[i]] + ns[i + 1..];
      ns[..i] + ns[i + 1..]
    else ns
  }

  /** Replaces the first note with the id, if any. */
  function UpdateFirst(ns: seq<Note>, id: string, n: Note): (r: seq<Note>)
    ensures |r| == |ns|
    ensures !HasId(ns, id) ==> r == ns
    ensures HasId(ns, id) ==>
      exists i :: 0 <= i < |ns| && ns[i].id == id && (forall j :: 0 <= j < i ==> ns[j].id != id) &&
        r == ns[i := n]
  {
    var i := FindIndex(ns, id);
    if i >= 0 then ns[i := n] else ns
  }

  /** Replaces the notes of the existing key `k`. */
  function ModifyBucket(bs: seq<Bucket>, k: string, ns: seq<Note>): (r: seq<Bucket>)
    requires k in Keys(bs)
    ensures Keys(r) == Keys(bs)
  {
    var i := KeyIndex(bs, k);
    bs[i := Bucket(k, ns)]
  }

  /** Replacing the notes of one existing key changes what that key reads and
      nothing else. */
  lemma ModifyBucketNotesFor(bs: seq<Bucket>, k: string, ns: seq<Note>, k': string)
    requires k in Keys(bs)
    ensures NotesFor(ModifyBucket(bs, k, ns), k') == if k' == k then ns else NotesFor(bs, k')
  {
    KeyIndexByKeys(ModifyBucket(bs, k, ns), bs, k');
  }

  lemma ModifyBucketNotesForAll(bs: seq<Bucket>, k: string, ns: seq<Note>)
    requires k in Keys(bs)
    ensures forall k' :: NotesFor(ModifyBucket(bs, k, ns), k') == if k' == k then ns else NotesFor(bs, k')
  {
    forall k' {
      ModifyBucketNotesFor(bs, k, ns, k');
    }
  }

  predicate AnyId(bs: seq<Bucket>, id: string) {
    exists b :: 0 <= b < |bs| && HasId(bs[b].notes, id)
  }

  /** The bucket and position of the first note with the id, scanning the buckets
      from `from` on in map order. */
  function FindPosFrom(bs: seq<Bucket>, id: string, from: nat): (r: Option<(nat, nat)>)
    requires from <= |bs|
    ensures r.None? <==> forall b :: from <= b < |bs| ==> !HasId(bs[b].notes, id)
    ensures r.Some? ==>
      var (b, j) := r.value;
      from <= b < |bs| && j < |bs[b].notes| && bs[b].notes[j].id == id &&
      (forall b' :: from <= b' < b ==> !HasId(bs[b'].notes, id)) &&
      (forall j' :: 0 <= j' < j ==> bs[b].notes[j'].id != id)
    decreases |bs| - from
  {
    if from == |bs| then None
    else
      var j := FindIndex(bs[from].notes, id);
      if j >= 0 then Some((from, j)) else FindPosFrom(bs, id, from + 1)
  }

  /** `findNoteById(id)`: the first note with the id, scanning the buckets in map
      order and each bucket in order, or `null` when no note has it. */
  function FindById(bs: seq<Bucket>, id: string): (r: Option<Note>)
    ensures r.None? <==> !AnyId(bs, id)
    ensures r.Some? ==>
              r.value.id == id &&
              exists b, j :: 0 <= b < |bs| && 0 <= j < |bs[b].notes| && bs[b].notes[j] == r.value &&
                (forall b' :: 0 <= b' < b ==> !HasId(bs[b'].notes, id)) &&
                (forall j' :: 0 <= j' < j ==> bs[b].notes[j'].id != id)
  {
    match FindPosFrom(bs, id, 0)
    case None => None
    case Some((b, j)) => Some(bs[b].notes[j])
  }
}

=== FILE: root_app.dfy ===
/** The first journal generation, a single `CalendarNavigator` class in `app.js`:
    the same per-level cursors as the later navigator (whose step and zoom-out
    functions it shares), its own zoom-in, the touch handlers it carries inline
    (the same recogniser as `TouchHandler`, armed when the level is `day`), note
    creation at the long-press position, and its own verse note. */
module RootApp {
  import opened Civil
  import opened Wrappers
  import opened Notes
  import Json
  import Text
  import TitleHash
  import NoteManager
  import TouchHandler
  import CalendarNavigator

  type Cursor = CalendarNavigator.Cursor

  /** The navigator's fields: the cursors, the note map, the touch state (the
      closure variables and `longPressTimer`/`longPressPosition`), the selected
      shade and whether the chat input is open. */
  datatype App = App(cursor: Cursor, notes: seq<Bucket>, touch: TouchHandler.State, selectedShade: int, chatOpen: bool)

  predicate Inv(a: App) {
    CalendarNavigator.Inv(a.cursor)
  }

  function Init(today: Date): (a: App)
    requires Valid(today)
    ensures Inv(a) && a.cursor.level == CalendarNavigator.Day && a.notes == [] && a.selectedShade == 1 && !a.chatOpen
  {
    App(CalendarNavigator.Init(today), [], TouchHandler.Init(), 1, false)
  }

  /** `zoomIn()`: from week the day view opens on the week's Sunday (a copy of
      `currentWeekStart`); month and year zoom in as in the later navigator. */
  function ZoomIn(c: Cursor): (r: Cursor)
    requires CalendarNavigator.Inv(c)
    ensures CalendarNavigator.Inv(r)
    ensures c.level == CalendarNavigator.Week ==> r == c.(level := CalendarNavigator.Day, currentDate := c.weekStart.value)
    ensures c.level == CalendarNavigator.Month ==>
      r == c.(level := CalendarNavigator.Week, weekStart := Some(CalendarNavigator.GetWeekStart(c.month.value)))
    ensures c.level == CalendarNavigator.Year ==> r == c.(level := CalendarNavigator.Month, month := c.year)
    ensures c.level == CalendarNavigator.Day ==> r == c
  {
    if c.level == CalendarNavigator.Week then c.(level := CalendarNavigator.Day, currentDate := c.weekStart.value)
    else CalendarNavigator.ZoomIn(c)
  }

  /** The two generations agree except when zooming in from a week, where this one
      moves the current date to the week's Sunday and the later one keeps it. */
  lemma ZoomInGenerations(c: Cursor)
    requires CalendarNavigator.Inv(c)
    ensures c.level != CalendarNavigator.Week ==> ZoomIn(c) == CalendarNavigator.ZoomIn(c)
    ensures c.level == CalendarNavigator.Week ==>
      (ZoomIn(c) == CalendarNavigator.ZoomIn(c) <==> c.weekStart.value == c.currentDate)
  {
  }

  /** Zooming out of a day and straight back in lands on the Sunday on or before
      it; the date survives only when it is a Sunday. */
  lemma OutInLandsOnSunday(c: Cursor)
    requires CalendarNavigator.Inv(c) && c.level == CalendarNavigator.Day
    ensures var r := ZoomIn(CalendarNavigator.ZoomOut(c));
            r.level == CalendarNavigator.Day && r.currentDate == CalendarNavigator.GetWeekStart(c.currentDate) &&
            Weekday(r.currentDate) == 0 &&
            (r.currentDate == c.currentDate <==> Weekday(c.currentDate) == 0)
  {
    var s := CalendarNavigator.GetWeekStart(c.currentDate);
    if Weekday(c.currentDate) == 0 {
      AddDaysZero(c.currentDate);
    } else {
      SerialInjective(s, c.currentDate);
    }
  }

  /** `handleSwipeUp/Down/Left/Right`. */
  function OnSwipe(c: Cursor, d: TouchHandler.Direction): (r: Cursor)
    requires CalendarNavigator.Inv(c)
    ensures CalendarNavigator.Inv(r)
    ensures d == TouchHandler.Up ==> r == CalendarNavigator.Navigate(c, 1)
    ensures d == TouchHandler.Down ==> r == CalendarNavigator.Navigate(c, -1)
    ensures d == TouchHandler.Left ==> r == CalendarNavigator.ZoomOut(c)
    ensures d == TouchHandler.Right ==> r == ZoomIn(c)
  {
    match d
    case Up => CalendarNavigator.NavigateForward(c)
    case Down => CalendarNavigator.NavigateBackward(c)
    case Left => CalendarNavigator.ZoomOut(c)
    case Right => ZoomIn(c)
  }

  /** A swipe up followed by a swipe down returns a day or week view to where it was. */
  lemma SwipeUpDownReturns(c: Cursor)
    requires CalendarNavigator.Inv(c) && (c.level == CalendarNavigator.Day || c.level == CalendarNavigator.Week)
    ensures OnSwipe(OnSwipe(c, TouchHandler.Up), TouchHandler.Down) == c
  {
    if c.level == CalendarNavigator.Day {
      AddDaysAdd(c.currentDate, 1, -1);
      AddDaysZero(c.currentDate);
    } else {
      AddDaysAdd(c.weekStart.value, 7, -7);
      AddDaysZero(c.weekStart.value);
    }
  }

  /** A touch event as the container sees it; whether a long press may be armed is
      decided by the current level. */
  datatype Input = Start(at: Point, now: int) | Move | End(at: Point, now: int) | Fire(id: nat)

  function ToEvent(a: App, i: Input): TouchHandler.Event {
    match i
    case Start(p, now) => TouchHandler.TouchStart(p, now, a.cursor.level == CalendarNavigator.Day)
    case Move => TouchHandler.TouchMove
    case End(p, now) => TouchHandler.TouchEnd(p, now)
    case Fire(id) => TouchHandler.Timeout(id)
  }

  /** One touch event through the inline handlers: a fired long press opens the
      chat input, a swipe moves the cursors; nothing else changes. */
  function OnTouch(a: App, i: Input): (r: App)
    requires Inv(a)
    ensures Inv(r) && r.notes == a.notes && r.selectedShade == a.selectedShade
    ensures var (t, eff) := TouchHandler.Step(a.touch, ToEvent(a, i));
            r.touch == t &&
            (eff.None? ==> r.cursor == a.cursor && r.chatOpen == a.chatOpen) &&
            (eff.Some? && eff.value.LongPress? ==> r.cursor == a.cursor && r.chatOpen) &&
            (eff.Some? && eff.value.Swipe? ==> r.cursor == OnSwipe(a.cursor, eff.value.direction) && r.chatOpen == a.chatOpen)
  {
    var (t, eff) := TouchHandler.Step(a.touch, ToEvent(a, i));
    if eff.None? then a.(touch := t)
    else if eff.value.LongPress? then a.(touch := t, chatOpen := true)
    else a.(touch := t, cursor := OnSwipe(a.cursor, eff.value.direction))
  }

  /** Outside the day view a touchstart arms no long press. */
  lemma NoLongPressOutsideDay(a: App, p: Point, now: int)
    requires Inv(a) && a.cursor.level != CalendarNavigator.Day
    ensures OnTouch(a, Start(p, now)).touch.pending == a.touch.pending
    ensures OnTouch(a, Start(p, now)).touch.longPressPosition == a.touch.longPressPosition
  {
    TouchHandler.NoLongPressOutsideDayView(a.touch, p, now);
  }

  /** In the day view a touch held still for the delay opens the chat input at the
      touch point, which is where the next note will be placed. */
  lemma HoldOpensChat(a: App, p: Point, now: int)
    requires Inv(a) && a.cursor.level == CalendarNavigator.Day && a.touch.nextTimer !in a.touch.pending
    ensures var a1 := OnTouch(a, Start(p, now));
            var a2 := OnTouch(a1, Fire(a.touch.nextTimer));
            a2.chatOpen && a2.touch.longPressPosition == p && a2.cursor == a.cursor
  {
  }

  /** `createNote(content, type)`: one note under the current day's key, with the
      hashed title, the selected shade and the long-press position (no fallback);
      it is saved with `store.add`. The re-render that follows is `RenderNotes`. */
  function CreateNote(a: App, content: Json.Value, kind: string, now: int, suffix: string): (r: (App, Note, seq<StoreOp>))
    requires Inv(a)
    ensures var key := DayKey(a.cursor.currentDate);
            r.1 == NoteManager.MakeNote(key, content, kind, a.selectedShade, a.touch.longPressPosition, now, suffix) &&
            r.2 == [SaveNote(r.1)] &&
            forall k :: NotesFor(r.0.notes, k) == if k == key then NotesFor(a.notes, key) + [r.1] else NotesFor(a.notes, k)
    ensures r.0 == a.(notes := r.0.notes)
  {
    var key := DayKey(a.cursor.currentDate);
    var note := NoteManager.MakeNote(key, content, kind, a.selectedShade, a.touch.longPressPosition, now, suffix);
    PushNotesForAll(a.notes, key, note);
    (a.(notes := Push(a.notes, key, note)), note, [SaveNote(note)])
  }

  /** The created note carries the shade and the position recorded at the last
      armed touchstart, whatever they are (a zero coordinate included). */
  lemma CreateNoteAtLongPress(a: App, content: Json.Value, kind: string, now: int, suffix: string)
    requires Inv(a)
    ensures var n := CreateNote(a, content, kind, now, suffix).1;
            n.x == TouchHandler.GetLongPressPosition(a.touch).x && n.y == TouchHandler.GetLongPressPosition(a.touch).y &&
            n.shade == Some(a.selectedShade) && 1 <= |n.title| <= 6 &&
            |NotesFor(CreateNote(a, content, kind, now, suffix).0.notes, DayKey(a.cursor.currentDate))| ==
              |NotesFor(a.notes, DayKey(a.cursor.currentDate))| + 1
  {
  }

  /** The verse note of this generation: id `<key>_verse_<now>`, titled by its
      reference, with no shade, at (centreX - 100, 150), unread. */
  function VerseNote(key: string, v: CalendarNavigator.Verse, centreX: int, now: int): (n: Note)
    ensures n.id == key + "_verse_" + Text.IntToString(now) && n.date == key && n.kind == "verse"
    ensures n.content == Json.Str(v.text) && n.title == v.reference && n.reference == Some(v.reference)
    ensures n.shade == None && n.x == centreX - 100 && n.y == 150 && n.timestamp == now && n.read == Some(false)
  {
    Note(key + "_verse_" + Text.IntToString(now), key, Json.Str(v.text), "verse", v.reference, None,
         centreX - 100, 150, now, Some(v.reference), Some(false))
  }

  /** `addDailyVerse(dateKey)` for the current day, run without interleaving: a day
      that has a verse note is left alone; otherwise the day's verse (the same
      table and index as the later navigator) is pushed and saved once. */
  function AddDailyVerse(a: App, centreX: int, now: int): (r: (App, seq<StoreOp>))
    requires Inv(a)
    ensures var key := DayKey(a.cursor.currentDate);
            CalendarNavigator.HasVerse(NotesFor(a.notes, key)) ==> r == (a, [])
    ensures var key := DayKey(a.cursor.currentDate);
            var n := VerseNote(key, CalendarNavigator.GetDailyVerse(a.cursor.currentDate), centreX, now);
            !CalendarNavigator.HasVerse(NotesFor(a.notes, key)) ==>
              r.1 == [SaveNote(n)] && r.0 == a.(notes := r.0.notes) &&
              forall k :: NotesFor(r.0.notes, k) == if k == key then NotesFor(a.notes, key) + [n] else NotesFor(a.notes, k)
  {
    var key := DayKey(a.cursor.currentDate);
    if CalendarNavigator.HasVerse(NotesFor(a.notes, key)) then (a, [])
    else
      var n := VerseNote(key, CalendarNavigator.GetDailyVerse(a.cursor.currentDate), centreX, now);
      PushNotesForAll(a.notes, key, n);
      (a.(notes := Push(a.notes, key, n)), [SaveNote(n)])
  }

  /** After one call the day has its verse, so a second call adds nothing; the
      verse shown is the one of the day of the month modulo 10. */
  lemma AddDailyVerseOnce(a: App, centreX: int, now: int, now': int)
    requires Inv(a)
    ensures var first := AddDailyVerse(a, centreX, now).0;
            AddDailyVerse(first, centreX, now') == (first, [])
    ensures var key := DayKey(a.cursor.currentDate);
            !CalendarNavigator.HasVerse(NotesFor(a.notes, key)) ==>
              AddDailyVerse(a, centreX, now).1[0].note.content ==
                Json.Str(CalendarNavigator.Verses[a.cursor.currentDate.day % 10].text)
  {
    var key := DayKey(a.cursor.currentDate);
    var r := AddDailyVerse(a, centreX, now);
    if !CalendarNavigator.HasVerse(NotesFor(a.notes, key)) {
      var n := VerseNote(key, CalendarNavigator.GetDailyVerse(a.cursor.currentDate), centreX, now);
      assert NotesFor(r.0.notes, key) == NotesFor(a.notes, key) + [n];
      VerseAppended(NotesFor(a.notes, key), n);
    }
  }

  lemma VerseAppended(ns: seq<Note>, n: Note)
    requires n.kind == "verse"
    ensures CalendarNavigator.HasVerse(ns + [n])
  {
    assert (ns + [n])[|ns|] == n;
  }

  /** `renderNotes()`: outside the day view nothing; in it, the day's notes are
      drawn and the day's verse is added when missing. The `renderNotes` the
      verse addition triggers finds the verse and stops. */
  function RenderNotes(a: App, centreX: int, now: int): (r: (App, seq<StoreOp>))
    requires Inv(a)
    ensures a.cursor.level != CalendarNavigator.Day ==> r == (a, [])
    ensures a.cursor.level == CalendarNavigator.Day ==> r == AddDailyVerse(a, centreX, now)
  {
    if a.cursor.level != CalendarNavigator.Day then (a, []) else AddDailyVerse(a, centreX, now)
  }

  /** `loadNotes()`: the map is cleared and refilled with every stored note under
      its own date. */
  function LoadNotes(a: App, stored: seq<Note>): (r: App)
    ensures r == a.(notes := r.notes)
    ensures DistinctKeys(r.notes)
    ensures forall k :: NotesFor(r.notes, k) == WithDate(stored, k)
  {
    GroupKeys(stored, "");
    forall k ensures NotesFor(Group(stored), k) == WithDate(stored, k) {
      GroupNotesFor(stored, k);
    }
    a.(notes := Group(stored))
  }
}

=== FILE: seqs.dfy ===
/** Sequence helpers shared by the renderers and exporters. */
module Seqs {
  /** `array.slice(0, n)` and `str.substring(0, n)` for n >= 0: the first n
      elements, or all of them. */
  function Take<T>(s: seq<T>, n: nat): (r: seq<T>)
    ensures |r| == if |s| <= n then |s| else n
    ensures r == s[..|r|]
  {
    if |s| <= n then s else s[..n]
  }
}

=== FILE: settings_loader.dfy ===
/** The settings loader (`SettingsLoader`): a JSON tree of settings read and
    written by dotted paths such as "gestures.swipeThreshold". Only the tree is
    modelled; the CSS variables the apply steps set are not, but whether an apply
    step throws is, because it decides what `load` returns. */
module SettingsLoader {
  import opened Wrappers
  import opened Json
  import Text

  /** `settings` is `this.settings` (`null` before a load); `stored` is what was
      last written to local storage under 'cosmicJournalSettings'. */
  datatype Loader = Loader(settings: Value, stored: Option<string>)

  const TypeError: string := "TypeError"

  function Init(): (l: Loader)
    ensures l.settings == Null && l.stored.None?
  {
    Loader(Null, None)
  }

  predicate Nullish(v: Value) {
    v.Null? || v.Undefined?
  }

  /** `value?.[key]` step by step, giving `null` as soon as a step is
      undefined. */
  function Walk(v: Value, keys: seq<string>): (r: Value)
    ensures !r.Undefined?
    ensures |keys| == 0 ==> r == (if v.Undefined? then Null else v)
    decreases |keys|
  {
    if |keys| == 0 then (if v.Undefined? then Null else v)
    else
      var next := if Nullish(v) then Undefined else Get(v, keys[0]);
      if next.Undefined? then Null else Walk(next, keys[1..])
  }

  /** `getSetting(path)`. */
  function GetSetting(l: Loader, path: string): (r: Value)
    ensures !r.Undefined?
    ensures l.settings.Null? ==> r == Null
  {
    Walk(l.settings, Text.Split(path, '.'))
  }

  /** The loop of `updateSetting` over the leading keys, then the assignment of
      the last one: a falsy value on the way is replaced by a fresh object, and
      assigning into anything but an object throws (module code is strict). */
  function Write(target: Value, keys: seq<string>, last: string, v: Value): (r: Result<Value, string>)
    ensures r.Success? ==> r.value.Obj?
    ensures r.Failure? ==> r.error == TypeError
    ensures !target.Obj? ==> r.Failure?
    decreases |keys|
  {
    if !target.Obj? then Failure(TypeError)
    else if |keys| == 0 then Success(Obj(Put(target.fields, last, v)))
    else
      var child := Get(target, keys[0]);
      var base := if Truthy(child) then child else Obj([]);
      match Write(base, keys[1..], last, v)
      case Failure(e) => Failure(e)
      case Success(c) => Success(Obj(Put(target.fields, keys[0], c)))
  }

  /** Whether the chain of property reads along `keys` reaches a value that is
      neither null nor undefined without ever reading a property of one. */
  predicate Readable(v: Value, keys: seq<string>)
    decreases |keys|
  {
    !Nullish(v) && (|keys| == 0 || Readable(Get(v, keys[0]), keys[1..]))
  }

  /** `applyTheme` reads `settings.theme.colors.*`. */
  predicate ThemeApplies(s: Value) {
    Readable(s, ["theme", "colors"])
  }

  /** `applyTypography` reads `fontFamily.*` and the entries of `fontSize`. */
  predicate TypographyApplies(s: Value) {
    Readable(s, ["typography", "fontFamily"]) && Readable(s, ["typography", "fontSize"])
  }

  /** `applyAnimations` takes the entries of `duration` and of `easing`. */
  predicate AnimationsApplies(s: Value) {
    Readable(s, ["animations", "duration"]) && Readable(s, ["animations", "easing"])
  }

  /** Whether the apply step that `path`'s prefix names throws on the tree `s`. */
  predicate ApplyThrows(path: string, s: Value) {
    (Text.StartsWith(path, "theme") && !ThemeApplies(s)) ||
    (Text.StartsWith(path, "typography") && !TypographyApplies(s)) ||
    (Text.StartsWith(path, "animations") && !AnimationsApplies(s))
  }

  /** `updateSetting(path, value)`: the tree is changed and saved, then the apply
      step the path's prefix names runs. A write that throws leaves everything as
      it was; an apply step that throws does so after the save. */
  function UpdateSetting(l: Loader, path: string, v: Value): (r: (Loader, Option<string>))
    ensures var keys := Text.Split(path, '.');
            var w := Write(l.settings, keys[..|keys| - 1], keys[|keys| - 1], v);
            (w.Failure? ==> r == (l, Some(TypeError))) &&
            (w.Success? ==> r.0.settings == w.value && r.0.stored == Stringify(w.value) &&
                            (r.1.Some? <==> ApplyThrows(path, w.value)))
  {
    var keys := Text.Split(path, '.');
    match Write(l.settings, keys[..|keys| - 1], keys[|keys| - 1], v)
    case Failure(e) => (l, Some(e))
    case Success(s) => (Loader(s, Stringify(s)), if ApplyThrows(path, s) then Some(TypeError) else None)
  }

  /** `getDefaultSettings()`. */
  const Defaults: Value :=
    Obj([Field("theme", Obj([Field("name", Str("cosmic-dark")),
                             Field("colors", Obj([Field("background", Str("#1a1a1a")),
                                                  Field("primary", Str("rgba(255, 255, 255, 0.95)"))]))])),
         Field("gestures", DefaultGestures)])

  const DefaultGestures: Value :=
    Obj([Field("swipeThreshold", Num(50)), Field("longPressDelay", Num(500)), Field("doubleTapDelay", Num(300))])

  /** `load()` with the parsed body of settings.json, or `None` when the fetch
      or the parse fails. The fetched tree is installed before the apply steps
      run, so when one of them throws the tree stays installed although the
      defaults are returned; a failed fetch installs nothing. */
  function Load(l: Loader, fetched: Option<Value>): (r: (Loader, Value))
    ensures fetched.None? ==> r == (l, Defaults)
    ensures fetched.Some? ==> r.0 == l.(settings := fetched.value)
    ensures fetched.Some? ==>
              r.1 == (if ThemeApplies(fetched.value) && TypographyApplies(fetched.value) &&
                         AnimationsApplies(fetched.value) then fetched.value else Defaults)
  {
    match fetched
    case None => (l, Defaults)
    case Some(s) =>
      var ok := ThemeApplies(s) && TypographyApplies(s) && AnimationsApplies(s);
      (l.(settings := s), if ok then s else Defaults)
  }

  /** A path's keys are its leading keys followed by its last one. */
  lemma SplitLast(path: string)
    ensures var keys := Text.Split(path, '.');
            keys[..|keys| - 1] + [keys[|keys| - 1]] == keys
  {
  }

  /** One step of a walk through an object. */
  lemma WalkStep(t: Value, keys: seq<string>)
    requires t.Obj? && |keys| > 0 && !Get(t, keys[0]).Undefined?
    ensures Walk(t, keys) == Walk(Get(t, keys[0]), keys[1..])
  {
  }

  /** One step of a successful write below the root. */
  lemma WriteStep(target: Value, keys: seq<string>, last: string, v: Value)
    requires |keys| > 0 && Write(target, keys, last, v).Success?
    ensures var child := Get(target, keys[0]);
            var base := if Truthy(child) then child else Obj([]);
            target.Obj? && Write(base, keys[1..], last, v).Success? &&
            Write(target, keys, last, v).value == Obj(Put(target.fields, keys[0], Write(base, keys[1..], last, v).value))
  {
  }

  /** Assigning the last key and reading it back. */
  lemma WriteLeaf(target: Value, last: string, v: Value)
    requires target.Obj?
    ensures Walk(Obj(Put(target.fields, last, v)), [last]) == (if v.Undefined? then Null else v)
  {
    var t := Obj(Put(target.fields, last, v));
    PutLookup(target.fields, last, v, last);
    var next := Get(t, last);
    assert next == v;
    assert [last][0] == last && [last][1..] == [];
    if !v.Undefined? {
      assert Walk(t, [last]) == Walk(next, []);
    }
  }

  /** Reading back the path just written gives the value written, `null` for
      `undefined`. */
  lemma {:induction false} WriteThenWalk(target: Value, keys: seq<string>, last: string, v: Value)
    requires Write(target, keys, last, v).Success?
    ensures Walk(Write(target, keys, last, v).value, keys + [last]) == (if v.Undefined? then Null else v)
    decreases |keys|
  {
    var t := Write(target, keys, last, v).value;
    if |keys| == 0 {
      WriteLeaf(target, last, v);
      assert keys + [last] == [last];
    } else {
      var child := Get(target, keys[0]);
      var base := if Truthy(child) then child else Obj([]);
      WriteStep(target, keys, last, v);
      WriteThenWalk(base, keys[1..], last, v);
      var c := Write(base, keys[1..], last, v).value;
      PutLookup(target.fields, keys[0], c, keys[0]);
      WalkStep(t, keys + [last]);
      assert (keys + [last])[1..] == keys[1..] + [last];
    }
  }

  /** `updateSetting(path, value)` followed by `getSetting(path)` gives back the
      value, unless the write threw. */
  lemma UpdateThenGet(l: Loader, path: string, v: Value)
    requires var keys := Text.Split(path, '.');
             Write(l.settings, keys[..|keys| - 1], keys[|keys| - 1], v).Success?
    ensures GetSetting(UpdateSetting(l, path, v).0, path) == (if v.Undefined? then Null else v)
  {
    var keys := Text.Split(path, '.');
    SplitLast(path);
    WriteThenWalk(l.settings, keys[..|keys| - 1], keys[|keys| - 1], v);
  }

  /** Two key paths part ways at some position. */
  predicate Diverge(p: seq<string>, q: seq<string>) {
    exists i :: 0 <= i < |p| && i < |q| && p[i] != q[i]
  }

  /** Any path that parts ways with the written one reads as before, even where
      a falsy value on the written path was replaced by a fresh object: below a
      falsy value every read was `null` already, as it is below the new empty
      object. */
  lemma {:induction false} WriteFrame(target: Value, keys: seq<string>, last: string, v: Value, q: seq<string>)
    requires Write(target, keys, last, v).Success?
    requires Diverge(keys + [last], q)
    ensures Walk(Write(target, keys, last, v).value, q) == Walk(target, q)
    decreases |keys|
  {
    var p := keys + [last];
    var i :| 0 <= i < |p| && i < |q| && p[i] != q[i];
    if |keys| == 0 || q[0] != keys[0] {
      var c := if |keys| == 0 then v else Write(if Truthy(Get(target, keys[0])) then Get(target, keys[0]) else Obj([]), keys[1..], last, v).value;
      PutLookup(target.fields, p[0], c, q[0]);
    } else {
      var child := Get(target, keys[0]);
      var base := if Truthy(child) then child else Obj([]);
      var c := Write(base, keys[1..], last, v).value;
      assert i > 0;
      assert Diverge(keys[1..] + [last], q[1..]) by {
        assert (keys[1..] + [last])[i - 1] == p[i];
      }
      WriteFrame(base, keys[1..], last, v, q[1..]);
      PutLookup(target.fields, keys[0], c, q[0]);
      if !Truthy(child) {
        assert q[1..][0] == q[1];
        assert Walk(base, q[1..]) == Null;
        assert Walk(child, q[1..]) == Null;
      }
    }
  }

  /** `updateSetting(path, …)` changes no path that parts ways with `path`. */
  lemma UpdateFrame(l: Loader, path: string, v: Value, other: string)
    requires var keys := Text.Split(path, '.');
             Write(l.settings, keys[..|keys| - 1], keys[|keys| - 1], v).Success?
    requires Diverge(Text.Split(path, '.'), Text.Split(other, '.'))
    ensures GetSetting(UpdateSetting(l, path, v).0, other) == GetSetting(l, other)
  {
    var keys := Text.Split(path, '.');
    SplitLast(path);
    WriteFrame(l.settings, keys[..|keys| - 1], keys[|keys| - 1], v, Text.Split(other, '.'));
  }

  /** Before any load the tree is `null`, so every update throws and changes
      nothing. */
  lemma UpdateBeforeLoadThrows(path: string, v: Value)
    ensures UpdateSetting(Init(), path, v) == (Init(), Some(TypeError))
  {
  }

  /** A load whose fetch fails hands out the defaults but installs nothing: every
      setting still reads `null`, the defaults' gesture timings included. */
  lemma FailedLoadInstallsNothing(path: string)
    ensures var r := Load(Init(), None);
            r.1 == Defaults && GetSetting(r.0, path) == Null
  {
  }

  /** Walking the defaults into "gestures" reaches the gesture settings. */
  lemma WalkGestures(k: string)
    ensures Walk(Defaults, ["gestures", k]) == Walk(DefaultGestures, [k])
  {
    var fs := Defaults.fields;
    assert fs[0].key != "gestures" by { assert fs[0].key[0] == 't'; }
    assert Lookup(fs, "gestures") == Lookup(fs[1..], "gestures");
    assert ["gestures", k][1..] == [k];
  }

  /** A dotted path into "gestures" splits into that key and the setting's name. */
  lemma GesturePath(k: string)
    requires '.' !in k
    ensures Text.Split("gestures." + k, '.') == ["gestures", k]
  {
    assert "gestures." + k == "gestures" + ['.'] + k;
    Text.SplitAfter("gestures", k, '.');
    Text.SplitNone(k, '.');
  }

  /** With the defaults installed, a swipe needs 50 pixels, a long press takes
      500 ms and a double tap must follow within 300 ms; the defaults name no
      drag threshold, so that setting reads `null`. */
  lemma DefaultGestureSettings(l: Loader)
    requires l.settings == Defaults
    ensures GetSetting(l, "gestures.swipeThreshold") == Num(50)
    ensures GetSetting(l, "gestures.longPressDelay") == Num(500)
    ensures GetSetting(l, "gestures.doubleTapDelay") == Num(300)
    ensures GetSetting(l, "gestures.dragThreshold") == Null
  {
    GestureValues();
    GestureNames();
    GestureNamesPlain();
    GestureSetting(l, "swipeThreshold");
    GestureSetting(l, "longPressDelay");
    GestureSetting(l, "doubleTapDelay");
    GestureSetting(l, "dragThreshold");
  }

  /** The four gesture paths, as the dotted strings the app reads. */
  lemma GestureNames()
    ensures "gestures.swipeThreshold" == "gestures." + "swipeThreshold"
    ensures "gestures.longPressDelay" == "gestures." + "longPressDelay"
    ensures "gestures.doubleTapDelay" == "gestures." + "doubleTapDelay"
    ensures "gestures.dragThreshold" == "gestures." + "dragThreshold"
  {
  }

  lemma GestureNamesPlain()
    ensures '.' !in "swipeThreshold" && '.' !in "longPressDelay"
    ensures '.' !in "doubleTapDelay" && '.' !in "dragThreshold"
  {
  }

  lemma GestureSetting(l: Loader, k: string)
    requires l.settings == Defaults && '.' !in k
    ensures GetSetting(l, "gestures." + k) == Walk(DefaultGestures, [k])
  {
    GesturePath(k);
    WalkGestures(k);
  }

  lemma GestureValues()
    ensures Walk(DefaultGestures, ["swipeThreshold"]) == Num(50)
    ensures Walk(DefaultGestures, ["longPressDelay"]) == Num(500)
    ensures Walk(DefaultGestures, ["doubleTapDelay"]) == Num(300)
    ensures Walk(DefaultGestures, ["dragThreshold"]) == Null
  {
    GestureTimings();
    NoDragThreshold();
  }

  lemma NoDragThreshold()
    ensures Walk(DefaultGestures, ["dragThreshold"]) == Null
  {
    var gs := DefaultGestures.fields;
    assert !HasKey(gs, "dragThreshold") by {
      assert gs[0].key[0] == 's' && gs[1].key[0] == 'l' && gs[2].key[1] == 'o';
    }
  }

  lemma GestureTimings()
    ensures Walk(DefaultGestures, ["swipeThreshold"]) == Num(50)
    ensures Walk(DefaultGestures, ["longPressDelay"]) == Num(500)
    ensures Walk(DefaultGestures, ["doubleTapDelay"]) == Num(300)
  {
    LongPressTiming();
    DoubleTapTiming();
  }

  lemma LongPressTiming()
    ensures Walk(DefaultGestures, ["longPressDelay"]) == Num(500)
  {
    var gs := DefaultGestures.fields;
    assert gs[0].key != "longPressDelay" by { assert gs[0].key[0] == 's'; }
    assert Lookup(gs, "longPressDelay") == Lookup(gs[1..], "longPressDelay");
  }

  lemma DoubleTapTiming()
    ensures Walk(DefaultGestures, ["doubleTapDelay"]) == Num(300)
  {
    var gs := DefaultGestures.fields;
    assert gs[0].key != "doubleTapDelay" by { assert gs[0].key[0] == 's'; }
    assert gs[1].key != "doubleTapDelay" by { assert gs[1].key[0] == 'l'; }
    assert Lookup(gs, "doubleTapDelay") == Lookup(gs[1..], "doubleTapDelay");
    assert Lookup(gs[1..], "doubleTapDelay") == Lookup(gs[2..], "doubleTapDelay") by {
      assert gs[1..][1..] == gs[2..];
    }
  }

  /** The defaults carry colours but no typography, so installed as the fetched
      tree they would make `load` fall back to themselves. */
  lemma DefaultsLackTypography()
    ensures ThemeApplies(Defaults) && !TypographyApplies(Defaults)
    ensures Load(Init(), Some(Defaults)).1 == Defaults
  {
    var fs := Defaults.fields;
    assert Get(Defaults, "theme") == fs[0].value;
    var ts := fs[0].value.fields;
    assert ts[0].key != "colors" by { assert ts[0].key[0] == 'n'; }
    assert Lookup(ts, "colors") == Lookup(ts[1..], "colors");
    assert fs[0].key != "typography" by { assert fs[0].key[1] == 'h'; }
    assert fs[1].key != "typography" by { assert fs[1].key[0] == 'g'; }
    assert Lookup(fs, "typography") == Lookup(fs[1..], "typography") == Lookup(fs[2..], "typography") by {
      assert fs[1..][1..] == fs[2..];
    }
  }
}

=== FILE: shake_detector.dfy ===
/** The export shake detector (`ShakeDetector`): consecutive accelerometer
    samples are compared axis by axis, and a large enough jump triggers a shake,
    after which a one-second cooldown suppresses further shakes. The cooldown
    timer is explicit: arming allocates a timer id and a `Timeout` event for it
    ends the cooldown. */
module ShakeDetector {
  import opened Wrappers

  const ShakeThreshold: real := 15.0
  const CooldownMs: int := 1000
  const VibrateMs: int := 50

  /** `accelerationIncludingGravity`. */
  datatype Vec3 = Vec3(x: real, y: real, z: real)

  /** What the platform offers: `navigator.vibrate`, and whether an `onShake`
      callback was given. */
  datatype Platform = Platform(canVibrate: bool, hasCallback: bool)

  /** `attached` says whether the `devicemotion` listener is registered with the
      window; `listening` is the `isListening` flag; `last` is `lastX/Y/Z`;
      `cooldown` is the `shakeTimeout` handle. */
  datatype State = State(
    attached: bool,
    listening: bool,
    last: Option<Vec3>,
    cooldown: Option<nat>,
    nextTimer: nat)

  datatype Event = Motion(sample: Vec3) | Timeout(id: nat) | Destroy

  datatype Effect = PopSound | Vibrate(ms: int) | Shook | CooldownArmed(id: nat, ms: int)

  /** `setupShakeDetection`: without motion events nothing listens; where
      permission must be asked, only a 'granted' answer attaches the listener. */
  function Setup(motionSupported: bool, needsPermission: bool, response: Option<string>): (s: State)
    ensures s.attached == s.listening
    ensures s.attached <==> motionSupported && (!needsPermission || response == Some("granted"))
    ensures s.last.None? && s.cooldown.None?
  {
    var on := motionSupported && (!needsPermission || response == Some("granted"));
    State(on, on, None, None, 1)
  }

  function AbsReal(r: real): (a: real)
    ensures a >= 0.0 && (a == r || a == -r)
  {
    if r < 0.0 then -r else r
  }

  /** The summed per-axis change between two samples. */
  function Jolt(a: Vec3, b: Vec3): (j: real)
    ensures j >= 0.0
    ensures j == 0.0 <==> a == b
  {
    AbsReal(a.x - b.x) + AbsReal(a.y - b.y) + AbsReal(a.z - b.z)
  }

  /** The order of the two samples does not matter. */
  lemma JoltSymmetric(a: Vec3, b: Vec3)
    ensures Jolt(a, b) == Jolt(b, a)
  {
  }

  /** `triggerShake`: the pop sound, a vibration where possible, then the
      callback when one is set. */
  function TriggerShake(p: Platform): (r: seq<Effect>)
    ensures |r| >= 1 && r[0] == PopSound
    ensures (Vibrate(VibrateMs) in r) <==> p.canVibrate
    ensures (Shook in r) <==> p.hasCallback
    ensures p.hasCallback ==> r[|r| - 1] == Shook && Shook !in r[..|r| - 1]
  {
    [PopSound] + (if p.canVibrate then [Vibrate(VibrateMs)] else []) + (if p.hasCallback then [Shook] else [])
  }

  /** One event; `corrected` makes `destroy` actually detach the listener. */
  function StepWith(p: Platform, s: State, e: Event, corrected: bool): (r: (State, seq<Effect>))
  {
    match e
    case Motion(v) =>
      if !s.attached then (s, [])
      else if s.last.None? then (s.(last := Some(v)), [])
      else if Jolt(s.last.value, v) > ShakeThreshold && s.cooldown.None? then
        (s.(last := Some(v), cooldown := Some(s.nextTimer), nextTimer := s.nextTimer + 1),
         TriggerShake(p) + [CooldownArmed(s.nextTimer, CooldownMs)])
      else (s.(last := Some(v)), [])
    case Timeout(id) =>
      if s.cooldown == Some(id) then (s.(cooldown := None), []) else (s, [])
    case Destroy =>
      if !s.listening then (s, [])
      else if corrected then (s.(listening := false, attached := false), [])
      else (s.(listening := false), [])
  }

  /** The detector as written. */
  function Step(p: Platform, s: State, e: Event): (r: (State, seq<Effect>))
    ensures r.1 != [] ==> e.Motion? && s.attached && s.last.Some? && s.cooldown.None? &&
                          Jolt(s.last.value, e.sample) > ShakeThreshold
    ensures e.Motion? && s.attached ==> r.0.last == Some(e.sample)
    ensures !e.Motion? ==> r.0.last == s.last
  {
    StepWith(p, s, e, false)
  }

  /** The detector with a `destroy` that detaches its listener. */
  function StepCorrected(p: Platform, s: State, e: Event): (r: (State, seq<Effect>))
    ensures e.Destroy? ==> !r.0.attached || !s.listening
  {
    StepWith(p, s, e, true)
  }

  function Run(p: Platform, s: State, es: seq<Event>): (r: (State, seq<Effect>))
    decreases |es|
  {
    if |es| == 0 then (s, [])
    else
      var r1 := Step(p, s, es[0]);
      var r2 := Run(p, r1.0, es[1..]);
      (r2.0, r1.1 + r2.1)
  }

  /** The first sample only records the baseline. */
  lemma FirstSampleIsBaseline(p: Platform, s: State, v: Vec3)
    requires s.attached && s.last.None?
    ensures Step(p, s, Motion(v)) == (s.(last := Some(v)), [])
  {
  }

  /** After the baseline, a sample triggers exactly when its summed change is
      strictly above 15 and no cooldown is running; a trigger arms a 1000 ms
      cooldown. */
  lemma ShakeIff(p: Platform, s: State, v: Vec3)
    requires s.attached && s.last.Some?
    ensures var r := Step(p, s, Motion(v));
            var shakes := Jolt(s.last.value, v) > ShakeThreshold && s.cooldown.None?;
            (r.1 != [] <==> shakes) &&
            (shakes ==> r.1 == TriggerShake(p) + [CooldownArmed(s.nextTimer, CooldownMs)] &&
                        r.0.cooldown == Some(s.nextTimer)) &&
            (!shakes ==> r.0.cooldown == s.cooldown)
  {
  }

  /** A jolt of exactly 15 does not trigger. */
  lemma ThresholdIsStrict(p: Platform, s: State)
    requires s.attached && s.last == Some(Vec3(0.0, 0.0, 0.0)) && s.cooldown.None?
    ensures Step(p, s, Motion(Vec3(15.0, 0.0, 0.0))).1 == []
    ensures Step(p, s, Motion(Vec3(15.5, 0.0, 0.0))).1 != []
  {
  }

  predicate AllMotions(es: seq<Event>) {
    forall i :: 0 <= i < |es| ==> es[i].Motion?
  }

  /** While the cooldown runs, no sequence of samples triggers, the cooldown stays,
      and the baseline is always the latest sample. */
  lemma {:induction false} CooldownSuppresses(p: Platform, s: State, es: seq<Event>)
    requires s.cooldown.Some? && AllMotions(es)
    ensures Run(p, s, es).1 == []
    ensures Run(p, s, es).0.cooldown == s.cooldown
    ensures s.attached && |es| > 0 ==> Run(p, s, es).0.last == Some(es[|es| - 1].sample)
    decreases |es|
  {
    if |es| > 0 {
      var r1 := Step(p, s, es[0]);
      assert r1.1 == [] && r1.0.cooldown == s.cooldown && r1.0.attached == s.attached;
      assert AllMotions(es[1..]);
      CooldownSuppresses(p, r1.0, es[1..]);
      if |es| > 1 {
        assert es[1..][|es[1..]| - 1] == es[|es| - 1];
      }
    }
  }

  /** The cooldown's own timeout ends it; a stale id does nothing. */
  lemma TimeoutEndsCooldown(p: Platform, s: State, id: nat)
    ensures Step(p, s, Timeout(id)).1 == []
    ensures s.cooldown == Some(id) ==> Step(p, s, Timeout(id)).0 == s.(cooldown := None)
    ensures s.cooldown != Some(id) ==> Step(p, s, Timeout(id)).0 == s
  {
  }

  /** As written: `destroy` clears the flag but removes a different function
      from the window, so a later jolt still triggers a shake. */
  lemma DestroyedStillShakes(p: Platform, v: Vec3)
    requires p.hasCallback && Jolt(Vec3(0.0, 0.0, 0.0), v) > ShakeThreshold
    ensures var s0 := Setup(true, false, None);
            var s1 := Step(p, s0, Motion(Vec3(0.0, 0.0, 0.0))).0;
            var s2 := Step(p, s1, Destroy).0;
            !s2.listening && Shook in Step(p, s2, Motion(v)).1
  {
  }

  /** Corrected: once destroyed, no sample has any effect. */
  lemma CorrectedDestroyStops(p: Platform, s: State, v: Vec3)
    requires s.listening && s.attached
    ensures var s1 := StepCorrected(p, s, Destroy).0;
            StepCorrected(p, s1, Motion(v)) == (s1, [])
  {
  }
}

=== FILE: swipe_handler.dfy ===
/** The third generation's `SwipeHandler`: one-finger swipes gated by distance and
    speed and classified into four angle sectors, double taps, and two-finger
    pinches against a moving baseline. Square roots are avoided: the distance gate
    compares squared integer distances, and the pinch spread arrives with each
    two-finger event as a non-negative real whose square is the squared distance. */
module SwipeHandler {
  import opened Wrappers
  import opened Notes

  datatype Direction = Up | Down | Left | Right

  /** The callbacks the handler may fire, when registered. */
  datatype Gesture = SwipeUp | SwipeDown | SwipeLeft | SwipeRight | PinchIn | PinchOut | DoubleTap

  const DefaultThreshold: int := 50
  const DefaultVelocity: real := 0.3
  const DoubleTapWindow: int := 300
  const PinchStep: real := 30.0

  /** `threshold`, `velocity` (pixels per millisecond) and the registered callbacks. */
  datatype Config = Config(threshold: int, velocity: real, registered: set<Gesture>)

  predicate ValidConfig(c: Config) {
    c.velocity > 0.0
  }

  /** `options.x || default`: an absent or zero option takes the default. */
  function Configure(threshold: Option<int>, velocity: Option<real>, registered: set<Gesture>): (c: Config)
    requires velocity.Some? ==> velocity.value >= 0.0
    ensures ValidConfig(c) && c.registered == registered
    ensures c.threshold == if threshold.Some? && threshold.value != 0 then threshold.value else DefaultThreshold
    ensures c.velocity == if velocity.Some? && velocity.value != 0.0 then velocity.value else DefaultVelocity
  {
    Config(if threshold.Some? && threshold.value != 0 then threshold.value else DefaultThreshold,
           if velocity.Some? && velocity.value != 0.0 then velocity.value else DefaultVelocity,
           registered)
  }

  function SqDist(dx: int, dy: int): (d: int)
    ensures d >= 0
  {
    dx * dx + dy * dy
  }

  /** `distance < threshold` with `distance = sqrt(dx^2 + dy^2)`. */
  predicate TooShort(c: Config, dx: int, dy: int) {
    c.threshold > 0 && SqDist(dx, dy) < c.threshold * c.threshold
  }

  /** `distance / duration < velocity`: for a positive duration the speed is compared
      through squares; a zero duration gives Infinity (or NaN for no movement), which
      never compares below; a negative duration gives a speed at or below zero. */
  predicate TooSlow(c: Config, dx: int, dy: int, duration: int) {
    (duration > 0 && (SqDist(dx, dy) as real) < (c.velocity * duration as real) * (c.velocity * duration as real)) ||
    duration < 0
  }

  /** The four sectors of `atan2(dy, dx)` in degrees, on exact arithmetic:
      right (-45, 45], down (45, 135], left beyond 135 or at most -135, up (-135, -45];
      `atan2(0, 0)` is 0, so no movement counts as right. */
  predicate InRight(dx: int, dy: int) { (dx > 0 && -dx < dy <= dx) || (dx == 0 && dy == 0) }
  predicate InDown(dx: int, dy: int) { dy > 0 && -dy <= dx < dy }
  predicate InLeft(dx: int, dy: int) { dx < 0 && dx <= dy < -dx }
  predicate InUp(dx: int, dy: int) { dy < 0 && dy < dx <= -dy }

  /** The sectors partition the plane: every movement lies in exactly one. */
  lemma SectorsPartition(dx: int, dy: int)
    ensures InRight(dx, dy) || InDown(dx, dy) || InLeft(dx, dy) || InUp(dx, dy)
    ensures !(InRight(dx, dy) && InDown(dx, dy)) && !(InRight(dx, dy) && InLeft(dx, dy)) && !(InRight(dx, dy) && InUp(dx, dy))
    ensures !(InDown(dx, dy) && InLeft(dx, dy)) && !(InDown(dx, dy) && InUp(dx, dy)) && !(InLeft(dx, dy) && InUp(dx, dy))
  {
  }

  function Sector(dx: int, dy: int): (d: Direction)
    ensures d == Right <==> InRight(dx, dy)
    ensures d == Down <==> InDown(dx, dy)
    ensures d == Left <==> InLeft(dx, dy)
    ensures d == Up <==> InUp(dx, dy)
  {
    SectorsPartition(dx, dy);
    if InRight(dx, dy) then Right
    else if InDown(dx, dy) then Down
    else if InLeft(dx, dy) then Left
    else Up
  }

  /** `detectSwipe(startX, startY, endX, endY, duration)`: null when too short or too
      slow, otherwise the sector of the movement. */
  function DetectSwipe(c: Config, start: Point, end: Point, duration: int): (r: Option<Direction>)
    ensures r.None? <==> TooShort(c, end.x - start.x, end.y - start.y) || TooSlow(c, end.x - start.x, end.y - start.y, duration)
    ensures r.Some? ==> r.value == Sector(end.x - start.x, end.y - start.y)
  {
    var dx := end.x - start.x;
    var dy := end.y - start.y;
    if TooShort(c, dx, dy) then None
    else if TooSlow(c, dx, dy, duration) then None
    else Some(Sector(dx, dy))
  }

  /** With the default threshold a movement of 50 pixels along an axis passes the
      distance gate and one of 49 does not; a 50-pixel movement in 166 ms passes the
      speed gate (0.301 px/ms) and in 167 ms does not (0.299 px/ms). */
  lemma DefaultGates(c: Config)
    requires c.threshold == DefaultThreshold && c.velocity == DefaultVelocity
    ensures !TooShort(c, 50, 0) && TooShort(c, 49, 0) && TooShort(c, 35, 35)
    ensures !TooSlow(c, 50, 0, 166) && TooSlow(c, 50, 0, 167)
  {
  }

  /** The touches of an event; `spread` is the distance between the first two when
      there are exactly two. */
  datatype Touches = Touches(points: seq<Point>, spread: real)

  predicate Measured(t: Touches) {
    |t.points| == 2 ==>
      t.spread >= 0.0 &&
      t.spread * t.spread == SqDist(t.points[0].x - t.points[1].x, t.points[0].y - t.points[1].y) as real
  }

  /** `getPinchDistance()`: 0 unless exactly two touches are down. */
  function PinchDistance(t: Touches): (d: real)
    requires Measured(t)
    ensures d >= 0.0
    ensures |t.points| != 2 ==> d == 0.0
  {
    if |t.points| != 2 then 0.0 else t.spread
  }

  /** `touches`, `touchStart`, `startTime`, `lastTapTime`, `pinchStartDistance`. */
  datatype State = State(touches: Touches, touchStart: Option<Point>, startTime: Option<int>, lastTapTime: int, pinchStart: real)

  predicate Inv(s: State) {
    Measured(s.touches) && s.pinchStart >= 0.0 && (s.touchStart.Some? ==> s.startTime.Some?)
  }

  function Init(): (s: State)
    ensures Inv(s)
  {
    State(Touches([], 0.0), None, None, 0, 0.0)
  }

  datatype Event =
    | TouchStart(touches: Touches, now: int)
    | TouchMove(touches: Touches)
    | TouchEnd(changed: Point, remaining: Touches, now: int)
    | TouchCancel

  predicate ValidEvent(e: Event) {
    match e
    case TouchStart(t, _) => Measured(t)
    case TouchMove(t) => Measured(t)
    case TouchEnd(_, t, _) => Measured(t)
    case TouchCancel => true
  }

  function SwipeGesture(d: Direction): Gesture {
    match d
    case Up => SwipeUp
    case Down => SwipeDown
    case Left => SwipeLeft
    case Right => SwipeRight
  }

  /** A callback fires only when registered. */
  function Fire(c: Config, g: Gesture): (r: seq<Gesture>)
    ensures r == if g in c.registered then [g] else []
  {
    if g in c.registered then [g] else []
  }

  /** `reset()`: everything but `lastTapTime` goes back to its initial value. */
  function Reset(s: State): (r: State)
    ensures r == Init().(lastTapTime := s.lastTapTime)
  {
    State(Touches([], 0.0), None, None, s.lastTapTime, 0.0)
  }

  /** One event and the callbacks it fires. */
  function Step(c: Config, s: State, e: Event): (r: (State, seq<Gesture>))
    requires Inv(s) && ValidEvent(e)
    ensures Inv(r.0)
    ensures |r.1| <= 1
  {
    match e
    case TouchStart(t, now) =>
      if |t.points| == 1 then
        var fired := if now - s.lastTapTime < DoubleTapWindow then Fire(c, DoubleTap) else [];
        (s.(touches := t, touchStart := Some(t.points[0]), startTime := Some(now), lastTapTime := now), fired)
      else if |t.points| == 2 then (s.(touches := t, pinchStart := PinchDistance(t)), [])
      else (s.(touches := t), [])
    case TouchMove(t) =>
      if |t.points| == 2 then
        var delta := PinchDistance(t) - s.pinchStart;
        if delta > PinchStep || delta < -PinchStep then
          var fired := if delta > 0.0 && PinchOut in c.registered then [PinchOut]
                       else if delta < 0.0 && PinchIn in c.registered then [PinchIn] else [];
          (s.(touches := t, pinchStart := PinchDistance(t)), fired)
        else (s.(touches := t), [])
      else (s.(touches := t), [])
    case TouchEnd(p, remaining, now) =>
      var fired := if |s.touches.points| == 1 && s.touchStart.Some? then
                     var d := DetectSwipe(c, s.touchStart.value, p, now - s.startTime.value);
                     if d.Some? then Fire(c, SwipeGesture(d.value)) else []
                   else [];
      var s1 := s.(touches := remaining);
      (if |remaining.points| == 0 then Reset(s1) else s1, fired)
    case TouchCancel => (Reset(s), [])
  }

  /** A touchend reports a swipe only when the last recorded touch list had exactly
      one touch and a start was recorded, and then exactly the detected direction. */
  lemma SwipeOnlyFromOneTouch(c: Config, s: State, p: Point, remaining: Touches, now: int)
    requires Inv(s) && Measured(remaining)
    ensures var fired := Step(c, s, TouchEnd(p, remaining, now)).1;
            (fired != [] ==> |s.touches.points| == 1 && s.touchStart.Some?) &&
            (|s.touches.points| == 1 && s.touchStart.Some? ==>
              var d := DetectSwipe(c, s.touchStart.value, p, now - s.startTime.value);
              fired == if d.Some? && SwipeGesture(d.value) in c.registered then [SwipeGesture(d.value)] else [])
  {
  }

  /** Lifting the last finger, or a touchcancel, resets the recogniser. */
  lemma LastLiftResets(c: Config, s: State, p: Point, now: int)
    requires Inv(s)
    ensures Step(c, s, TouchEnd(p, Touches([], 0.0), now)).0 == Reset(s)
    ensures Step(c, s, TouchCancel) == (Reset(s), [])
  {
  }

  /** Two single-finger touchstarts less than 300 ms apart fire the double tap; the
      tap time moves on every start, so three starts 200 ms apart fire it twice. */
  lemma ThreeQuickTapsFireTwice(c: Config, s: State, p: Point, t0: int)
    requires Inv(s) && DoubleTap in c.registered && t0 - s.lastTapTime >= DoubleTapWindow
    ensures var one := Touches([p], 0.0);
            var r1 := Step(c, s, TouchStart(one, t0));
            var r2 := Step(c, r1.0, TouchStart(one, t0 + 200));
            var r3 := Step(c, r2.0, TouchStart(one, t0 + 400));
            r1.1 == [] && r2.1 == [DoubleTap] && r3.1 == [DoubleTap]
  {
  }

  /** A two-finger move fires a pinch only past 30 pixels of change from the
      baseline, and then re-baselines; the baseline is unchanged otherwise. */
  lemma PinchRebaselines(c: Config, s: State, t: Touches)
    requires Inv(s) && Measured(t) && |t.points| == 2
    ensures var r := Step(c, s, TouchMove(t));
            var delta := t.spread - s.pinchStart;
            (delta > PinchStep ==> r.0.pinchStart == t.spread && r.1 == Fire(c, PinchOut)) &&
            (delta < -PinchStep ==> r.0.pinchStart == t.spread && r.1 == Fire(c, PinchIn)) &&
            (-PinchStep <= delta <= PinchStep ==> r.0.pinchStart == s.pinchStart && r.1 == [])
  {
  }

  /** The pinch-out test in squared terms: the spread exceeds the baseline by more
      than 30 exactly when the squared distance exceeds (baseline + 30)^2. */
  lemma PinchOutBySquares(t: Touches, base: real)
    requires Measured(t) && |t.points| == 2 && base >= 0.0
    ensures t.spread - base > PinchStep <==>
      SqDist(t.points[0].x - t.points[1].x, t.points[0].y - t.points[1].y) as real > (base + PinchStep) * (base + PinchStep)
  {
    var d := t.spread;
    var b := base + PinchStep;
    if d > b {
      assert d * d > b * d > b * b;
    } else {
      assert d * d <= b * d <= b * b;
    }
  }
}

=== FILE: text.dfy ===
/** Decimal rendering and parsing of integers the way JavaScript's `String(n)`,
    `padStart(2, '0')` and `parseInt` treat them, plus the few string helpers the
    journal's keys and labels are built from. */
module Text {

  predicate IsDigit(c: char) {
    '0' <= c <= '9'
  }

  predicate AllDigits(s: string) {
    forall i :: 0 <= i < |s| ==> IsDigit(s[i])
  }

  function DigitChar(d: int): (c: char)
    requires 0 <= d < 10
    ensures IsDigit(c) && c as int - '0' as int == d
  {
    (d + '0' as int) as char
  }

  function DigitValue(c: char): (d: int)
    requires IsDigit(c)
    ensures 0 <= d < 10
  {
    c as int - '0' as int
  }

  /** `String(n)` for a non-negative integer: no sign, no leading zeros. */
  function NatToString(n: nat): (s: string)
    ensures 1 <= |s|
    ensures AllDigits(s)
    ensures |s| == 1 <==> n < 10
    ensures n >= 10 ==> s[0] != '0'
    decreases n
  {
    if n < 10 then [DigitChar(n)] else NatToString(n / 10) + [DigitChar(n % 10)]
  }

  /** `String(n)` (or `${n}`) for any integer: a leading '-' for negatives. */
  function IntToString(n: int): (s: string)
    ensures 1 <= |s|
    ensures n >= 0 ==> s == NatToString(n)
    ensures n < 0 ==> s == "-" + NatToString(-n)
  {
    if n < 0 then "-" + NatToString(-n) else NatToString(n)
  }

  /** The value of a string of decimal digits, most significant first (`parseInt`
      on a string that holds only digits). */
  function ParseDigits(s: string): (v: nat)
    requires AllDigits(s)
    ensures |s| == 1 ==> v == DigitValue(s[0])
    decreases |s|
  {
    if |s| == 0 then 0 else 10 * ParseDigits(s[..|s| - 1]) + DigitValue(s[|s| - 1])
  }

  /** Parsing inverts rendering, so rendering never maps two numbers to one string. */
  lemma {:induction false} ParseNatToString(n: nat)
    ensures ParseDigits(NatToString(n)) == n
    decreases n
  {
    if n >= 10 {
      var s := NatToString(n);
      assert s[..|s| - 1] == NatToString(n / 10);
      ParseNatToString(n / 10);
    }
  }

  lemma NatToStringInjective(a: nat, b: nat)
    ensures NatToString(a) == NatToString(b) <==> a == b
  {
    if NatToString(a) == NatToString(b) {
      ParseNatToString(a);
      ParseNatToString(b);
    }
  }

  lemma IntToStringInjective(a: int, b: int)
    ensures IntToString(a) == IntToString(b) <==> a == b
  {
    if IntToString(a) == IntToString(b) {
      if a < 0 && b < 0 {
        assert NatToString(-a) == IntToString(a)[1..] == IntToString(b)[1..] == NatToString(-b);
        NatToStringInjective(-a, -b);
      } else if a >= 0 && b >= 0 {
        NatToStringInjective(a, b);
      }
    }
  }

  /** The last digit of a digit string decides its value modulo 10. */
  lemma ParseDigitsLastDigit(s: string, t: string)
    requires AllDigits(s) && AllDigits(t) && |t| >= 1
    ensures AllDigits(s + t)
    ensures ParseDigits(s + t) % 10 == DigitValue(t[|t| - 1])
  {
    var st := s + t;
    assert st[|st| - 1] == t[|t| - 1];
  }

  /** Two concatenations with equally long tails are equal only piecewise. */
  lemma AppendCancel(a: string, s: string, b: string, t: string)
    requires a + s == b + t && |s| == |t|
    ensures a == b && s == t
  {
    assert a == (a + s)[..|a|];
    assert b == (b + t)[..|b|];
    assert s == (a + s)[|a|..];
    assert t == (b + t)[|b|..];
  }

  /** `str.padStart(width, fill)`: left-pads with the fill character up to `width`. */
  function PadStart(s: string, width: nat, fill: char): (r: string)
    ensures |s| >= width ==> r == s
    ensures |s| < width ==> |r| == width && r[width - |s|..] == s
    ensures forall i :: 0 <= i < |r| - |s| ==> r[i] == fill
    decreases width - |s|
  {
    if |s| >= width then s else PadStart([fill] + s, width, fill)
  }

  /** `String(n).padStart(2, '0')`. */
  function Pad2(n: int): (s: string)
    ensures 0 <= n < 100 ==> |s| == 2 && AllDigits(s)
    ensures 0 <= n < 10 ==> s == ['0', DigitChar(n)]
    ensures 10 <= n < 100 ==> s == NatToString(n)
  {
    PadStart(IntToString(n), 2, '0')
  }

  /** Two-digit padding keeps the value readable back and distinct values apart. */
  lemma Pad2Parses(n: int)
    requires 0 <= n < 100
    ensures ParseDigits(Pad2(n)) == n
    ensures DigitValue(Pad2(n)[1]) == n % 10
  {
    if n >= 10 {
      ParseNatToString(n);
      assert Pad2(n)[..1] == NatToString(n / 10);
    } else {
      assert Pad2(n)[..1] == "0";
    }
  }

  lemma Pad2Injective(a: int, b: int)
    requires 0 <= a < 100 && 0 <= b < 100
    ensures Pad2(a) == Pad2(b) <==> a == b
  {
    Pad2Parses(a);
    Pad2Parses(b);
  }

  /** ASCII-only `toLowerCase`. */
  function ToLower(s: string): (r: string)
    ensures |r| == |s|
    ensures forall i :: 0 <= i < |s| ==> ('A' <= s[i] <= 'Z' ==> r[i] as int == s[i] as int + 32)
    ensures forall i :: 0 <= i < |s| ==> (!('A' <= s[i] <= 'Z') ==> r[i] == s[i])
  {
    seq(|s|, i requires 0 <= i < |s| => if 'A' <= s[i] <= 'Z' then (s[i] as int + 32) as char else s[i])
  }

  /** ASCII-only `toUpperCase`. */
  function ToUpper(s: string): (r: string)
    ensures |r| == |s|
    ensures forall i :: 0 <= i < |s| ==> ('a' <= s[i] <= 'z' ==> r[i] as int == s[i] as int - 32)
    ensures forall i :: 0 <= i < |s| ==> (!('a' <= s[i] <= 'z') ==> r[i] == s[i])
  {
    seq(|s|, i requires 0 <= i < |s| => if 'a' <= s[i] <= 'z' then (s[i] as int - 32) as char else s[i])
  }

  predicate OccursAt(haystack: string, needle: string, i: int) {
    0 <= i <= |haystack| - |needle| && haystack[i..i + |needle|] == needle
  }

  /** `haystack.includes(needle)`. */
  predicate Contains(haystack: string, needle: string) {
    exists i | 0 <= i <= |haystack| - |needle| :: OccursAt(haystack, needle, i)
  }

  lemma ContainsEmpty(s: string)
    ensures Contains(s, "")
  {
    assert OccursAt(s, "", 0);
  }

  /** `str.startsWith(prefix)`. */
  predicate StartsWith(s: string, prefix: string) {
    |prefix| <= |s| && s[..|prefix|] == prefix
  }

  lemma StartsWithAppend(p: string, s: string)
    ensures StartsWith(p + s, p)
  {
    assert (p + s)[..|p|] == p;
  }

  /** `str.split(sep)` for a single-character separator: every occurrence splits,
      so adjacent separators give empty pieces and the result is never empty. */
  function Split(s: string, sep: char): (parts: seq<string>)
    ensures |parts| >= 1
    ensures forall p :: p in parts ==> sep !in p
    decreases |s|
  {
    if |s| == 0 then [""]
    else
      var rest := Split(s[1..], sep);
      if s[0] == sep then [""] + rest else [[s[0]] + rest[0]] + rest[1..]
  }

  /** Joining the pieces of a split with the separator gives back the string. */
  function Join(parts: seq<string>, sep: char): string
    requires |parts| >= 1
    decreases |parts|
  {
    if |parts| == 1 then parts[0] else parts[0] + [sep] + Join(parts[1..], sep)
  }

  lemma {:induction false} SplitJoin(s: string, sep: char)
    ensures Join(Split(s, sep), sep) == s
    decreases |s|
  {
    if |s| > 0 {
      SplitJoin(s[1..], sep);
      var rest := Split(s[1..], sep);
      if s[0] == sep {
        assert Split(s, sep) == [""] + rest;
        assert Split(s, sep)[1..] == rest;
      } else {
        var parts := Split(s, sep);
        assert parts == [[s[0]] + rest[0]] + rest[1..];
        if |rest| == 1 {
          assert Join(parts, sep) == [s[0]] + rest[0];
        } else {
          assert parts[1..] == rest[1..];
          assert Join(rest, sep) == rest[0] + [sep] + Join(rest[1..], sep);
        }
      }
    }
  }

  /** Splitting at the first separator: the piece before it, then the pieces of
      the rest. */
  lemma {:induction false} SplitAfter(a: string, rest: string, sep: char)
    requires sep !in a
    ensures Split(a + [sep] + rest, sep) == [a] + Split(rest, sep)
    decreases |a|
  {
    if |a| == 0 {
      assert a + [sep] + rest == [sep] + rest;
      assert ([sep] + rest)[1..] == rest;
    } else {
      SplitAfter(a[1..], rest, sep);
      assert (a + [sep] + rest)[1..] == a[1..] + [sep] + rest;
      assert [a[0]] + a[1..] == a;
    }
  }

  /** A string without the separator is one piece. */
  lemma {:induction false} SplitNone(a: string, sep: char)
    requires sep !in a
    ensures Split(a, sep) == [a]
    decreases |a|
  {
    if |a| > 0 {
      SplitNone(a[1..], sep);
      assert [a[0]] + a[1..] == a;
    }
  }

  /** A split gives one piece exactly when the separator does not occur. */
  lemma {:induction false} SplitSingle(s: string, sep: char)
    ensures |Split(s, sep)| == 1 <==> sep !in s
    decreases |s|
  {
    if |s| > 0 {
      SplitSingle(s[1..], sep);
      assert s == [s[0]] + s[1..];
      assert sep in s <==> s[0] == sep || sep in s[1..];
    }
  }

  /** The characters `String.prototype.trim` removes that the journal's texts
      can hold. */
  predicate IsSpace(c: char) {
    c == ' ' || c == '\t' || c == '\n' || c == '\r' || c == '\U{B}' || c == '\U{C}' ||
    c == '\U{A0}' || c == '\U{2028}' || c == '\U{2029}' || c == '\U{FEFF}'
  }

  /** How many spaces a string starts with. */
  function Leading(s: string): (k: nat)
    ensures k <= |s|
    ensures forall i | 0 <= i < k :: IsSpace(s[i])
    ensures k < |s| ==> !IsSpace(s[k])
    decreases |s|
  {
    if |s| == 0 || !IsSpace(s[0]) then 0 else 1 + Leading(s[1..])
  }

  /** How many spaces a string ends with. */
  function Trailing(s: string): (k: nat)
    ensures k <= |s|
    ensures forall i | |s| - k <= i < |s| :: IsSpace(s[i])
    ensures k < |s| ==> !IsSpace(s[|s| - k - 1])
    decreases |s|
  {
    if |s| == 0 || !IsSpace(s[|s| - 1]) then 0 else 1 + Trailing(s[..|s| - 1])
  }

  /** `str.trim()`: the string without its leading and trailing spaces. */
  function Trim(s: string): (r: string)
    ensures |r| > 0 ==> !IsSpace(r[0]) && !IsSpace(r[|r| - 1])
    ensures exists i, j | 0 <= i <= j <= |s| :: r == s[i..j] &&
              (forall k | 0 <= k < i :: IsSpace(s[k])) && (forall k | j <= k < |s| :: IsSpace(s[k]))
  {
    var a := Leading(s);
    var b := Trailing(s[a..]);
    TrimShape(s, a, b);
    s[a..|s| - b]
  }

  /** With `a` leading and `b` trailing spaces counted, the middle slice is the
      trimmed string. */
  lemma TrimShape(s: string, a: nat, b: nat)
    requires a <= |s| && b <= |s| - a
    requires forall k | 0 <= k < a :: IsSpace(s[k])
    requires a < |s| ==> !IsSpace(s[a])
    requires forall k | |s| - a - b <= k < |s| - a :: IsSpace(s[a..][k])
    requires b < |s| - a ==> !IsSpace(s[a..][|s| - a - b - 1])
    ensures var r := s[a..|s| - b];
            (|r| > 0 ==> !IsSpace(r[0]) && !IsSpace(r[|r| - 1])) &&
            exists i, j | 0 <= i <= j <= |s| :: r == s[i..j] &&
              (forall k | 0 <= k < i :: IsSpace(s[k])) && (forall k | j <= k < |s| :: IsSpace(s[k]))
  {
    var t := s[a..];
    assert forall k | |s| - b <= k < |s| :: s[k] == t[k - a];
    assert 0 <= a <= |s| - b <= |s| && s[a..|s| - b] == s[a..|s| - b];
  }

  /** Trimming a string that has no spaces at either end leaves it as it is. */
  lemma TrimClean(s: string)
    requires |s| > 0 ==> !IsSpace(s[0]) && !IsSpace(s[|s| - 1])
    ensures Trim(s) == s
  {
    assert Leading(s) == 0;
    assert Trailing(s) == 0;
  }

  /** Removes every occurrence of one character (`str.replace(/-/g, '')`). */
  function Remove(s: string, c: char): (r: string)
    ensures c !in r
    ensures |r| <= |s|
    decreases |s|
  {
    if |s| == 0 then "" else (if s[0] == c then "" else [s[0]]) + Remove(s[1..], c)
  }

  lemma {:induction false} RemoveAppend(a: string, b: string, c: char)
    ensures Remove(a + b, c) == Remove(a, c) + Remove(b, c)
    decreases |a|
  {
    if |a| > 0 {
      assert (a + b)[1..] == a[1..] + b;
      RemoveAppend(a[1..], b, c);
    } else {
      assert a + b == b;
    }
  }

  lemma {:induction false} RemoveDigits(s: string, c: char)
    requires AllDigits(s) && !IsDigit(c)
    ensures Remove(s, c) == s
    decreases |s|
  {
    if |s| > 0 {
      RemoveDigits(s[1..], c);
    }
  }
}

=== FILE: tiktok_export.dfy ===
/** The newer journal's vertical story export (`TikTokExport`) on a 1080 by 1920
    canvas: which parts a story image draws, which frames a story video has,
    where the photo grid puts each photo, how notes are shortened, and how the
    date heading is split over two lines. Pixels, fonts, text measurement and
    image decoding are not modelled. */
module TikTokExport {
  import opened Wrappers
  import opened Notes
  import Json
  import Text
  import Seqs
  import ExportHandler

  const Width: int := 1080
  const Height: int := 1920
  const GridY: int := 800
  const PhotoSize: int := 400
  const Padding: int := 20
  const Cols: int := 2
  const MaxPhotos: nat := 4
  const MaxNotes: nat := 2
  const UnknownLocation: string := "Unknown Location"

  /** Where one photo of the grid is drawn: its top-left corner. */
  datatype Slot = Slot(x: int, y: int)

  /** The corner of photo `i` in `drawPhotoGrid`. */
  function PhotoSlot(i: nat): (s: Slot)
    ensures s.x == 130 + 420 * (i % 2) && s.y == 800 + 420 * (i / 2)
  {
    var row, col := i / Cols, i % Cols;
    Slot(50 + col * (PhotoSize + Padding) + (Width - (PhotoSize * 2 + Padding)) / 2 - 50,
         GridY + row * (PhotoSize + Padding))
  }

  /** `drawPhotoGrid(photos)`: a slot for each of the first four photos. */
  function PhotoGrid(photos: seq<Note>): (r: seq<Slot>)
    ensures |r| == if |photos| < MaxPhotos then |photos| else MaxPhotos
    ensures forall i | 0 <= i < |r| :: r[i] == PhotoSlot(i)
  {
    var n := if |photos| < MaxPhotos then |photos| else MaxPhotos;
    seq(n, i requires 0 <= i < n => PhotoSlot(i))
  }

  /** The grid is two by two: the four photos lie on the canvas, in the grid's
      band, and no two of them overlap. */
  lemma GridLayout(i: nat, j: nat)
    requires i < 4 && j < 4 && i != j
    ensures var a, b := PhotoSlot(i), PhotoSlot(j);
            0 <= a.x && a.x + PhotoSize <= Width && GridY <= a.y && a.y + PhotoSize <= Height &&
            (a.x + PhotoSize <= b.x || b.x + PhotoSize <= a.x || a.y + PhotoSize <= b.y || b.y + PhotoSize <= a.y)
  {
  }

  /** The notes box: up to two shortened notes and, past two, a count of the
      rest. */
  datatype NotesBlock = NotesBlock(lines: seq<string>, more: Option<string>)

  /** One note's line: its first 50 characters and an ellipsis, whatever its
      length. A note whose content is not text has no `substring`, so drawing
      it throws. */
  function NoteLine(n: Note): (r: Option<string>)
    ensures r.Some? <==> n.content.Str?
    ensures r.Some? ==> r.value == "• " + Seqs.Take(n.content.s, 50) + "..."
  {
    if n.content.Str? then Some("• " + Seqs.Take(n.content.s, 50) + "...") else None
  }

  /** `drawNotes(notes)`. */
  function DrawNotes(notes: seq<Note>): (r: Option<NotesBlock>)
    ensures r.None? <==> exists i | 0 <= i < |notes| && i < MaxNotes :: !notes[i].content.Str?
    ensures r.Some? ==> |r.value.lines| == (if |notes| < MaxNotes then |notes| else MaxNotes)
    ensures r.Some? ==> forall i | 0 <= i < |r.value.lines| :: Some(r.value.lines[i]) == NoteLine(notes[i])
    ensures r.Some? ==> (r.value.more.Some? <==> |notes| > MaxNotes)
    ensures r.Some? && |notes| > MaxNotes ==> r.value.more == Some("+" + Text.IntToString(|notes| - MaxNotes) + " more notes...")
  {
    var shown := Seqs.Take(notes, MaxNotes);
    if exists i | 0 <= i < |shown| :: !shown[i].content.Str? then None
    else
      Some(NotesBlock(seq(|shown|, i requires 0 <= i < |shown| => NoteLine(shown[i]).value),
                      if |notes| > MaxNotes then Some("+" + Text.IntToString(|notes| - MaxNotes) + " more notes...") else None))
  }

  /** Every drawn note ends in "...", even one of fewer than 50 characters, and
      the count line appears exactly when notes are left out. */
  lemma NotesAlwaysEllipsis(notes: seq<Note>, i: nat)
    requires DrawNotes(notes).Some? && i < |DrawNotes(notes).value.lines|
    ensures var line := DrawNotes(notes).value.lines[i];
            |line| >= 5 && line[|line| - 3..] == "..." && |line| <= 55
  {
    var line := DrawNotes(notes).value.lines[i];
    assert Some(line) == NoteLine(notes[i]);
  }

  /** `drawDateHeader(dateString)`: with a comma, the first two comma-separated
      parts on two lines (the second trimmed); without, the string on one. */
  function DateHeader(dateString: string): (lines: seq<string>)
    ensures |lines| == 1 <==> ',' !in dateString
    ensures |lines| == 1 ==> lines[0] == dateString
    ensures |lines| == 2 ==> ',' !in lines[0] && ',' !in lines[1]
  {
    var parts := Text.Split(dateString, ',');
    Text.SplitSingle(dateString, ',');
    if |parts| > 1 then
      assert parts[0] in parts && parts[1] in parts;
      TrimNoComma(parts[1]);
      [parts[0], Text.Trim(parts[1])]
    else
      [dateString]
  }

  lemma TrimNoComma(s: string)
    requires ',' !in s
    ensures ',' !in Text.Trim(s)
  {
  }

  /** The en-US long date `toLocaleDateString` gives the heading:
      "Weekday, Month D, YYYY". */
  function LongDate(weekday: string, month: string, day: nat, year: nat): string {
    weekday + ", " + (month + " " + Text.NatToString(day)) + ", " + Text.NatToString(year)
  }

  /** Regrouping a ", "-joined string around its first comma. */
  lemma CommaJoin(a: string, b: string, c: string)
    ensures a + ", " + b + ", " + c == a + [','] + ((" " + b) + [','] + (" " + c))
    ensures a + ", " + b + ", " + c == a + [','] + (" " + (b + ", " + c))
  {
  }

  /** A comma-free text trimmed with a leading space. */
  lemma TrimLeadingSpace(x: string)
    requires |x| > 0 && !Text.IsSpace(x[0]) && !Text.IsSpace(x[|x| - 1])
    ensures Text.Trim(" " + x) == x
  {
    var s := " " + x;
    assert Text.Leading(s) == 1 + Text.Leading(x);
    assert Text.Leading(x) == 0;
    assert s[1..] == x;
    Text.TrimClean(x);
  }

  lemma NumberIsPlain(n: nat)
    ensures ',' !in Text.NatToString(n)
    ensures !Text.IsSpace(Text.NatToString(n)[|Text.NatToString(n)| - 1])
  {
    var s := Text.NatToString(n);
    assert Text.IsDigit(s[|s| - 1]);
    assert forall k | 0 <= k < |s| :: s[k] != ',';
  }

  /** "Month D": no comma, and no space at either end. */
  lemma MonthDayIsPlain(month: string, day: nat)
    requires ',' !in month && |month| > 0 && !Text.IsSpace(month[0])
    ensures var md := month + " " + Text.NatToString(day);
            ',' !in md && ',' !in " " + md && |md| > 0 && !Text.IsSpace(md[0]) && !Text.IsSpace(md[|md| - 1])
  {
    var d := Text.NatToString(day);
    NumberIsPlain(day);
    var md := month + " " + d;
    assert md[|md| - 1] == d[|d| - 1];
  }

  /** As written, the year of an en-US heading is never drawn: the heading
      splits into three parts and only the first two are shown. */
  lemma HeadingDropsYear(weekday: string, month: string, day: nat, year: nat)
    requires ',' !in weekday && ',' !in month && |month| > 0 && !Text.IsSpace(month[0])
    ensures DateHeader(LongDate(weekday, month, day, year)) == [weekday, month + " " + Text.NatToString(day)]
  {
    var md := month + " " + Text.NatToString(day);
    var y := Text.NatToString(year);
    MonthDayIsPlain(month, day);
    CommaJoin(weekday, md, y);
    Text.SplitAfter(weekday, (" " + md) + [','] + (" " + y), ',');
    Text.SplitAfter(" " + md, " " + y, ',');
    TrimLeadingSpace(md);
  }

  /** The heading split at its first comma only, which keeps everything after
      it on the second line. */
  function DateHeaderCorrected(dateString: string): (lines: seq<string>)
    ensures |lines| == 1 <==> ',' !in dateString
    ensures |lines| == 1 ==> lines[0] == dateString
    ensures |lines| == 2 ==> ',' !in lines[0]
  {
    if ',' in dateString then
      var k := FirstComma(dateString);
      [dateString[..k], Text.Trim(dateString[k + 1..])]
    else [dateString]
  }

  function FirstComma(s: string): (k: nat)
    requires ',' in s
    ensures k < |s| && s[k] == ',' && ',' !in s[..k]
  {
    if s[0] == ',' then 0
    else
      var k := FirstComma(s[1..]);
      assert s[..k + 1] == [s[0]] + s[1..][..k];
      k + 1
  }

  /** The first comma of `a,rest` for a comma-free `a` is the one after `a`. */
  lemma FirstCommaAfter(a: string, rest: string)
    requires ',' !in a
    ensures FirstComma(a + [','] + rest) == |a|
  {
    var s := a + [','] + rest;
    assert s[|a|] == ',';
    assert s[..|a|] == a;
  }

  /** With the corrected split the en-US heading shows the weekday, then the
      month, day and year. */
  lemma CorrectedHeadingKeepsYear(weekday: string, month: string, day: nat, year: nat)
    requires ',' !in weekday && ',' !in month && |month| > 0 && !Text.IsSpace(month[0])
    ensures DateHeaderCorrected(LongDate(weekday, month, day, year)) ==
              [weekday, month + " " + Text.NatToString(day) + ", " + Text.NatToString(year)]
  {
    var md := month + " " + Text.NatToString(day);
    var y := Text.NatToString(year);
    var rest := md + ", " + y;
    var s := LongDate(weekday, month, day, year);
    CommaJoin(weekday, md, y);
    assert s == weekday + [','] + (" " + rest);
    FirstCommaAfter(weekday, " " + rest);
    assert s[..|weekday|] == weekday;
    assert s[|weekday| + 1..] == " " + rest;
    MonthDayIsPlain(month, day);
    NumberIsPlain(year);
    assert rest[|rest| - 1] == y[|y| - 1];
    TrimLeadingSpace(rest);
  }

  /** One drawing step of the story image. */
  datatype Part =
    | Background
    | Decorations
    | Heading(lines: seq<string>)
    | PlaceLine(name: string)
    | VerseBox(content: Json.Value, title: string)
    | Grid(slots: seq<Slot>)
    | NotesBox(block: NotesBlock)
    | Stickers
    | Watermark

  /** The place line draws `city || 'Unknown Location'`. */
  function PlaceName(loc: ExportHandler.Location): (r: string)
    ensures loc.city != "" ==> r == loc.city
    ensures loc.city == "" ==> r == UnknownLocation
  {
    if loc.city != "" then loc.city else UnknownLocation
  }

  function PlacePart(d: ExportHandler.ExportData): (r: seq<Part>)
    ensures |r| <= 1 && forall p | p in r :: p.PlaceLine?
    ensures !HasGrid(r) && !HasNotes(r)
    ensures HasPlace(r) <==> d.location.Some? && d.location.value.city != ""
    ensures r != [] ==> d.location.Some? && r == [PlaceLine(d.location.value.city)]
  {
    if d.location.Some? && d.location.value.city != "" then
      assert PlaceLine(d.location.value.city) in [PlaceLine(d.location.value.city)];
      [PlaceLine(d.location.value.city)]
    else []
  }

  function VersePart(d: ExportHandler.ExportData): (r: seq<Part>)
    ensures |r| <= 1 && forall p | p in r :: p.VerseBox?
    ensures |r| == 1 <==> d.verse.Some?
    ensures !HasPlace(r) && !HasGrid(r) && !HasNotes(r)
  {
    if d.verse.Some? then [VerseBox(d.verse.value.content, d.verse.value.title)] else []
  }

  function GridPart(d: ExportHandler.ExportData): (r: seq<Part>)
    ensures |r| <= 1 && forall p | p in r :: p.Grid?
    ensures !HasPlace(r) && !HasNotes(r)
    ensures HasGrid(r) <==> |d.photos| > 0
  {
    if |d.photos| > 0 then
      assert Grid(PhotoGrid(d.photos)) in [Grid(PhotoGrid(d.photos))];
      [Grid(PhotoGrid(d.photos))]
    else []
  }

  function NotesPart(d: ExportHandler.ExportData): (r: seq<Part>)
    requires |d.notes| > 0 ==> DrawNotes(d.notes).Some?
    ensures |r| <= 1 && forall p | p in r :: p.NotesBox?
    ensures !HasPlace(r) && !HasGrid(r)
    ensures HasNotes(r) <==> |d.notes| > 0
  {
    if |d.notes| > 0 then
      assert NotesBox(DrawNotes(d.notes).value) in [NotesBox(DrawNotes(d.notes).value)];
      [NotesBox(DrawNotes(d.notes).value)]
    else []
  }

  /** `drawVerse(verse)` splits `verse.content` at spaces, so a verse whose
      content is not text throws. */
  predicate VerseThrows(d: ExportHandler.ExportData) {
    d.verse.Some? && !d.verse.value.content.Str?
  }

  /** Drawing the notes throws when one of the first two is not text. */
  predicate NotesThrow(d: ExportHandler.ExportData) {
    |d.notes| > 0 && DrawNotes(d.notes).None?
  }

  /** `createStoryImage(data)` with `dateString` given; `None` when drawing the
      verse or the notes throws. */
  function StoryImage(d: ExportHandler.ExportData, dateString: string): (r: Option<seq<Part>>)
    ensures r.None? <==> VerseThrows(d) || NotesThrow(d)
    ensures r.Some? ==> |r.value| >= 5 && r.value[..3] == [Background, Decorations, Heading(DateHeader(dateString))]
    ensures r.Some? ==> r.value[|r.value| - 2..] == [Stickers, Watermark]
  {
    if VerseThrows(d) || NotesThrow(d) then None
    else
      Some([Background, Decorations, Heading(DateHeader(dateString))] + PlacePart(d) + VersePart(d) + GridPart(d)
           + NotesPart(d) + [Stickers, Watermark])
  }

  predicate HasPlace(parts: seq<Part>) { exists p | p in parts :: p.PlaceLine? }
  predicate HasGrid(parts: seq<Part>) { exists p | p in parts :: p.Grid? }
  predicate HasNotes(parts: seq<Part>) { exists p | p in parts :: p.NotesBox? }

  lemma HasAppend(a: seq<Part>, b: seq<Part>)
    ensures HasPlace(a + b) <==> HasPlace(a) || HasPlace(b)
    ensures HasGrid(a + b) <==> HasGrid(a) || HasGrid(b)
    ensures HasNotes(a + b) <==> HasNotes(a) || HasNotes(b)
  {
    if HasPlace(a) { var p :| p in a && p.PlaceLine?; assert p in a + b; }
    if HasPlace(b) { var p :| p in b && p.PlaceLine?; assert p in a + b; }
    if HasGrid(a) { var p :| p in a && p.Grid?; assert p in a + b; }
    if HasGrid(b) { var p :| p in b && p.Grid?; assert p in a + b; }
    if HasNotes(a) { var p :| p in a && p.NotesBox?; assert p in a + b; }
    if HasNotes(b) { var p :| p in b && p.NotesBox?; assert p in a + b; }
  }

  /** The story shows the place only under a known city, and then by that name;
      the grid and the notes only when there are some. */
  lemma StoryParts(d: ExportHandler.ExportData, dateString: string)
    requires StoryImage(d, dateString).Some?
    ensures HasPlace(StoryImage(d, dateString).value) <==> d.location.Some? && d.location.value.city != ""
    ensures HasGrid(StoryImage(d, dateString).value) <==> |d.photos| > 0
    ensures HasNotes(StoryImage(d, dateString).value) <==> |d.notes| > 0
  {
    var head := [Background, Decorations, Heading(DateHeader(dateString))];
    var a := head + PlacePart(d);
    var b := a + VersePart(d);
    var c := b + GridPart(d);
    var e := c + NotesPart(d);
    assert StoryImage(d, dateString).value == e + [Stickers, Watermark];
    assert !HasPlace(head) && !HasGrid(head) && !HasNotes(head);
    assert !HasPlace([Stickers, Watermark]) && !HasGrid([Stickers, Watermark]) && !HasNotes([Stickers, Watermark]);
    HasAppend(head, PlacePart(d));
    HasAppend(a, VersePart(d));
    HasAppend(b, GridPart(d));
    HasAppend(c, NotesPart(d));
    HasAppend(e, [Stickers, Watermark]);
  }

  /** One frame of the story video. */
  datatype Frame =
    | TitleFrame(dateString: string)
    | PhotosFrame(slots: seq<Slot>)
    | NotesFrame(block: NotesBlock)
    | VerseFrame(content: Json.Value, title: string)
    | OutroFrame(place: Option<string>)

  /** `createVideoFrames(data)`: the title, then photos, notes and verse frames
      when there is something to show, then the outro; `None` when the notes
      frame or the verse frame throws. */
  function VideoFrames(d: ExportHandler.ExportData, dateString: string): (r: Option<seq<Frame>>)
    ensures r.None? <==> VerseThrows(d) || NotesThrow(d)
    ensures r.Some? ==> |r.value| == 2 + (if |d.photos| > 0 then 1 else 0) + (if |d.notes| > 0 then 1 else 0) + (if d.verse.Some? then 1 else 0)
    ensures r.Some? ==> r.value[0] == TitleFrame(dateString)
    ensures r.Some? ==> r.value[|r.value| - 1] == OutroFrame(if d.location.Some? then Some(PlaceName(d.location.value)) else None)
  {
    if VerseThrows(d) || NotesThrow(d) then None
    else
      Some([TitleFrame(dateString)]
           + (if |d.photos| > 0 then [PhotosFrame(PhotoGrid(d.photos))] else [])
           + (if |d.notes| > 0 then [NotesFrame(DrawNotes(d.notes).value)] else [])
           + (if d.verse.Some? then [VerseFrame(d.verse.value.content, d.verse.value.title)] else [])
           + [OutroFrame(if d.location.Some? then Some(PlaceName(d.location.value)) else None)])
  }

  /** A video has two to five frames, and the outro names a place whenever a
      location exists, "Unknown Location" when its city is missing, although the
      story image leaves such a place out. */
  lemma VideoShape(d: ExportHandler.ExportData, dateString: string)
    requires VideoFrames(d, dateString).Some?
    ensures 2 <= |VideoFrames(d, dateString).value| <= 5
    ensures d.location.Some? && d.location.value.city == "" ==>
              VideoFrames(d, dateString).value[|VideoFrames(d, dateString).value| - 1] == OutroFrame(Some(UnknownLocation))
  {
  }
}

=== FILE: title_hash.dfy ===
/** The note title both journal generations derive from a note's content: a 32-bit
    rolling hash over the UTF-16 code units of the text, written in base 36 and
    upper-cased. */
module TitleHash {
  import Text
  import Seqs
  import Json

  const TwoTo31: int := 0x8000_0000
  const TwoTo32: int := 0x1_0000_0000

  /** ECMAScript `ToInt32`: the integer congruent to `x` modulo 2^32 in
      [-2^31, 2^31). */
  function ToInt32(x: int): (r: int)
    ensures -TwoTo31 <= r < TwoTo31
    ensures -TwoTo31 <= x < TwoTo31 ==> r == x
  {
    (x + TwoTo31) % TwoTo32 - TwoTo31
  }

  /** `ToInt32` only sees `x` modulo 2^32. */
  lemma ToInt32Shift(x: int, k: int)
    ensures ToInt32(x + TwoTo32 * k) == ToInt32(x)
  {
    var y := x + TwoTo31;
    assert y + TwoTo32 * k == TwoTo32 * (y / TwoTo32 + k) + y % TwoTo32;
  }

  /** The result of `ToInt32` differs from its argument by a multiple of 2^32. */
  lemma ToInt32Offset(x: int)
    ensures ToInt32(x) == x - TwoTo32 * ((x + TwoTo31) / TwoTo32)
  {
  }

  /** `str.charCodeAt(i)` for every i: characters outside the Basic Multilingual
      Plane are two surrogate code units. */
  function Utf16(c: char): (u: seq<int>)
    ensures 1 <= |u| <= 2
    ensures c as int < 0x10000 <==> |u| == 1
  {
    if c as int < 0x10000 then [c as int]
    else [0xD800 + (c as int - 0x10000) / 0x400, 0xDC00 + (c as int - 0x10000) % 0x400]
  }

  function CodeUnits(s: string): (u: seq<int>)
    ensures |s| <= |u| <= 2 * |s|
    decreases |s|
  {
    if |s| == 0 then [] else CodeUnits(s[..|s| - 1]) + Utf16(s[|s| - 1])
  }

  /** One round of the loop: `hash = ((hash << 5) - hash) + char; hash = hash & hash`.
      The shift and the `&` both work on 32-bit integers. */
  function Step(h: int, unit: int): (r: int)
    ensures -TwoTo31 <= r < TwoTo31
  {
    ToInt32(ToInt32(h * 32) - h + unit)
  }

  /** The loop round is a multiply-by-31 step reduced to 32 bits. */
  lemma StepIs31(h: int, unit: int)
    ensures Step(h, unit) == ToInt32(31 * h + unit)
  {
    ToInt32Offset(h * 32);
    var q := (h * 32 + TwoTo31) / TwoTo32;
    ToInt32Shift(31 * h + unit, -q);
  }

  /** The hash of a sequence of code units, starting from 0. */
  function Hash(units: seq<int>): (h: int)
    ensures -TwoTo31 <= h < TwoTo31
    decreases |units|
  {
    if |units| == 0 then 0 else Step(Hash(units[..|units| - 1]), units[|units| - 1])
  }

  /** The unbounded polynomial `sum of units[i] * 31^(n-1-i)`. */
  function Poly(units: seq<int>): int
    decreases |units|
  {
    if |units| == 0 then 0 else 31 * Poly(units[..|units| - 1]) + units[|units| - 1]
  }

  /** The rolling 32-bit hash is the polynomial hash reduced to a signed 32-bit
      integer: truncating after every round loses nothing. */
  lemma {:induction false} HashIsPoly(units: seq<int>)
    ensures Hash(units) == ToInt32(Poly(units))
    decreases |units|
  {
    if |units| > 0 {
      var init := units[..|units| - 1];
      var c := units[|units| - 1];
      HashIsPoly(init);
      var p := Poly(init);
      var q := (p + TwoTo31) / TwoTo32;
      ToInt32Offset(p);
      StepIs31(Hash(init), c);
      assert 31 * Hash(init) + c == 31 * p + c + TwoTo32 * (-31 * q);
      ToInt32Shift(31 * p + c, -31 * q);
    }
  }

  /** `Math.abs` of a 32-bit integer: at most 2^31. */
  function Abs(h: int): (a: nat)
    ensures a == h || a == -h
  {
    if h < 0 then -h else h
  }

  /** A base-36 digit as `Number.prototype.toString(36)` writes it. */
  function Digit36(d: int): (c: char)
    requires 0 <= d < 36
    ensures d < 10 ==> c as int == '0' as int + d
    ensures d >= 10 ==> c as int == 'a' as int + d - 10
  {
    if d < 10 then (d + '0' as int) as char else (d - 10 + 'a' as int) as char
  }

  /** `n.toString(36)` for a non-negative integer. */
  function ToBase36(n: nat): (s: string)
    ensures 1 <= |s|
    decreases n
  {
    if n < 36 then [Digit36(n)] else ToBase36(n / 36) + [Digit36(n % 36)]
  }

  function Pow36(k: nat): (p: nat)
    ensures p >= 1
  {
    if k == 0 then 1 else 36 * Pow36(k - 1)
  }

  /** A number below 36^k has at most k base-36 digits. */
  lemma {:induction false} ToBase36Length(n: nat, k: nat)
    requires 1 <= k && n < Pow36(k)
    ensures |ToBase36(n)| <= k
    decreases k
  {
    if n >= 36 {
      assert k > 1;
      assert n / 36 < Pow36(k - 1);
      ToBase36Length(n / 36, k - 1);
    }
  }

  /** A title character: a digit or an upper-case ASCII letter. */
  predicate IsTitleChar(c: char) {
    '0' <= c <= '9' || 'A' <= c <= 'Z'
  }

  function TitleDigitValue(c: char): (d: int)
    requires IsTitleChar(c)
    ensures 0 <= d < 36
  {
    if c <= '9' then c as int - '0' as int else c as int - 'A' as int + 10
  }

  /** Reads a title back as a base-36 number. */
  function ParseTitle(s: string): int
    requires forall i :: 0 <= i < |s| ==> IsTitleChar(s[i])
    decreases |s|
  {
    if |s| == 0 then 0 else 36 * ParseTitle(s[..|s| - 1]) + TitleDigitValue(s[|s| - 1])
  }

  /** `Math.abs(hash).toString(36).substring(0, 6).toUpperCase()`. */
  function Title(h: int): string {
    Text.ToUpper(Seqs.Take(ToBase36(Abs(h)), 6))
  }

  /** An upper-cased base-36 digit is a title character of the same value. */
  lemma DigitTitleValue(d: int, c: char)
    requires 0 <= d < 36
    requires c == Text.ToUpper([Digit36(d)])[0]
    ensures IsTitleChar(c) && TitleDigitValue(c) == d
  {
  }

  lemma ToUpperSnoc(s: string, c: char)
    ensures Text.ToUpper(s + [c]) == Text.ToUpper(s) + Text.ToUpper([c])
  {
  }

  /** Upper-casing a base-36 numeral gives title characters that read back as the
      number. */
  lemma {:induction false} UpperBase36(n: nat)
    ensures var t := Text.ToUpper(ToBase36(n));
            (forall i :: 0 <= i < |t| ==> IsTitleChar(t[i])) && ParseTitle(t) == n
    decreases n
  {
    if n >= 36 {
      UpperBase36(n / 36);
      var t' := Text.ToUpper(ToBase36(n / 36));
      var u := Text.ToUpper([Digit36(n % 36)]);
      ToUpperSnoc(ToBase36(n / 36), Digit36(n % 36));
      DigitTitleValue(n % 36, u[0]);
      var t := t' + u;
      assert t[..|t| - 1] == t';
      assert n == 36 * (n / 36) + n % 36;
    } else {
      DigitTitleValue(n, Text.ToUpper([Digit36(n)])[0]);
    }
  }

  /** Titles of 32-bit hashes: one to six characters over [0-9A-Z]; the six-character
      cut never truncates, since 2^31 < 36^6; and the title reads back as the
      absolute value of the hash, so two hashes share a title exactly when their
      absolute values agree. */
  lemma TitleOfHash(h: int, h': int)
    requires -TwoTo31 <= h < TwoTo31 && -TwoTo31 <= h' < TwoTo31
    ensures 1 <= |Title(h)| <= 6
    ensures forall i :: 0 <= i < |Title(h)| ==> IsTitleChar(Title(h)[i])
    ensures ParseTitle(Title(h)) == Abs(h)
    ensures Title(h) == Title(h') <==> Abs(h) == Abs(h')
  {
    assert Pow36(6) == 2176782336;
    ToBase36Length(Abs(h), 6);
    ToBase36Length(Abs(h'), 6);
    UpperBase36(Abs(h));
    UpperBase36(Abs(h'));
  }

  /** `generateTitle(content)`: a non-string content is hashed as the text "image". */
  function GenerateTitle(content: Json.Value): (t: string)
    ensures 1 <= |t| <= 6
    ensures forall i :: 0 <= i < |t| ==> IsTitleChar(t[i])
    ensures content == Json.Str("") ==> t == "0"
  {
    var text := if content.Str? then content.s else "image";
    var h := Hash(CodeUnits(text));
    TitleOfHash(h, h);
    Title(h)
  }

  /** The title is the base-36 value of the absolute polynomial hash of the text's
      code units, reduced to 32 bits. */
  lemma GenerateTitleValue(content: Json.Value)
    ensures var text := if content.Str? then content.s else "image";
            ParseTitle(GenerateTitle(content)) == Abs(ToInt32(Poly(CodeUnits(text))))
  {
    var text := if content.Str? then content.s else "image";
    HashIsPoly(CodeUnits(text));
    TitleOfHash(Hash(CodeUnits(text)), 0);
  }
}

=== FILE: touch_handler.dfy ===
/** The touch recogniser of both journal generations (`TouchHandler`, and the
    identical handlers inside the first app): a 500 ms long press armed in day view
    and cancelled by any movement, and a swipe classified from the start and end
    points of a touch. The timer is explicit: arming allocates a timer id, and a
    `Timeout` event for a still-pending id fires it. */
module TouchHandler {
  import opened Wrappers
  import opened Notes

  datatype Direction = Up | Down | Left | Right

  const SwipeDistance: int := 50
  const SwipeTime: int := 300
  const LongPressDelay: int := 500

  function Abs(x: int): (a: nat)
    ensures a == x || a == -x
  {
    if x < 0 then -x else x
  }

  /** The swipe a touch describes, or `None`: too short on both axes, or too slow.
      A horizontal swipe needs strictly more horizontal than vertical travel (ties
      go vertical); right and down need a positive delta. */
  function Classify(dx: int, dy: int, dt: int): (r: Option<Direction>)
    ensures r.None? <==> (Abs(dx) < SwipeDistance && Abs(dy) < SwipeDistance) || dt > SwipeTime
    ensures r.Some? ==> ((r.value == Left || r.value == Right) <==> Abs(dx) > Abs(dy))
    ensures r == Some(Right) ==> dx > 0
    ensures r == Some(Left) ==> dx <= 0
    ensures r == Some(Down) ==> dy > 0
    ensures r == Some(Up) ==> dy <= 0
  {
    if Abs(dx) < SwipeDistance && Abs(dy) < SwipeDistance then None
    else if dt > SwipeTime then None
    else if Abs(dx) > Abs(dy) then (if dx > 0 then Some(Right) else Some(Left))
    else (if dy > 0 then Some(Down) else Some(Up))
  }

  /** `start` is `startX, startY` (`None` before the first touch and after a swipe);
      `timer` is `this.longPressTimer`; `pending` holds the armed timers that have
      neither fired nor been cleared; timer ids start at 1, as `setTimeout`'s do. */
  datatype State = State(
    start: Option<Point>,
    startTime: int,
    isLongPress: bool,
    timer: Option<nat>,
    pending: set<nat>,
    nextTimer: nat,
    longPressPosition: Point)

  /** `inDayView` is what `isInDayView()` answers at that touchstart. */
  datatype Event =
    | TouchStart(at: Point, now: int, inDayView: bool)
    | TouchMove
    | TouchEnd(at: Point, now: int)
    | Timeout(id: nat)

  /** `onLongPress(position)` or one of the four swipe callbacks. */
  datatype Effect = LongPress(position: Point) | Swipe(direction: Direction)

  function Init(): State {
    State(None, 0, false, None, {}, 1, Point(0, 0))
  }

  /** `!startX || !startY` as written: a zero coordinate counts as no start. */
  predicate HasStart(s: State) {
    s.start.Some? && s.start.value.x != 0 && s.start.value.y != 0
  }

  /** `if (this.longPressTimer) { clearTimeout(...); this.longPressTimer = null }`. */
  function ClearTimer(s: State): (r: State)
    ensures r.timer == None
    ensures s.timer.Some? ==> r.pending == s.pending - {s.timer.value}
    ensures s.timer.None? ==> r == s
  {
    if s.timer.Some? then s.(timer := None, pending := s.pending - {s.timer.value}) else s
  }

  /** One event. With `corrected` false this is the code as written; with it true,
      touchstart first clears a timer still held and the start test asks only
      whether a start point was recorded (see the findings in the README). */
  function StepWith(s: State, e: Event, corrected: bool): (r: (State, Option<Effect>))
  {
    match e
    case TouchStart(p, now, inDayView) =>
      var s0 := if corrected then ClearTimer(s) else s;
      var s1 := s0.(start := Some(p), startTime := now);
      if inDayView then
        (s1.(isLongPress := false, longPressPosition := p, timer := Some(s.nextTimer),
             pending := s1.pending + {s.nextTimer}, nextTimer := s.nextTimer + 1), None)
      else (s1, None)
    case TouchMove => (ClearTimer(s), None)
    case TouchEnd(p, now) =>
      var s1 := ClearTimer(s);
      if s1.isLongPress then (s1.(isLongPress := false), None)
      else if !(if corrected then s1.start.Some? else HasStart(s1)) then (s1, None)
      else
        var d := Classify(p.x - s1.start.value.x, p.y - s1.start.value.y, now - s1.startTime);
        if d.None? then (s1, None) else (s1.(start := None), Some(Swipe(d.value)))
    case Timeout(id) =>
      if id in s.pending then (s.(pending := s.pending - {id}, isLongPress := true), Some(LongPress(s.longPressPosition)))
      else (s, None)
  }

  /** The handlers as written. */
  function Step(s: State, e: Event): (r: (State, Option<Effect>))
    ensures e.TouchStart? && e.inDayView ==> r.0.longPressPosition == e.at && r.0.timer == Some(s.nextTimer) && s.nextTimer in r.0.pending
    ensures !(e.TouchStart? && e.inDayView) ==> r.0.longPressPosition == s.longPressPosition && r.0.pending <= s.pending
    ensures r.1.Some? && r.1.value.LongPress? <==> e.Timeout? && e.id in s.pending
    ensures r.1.Some? && r.1.value.Swipe? ==> e.TouchEnd? && !s.isLongPress && HasStart(s)
  {
    StepWith(s, e, false)
  }

  /** The handlers with the two corrections. */
  function StepCorrected(s: State, e: Event): (r: (State, Option<Effect>))
    ensures r.1.Some? && r.1.value.LongPress? <==> e.Timeout? && e.id in s.pending
    ensures r.1.Some? && r.1.value.Swipe? ==> e.TouchEnd? && !s.isLongPress && s.start.Some?
  {
    StepWith(s, e, true)
  }

  /** `getLongPressPosition()`. */
  function GetLongPressPosition(s: State): Point {
    s.longPressPosition
  }

  /** Outside day view a touchstart arms nothing. */
  lemma NoLongPressOutsideDayView(s: State, p: Point, now: int)
    ensures Step(s, TouchStart(p, now, false)).0.pending == s.pending
    ensures Step(s, TouchStart(p, now, false)).0.timer == s.timer
  {
  }

  /** A move right after an armed touchstart cancels that long press: its timeout
      does nothing. */
  lemma MoveCancelsLongPress(s: State, p: Point, now: int)
    requires s.nextTimer !in s.pending
    ensures var s1 := Step(s, TouchStart(p, now, true)).0;
            var s2 := Step(s1, TouchMove).0;
            Step(s2, Timeout(s.nextTimer)) == (s2, None)
  {
  }

  /** After a long press has fired, the next touchend reports no swipe and clears
      the flag. */
  lemma NoSwipeAfterLongPress(s: State, id: nat, p: Point, now: int)
    requires id in s.pending
    ensures var s1 := Step(s, Timeout(id)).0;
            var r := Step(s1, TouchEnd(p, now));
            r.1 == None && !r.0.isLongPress
  {
  }

  /** A quick, long enough movement from a recorded non-zero start is reported as
      exactly the swipe `Classify` names, and the start is forgotten. */
  lemma SwipeReported(s: State, p: Point, now: int)
    requires !s.isLongPress && HasStart(s)
    requires Classify(p.x - s.start.value.x, p.y - s.start.value.y, now - s.startTime).Some?
    ensures var r := Step(s, TouchEnd(p, now));
            r.1 == Some(Swipe(Classify(p.x - s.start.value.x, p.y - s.start.value.y, now - s.startTime).value)) &&
            r.0.start == None
  {
  }

  /** As written: a second touchstart (a second finger) overwrites the timer handle,
      so the first timer can no longer be cleared. After two starts and a move the
      first long press still fires. */
  lemma OrphanedTimerFires(p1: Point, p2: Point)
    ensures var s1 := Step(Init(), TouchStart(p1, 0, true)).0;
            var s2 := Step(s1, TouchStart(p2, 10, true)).0;
            var s3 := Step(s2, TouchMove).0;
            Step(s3, Timeout(1)).1 == Some(LongPress(p2))
  {
  }

  /** The timers a corrected handler has pending are at most the one it holds. */
  predicate TimersHeld(s: State) {
    s.timer.None? ==> s.pending == {}
  }

  predicate OnlyHeldPending(s: State) {
    (s.timer.Some? ==> s.pending <= {s.timer.value}) && TimersHeld(s)
  }

  /** Corrected: at most the held timer is ever pending, so any move cancels every
      pending long press. */
  lemma CorrectedMoveCancelsAll(s: State, e: Event)
    requires OnlyHeldPending(s)
    ensures OnlyHeldPending(StepCorrected(s, e).0)
    ensures StepCorrected(s, TouchMove).0.pending == {}
  {
  }

  /** As written: a quick 200-pixel swipe to the right that starts at the left edge
      (x = 0) reports nothing. */
  lemma EdgeStartNoSwipe(y: int)
    requires y != 0
    ensures var s1 := Step(Init(), TouchStart(Point(0, y), 1000, false)).0;
            Step(s1, TouchEnd(Point(200, y), 1100)) == (s1, None)
  {
  }

  /** Corrected: the same swipe is reported as a right swipe. */
  lemma CorrectedEdgeStartSwipes(y: int)
    ensures var s1 := StepCorrected(Init(), TouchStart(Point(0, y), 1000, false)).0;
            StepCorrected(s1, TouchEnd(Point(200, y), 1100)).1 == Some(Swipe(Right))
  {
  }
}

=== FILE: view_renderer.dfy ===
/** The newer journal's view renderer (`ViewRenderer`): what each view shows of
    the loaded items before any HTML is written. A day lists every item; a week
    row previews up to five items per day; a month grid shows up to three dots per
    day; a year grid counts the items of each month. */
module ViewRenderer {
  import opened Wrappers
  import opened Civil
  import Text
  import Json
  import Seqs
  import Helpers
  import Items

  const DayNames: seq<string> := ["Mon", "Tue", "Wed", "Thu", "Fri", "Sat", "Sun"]
  const MonthNames: seq<string> := ["Jan", "Feb", "Mar", "Apr", "May", "Jun", "Jul", "Aug", "Sep", "Oct", "Nov", "Dec"]

  /** The weekday names in `Weekday` order, Sunday first. */
  const SundayFirst: seq<string> := ["Sun", "Mon", "Tue", "Wed", "Thu", "Fri", "Sat"]

  const PreviewLength: nat := 50
  const WeekPreviews: nat := 5

  const PhotoLabel: string := "\U{1F4F7} Photo"
  const AudioLabel: string := "\U{1F3B5} Audio"
  const VideoLabel: string := "\U{1F3AC} Video"
  const TodosMark: string := "☑️ "

  /** `getContentPreview(item)`, with `JSON.parse(item.content)` given for a
      todo list (`None` when the parse throws). `None` is a preview that throws:
      an unparseable list, or `null.length`. A parsed value without a length
      reads "undefined". */
  function Preview(it: Items.Item, parsed: Option<Json.Value>): (r: Option<string>)
    ensures it.kind != "todos" ==> r.Some?
    ensures it.kind == "note" ==> r == Some(Seqs.Take(it.content, PreviewLength) + (if |it.content| > PreviewLength then "..." else ""))
    ensures it.kind !in {"note", "photo", "audio", "video", "todos"} ==> r == Some(Seqs.Take(it.content, PreviewLength))
  {
    match it.kind
    case "note" => Some(Seqs.Take(it.content, PreviewLength) + (if |it.content| > PreviewLength then "..." else ""))
    case "photo" => Some(PhotoLabel)
    case "audio" => Some(AudioLabel)
    case "video" => Some(VideoLabel)
    case "todos" =>
      if parsed.None? then None
      else TodosPreview(parsed.value)
    case _ => Some(Seqs.Take(it.content, PreviewLength))
  }

  /** The todo list's `${todos.length} items`: an array's length, an object's
      own `length` property shown as a template literal shows it (`undefined`
      when it has none), "undefined" for a boolean or a number, which have no
      `length`, and `None` for `null.length`, which throws. */
  function TodosPreview(v: Json.Value): (r: Option<string>)
    ensures r.None? <==> v.Null? || v.Undefined?
    ensures v.Arr? ==> r == Some(TodosMark + Text.IntToString(|v.items|) + " items")
    ensures v.Str? ==> r == Some(TodosMark + Text.IntToString(|v.s|) + " items")
    ensures v.Obj? ==> r == Some(TodosMark + Json.Show(Json.Get(v, "length")) + " items")
    ensures v.Bool? || v.Num? ==> r == Some(TodosMark + "undefined items")
  {
    match v
    case Arr(xs) => Some(TodosMark + Text.IntToString(|xs|) + " items")
    case Str(s) => Some(TodosMark + Text.IntToString(|s|) + " items")
    case Obj(_) => Some(TodosMark + Json.Show(Json.Get(v, "length")) + " items")
    case Null => None
    case Undefined => None
    case _ => Some(TodosMark + "undefined items")
  }

  /** An object whose `length` property is a count reads like a list of that
      many tasks, and one without reads like a boolean. */
  lemma TodosArrayLike(xs: seq<Json.Value>, fs: seq<Json.Field>)
    ensures Json.Lookup(fs, "length") == Some(Json.Num(|xs|)) ==>
              TodosPreview(Json.Obj(fs)) == TodosPreview(Json.Arr(xs))
    ensures Json.Lookup(fs, "length").None? ==> TodosPreview(Json.Obj(fs)) == TodosPreview(Json.Bool(true))
  {
    if Json.Lookup(fs, "length").None? {
      assert Json.Show(Json.Get(Json.Obj(fs), "length")) == "undefined";
      assert TodosMark + "undefined" + " items" == TodosMark + "undefined items";
    }
  }

  /** A note's preview is the note itself up to 50 characters; a longer note
      shows its first 50 characters and an ellipsis. */
  lemma NotePreview(it: Items.Item, parsed: Option<Json.Value>)
    requires it.kind == "note"
    ensures var p := Preview(it, parsed).value;
            (|it.content| <= 50 ==> p == it.content) &&
            (|it.content| > 50 ==> |p| == 53 && p[..50] == it.content[..50] && p[50..] == "...")
  {
  }

  /** Any kind the renderer does not know is cut at 50 characters with no
      ellipsis, so a long text of another kind loses its tail silently. */
  lemma OtherPreview(it: Items.Item, parsed: Option<Json.Value>)
    requires it.kind !in {"note", "photo", "audio", "video", "todos"}
    ensures var p := Preview(it, parsed).value;
            |p| <= 50 && p == it.content[..|p|] && (|it.content| >= 50 ==> |p| == 50)
  {
  }

  /** Photos, audio and video show fixed labels whatever their content, and a
      list shows its length. */
  lemma FixedPreviews(it: Items.Item, parsed: Option<Json.Value>, xs: seq<Json.Value>)
    ensures it.kind == "photo" ==> Preview(it, parsed) == Some(PhotoLabel)
    ensures it.kind == "audio" ==> Preview(it, parsed) == Some(AudioLabel)
    ensures it.kind == "video" ==> Preview(it, parsed) == Some(VideoLabel)
    ensures it.kind == "todos" ==> Preview(it, Some(Json.Arr(xs))) == Some(TodosMark + Text.IntToString(|xs|) + " items")
    ensures it.kind == "todos" ==> Preview(it, None).None?
  {
  }

  /** `content.filter(item => item.date === key)`. */
  function OnDay(content: seq<Items.Item>, key: string): (r: seq<Items.Item>)
    ensures |r| <= |content|
    ensures forall x | x in r :: x in content && x.date == key
    ensures forall x | x in content && x.date == key :: x in r
    decreases |content|
  {
    if |content| == 0 then []
    else if content[0].date == key then [content[0]] + OnDay(content[1..], key)
    else OnDay(content[1..], key)
  }

  /** A day none of the items is dated gets none. */
  lemma {:induction false} OnDayNone(content: seq<Items.Item>, key: string)
    requires forall x | x in content :: x.date != key
    ensures OnDay(content, key) == []
    decreases |content|
  {
    if |content| > 0 {
      assert content[0] in content;
      assert forall x | x in content[1..] :: x in content;
      OnDayNone(content[1..], key);
    }
  }

  /** One day of the week row: its name by position, its day of month, whether
      it is today, its key, and the items previewed. */
  datatype WeekCell = WeekCell(name: string, number: int, current: bool, key: string, shown: seq<Items.Item>)

  function WeekCellAt(dates: seq<Date>, i: nat, content: seq<Items.Item>, today: Date): (c: WeekCell)
    requires i < |dates|
    ensures c.key == DayKey(dates[i]) && c.number == dates[i].day && (c.current <==> dates[i] == today)
    ensures c.name == if i < 7 then DayNames[i] else "undefined"
    ensures c.shown == Seqs.Take(OnDay(content, c.key), WeekPreviews)
  {
    var key := DayKey(dates[i]);
    WeekCell(if i < 7 then DayNames[i] else "undefined", dates[i].day, dates[i] == today, key,
             Seqs.Take(OnDay(content, key), WeekPreviews))
  }

  /** `renderWeek(dates, content)`. */
  function RenderWeek(dates: seq<Date>, content: seq<Items.Item>, today: Date): (r: seq<WeekCell>)
    ensures |r| == |dates|
    ensures forall i | 0 <= i < |r| :: r[i] == WeekCellAt(dates, i, content, today)
  {
    seq(|dates|, i requires 0 <= i < |dates| => WeekCellAt(dates, i, content, today))
  }

  /** At most five previews per day, all dated that day, the first five of its
      items in content order; a day with five or fewer shows them all. */
  lemma WeekPreviewsOfDay(dates: seq<Date>, content: seq<Items.Item>, today: Date, i: nat)
    requires i < |dates|
    ensures var c := RenderWeek(dates, content, today)[i];
            var all := OnDay(content, DayKey(dates[i]));
            |c.shown| <= 5 && c.shown == all[..|c.shown|] &&
            (forall x | x in c.shown :: x.date == DayKey(dates[i])) &&
            (|all| <= 5 ==> c.shown == all)
  {
    var c := RenderWeek(dates, content, today)[i];
    assert c == WeekCellAt(dates, i, content, today);
    TakeOfDay(content, DayKey(dates[i]));
  }

  lemma TakeOfDay(content: seq<Items.Item>, key: string)
    ensures var all := OnDay(content, key);
            var shown := Seqs.Take(all, WeekPreviews);
            |shown| <= 5 && shown == all[..|shown|] &&
            (forall x | x in shown :: x.date == key) &&
            (|all| <= 5 ==> shown == all)
  {
    var all := OnDay(content, key);
    var shown := Seqs.Take(all, WeekPreviews);
    forall x | x in shown
      ensures x.date == key
    {
      var j :| 0 <= j < |shown| && shown[j] == x;
      assert x == all[j];
    }
  }

  /** On a week from the navigator, the names the row gives by position are the
      true weekdays of its dates: the row starts on a Monday. */
  lemma WeekNamesAreWeekdays(d: Date, content: seq<Items.Item>, today: Date, i: nat)
    requires Valid(d) && i < 7
    ensures var dates := Helpers.WeekDates(d);
            RenderWeek(dates, content, today)[i].name == SundayFirst[Weekday(dates[i])]
  {
    var dates := Helpers.WeekDates(d);
    assert RenderWeek(dates, content, today)[i].name == DayNames[i];
    WeekdayAddDays(MondayOf(d), i);
    NamesShift(i);
  }

  /** The Monday-first names are the Sunday-first names shifted by one. */
  lemma NamesShift(i: nat)
    requires i < 7
    ensures DayNames[i] == SundayFirst[(1 + i) % 7]
  {
  }

  /** The app loads only the current day's items, so in a week row every other
      day shows no preview, whatever the store holds for it. */
  lemma OnlyCurrentDayShows(d: Date, content: seq<Items.Item>, today: Date, i: nat)
    requires Valid(d) && i < 7
    requires forall x | x in content :: x.date == DayKey(d)
    ensures var dates := Helpers.WeekDates(d);
            dates[i] != d ==> RenderWeek(dates, content, today)[i].shown == []
  {
    var dates := Helpers.WeekDates(d);
    if dates[i] != d {
      DayKeyInjective(dates[i], d);
      assert RenderWeek(dates, content, today)[i] == WeekCellAt(dates, i, content, today);
      OnDayNone(content, DayKey(dates[i]));
    }
  }

  /** `Math.min(3, Math.ceil(n / 3))` dots for a day with n items, none for an
      empty day: one dot per three items, at most three. */
  function DotCount(n: nat): (d: nat)
    ensures n == 0 <==> d == 0
    ensures d <= 3
    ensures 0 < d < 3 ==> 3 * (d - 1) < n <= 3 * d
    ensures d == 3 <==> n > 6
  {
    if n == 0 then 0 else if (n + 2) / 3 < 3 then (n + 2) / 3 else 3
  }

  /** More items never give fewer dots. */
  lemma DotsMonotone(a: nat, b: nat)
    requires a <= b
    ensures DotCount(a) <= DotCount(b)
  {
  }

  /** One cell of the month grid. */
  datatype MonthCell = MonthCell(otherMonth: bool, current: bool, number: int, key: string, dots: nat)

  function MonthCellOf(cell: Helpers.MonthCell, content: seq<Items.Item>, today: Date): (c: MonthCell)
    ensures c.otherMonth == !cell.isCurrentMonth && (c.current <==> cell.date == today)
    ensures c.key == DayKey(cell.date) && c.number == cell.date.day
    ensures c.dots == DotCount(|OnDay(content, c.key)|)
  {
    var key := DayKey(cell.date);
    MonthCell(!cell.isCurrentMonth, cell.date == today, cell.date.day, key, DotCount(|OnDay(content, key)|))
  }

  /** `renderMonth(dates, content)`. */
  function RenderMonth(cells: seq<Helpers.MonthCell>, content: seq<Items.Item>, today: Date): (r: seq<MonthCell>)
    ensures |r| == |cells|
    ensures forall i | 0 <= i < |r| :: r[i] == MonthCellOf(cells[i], content, today)
  {
    seq(|cells|, i requires 0 <= i < |cells| => MonthCellOf(cells[i], content, today))
  }

  /** `content.filter(item => item.date.startsWith(key))`. */
  function InMonth(content: seq<Items.Item>, key: string): (r: seq<Items.Item>)
    ensures |r| <= |content|
    ensures forall x | x in r :: x in content && Text.StartsWith(x.date, key)
    ensures forall x | x in content && Text.StartsWith(x.date, key) :: x in r
    decreases |content|
  {
    if |content| == 0 then []
    else if Text.StartsWith(content[0].date, key) then [content[0]] + InMonth(content[1..], key)
    else InMonth(content[1..], key)
  }

  /** One month of the year grid: its name by position, its key and how many
      items it holds. */
  datatype YearCell = YearCell(title: string, key: string, count: nat)

  function YearCellAt(months: seq<Date>, i: nat, content: seq<Items.Item>): (c: YearCell)
    requires i < |months|
    ensures c.title == (if i < 12 then MonthNames[i] else "undefined") && c.key == MonthKey(months[i])
    ensures c.count == |InMonth(content, c.key)|
  {
    var key := MonthKey(months[i]);
    YearCell(if i < 12 then MonthNames[i] else "undefined", key, |InMonth(content, key)|)
  }

  /** `renderYear(months, content)`; the heat-map shade is left out. */
  function RenderYear(months: seq<Date>, content: seq<Items.Item>): (r: seq<YearCell>)
    ensures |r| == |months|
    ensures forall i | 0 <= i < |r| :: r[i] == YearCellAt(months, i, content)
  {
    seq(|months|, i requires 0 <= i < |months| => YearCellAt(months, i, content))
  }

  /** Every character of a year's key after the first (a sign or a digit) is a
      digit. */
  lemma YearKeyDigits(d: Date)
    ensures |YearKey(d)| >= 1
    ensures forall i | 1 <= i < |YearKey(d)| :: Text.IsDigit(YearKey(d)[i])
  {
    var n := if d.year < 0 then -d.year else d.year;
    var s := Text.NatToString(n);
    assert Text.AllDigits(s);
    if d.year < 0 {
      assert YearKey(d) == "-" + s;
      assert forall i | 1 <= i < |YearKey(d)| :: YearKey(d)[i] == s[i - 1];
    }
  }

  /** Where one of two strings starts with the other, they agree at each
      index of the shorter. */
  lemma PrefixAgrees(s: string, t: string, k: nat)
    requires Text.StartsWith(s, t) && k < |t|
    ensures s[k] == t[k]
  {
    assert s[..|t|][k] == s[k];
  }

  /** A day's key starts with a month's key exactly when the day lies in that
      month, so the year grid counts each item under its own month. */
  lemma DayInMonthKey(d: Date, m: Date)
    requires Valid(d) && Valid(m)
    ensures Text.StartsWith(DayKey(d), MonthKey(m)) <==> d.year == m.year && d.month == m.month
  {
    var yd, ym := YearKey(d), YearKey(m);
    var s, p := DayKey(d), MonthKey(m);
    assert s == yd + DashPad(d.month) + DashPad(d.day);
    assert |DashPad(d.month)| == 3 && |DashPad(m.month)| == 3 && |DashPad(d.day)| == 3;
    assert DashPad(d.month)[0] == '-' && DashPad(m.month)[0] == '-';
    if d.year == m.year && d.month == m.month {
      assert s[..|p|] == p;
    } else if Text.StartsWith(s, p) {
      YearKeyDigits(d);
      YearKeyDigits(m);
      if |ym| < |yd| {
        PrefixAgrees(s, p, |ym|);
        assert false;
      }
      if |yd| < |ym| {
        PrefixAgrees(s, p, |yd|);
        assert false;
      }
      assert yd == s[..|yd|] == p[..|ym|] == ym;
      Text.IntToStringInjective(d.year, m.year);
      assert DashPad(d.month) == s[|yd|..|yd| + 3] == p[|ym|..] == DashPad(m.month);
      DashPadInjective(d.month, m.month);
      assert false;
    }
  }

  /** `applyTransition(direction, type)`: the class for the direction, else for
      the type, else none. */
  function TransitionClass(direction: string, kind: Option<string>): (r: Option<string>)
    ensures ClassFor(direction).Some? ==> r == ClassFor(direction)
    ensures ClassFor(direction).None? ==> r == if kind.Some? then ClassFor(kind.value) else None
  {
    if ClassFor(direction).Some? then ClassFor(direction)
    else if kind.Some? then ClassFor(kind.value)
    else None
  }

  /** The transition class map. */
  function ClassFor(name: string): (r: Option<string>)
    ensures r.Some? <==> name in {"up", "down", "left", "right", "in", "out"}
  {
    match name
    case "up" => Some("view-transition-vertical-up")
    case "down" => Some("view-transition-vertical-down")
    case "left" => Some("view-transition-horizontal-left")
    case "right" => Some("view-transition-horizontal-right")
    case "in" => Some("view-transition-zoom-in")
    case "out" => Some("view-transition-zoom-out")
    case _ => None
  }

  /** The app passes only a direction: time steps and zooms animate, going to
      today does not. */
  lemma AppTransitions()
    ensures TransitionClass("up", None) == Some("view-transition-vertical-up")
    ensures TransitionClass("in", None) == Some("view-transition-zoom-in")
    ensures TransitionClass("today", None).None?
  {
  }

  /** What `render(viewLevel, date, content)` shows; an unknown level shows
      nothing. */
  datatype View =
    | DayView(key: string, notes: seq<Items.Item>)
    | WeekView(week: seq<WeekCell>)
    | MonthView(month: seq<MonthCell>)
    | YearView(year: seq<YearCell>)
    | Blank

  /** `renderCurrentView()` then `render(...)`: the navigator's date sets for
      the level, and the day view lists the content unfiltered. */
  function Render(level: string, d: Date, content: seq<Items.Item>, today: Date): (v: View)
    requires Valid(d)
    ensures level == "day" <==> v.DayView?
    ensures level !in {"day", "week", "month", "year"} <==> v.Blank?
    ensures v.DayView? ==> v == DayView(DayKey(d), content)
    ensures v.WeekView? ==> |v.week| == 7
    ensures v.MonthView? ==> |v.month| == 42
    ensures v.YearView? ==> |v.year| == 12
  {
    match level
    case "day" => DayView(DayKey(d), content)
    case "week" => WeekView(RenderWeek(Helpers.WeekDates(d), content, today))
    case "month" => MonthView(RenderMonth(Helpers.MonthDates(d), content, today))
    case "year" => YearView(RenderYear(Helpers.YearMonths(d), content))
    case _ => Blank
  }
}

=== FILE: wrappers.dfy ===
/** Failure-compatible Option and Result datatypes shared by every module of the model. */
module Wrappers {

  /** A value that may be absent: JavaScript's `null`/`undefined` when it stands for "nothing". */
  datatype Option<+T> = None | Some(value: T) {

    predicate IsFailure() {
      None?
    }

    function PropagateFailure<U>(): Option<U>
      requires None?
    {
      None
    }

    function Extract(): T
      requires Some?
    {
      value
    }

    function GetOr(default: T): T {
      match this
      case Some(v) => v
      case None => default
    }
  }

  /** The outcome of an operation that either yields a value or rejects with an error
      (a thrown exception or a rejected promise in the modelled code). */
  datatype Result<+R, +E> = Success(value: R) | Failure(error: E) {

    predicate IsFailure() {
      Failure?
    }

    function PropagateFailure<U>(): Result<U, E>
      requires Failure?
    {
      Failure(error)
    }

    function Extract(): R
      requires Success?
    {
      value
    }
  }
}
